=== FILE: README.md ===
# gradientneuralnetwork in Dafny

A Dafny model of the Java library gradientneuralnetwork. The library trains small neural
networks by gradient descent. Its main use is recognising hand-written digits from the MNIST
data set. The model covers the following parts of the library.

- **The convolutional network** (`core.network`, `core.layer`):
  - the three layer kinds (fully connected, convolutional, max/average pooling) with their
    forward pass, gradients, and `zeroCopy`/`combineScale`/`train` algebra;
  - the shape arithmetic of `LayerParameters` and the layer chain that
    `ConvolutionalNetworkParameters` builds;
  - the network's `evaluate`;
  - the back-propagation kernel and `prepareGrads`/`applyGrads`.
- **The activation tables** (`Utility`, `ActFuncs`): sigmoid values are read from a table of
  one million samples over [-150, 150]. The sampled functions are parameters of the model.
- **The utilities** (`Utility`): dot products, affine evaluation, arg-max, rank and mean
  squared error.
- **The trainer** (`Trainer`): its constructor's scaling, the ring buffer of recent errors,
  the running average and the training step.
- **The older dense networks** (`BasicNetwork`, `LayeredNetwork` and their parameter
  classes): weight set-up, evaluation and the gradient step.
- **The digit-recognition helpers** (`digitrecognition`):
  - the MNIST header checks, byte conversion, one-hot answers, and the mse/percentCorrect
    averaging of `DigitRecognitionFitness`;
  - the 28 × 28 drawing grid of `DigitDrawing`.

**Modelling conventions**
- Java `double` is Dafny `real`, so there is no rounding, NaN or infinity.
- Java `int` arithmetic is unbounded. Java's truncating `/` and `(int)` casts are written out
  in `JavaMath`.
- Arrays are sequences. A method that updates an array or a field becomes a function that
  returns the new value.
- `null` becomes `Option`. A Java `assert` becomes a precondition, except the one in `PoolLayer.train` that can never hold (see "## Left out"). An out-of-bounds access
  that the code does not guard becomes a precondition, or a `None` result where the
  behaviour at that input is the point.
- Random draws (`Utility.randVal`, `Random.nextDouble`, `Random.nextInt`) are parameters: an
  oracle function or a sequence of draws.
- `Utility.getOrDefault` and `Utility.setIfCan` are called but their bodies are not part of
  this model. They get their evident semantics: a bounds-checked read that returns the
  default, and a bounds-checked write.

| module | file | models |
|---|---|---|
| `Wrappers`, `JavaMath` | wrappers.dfy, javamath.dfy | `Option`/`Result`; Java's integer division, `(int)` cast and loop counts |
| `Approx` | approx.dfy | `indexOfApprox` and the sigmoid tables of `Utility` and `ActFuncs` |
| `Tensor` | tensor.dfy | `double[][][]` volumes, flattening (`convertToArr`, `convertToVol`, `convertToArray`, `convertToVolume`), `getOrDefault`, `setIfCan` |
| `Utility` | utility.dfy | `Utility`: `dotProd`, `evaluate`, `maxIndex`, `indexRank`, both `mse` |
| `ActFuncs` | actfuncs.dfy | `ActFuncs`: ReLU, identity, sigmoid lookup, and the dispatch and array forms |
| `LayerConfig` | layerconfig.dfy | `LayerParameters` and the `validateParameters` checks |
| `LayerBase` | layerbase.dfy | `Layer`: the batch caches and the `gradXNonzeroRanges` field |
| `Full`, `Conv`, `Pool` | full.dfy, conv.dfy, pool.dfy | `FullLayer`, `ConvolutionalLayer`, `PoolLayer` |
| `Layers` | layers.dfy | the `Layer` dispatch, `makeLayer` |
| `NetParams` | netparams.dfy | `ConvolutionalNetworkParameters` |
| `ConvNet`, `BackProp` | convnet.dfy, backprop.dfy | `ConvolutionalNetwork`: construction, `evaluate`, the kernel, `computeBackProp`, `prepareGrads`, `applyGrads` |
| `Trainer` | trainer.dfy | `Trainer` |
| `Matrices`, `Layered`, `Basic` | matrices.dfy, layered.dfy, basic.dfy | `LayeredNetwork(Parameters)`, `BasicNetwork(Parameters)` |
| `Digits`, `Drawing` | digits.dfy, drawing.dfy | `DigitRecognitionFitness`, `DigitDrawing` |

## Model

| member | source | states |
|---|---|---|
| Approx.IndexOfApprox | src/main/java/core/Utility.java:50-58 | Inputs below -150 give 0 and inputs above 150 give N - 1. Every index lies in [0, N], and it is N (one past the table) exactly at x == 150. |
| Approx.IndexBracketsInput | src/main/java/core/Utility.java:50-58 | Inside [-150, 150] the index is the last sample point at or below x. |
| Approx.IndexMonotone | src/main/java/core/Utility.java:50-58 | A larger input never gets a smaller index, unless the smaller input is 150 itself. |
| Approx.IndexNotMonotoneAtRange | src/main/java/core/ActFuncs.java:126-134 | Monotonicity fails at the boundary: 150 gets a larger index than 151. |
| Approx.IndexAtRangeIsPastTable | src/main/java/core/ActFuncs.java:126-134 | In exact arithmetic, x == 150 indexes entry N of an N-entry table. |
| Approx.TableIndex | src/main/java/core/ActFuncs.java:126-134 | The corrected index: always inside the table, equal to indexOfApprox except at 150, where it is N - 1. |
| Approx.TableIndexMonotone | src/main/java/core/ActFuncs.java:126-134 | The corrected index is monotone on all inputs. |
| Approx.Build | src/main/java/core/ActFuncs.java:15-22 | Both tables have N entries, and entry i of each samples its function at the same point 300(i - N/2)/N. |
| Approx.LookupAsWritten | src/main/java/core/ActFuncs.java:118-124 | The table read fails (out of bounds) exactly at x == 150; otherwise it returns the entry at indexOfApprox. |
| Approx.Lookup | src/main/java/core/ActFuncs.java:118-134 | The lookup saturates: inputs below -150 read entry 0 and inputs from 150 up read entry N - 1. Wherever the as-written read succeeds, both agree. |
| Approx.ValueAndPrimeShareSample | src/main/java/core/ActFuncs.java:15-22 | A value and its derivative are read at the same sample point. |
| Tensor.Zeros | src/main/java/core/network/ConvolutionalNetwork.java:142 | `new double[w][h][d]` has that shape and is all zero. |
| Tensor.GetOrDefault | src/main/java/core/layer/ConvolutionalLayer.java:61 | Reads the entry when the position is inside the volume, and the default otherwise. |
| Tensor.SetIfCan | src/main/java/core/layer/ConvolutionalLayer.java:77 | Writes one entry when the position is inside the volume; the shape and every other entry stay. |
| Tensor.SetColumnIfCan | src/main/java/core/layer/PoolLayer.java:93 | Replaces the depth column at (i, j) when it is inside the volume; every other column stays. |
| Tensor.FlatUnflat | src/main/java/core/network/ConvolutionalNetwork.java:146-156 | Encoding a box position as i + j·w + k·w·h and decoding it with (a % w, (a / w) % h, a / (w·h)) gives the position back. |
| Tensor.UnflatFlat | src/main/java/core/network/ConvolutionalNetwork.java:146-156 | Decoding a flat index below w·h·d gives a box position that encodes back to it. |
| Tensor.ToArray | src/main/java/core/network/ConvolutionalNetwork.java:153-159 | convertToArr has w·h·d entries, and entry i + j·w + k·w·h is vol[i][j][k]. |
| Tensor.ToVol | src/main/java/core/network/ConvolutionalNetwork.java:140-151 | convertToVol has the first layer's input shape, and vol[i][j][k] is x[i + j·w + k·w·h]. |
| Tensor.ToArrayToVol | src/main/java/core/network/ConvolutionalNetwork.java:140-159 | convertToArr(convertToVol(x)) == x whenever x has w·h·d entries. |
| Tensor.ToVolToArray | src/main/java/core/network/ConvolutionalNetwork.java:140-159 | convertToVol(convertToArr(v)) == v for every volume of the input shape. |
| Tensor.Column | src/main/java/core/layer/FullLayer.java:103-109 | convertToVolume has shape [n][1][1] and holds the vector down its first axis. |
| Tensor.ToArrayColumn | src/main/java/core/layer/FullLayer.java:95-109 | convertToArray(convertToVolume(a)) == a for every non-empty a. |
| Utility.DotProd | src/main/java/core/Utility.java:68-79 | The loop that skips zero x[i] returns Σ a[i]·x[i] over the indices of a, so skipping changes nothing. It requires x to be at least as long as a. |
| Utility.SigmoidAll | src/main/java/core/Utility.java:40-44 | Every entry is replaced by its table sigmoid, and the length is kept. |
| Utility.Evaluate | src/main/java/core/Utility.java:81-90 | One output per row of A: A[i]·x + b[i], passed through the table sigmoid when doSigmoid holds. |
| Utility.MaxIndex | src/main/java/core/Utility.java:92-102 | If some entry lies above -Double.MAX_VALUE, the result is the smallest index that holds the maximum. Otherwise, including for an empty array, it is 0. |
| Utility.IndexRank | src/main/java/core/Utility.java:104-113 | The number of entries strictly greater than x[i]: below the length, and 0 exactly when x[i] is a maximum. |
| Utility.RankOfMaxIndex | src/main/java/core/Utility.java:92-113 | indexRank(x, maxIndex(x)) == 0. |
| Utility.Mse | src/main/java/core/Utility.java:126-132 | The mean squared difference is never negative, and is 0 exactly when the guess equals the correct values. |
| Utility.OneHot | src/main/java/digitrecognition/DigitRecognitionFitness.java:75-78 | The answer vector holds 1 exactly at the label and 0 elsewhere. |
| Utility.LabelErrorIsOneHotError | src/main/java/core/Utility.java:134-144 | The label form's sum of squared errors is the vector form's sum against the label's one-hot vector. |
| Utility.MseLabel | src/main/java/core/Utility.java:134-144 | mse(guess, correct) with a label: squared error against 1 at the label and 0 elsewhere, over guess.length. It has no contract of its own: Utility.MseLabelIsOneHot states that it equals Utility.Mse against the one-hot row. |
| Utility.MseLabelIsOneHot | src/main/java/core/Utility.java:134-144 | mse(guess, c) == mse(guess, oneHot(c)). |
| ActFuncs.Relu | src/main/java/core/ActFuncs.java:71-73 | relu(x) = max(x, 0): never negative, at least x, and equal to x exactly when x ≥ 0. |
| ActFuncs.ReluIdempotent | src/main/java/core/ActFuncs.java:71-73 | relu(relu(x)) == relu(x). |
| ActFuncs.ReluPrime | src/main/java/core/ActFuncs.java:75-77 | reluPrime is 0 or 1, and 1 exactly for x > 0, so it is 0 at x = 0. |
| ActFuncs.ReluPrimeIsSlope | src/main/java/core/ActFuncs.java:71-77 | Away from 0, reluPrime is the slope of relu between any two points on the same side. |
| ActFuncs.Apply | src/main/java/core/ActFuncs.java:31-37 | IDENTITY returns x, RELU returns relu(x), and SIGMOID returns the table value. Away from 150 that value is the as-written table read. |
| ActFuncs.ApplyPrime | src/main/java/core/ActFuncs.java:39-45 | IDENTITY gives 1, RELU gives reluPrime(x), and SIGMOID gives the derivative table's entry at the same index as the value. |
| ActFuncs.MapPrefix | src/main/java/core/ActFuncs.java:79-89 | The element-wise loops replace entry i by the scalar activation of entry i. |
| ActFuncs.MapPrimePrefix | src/main/java/core/ActFuncs.java:91-101 | The derivative loops replace entry i by the scalar derivative of entry i. |
| ActFuncs.Actfuncify | src/main/java/core/ActFuncs.java:47-53 | actFuncify keeps the length and maps the scalar actFunc over every entry. |
| ActFuncs.ActfuncPrimeify | src/main/java/core/ActFuncs.java:55-61 | actFuncPrimeify keeps the length and maps the scalar actFuncPrime over every entry. |
| ActFuncs.IdentityArrays | src/main/java/core/ActFuncs.java:103-116 | With IDENTITY, actFuncify leaves the array unchanged and actFuncPrimeify fills it with 1. |
| ActFuncs.ReluArrayIdempotent | src/main/java/core/ActFuncs.java:85-89 | The array form of ReLU is idempotent. |
| LayerConfig.ConvMod | src/main/java/core/layer/LayerParameters.java:60 | convMod = min(0, 1 + pad - convRadius) lies in [-(convRadius - 1), 0]. It is 0 exactly when pad ≥ convRadius - 1, and otherwise it is pad - (convRadius - 1). |
| LayerConfig.NewFull | src/main/java/core/layer/LayerParameters.java:24-35 | The FULL constructor requires outputLength > 0 and sets outputSize = [outputLength, 1, 1]. All pool and convolution fields are 0. |
| LayerConfig.NewPool | src/main/java/core/layer/LayerParameters.java:37-48 | The POOL constructor requires stride > 0 and poolSize > 0, keeps both, and has no activation. |
| LayerConfig.NewConv | src/main/java/core/layer/LayerParameters.java:50-62 | The CONV constructor requires convRadius > 0, numConvs > 0 and pad ≥ 0, and derives convMod with the bounds above. |
| LayerConfig.GetOutputSize | src/main/java/core/layer/LayerParameters.java:64-70 | FULL returns the stored output size. POOL divides width and height by the stride, truncating, and keeps the depth. CONV shrinks width and height by 2(convRadius - 1 - pad), or not at all when padded, and multiplies the depth by numConvs. |
| LayerConfig.ConvKeepsSizeWhenPadded | src/main/java/core/layer/LayerParameters.java:68 | With pad ≥ convRadius - 1 a convolution keeps the width and height. |
| LayerConfig.NonPositiveOutputsAccepted | src/main/java/core/layer/LayerParameters.java:64-70 | Nothing rejects a zero output size. A stride of 5 over a 4-wide input gives width 0, and so does an unpadded radius-3 convolution of a 4-wide input. |
| LayerConfig.WithSizes | src/main/java/core/layer/LayerParameters.java:72-84 | makeLayer(in) records inputSize = in and outputSize = getOutputSize(in), and changes nothing else. |
| LayerConfig.AllAtLeastOne | src/main/java/core/layer/Layer.java:17-28 | The validation loop over one size array succeeds exactly when every entry is at least 1. |
| LayerConfig.ValidateParameters | src/main/java/core/layer/Layer.java:17-29 | validateParameters holds exactly when every input and every output dimension is at least 1. |
| LayerConfig.ValidateFullParameters | src/main/java/core/layer/FullLayer.java:73-80 | FullLayer also requires the output to be a column: outputSize[1] == outputSize[2] == 1. |
| LayerConfig.FullLayerValidates | src/main/java/core/layer/FullLayer.java:19-21 | A FULL layer that makeLayer builds on a positive input passes FullLayer's validation assertion. |
| LayerBase.WithinMeansInBox | src/main/java/core/layer/Layer.java:11 | Ranges that lie within a box name only positions of that box. |
| LayerBase.DefaultRangesIsOrigin | src/main/java/core/layer/Layer.java:11 | The default `new int[3][2]` ranges name the single position (0, 0, 0). |
| LayerBase.BoxRanges | src/main/java/core/layer/FullLayer.java:24-27 | The ranges {0, w-1}, {0, h-1}, {0, d-1} contain a position exactly when it lies in the box. |
| LayerBase.NewBase | src/main/java/core/layer/Layer.java:13-15 | A new layer keeps its parameters, has no caches yet, and has the default ranges. |
| LayerBase.SetupLasts | src/main/java/core/layer/Layer.java:31-34 | setupLasts makes both caches batchSize slots long, with every slot empty. The parameters and ranges are kept. |
| LayerBase.CacheAt | src/main/java/core/layer/FullLayer.java:122-123 | Caching at a slot needs 0 ≤ slot < batchSize. It fills exactly that slot of both caches and keeps every other slot. |
| LayerBase.CacheAfterSetup | src/main/java/core/layer/Layer.java:31-34 | After setupLasts and one write, a slot is cached exactly when it is the slot written. |
| LayerBase.ClearCaches | src/main/java/core/layer/FullLayer.java:146-147 | Clearing empties every slot of both caches and keeps their lengths, the parameters and the ranges. |
| LayerBase.ClearInputs | src/main/java/core/layer/PoolLayer.java:111 | PoolLayer's clearing empties every slot of lastX and leaves lastPrime untouched. |
| Full.SetupAB | src/main/java/core/layer/FullLayer.java:82-93 | A is rows × columns and b has rows entries. Each entry is its random draw when randomize holds, and 0 otherwise. |
| Full.NewFullLayer | src/main/java/core/layer/FullLayer.java:19-34 | The public constructor requires validation to pass. The ranges are the whole input box, there are numOutputs rows, and the entries are random draws. |
| Full.ZeroCopy | src/main/java/core/layer/FullLayer.java:36-51 | zeroCopy has the same sizes, all-zero A and b, no caches, and the default ranges rather than the input box. |
| Full.Evaluate | src/main/java/core/layer/FullLayer.java:111-126 | The output has shape [numOutputs][1][1] with out[i] = act(A[i]·flat(x) + b[i]). The layer caches x and act′ of the same pre-activations at the slot, and every other slot stays. |
| Full.EvaluateReadsWeights | src/main/java/core/layer/FullLayer.java:111-117 | The output depends only on A, b and the parameters, not on the caches or the slot. |
| Full.AssignGradientInto | src/main/java/core/layer/FullLayer.java:53-61 | The whole receiver within the layer's size is overwritten. Row i of A becomes lastPrime[i]·flat(lastX) and b[i] becomes lastPrime[i]; every other row and bias becomes 0. |
| Full.GradMatrix | src/main/java/core/layer/FullLayer.java:55-58 | The matrix loop writes p·x in row i and 0 in every other row of the written block, and nothing outside it. |
| Full.GradVector | src/main/java/core/layer/FullLayer.java:59 | The bias write puts p at i and 0 elsewhere in the written block. |
| Full.AssignGradientOverwrites | src/main/java/core/layer/FullLayer.java:53-61 | The gradient written does not depend on what the receiver held before. |
| Full.GetGradientX | src/main/java/core/layer/FullLayer.java:128-139 | gradX has the input's shape with gradX[xi][xj][xk] = lastPrime[i]·A[i][xi + xj·w + xk·w·h]. Flattened, it is row i of A scaled by the derivative. |
| Full.GradientXWithinRanges | src/main/java/core/layer/FullLayer.java:24-27 | The public constructor's ranges cover every position that getGradientX writes. |
| Full.CombineScale | src/main/java/core/layer/FullLayer.java:63-71 | combineScale adds scale·other to A and b, entry by entry, and keeps the sizes and caches. |
| Full.CombineScaleNeutral | src/main/java/core/layer/FullLayer.java:63-71 | Scale 0, or a zeroCopy argument, leaves the layer unchanged. |
| Full.CombineScaleUndo | src/main/java/core/layer/FullLayer.java:63-71 | Combining at scale s and then at -s restores the layer. |
| Full.CombineAll | src/main/java/core/layer/FullLayer.java:142-145 | Combining a list of gradients keeps the layer valid, its sizes and its caches. Full.CombineAllIsScaledSum states what A and b become. |
| Full.CombineAllIsScaledSum | src/main/java/core/layer/FullLayer.java:142-145 | Combining the gradients one at a time adds rate times their sum to every entry of A and b. |
| Full.Train | src/main/java/core/layer/FullLayer.java:141-148 | train keeps the sizes and clears both caches. |
| Full.TrainAddsScaledSum | src/main/java/core/layer/FullLayer.java:141-148 | After train, A[i][j] is the old entry plus rate·Σ grads[t].A[i][j], and likewise for b. |
| Full.TrainOnZeroCopies | src/main/java/core/layer/FullLayer.java:141-148 | Training on zero copies leaves A and b as they were. |
| Conv.SetupCs | src/main/java/core/layer/ConvolutionalLayer.java:22-33 | The bank is (2·convRadius - 1) × (2·convRadius - 1) × numConvs. Each entry is its random draw when randomize holds, and 0 otherwise. |
| Conv.NewConvLayer | src/main/java/core/layer/ConvolutionalLayer.java:12-15 | The public constructor draws the whole bank, with no caches and the default ranges. |
| Conv.ZeroCopy | src/main/java/core/layer/ConvolutionalLayer.java:114-117 | zeroCopy has the same parameters and an all-zero bank of the same shape. |
| Conv.Convolve | src/main/java/core/layer/ConvolutionalLayer.java:56-65 | The kernel-weighted sum over the (2r+1)² window centred at (i, j) on channel k, reading 0 off the input. It has no contract of its own: Conv.ConvolveDeltaReadsCentre states that the window is centred where asked, and Conv.ConvReadsWithinPad bounds what evaluate makes it read. |
| Conv.ConvolveDeltaReadsCentre | src/main/java/core/layer/ConvolutionalLayer.java:56-65 | The window is centred where convolve is told: with a kernel that is 1 at its centre and 0 elsewhere, convolve reads exactly x[i][j][k], or 0 off the input. |
| Conv.ConvReadsWithinPad | src/main/java/core/layer/ConvolutionalLayer.java:44 | Every input column read for an output column lies within min(pad, convRadius - 1) cells of the input, so with pad = 0 no read leaves it. The same holds for rows. |
| Conv.ChannelCode | src/main/java/core/layer/ConvolutionalLayer.java:45 | The output channel n + k·numConvs lies below d·numConvs and decodes back as n = c % numConvs, k = c / numConvs. |
| Conv.ChannelDecode | src/main/java/core/layer/ConvolutionalLayer.java:72-73 | Every channel below d·numConvs is the code of its decoding, so the channel map is a bijection. |
| Conv.RawVolume | src/main/java/core/layer/ConvolutionalLayer.java:40-50 | The raw convolutions fill a volume of the output's shape. |
| Conv.MapVol | src/main/java/core/layer/ConvolutionalLayer.java:45-46 | Every entry is replaced by its activation, or its derivative. |
| Conv.Evaluate | src/main/java/core/layer/ConvolutionalLayer.java:35-54 | y[i][j][n + k·numConvs] = act(convolve(x, i - convMod, j - convMod, k, n)), and the cached z is act′ of the same value. Only the slot's cache changes. |
| Conv.EvaluateReadsWeights | src/main/java/core/layer/ConvolutionalLayer.java:35-50 | The output depends only on the bank and the parameters, not on the caches or the slot. |
| Conv.EvaluateCoversChannels | src/main/java/core/layer/ConvolutionalLayer.java:40-50 | Every output channel c is written, with kernel c % numConvs applied to input channel c / numConvs. |
| Conv.StampRow | src/main/java/core/layer/ConvolutionalLayer.java:76-78 | One row of getGradientX's writes changes only that row segment of channel xk. |
| Conv.Stamp | src/main/java/core/layer/ConvolutionalLayer.java:75-79 | The writes fill the (2r+1)² window around the centre on channel xk, within bounds, and nothing else. |
| Conv.GetGradientX | src/main/java/core/layer/ConvolutionalLayer.java:67-81 | gradX has the cached input's shape. On channel k / numConvs, inside the window around (i - convMod, j - convMod), it is Cs[·][·][k % numConvs]·lastPrime; everywhere else it is 0. |
| Conv.GetGradientXNonzeroRanges | src/main/java/core/layer/ConvolutionalLayer.java:83-91 | The k-range is the single channel k / numConvs. |
| Conv.NonzeroRangesWellFormed | src/main/java/core/layer/ConvolutionalLayer.java:83-91 | For a valid output position the ranges are non-empty, lie inside the input, contain the window's centre, and hold one channel. |
| Conv.GradientXWithinNonzeroRanges | src/main/java/core/layer/ConvolutionalLayer.java:67-91 | getGradientX is zero outside getGradientXNonzeroRanges. |
| Conv.FieldRangesMissGradient | src/main/java/core/network/ConvolutionalNetwork.java:81 | The gradXNonzeroRanges field that the kernel reads keeps its default (0, 0, 0) for a convolutional layer. So whenever the window's centre is elsewhere, getGradientX is nonzero at a position the field leaves out. |
| Conv.GradientXAtCentre | src/main/java/core/layer/ConvolutionalLayer.java:75-79 | At the window's centre gradX is the kernel's centre times the derivative. |
| Conv.CentreInBox | src/main/java/core/layer/ConvolutionalLayer.java:72-74 | The window's centre for a valid output position lies inside the input. |
| Conv.AssignGradientIntoAsWritten | src/main/java/core/layer/ConvolutionalLayer.java:119-131 | As written, the parameter is rebound to a fresh zero copy, so the caller's receiver is returned unchanged. |
| Conv.AssignGradientInto | src/main/java/core/layer/ConvolutionalLayer.java:119-131 | The intended write resets the receiver to zero. Cs[ci + r][cj + r][k % numConvs] becomes the input read at the window offset times lastPrime, and every other entry stays 0. |
| Conv.AssignGradientIntoLosesGradient | src/main/java/core/layer/ConvolutionalLayer.java:122 | For a zero-copy receiver, the as-written receiver stays 0 at the kernel centre. The intended write is nonzero there whenever the centre input and the derivative are nonzero. |
| Conv.CombineScale | src/main/java/core/layer/ConvolutionalLayer.java:102-112 | combineScale adds other.Cs·scale to the bank, entry by entry, and keeps the caches. |
| Conv.CombineScaleNeutral | src/main/java/core/layer/ConvolutionalLayer.java:102-112 | Scale 0, or a zeroCopy argument, leaves the layer unchanged. |
| Conv.CombineScaleUndo | src/main/java/core/layer/ConvolutionalLayer.java:102-112 | Combining at scale s and then at -s restores the layer. |
| Conv.CombineAll | src/main/java/core/layer/ConvolutionalLayer.java:95-97 | Combining a list of gradients keeps the layer valid and its caches as they were. What it does to the bank is stated by Conv.CombineAllIsScaledSum. |
| Conv.CombineAllIsScaledSum | src/main/java/core/layer/ConvolutionalLayer.java:95-97 | Combining the first m gradients one at a time adds their sum times the rate to every kernel entry Cs[a][b][n]. |
| Conv.CombineAllAddsScaledSum | src/main/java/core/layer/ConvolutionalLayer.java:95-97 | The same for the whole list, at every entry of the bank at once. |
| Conv.Train | src/main/java/core/layer/ConvolutionalLayer.java:93-100 | train keeps the layer valid and clears both caches. Its effect on the bank is stated by Conv.TrainAddsScaledSum. |
| Conv.TrainAddsScaledSum | src/main/java/core/layer/ConvolutionalLayer.java:93-100 | After train, every kernel entry is its old value plus the sum of the gradients' entries times the training rate. |
| Conv.CombineZeroCopies | src/main/java/core/layer/ConvolutionalLayer.java:95-97 | Combining zero copies leaves the bank unchanged. |
| Conv.TrainOnZeroCopies | src/main/java/core/layer/ConvolutionalLayer.java:93-100 | Training on zero copies changes the bank not at all. |
| Pool.NewPoolLayer | src/main/java/core/layer/PoolLayer.java:12-16 | The constructor fills ks with 1/poolSize², one entry per input channel, with no caches and no picked cell. |
| Pool.WeightsSumToOne | src/main/java/core/layer/PoolLayer.java:15 | The poolSize² weights 1/poolSize² add up to 1. |
| Pool.WindowStartInside | src/main/java/core/layer/PoolLayer.java:27-28 | Each output's window starts at (i·stride, j·stride), inside the input. |
| Pool.MaxCell | src/main/java/core/layer/PoolLayer.java:68-80 | The scan ends on the window's first maximum in scan order: a cell that holds the maximum, with every earlier cell strictly smaller. |
| Pool.MaxInRange | src/main/java/core/layer/PoolLayer.java:48-59 | The result is at least x[i][j][k] and every in-bounds cell of channel k in the window, and equals one of them. That start cell must be in bounds. |
| Pool.MaxCellReadsOnlyWindow | src/main/java/core/layer/PoolLayer.java:48-59 | The maximum, and the cell picked, depend only on channel k of the window. |
| Pool.AvgReadsOnlyWindow | src/main/java/core/layer/PoolLayer.java:38-46 | The average depends only on channel k of the window. |
| Pool.AvgInRange | src/main/java/core/layer/PoolLayer.java:38-46 | The window total divided by range². It has no contract of its own: Pool.AvgReadsOnlyWindow, Pool.AvgOfConstantWindow and Pool.AvgBump state that it reads only its window, averages a constant window to its value and moves by delta/range² per bump. |
| Pool.AvgOfConstantWindow | src/main/java/core/layer/PoolLayer.java:38-46 | A window inside the input that holds one value averages to that value. |
| Pool.AvgBump | src/main/java/core/layer/PoolLayer.java:38-46 | Adding delta to a cell moves avgInRange by delta/poolSize² when the cell is on channel k inside the window, and not at all otherwise. Out-of-bounds cells count 0. |
| Pool.PoolAt | src/main/java/core/layer/PoolLayer.java:26-29 | Output (i, j, k) is maxInRange or avgInRange of channel k over the window at (i·stride, j·stride), as the pool type says. |
| Pool.Evaluate | src/main/java/core/layer/PoolLayer.java:18-36 | The output has the output shape and holds the pool at each position. Only lastX is cached at the slot. |
| Pool.EvaluateReadsWeights | src/main/java/core/layer/PoolLayer.java:18-33 | The output depends only on the parameters. |
| Pool.OutputReadsOnlyWindow | src/main/java/core/layer/PoolLayer.java:19-36 | Output (i, j, k) depends only on channel k of its window. |
| Pool.FillRow | src/main/java/core/layer/PoolLayer.java:92-94 | One row of the AVG writes sets the window's in-bounds columns in that row to ks. |
| Pool.Fill | src/main/java/core/layer/PoolLayer.java:91-95 | The AVG writes set every in-bounds window column to ks and nothing else. |
| Pool.MaxGradientDefinedWhenShaped | src/main/java/core/layer/PoolLayer.java:68-70 | The MAX branch's start read x[xi][xj][k] is in bounds for every output position once the cached input has the input's shape. |
| Pool.PickedCellIsFirstMax | src/main/java/core/layer/PoolLayer.java:68-80 | The picked cell holds the value evaluate returned, and every cell scanned before it holds less. |
| Pool.GradientMax | src/main/java/core/layer/PoolLayer.java:68-89 | gradX is 1 at the picked cell and 0 elsewhere. coordsOfLargest is that cell, and the ranges hold exactly that cell. |
| Pool.GradientAvg | src/main/java/core/layer/PoolLayer.java:90-102 | gradX is 1/poolSize² on every channel of every in-bounds window column. The ranges run from the window's corner to min(w - 1, corner + poolSize) on channel k alone. |
| Pool.GetGradientX | src/main/java/core/layer/PoolLayer.java:61-105 | getGradientX runs the branch its pool type names, and keeps the caches and ks. |
| Pool.AvgGradientIsSensitivity | src/main/java/core/layer/PoolLayer.java:90-102 | On channel k the AVG gradient is the average's sensitivity: bumping a cell by delta moves avgInRange by delta·gradX there. |
| Pool.AvgGradientSpillsAcrossChannels | src/main/java/core/layer/PoolLayer.java:93 | The AVG gradient is also nonzero on other channels, where the output does not depend on the input. The ranges leave those cells out. |
| Pool.AvgRangesOverApproximate | src/main/java/core/layer/PoolLayer.java:97 | The AVG range's end is one past the window. That cell lies in the ranges, yet its gradient is 0. |
| Pool.Train | src/main/java/core/layer/PoolLayer.java:107-112 | train only empties lastX. |
| Pool.CombineScale | src/main/java/core/layer/PoolLayer.java:114-117 | combineScale changes nothing. |
| Pool.ZeroCopy | src/main/java/core/layer/PoolLayer.java:119-123 | zeroCopy returns the layer itself. |
| Pool.AssignGradientInto | src/main/java/core/layer/PoolLayer.java:125-128 | assignGradientInto leaves the receiver as it is. |
| Pool.TrainKeepsOutputs | src/main/java/core/layer/PoolLayer.java:107-112 | After train the layer gives the same outputs for every input. |
| Pool.WorkedExample | src/main/java/core/layer/PoolLayer.java:19-59 | On the 4 × 4 × 1 input x[i][j] = i + 4j with poolSize 2 and stride 2, MAX gives 5, 7, 13, 15 and AVG gives 2.5, 4.5, 10.5, 12.5. |
| Layers.MakeLayer | src/main/java/core/layer/LayerParameters.java:72-84 | makeLayer(in) builds the variant the layer type names. Its parameters record in and getOutputSize(in), and it has no caches yet. |
| Layers.SetupLasts | src/main/java/core/layer/Layer.java:31-34 | Any layer gets batchSize empty cache slots, and nothing else changes. |
| Layers.Evaluate | src/main/java/core/layer/Layer.java:21 | The output has the layer's output shape, and only the slot's caches change. An input of the right shape leaves the slot ready for the backward pass. |
| Layers.EvaluateReadsWeights | src/main/java/core/layer/Layer.java:21 | Layers that differ only in caches, ranges and the picked cell give the same output. |
| Layers.GetGradientX | src/main/java/core/layer/Layer.java:22 | The result has the input's shape. Only a pooling layer changes, and then only in its ranges and picked cell. |
| Layers.FieldRanges | src/main/java/core/network/ConvolutionalNetwork.java:80-81 | The kernel reads the gradXNonzeroRanges field as it stands after getGradientX. |
| Layers.PropagationRanges | src/main/java/core/layer/ConvolutionalLayer.java:83-91 | The intended ranges equal the field for full and pooling layers. For a convolutional layer they are what getGradientXNonzeroRanges computes. |
| Layers.RangesWithinInput | src/main/java/core/network/ConvolutionalNetwork.java:85-88 | Both kinds of ranges lie inside the input box, so the kernel's loops index the next multiplier volume in bounds. |
| Layers.RangesCoverGradient | src/main/java/core/network/ConvolutionalNetwork.java:85-88 | The intended ranges hold every position where getGradientX is nonzero. The one exception is an average pool's spill onto other channels. |
| Layers.ZeroCopy | src/main/java/core/layer/Layer.java:25 | zeroCopy of a full or convolutional layer has all-zero weights; a pooling layer returns itself. |
| Layers.OutputGradAsWritten | src/main/java/core/network/ConvolutionalNetwork.java:68-79 | For a convolutional layer the outputGrad the kernel uses is still the zero copy. |
| Layers.OutputGrad | src/main/java/core/network/ConvolutionalNetwork.java:68-79 | The corrected outputGrad equals the as-written one except for a convolutional layer, which receives its kernel gradient. |
| Layers.CombineScale | src/main/java/core/layer/Layer.java:24 | g + m·og, parameter by parameter; a pooling layer does not change, and m = 0 changes nothing. |
| Layers.Train | src/main/java/core/layer/Layer.java:23 | For a full layer each weight A[a][b] moves by rate·Σ gradients. A pooling layer keeps its weights. The caches are emptied, and the kind, parameters and slot count stay. The offsets and the kernel bank are stated by the two lemmas below. |
| Layers.TrainAddsToOffsets | src/main/java/core/layer/FullLayer.java:141-148 | Through the Layer dispatch, each offset b[a] of a full layer moves by rate·Σ gradients. |
| Layers.TrainAddsToBank | src/main/java/core/layer/ConvolutionalLayer.java:93-100 | Through the Layer dispatch, each kernel entry of a convolutional layer moves by Σ gradients·rate. |
| Layers.TrainOnZeroCopies | src/main/java/core/layer/Layer.java:23 | Training on zero copies changes no weight; only the caches are emptied. |
| NetParams.Chain | src/main/java/core/network/ConvolutionalNetworkParameters.java:17-21 | Layer 0 is made for the network's input, and layer i for the output size of layer i - 1. |
| NetParams.Build | src/main/java/core/network/ConvolutionalNetworkParameters.java:13-24 | numInputs = w·h·d of the input, there is one layer per list entry, and layer i is makeLayer on the input the chain gives it. |
| NetParams.BuildChains | src/main/java/core/network/ConvolutionalNetwork.java:44 | The chain assertion of the network constructor always holds: each layer's output size is the next layer's input size. |
| NetParams.BuildShared | src/main/java/core/network/ConvolutionalNetworkParameters.java:17-21 | With LayerParameters objects shared through references, makeLayer writes only the sizes of the object it is called on. |
| NetParams.DistinctRefsFollowChain | src/main/java/core/network/ConvolutionalNetworkParameters.java:17-21 | With one object per layer, every object made so far holds its chain sizes, and the rest are untouched. |
| NetParams.DistinctRefsChain | src/main/java/core/network/ConvolutionalNetwork.java:44 | With distinct objects the chain assertion holds on the shared objects. |
| NetParams.ReusedParamsBreakChain | src/main/java/core/network/ConvolutionalNetworkParameters.java:17-21 | One pooling object listed twice for an 8×8×1 input ends up claiming a 4×4×1 input, because the second call overwrites the first. |
| ConvNet.NewNet | src/main/java/core/network/ConvolutionalNetwork.java:28-49 | The constructor calls setupLasts(batchSize) on every layer. Every cache slot is empty, and the weights and parameters are kept. |
| ConvNet.FlatAsWritten | src/main/java/core/network/ConvolutionalNetwork.java:146 | The index i + j·w + k·h·w that convertToVol reads is the flat index of (i, j, k). |
| ConvNet.ConvertToVol | src/main/java/core/network/ConvolutionalNetwork.java:140-151 | The volume has the first layer's input shape with vol[i][j][k] = x[i + j·w + k·h·w]. x must hold at least w·h·d values. |
| ConvNet.ConvertToArr | src/main/java/core/network/ConvolutionalNetwork.java:153-159 | The array has vol.length·vol[0].length·vol[0][0].length entries, and entry (i, j, k)'s flat index holds vol[i][j][k]. |
| ConvNet.ConvertRoundTrip | src/main/java/core/network/ConvolutionalNetwork.java:140-159 | convertToArr(convertToVol(x)) == x whenever x has exactly numInputs entries. |
| ConvNet.ConvertRoundTripVol | src/main/java/core/network/ConvolutionalNetwork.java:140-159 | A volume of the input's shape survives the trip to an array and back. |
| ConvNet.Activation | src/main/java/core/network/ConvolutionalNetwork.java:133-136 | The volume reaching layer l has layer l's input shape, which is layer l - 1's output shape. |
| ConvNet.Step | src/main/java/core/network/ConvolutionalNetwork.java:135 | Layer l, after evaluating the volume it receives, caches that volume at the slot and keeps its weights and every other slot. |
| ConvNet.Stepped | src/main/java/core/network/ConvolutionalNetwork.java:134-136 | After the loop, every layer has been stepped on the volume it received. |
| ConvNet.SteppedKeeps | src/main/java/core/network/ConvolutionalNetwork.java:134-136 | Stepping keeps every layer valid, with its weights, parameters and slot count. |
| ConvNet.ActivationReadsWeights | src/main/java/core/network/ConvolutionalNetwork.java:132-138 | What the layers compute does not depend on what they have cached or on the slot. |
| ConvNet.Evaluate | src/main/java/core/network/ConvolutionalNetwork.java:131-138 | evaluate folds the layers in order over convertToVol(x). It returns numOutputs values read from the last layer's output, and the layers come back stepped. |
| ConvNet.EvaluateKeepsValid | src/main/java/core/network/ConvolutionalNetwork.java:131-138 | Evaluating keeps the network valid. |
| ConvNet.PrepareGrads | src/main/java/core/network/ConvolutionalNetwork.java:101-108 | grads[l][r] is layers[l].zeroCopy() for every layer l and output r, and nothing else changes. |
| ConvNet.TrainKeepsFits | src/main/java/core/layer/Layer.java:23 | A trained layer still takes the same gradients. |
| ConvNet.TrainTimes | src/main/java/core/network/ConvolutionalNetwork.java:124-128 | A layer trained p times on its gradient row stays valid with the same kind, parameters and slot count. |
| ConvNet.Passes | src/main/java/core/network/ConvolutionalNetwork.java:123-129 | p passes of applyGrads' loops train every layer p times on its own row. |
| ConvNet.ApplyGradsAsWritten | src/main/java/core/network/ConvolutionalNetwork.java:123-129 | As written, the outer loop runs grads.length times, the number of layers, so every layer is trained that many times. |
| ConvNet.ApplyGrads | src/main/java/core/network/ConvolutionalNetwork.java:123-129 | The intended applyGrads trains every layer once on its row. |
| ConvNet.TrainTimesScales | src/main/java/core/network/ConvolutionalNetwork.java:124-128 | After p passes a full layer's weight has moved by p·rate·(row sum of its gradients). |
| ConvNet.ApplyGradsRepeats | src/main/java/core/network/ConvolutionalNetwork.java:124 | As written, a full-layer weight moves by (number of layers)·rate·(row sum). The intended version moves it by rate·(row sum) once. |
| BackProp.Zeros4 | src/main/java/core/network/ConvolutionalNetwork.java:66 | `new double[w][h][d][n]` has that shape and is all zero. |
| BackProp.DecodeFlat | src/main/java/core/network/ConvolutionalNetwork.java:56-59 | Every global id below w·h·d decodes, by (ijk % w, (ijk / w) % h, (ijk / (w·h)) % d), to an output position whose flat index is the id again. |
| BackProp.FlatDecode | src/main/java/core/network/ConvolutionalNetwork.java:56-59 | Every output position is decoded from exactly one global id, its flat index, so the kernel visits each position once. |
| BackProp.LowestNonzero | src/main/java/core/network/ConvolutionalNetwork.java:69-75 | The first loop finds the first nonzero multiplier in the row, or numOutputs when the row is all zero. |
| BackProp.LoopRanges | src/main/java/core/network/ConvolutionalNetwork.java:81-91 | The ranges the propagation loops run over lie inside the next volume, both as written and corrected. |
| BackProp.ItemGrad | src/main/java/core/network/ConvolutionalNetwork.java:68-79 | A work item's outputGrad fits the layer. As written, for a convolutional layer it is the zero copy. |
| BackProp.CombineRow | src/main/java/core/network/ConvolutionalNetwork.java:82-95 | grads[l][r] becomes grads[l][r] + m_r·outputGrad for every r with a nonzero multiplier m_r, and stays otherwise. |
| BackProp.NextLayer | src/main/java/core/network/ConvolutionalNetwork.java:76-80 | A work item changes a layer only through getGradientX, so only a pooling layer changes. |
| BackProp.ShortCircuit | src/main/java/core/network/ConvolutionalNetwork.java:76-78 | A work item whose multiplier row is all zero returns early: the layer and the gradients stay, and it propagates nothing. |
| BackProp.ContribCorrected | src/main/java/core/network/ConvolutionalNetwork.java:82-95 | With the true ranges, an item adds gradX·m at every input position, except an average pool's other channels. |
| BackProp.ContribConvAsWritten | src/main/java/core/network/ConvolutionalNetwork.java:81-91 | As written, a convolutional layer's loops run over the default ranges, so an item reaches only input position (0, 0, 0). |
| BackProp.LayerAfter | src/main/java/core/network/ConvolutionalNetwork.java:53-97 | After any number of work items the layer keeps its weights, parameters and caches. |
| BackProp.SameReads | src/main/java/core/network/ConvolutionalNetwork.java:80-81 | What the kernel reads from getGradientX does not depend on the fields getGradientX writes, so the order of the work items does not matter. |
| BackProp.ThreadedContrib | src/main/java/core/network/ConvolutionalNetwork.java:80-91 | Work item t propagates, from the layer the earlier items left, what it would propagate from the first. |
| BackProp.PoolItemGrads | src/main/java/core/layer/PoolLayer.java:114-117 | A pooling layer's work items combine nothing into its gradients. |
| BackProp.ThreadedGrads | src/main/java/core/network/ConvolutionalNetwork.java:79-93 | Work item t combines into the gradients what it would combine on the first layer. |
| BackProp.RunAccumulates | src/main/java/core/network/ConvolutionalNetwork.java:88 | With the fix, a gradMults entry ends as its start plus the sum of every item's contribution. |
| BackProp.ReallocationLoses | src/main/java/core/network/ConvolutionalNetwork.java:65-67 | With the re-allocation, an entry ends as the last item's contribution alone. From a zero start it loses exactly the sum of all the other contributions. |
| BackProp.RunOfNothing | src/main/java/core/network/ConvolutionalNetwork.java:65-88 | Items that contribute nothing leave the start, or leave zero once one of them has re-allocated. |
| BackProp.OutputGrads | src/main/java/core/network/ConvolutionalNetwork.java:68-79 | One outputGrad per work item, by global id, each fitting the layer. |
| BackProp.GradsAfter | src/main/java/core/network/ConvolutionalNetwork.java:82-95 | The gradient row after any number of items still fits the layer. |
| BackProp.GradsAfterStep | src/main/java/core/network/ConvolutionalNetwork.java:53-97 | Running the items by global id: step m applies work item m - 1 to what the earlier items left. |
| BackProp.GradsAfterNeutral | src/main/java/core/network/ConvolutionalNetwork.java:93 | outputGrads whose combination changes nothing leave grads[l] as it was. |
| BackProp.GradsAfterZero | src/main/java/core/network/ConvolutionalNetwork.java:76-78 | Zero multipliers leave grads[l] as it was. |
| BackProp.BelowAfter | src/main/java/core/network/ConvolutionalNetwork.java:65-91 | Each gradMults[l - 1] entry after the kernel is the run of the items' contributions, either accumulated or re-allocated by each item. |
| BackProp.KernelLayer | src/main/java/core/network/ConvolutionalNetwork.java:53-97 | A kernel run keeps the layer's weights and caches; only a pooling layer's ranges and picked cell change. |
| BackProp.KernelGrads | src/main/java/core/network/ConvolutionalNetwork.java:93 | After a kernel run every gradient still fits the layer. |
| BackProp.KernelAccumulates | src/main/java/core/network/ConvolutionalNetwork.java:88 | With the fix, kernel l leaves gradMults[l - 1] as its old value plus every work item's contribution. |
| BackProp.KernelKeepsLastItem | src/main/java/core/network/ConvolutionalNetwork.java:65-67 | As written, kernel l leaves in gradMults[l - 1] only what its last work item propagated, whatever was there before. |
| BackProp.CombineZeroConv | src/main/java/core/layer/ConvolutionalLayer.java:102-112 | A convolutional zero copy combined at any scale changes no gradient. |
| BackProp.ZeroRowLayer | src/main/java/core/network/ConvolutionalNetwork.java:76-78 | With zero multipliers a work item leaves the layer as it was. |
| BackProp.ZeroRowContrib | src/main/java/core/network/ConvolutionalNetwork.java:76-78 | With zero multipliers a work item propagates nothing. |
| BackProp.ContribsZero | src/main/java/core/network/ConvolutionalNetwork.java:76-78 | With zero multipliers no work item propagates anything. |
| BackProp.ConvAsWrittenLearnsNothing | src/main/java/core/layer/ConvolutionalLayer.java:122 | As written, a kernel run over a convolutional layer leaves grads[l] as it was. |
| BackProp.KernelOfZeroRows | src/main/java/core/network/ConvolutionalNetwork.java:53-97 | A kernel run with zero multipliers leaves grads[l] as it was. gradMults[l - 1] is unchanged with the fix and zero as written. |
| BackProp.BelowOfZeroRows | src/main/java/core/network/ConvolutionalNetwork.java:65-78 | Zero multipliers propagate nothing into gradMults[l - 1]. |
| BackProp.BackStep | src/main/java/core/network/ConvolutionalNetwork.java:118-120 | Replacing layer l - 1 and its gradients by what its kernel left keeps the kernels below it runnable. |
| BackProp.Backward | src/main/java/core/network/ConvolutionalNetwork.java:118-120 | The kernels run from layer l - 1 down to 0. Kernel t reads the gradMults[t] that kernel t + 1 left. Every layer keeps its weights, and every gradient still fits. |
| BackProp.KeptFits | src/main/java/core/network/ConvolutionalNetwork.java:118-120 | Gradients that fit the layers before the pass fit the layers after it. |
| BackProp.Seed | src/main/java/core/network/ConvolutionalNetwork.java:113-116 | The seed is numOutputs × 1 × 1 × numOutputs, with entry [i][0][0][r] = eval[i] - ans[i] if i == r and 0 otherwise. |
| BackProp.SeedZero | src/main/java/core/network/ConvolutionalNetwork.java:113-116 | The seed is all zero exactly when eval equals ans on the first numOutputs entries. |
| BackProp.ComputeBackProp | src/main/java/core/network/ConvolutionalNetwork.java:110-121 | computeBackProp keeps the network valid, changes only the layers and grads, and keeps every layer's weights. |
| BackProp.SeedReady | src/main/java/core/network/ConvolutionalNetwork.java:113-120 | A ready network seeded with the output error can run every kernel. |
| BackProp.Replaced | src/main/java/core/network/ConvolutionalNetwork.java:118-120 | The layers and gradients the kernels leave form a valid network again. |
| BackProp.BackwardZero | src/main/java/core/network/ConvolutionalNetwork.java:118-120 | With zero multipliers at the top, no kernel below changes a gradient. |
| BackProp.BackPropZeroError | src/main/java/core/network/ConvolutionalNetwork.java:110-121 | When the outputs equal the answers, computeBackProp leaves every gradient as it was. |
| Trainer.ToDoWithinData | src/main/java/core/Trainer.java:33 | toDo = (int)(data.length·percentToDo) lies between 0 and data.length for a fraction in [0, 1]. |
| Trainer.NewTrainer | src/main/java/core/Trainer.java:27-36 | The constructor fails exactly when ram < 0 (a negative array size) or toDo·numOutputs == 0, where Java's scaling would be infinite, which a real cannot hold, so the model fails there. Otherwise everything starts at zero, and scaling·toDo·numOutputs == 2. |
| Trainer.PushRing | src/main/java/core/Trainer.java:64-67 | The ring write changes only mses and mseIndex, and keeps mseIndex in [0, ram). |
| Trainer.Record | src/main/java/core/Trainer.java:64-70 | Recording one mse is the ring write followed by the running average, and counts one more mse. |
| Trainer.PushShiftsRing | src/main/java/core/Trainer.java:64-67 | With ram > 0, slot (mseIndex - 1) mod ram holds the newest mse after a write, and every older mse moves back one place. |
| Trainer.Records | src/main/java/core/Trainer.java:56-73 | Recording a run of mses counts each of them and changes only the bookkeeping fields. |
| Trainer.RecordsFillRing | src/main/java/core/Trainer.java:64-67 | Read from the newest, the ring holds the run's mses newest first, then what it held before, as far as ram slots reach. |
| Trainer.MeanAfter | src/main/java/core/Trainer.java:68-69 | The running-average update: the as-written form scales by (c+1)/(c+2) and adds mse/(c+2), the intended one uses c/(c+1) and 1/(c+1). It has no contract of its own: Trainer.MeanAfterAddsUp states what each form keeps. |
| Trainer.MeanAfterAddsUp | src/main/java/core/Trainer.java:68-69 | One update keeps average × weight equal to the sum, where the weight is count + 1 as written and count as intended. |
| Trainer.RecordsAddUp | src/main/java/core/Trainer.java:68-70 | Over a run, average × weight grows by the run's sum. |
| Trainer.IntendedMeanIsMean | src/main/java/core/Trainer.java:68-70 | With the intended update, allTimeMse is the mean of every mse seen. |
| Trainer.WrittenMeanDividesByOneMore | src/main/java/core/Trainer.java:68-70 | As written, allTimeMse is the sum of every mse seen divided by allTimeMseCount + 1. |
| Trainer.WrittenMeanHalvesFirstMse | src/main/java/core/Trainer.java:68-69 | A first mse of 1 leaves the written average at 1/2 and the intended one at 1. |
| Trainer.StepMse | src/main/java/core/Trainer.java:61-62 | An example's mse is never negative, and is zero exactly when the network's output equals the answer. |
| Trainer.StepMses | src/main/java/core/Trainer.java:56-62 | A step yields toDo mses, example k's read at batch slot k. |
| Trainer.ActivationInStep | src/main/java/core/Trainer.java:61 | Within a step the network passes on what it did at the start of the step, because evaluate and computeBackProp change no weight. |
| Trainer.EvaluateInStep | src/main/java/core/Trainer.java:61 | Evaluating during a step gives the starting network's output and leaves every layer ready for the backward pass. |
| Trainer.EvaluateExample | src/main/java/core/Trainer.java:61 | net.evaluate(x, k) during a step returns the starting network's output and leaves every layer ready at slot k. |
| Trainer.BackPropExample | src/main/java/core/Trainer.java:72 | computeBackProp during a step keeps the network in the step. An output equal to the answer changes no gradient. |
| Trainer.ApplyZeroGrads | src/main/java/core/Trainer.java:75 | applyGrads on rows that are still prepareGrads' zero copies changes no weight, whether it makes one pass or one pass per layer. |
| Trainer.Example | src/main/java/core/Trainer.java:57-72 | Example k evaluates its pick at slot k, records that mse, and back-propagates. An exact answer leaves the gradient rows as they were. |
| Trainer.Examples | src/main/java/core/Trainer.java:56-73 | After the loop the trainer has recorded the step's mses in order. If every mse was zero, the gradient rows are still zero copies. |
| Trainer.TrainStep | src/main/java/core/Trainer.java:53-76 | trainStep records exactly the starting network's mses on the picks, adds exactly toDo to allTimeMseCount, and keeps every layer's parameters. A step on which the network was exact changes no weight. |
| Trainer.ApplyStep | src/main/java/core/Trainer.java:75 | The final applyGrads keeps the parameters, and zero-copy rows change no weight. |
| Trainer.EntriesAboveLowest | src/main/java/core/layer/PoolLayer.java:52 | Decides whether every entry of a volume is at least -Double.MAX_VALUE. |
| Trainer.LayerCheck | src/main/java/core/Trainer.java:61 | Decides whether an input passes through the network up to layer l without a max pool meeting an entry below -Double.MAX_VALUE. |
| Trainer.PassableCheck | src/main/java/core/Trainer.java:61 | Decides whether an input can be evaluated and back-propagated at a slot. |
| Trainer.ExampleCheck | src/main/java/core/Trainer.java:56-61 | Decides whether example k of a step can run: its pick lies in the data, its answer is long enough, and slot k is below the batch size. |
| Trainer.StepCheckMeans | src/main/java/core/Trainer.java:53-76 | The executable check of a step holds exactly when every example of the step can run. |
| Trainer.Cycle | src/main/java/core/Trainer.java:40-49 | One turn of train's loop runs a step and increments cycle. Only the bookkeeping changes, with toDo more mses counted. |
| Trainer.Turn | src/main/java/core/Trainer.java:40-49 | One turn runs exactly when its step can run (batch and data indices in range). When it runs, only the bookkeeping changes, toDo more mses are counted and the network keeps its parameters. |
| Trainer.Train | src/main/java/core/Trainer.java:38-51 | train(cycles) does nothing once cycle ≥ cycles. Otherwise it runs steps until cycle == cycles, counting toDo mses per cycle and keeping every parameter. It fails at the first cycle whose step cannot run. |
| Matrices.ZeroMatrix | src/main/java/core/LayeredNetworkParameters.java:69-71 | zeroMatrix(rows, columns) is a rows × columns matrix of zeros. |
| Matrices.InitialValue | src/main/java/core/LayeredNetworkParameters.java:64-67 | initialValue, 2·nextDouble() - 1, lies in [-1, 1) for any draw in [0, 1). |
| Matrices.Entry | src/main/java/core/LayeredNetworkParameters.java:58 | Every entry initialMatrix writes lies in [-1, 1), whether it is the 0.0 of a zero matrix or a draw. |
| Matrices.InitialMatrix | src/main/java/core/LayeredNetworkParameters.java:53-62 | initialMatrix is rows × columns, with entry (i, j) zero or the draw for (i, j), so every entry lies in [-1, 1). With zero set it is exactly zeroMatrix(rows, columns). |
| Matrices.InitialColumn | src/main/java/core/LayeredNetworkParameters.java:44-51 | initialColumn(rows, zero) has rows entries, entry i being entry (i, 0) of a one-column initialMatrix, and all zero when zero is set. |
| Layered.WeightMatrix | src/main/java/core/LayeredNetworkParameters.java:18-24 | Matrix v of setupWeights has the shape its position demands, with entries from initialMatrix. |
| Layered.SetupWeights | src/main/java/core/LayeredNetworkParameters.java:14-27 | setupWeights(zero) gives hidden + 1 matrices of the shapes numInputs → hidden sizes → numOutputs. Each matrix's rows are as long as the previous matrix has rows, so consecutive layers chain. |
| Layered.OffsetColumn | src/main/java/core/LayeredNetworkParameters.java:33-39 | Column v of setupOffsets has as many entries as matrix v has rows. |
| Layered.SetupOffsets | src/main/java/core/LayeredNetworkParameters.java:29-42 | setupOffsets(zero) gives one column per layer, each as long as that layer's weight matrix has rows. |
| Layered.NewNet | src/main/java/core/LayeredNetwork.java:21-25 | A new LayeredNetwork has well-shaped weights and offsets, every weight in [-1, 1). |
| Layered.LayerOut | src/main/java/core/LayeredNetwork.java:37-39 | One layer gives as many outputs as its matrix has rows. |
| Layered.LayerOutEntries | src/main/java/core/LayeredNetwork.java:37-39 | Output i of a layer is the fast sigmoid of row i's dot product with the input, plus offset i. |
| Layered.Forward | src/main/java/core/LayeredNetwork.java:32-41 | The reference for evaluate: no layers is the input itself, and n layers give as many values as layer n - 1 has rows. |
| Layered.EvaluateTo | src/main/java/core/LayeredNetwork.java:32-41 | evaluate(x, toLayer) returns a copy of x for toLayer 0. Otherwise it applies max(1, min(toLayer, L)) layers in order, which matches the reference forward pass. |
| Layered.NextLayer | src/main/java/core/LayeredNetwork.java:38-40 | One pass of evaluate's loop extends the forward pass by exactly one layer. |
| Layered.EvaluateAll | src/main/java/core/LayeredNetwork.java:27-30 | evaluate(x) is the forward pass through every layer and gives numOutputs values. |
| Layered.GradChange | src/main/java/core/LayeredNetwork.java:44-53 | gradChange moves every weight its loops reach by -rate·gradA, and the offset of every row it reaches by -rate·gradB. Everything it does not reach stays as it was. |
| Layered.ShapedGradsFit | src/main/java/core/LayeredNetwork.java:67-73 | Gradients shaped like setupWeights(true) and setupOffsets(true) are ones gradChange can index. |
| Layered.GradChangeByNothing | src/main/java/core/LayeredNetwork.java:44-53 | Zero gradients, or a zero rate, leave the network unchanged. |
| Layered.GradChangeUndone | src/main/java/core/LayeredNetwork.java:44-53 | A gradChange with the negated rate undoes a gradChange. |
| Layered.EmptyGradAs | src/main/java/core/LayeredNetwork.java:67-69 | getEmptyGradAs is all zeros, shaped like the weights. |
| Layered.EmptyGradBs | src/main/java/core/LayeredNetwork.java:71-73 | getEmptyGradBs is all zeros, shaped like the offsets. |
| Layered.EmptyStep | src/main/java/core/LayeredNetwork.java:44-73 | A gradChange with getEmptyGradAs and getEmptyGradBs leaves the network unchanged, whatever the rate. |
| Basic.SetupWeights | src/main/java/core/BasicNetworkParameters.java:11-14 | setupWeights is a numOutputs × numInputs matrix whose entry (i, j) is 2·draw(i, j) - 1. |
| Basic.SetupOffset | src/main/java/core/BasicNetworkParameters.java:16-28 | setupOffset has numOutputs entries, entry i being 2·draw(i, 0) - 1 from a one-column matrix. |
| Basic.NewNet | src/main/java/core/BasicNetwork.java:12-16 | A new BasicNetwork has well-shaped weights and offset, every value in [-1, 1). |
| Basic.Evaluate | src/main/java/core/BasicNetwork.java:26-28 | evaluate gives numOutputs values, output i being the fast sigmoid of row i's dot product with x, plus offset i. |
| Basic.EmptyGradA | src/main/java/core/BasicNetwork.java:30-32 | getEmptyGradA is a zero matrix shaped like the weights. It fails exactly when there are no outputs, because weights[0] then does not exist. |
| Basic.EmptyGradB | src/main/java/core/BasicNetwork.java:34-36 | getEmptyGradB is zeros, as many as the offset has entries. |
| Basic.GradChange | src/main/java/core/BasicNetwork.java:38-45 | gradChange moves every weight by -rate·gradA and every offset by -rate·gradB, and keeps the shapes. |
| Basic.StepByZero | src/main/java/core/BasicNetwork.java:38-45 | A step by zero gradients changes nothing. |
| Basic.EmptyStep | src/main/java/core/BasicNetwork.java:30-45 | gradChange with getEmptyGradA and getEmptyGradB leaves the network unchanged, whatever the rate. |
| Basic.StepUndone | src/main/java/core/BasicNetwork.java:38-45 | A step with -rate after a step with rate restores the network. |
| Digits.ConvertByte | src/main/java/digitrecognition/DigitRecognitionFitness.java:92-100 | convertByte reads the byte as unsigned and divides by 256. The result lies in [0, 255/256], and 256 times it is the byte's value modulo 256. |
| Digits.ConvertByteInjective | src/main/java/digitrecognition/DigitRecognitionFitness.java:92-100 | Distinct bytes convert to distinct values: the conversion loses nothing. |
| Digits.Pixel | src/main/java/digitrecognition/DigitRecognitionFitness.java:83 | With onOffPixels a pixel is 1 exactly for a nonzero byte and 0 for a zero byte. Otherwise it is convertByte of the byte. Either way it lies in [0, 1]. |
| Digits.ImageOf | src/main/java/digitrecognition/DigitRecognitionFitness.java:82-84 | An image has one pixel per byte of its chunk, in order. |
| Digits.CheckHeader | src/main/java/digitrecognition/DigitRecognitionFitness.java:43-64 | The header passes exactly when the images magic is 0x803, the labels magic is 0x801 and the counts agree. Each failure reports the first check that failed, in the constructor's order. |
| Digits.Chunk | src/main/java/digitrecognition/DigitRecognitionFitness.java:79-81 | Image n's bytes are numRows·numCols long. |
| Digits.Load | src/main/java/digitrecognition/DigitRecognitionFitness.java:43-85 | Loading succeeds exactly when the header passes, the array sizes are not negative and both streams hold enough bytes. A header failure is passed on as it is. On success there is one label, one-hot answer and numRows·numCols-pixel image per example, label n being label byte n. |
| Digits.LoadedPixel | src/main/java/digitrecognition/DigitRecognitionFitness.java:79-84 | Pixel i of image n is the pixel of stream byte n·numRows·numCols + i. |
| Digits.OneHotDecodes | src/main/java/digitrecognition/DigitRecognitionFitness.java:75-78 | For a label in 0..9, maxIndex of the answer row gives back the label. |
| Digits.OneHotOutOfRange | src/main/java/digitrecognition/DigitRecognitionFitness.java:75-78 | A label byte outside 0..9, negative included, gives an all-zero answer row. |
| Digits.MseSum | src/main/java/digitrecognition/DigitRecognitionFitness.java:129-133 | The summed error over the visited examples is never negative, and is zero exactly when every visited output equals its one-hot answer. |
| Digits.Hits | src/main/java/digitrecognition/DigitRecognitionFitness.java:143-147 | The count of correct guesses is at most the number visited. It equals that number exactly when every guess is right, and is zero exactly when none is. |
| Digits.MseAsWritten | src/main/java/digitrecognition/DigitRecognitionFitness.java:128-136 | mse(net) as written divides by labels.length·percentToDo, and has no value (NaN) exactly when that product is zero. |
| Digits.PercentCorrectAsWritten | src/main/java/digitrecognition/DigitRecognitionFitness.java:138-150 | percentCorrect(net) as written divides by labels.length·percentToDo, and has no value exactly when that product is zero. |
| Digits.PercentCorrectAsWrittenExceedsOne | src/main/java/digitrecognition/DigitRecognitionFitness.java:131-148 | With one example and percentToDo 0.5, one right guess scores 2.0 as written and the error is doubled. |
| Digits.MseMean | src/main/java/digitrecognition/DigitRecognitionFitness.java:128-136 | With the sum divided by the number of examples visited, mse is a non-negative mean. It is zero exactly when every visited output is exact, and has no value only when nothing is visited. |
| Digits.PercentCorrect | src/main/java/digitrecognition/DigitRecognitionFitness.java:138-150 | With the hits divided by the number visited, percentCorrect lies in [0, 1]. It is 1 exactly when every visited guess is right and 0 exactly when none is. |
| Digits.FractionFacts | src/main/java/digitrecognition/DigitRecognitionFitness.java:148 | hits/n lies in [0, 1], reaching 1 only when every example hits and 0 only when none does. |
| Digits.AsWrittenIsMeanWhenWhole | src/main/java/digitrecognition/DigitRecognitionFitness.java:128-150 | When labels.length·percentToDo is a whole number, the written averages equal the true ones. |
| Drawing.IdxInjective | src/main/java/digitrecognition/DigitDrawing.java:82 | Cell (x, y) is stored at x + 28·y, inside the array, and different cells never share an index. |
| Drawing.IdxCovers | src/main/java/digitrecognition/DigitDrawing.java:38-43 | Every index of the 784-cell array belongs to exactly the cell (k mod 28, k div 28), so the two loops of resetCells reach all of it. |
| Drawing.NewCanvas | src/main/java/digitrecognition/DigitDrawing.java:14-16 | A new drawing has 784 cells, all 0, and a last cell of (-1, -1), which is off the grid. |
| Drawing.ToCellIndex | src/main/java/digitrecognition/DigitDrawing.java:70-78 | toCellIndex gives a cell in [0, 28). For an on-screen z that cell's 20 pixels contain z. Negative z clamps to 0 and anything past the grid clamps to 27. |
| Drawing.ToCellIndexMonotone | src/main/java/digitrecognition/DigitDrawing.java:70-78 | A larger pixel coordinate never gives a smaller cell. |
| Drawing.Sat | src/main/java/digitrecognition/DigitDrawing.java:82 | The cap at 1 never exceeds the value or 1, and is one of the two. |
| Drawing.SatTwice | src/main/java/digitrecognition/DigitDrawing.java:82 | Adding a non-negative amount after capping gives the same as adding and capping once. |
| Drawing.IncreaseToMax | src/main/java/digitrecognition/DigitDrawing.java:80-84 | increaseToMax raises only the named in-grid cell, by add, capped at 1. An off-grid cell changes nothing, and intensities in [0, 1] stay there. |
| Drawing.ResetCells | src/main/java/digitrecognition/DigitDrawing.java:38-45 | resetCells sets every one of the 784 cells to 0 and keeps the last cell. |
| Drawing.Apply | src/main/java/digitrecognition/DigitDrawing.java:54-63 | A run of increaseToMax calls keeps the cell count, and keeps intensities in [0, 1] when every amount is non-negative. |
| Drawing.AddedAtNonNegative | src/main/java/digitrecognition/DigitDrawing.java:54-63 | The total aimed at a cell by non-negative calls is non-negative. |
| Drawing.ApplyAt | src/main/java/digitrecognition/DigitDrawing.java:54-63 | The calls together raise each cell by the total aimed at it, capped at 1 once. |
| Drawing.PaintWith | src/main/java/digitrecognition/DigitDrawing.java:51-68 | paintCells remembers the mouse's cell as the last cell and keeps the canvas well-formed. |
| Drawing.PaintCellsAsWritten | src/main/java/digitrecognition/DigitDrawing.java:51-68 | paintCells as written, with the duplicated (+1, +1) call, remembers the mouse's cell. |
| Drawing.PaintCells | src/main/java/digitrecognition/DigitDrawing.java:51-68 | paintCells with each of the eight neighbours painted once remembers the mouse's cell. |
| Drawing.PaintWithAt | src/main/java/digitrecognition/DigitDrawing.java:51-68 | paintCells changes each cell by the calls it makes around the mouse's cell: the cell's intensity plus everything aimed at it, capped at 1. |
| Drawing.RingAdds | src/main/java/digitrecognition/DigitDrawing.java:54-63 | The intended calls after a move add 0.5 at the centre, 0.3 at each edge neighbour and 0.1 at each diagonal neighbour. |
| Drawing.RingAsWrittenAdds | src/main/java/digitrecognition/DigitDrawing.java:54-63 | The written calls after a move add nothing at (+1, -1) and 0.2 at (+1, +1). |
| Drawing.AsWrittenSkipsUpperRight | src/main/java/digitrecognition/DigitDrawing.java:60-62 | As written, a move leaves the in-grid neighbour at (x + 1, y - 1) unpainted, and aims 0.2 at (x + 1, y + 1). |
| Drawing.CentreAdds | src/main/java/digitrecognition/DigitDrawing.java:54-55 | Without a move only the current cell is raised, by 0.5. |
| Drawing.PaintCellsEffect | src/main/java/digitrecognition/DigitDrawing.java:51-68 | Corrected paintCells raises the current cell by 0.5 and, after a move, each edge neighbour by 0.3 and each diagonal neighbour by 0.1, all capped at 1. Every other cell stays as it was. |
| Drawing.FullCellStays | src/main/java/digitrecognition/DigitDrawing.java:80-84 | A cell already at 1 stays at 1 under any painting. |
| JavaMath.Div | src/main/java/digitrecognition/DigitDrawing.java:71 | Java's int division truncates toward zero. For a positive divisor the quotient is the Euclidean one on non-negative dividends, and lies one step nearer zero on negative ones. |
| JavaMath.Trunc | src/main/java/core/Utility.java:56 | The (int) cast of a double truncates toward zero: the floor for non-negative values, within one above for negative ones. |
| JavaMath.Ceil | src/main/java/digitrecognition/DigitRecognitionFitness.java:131 | A loop `i < bound` with a real bound runs ⌈bound⌉ times for a positive bound and never otherwise. |

## Left out

- Floating point: `double` is `real`, so rounding, NaN and infinity are not modelled. A division by zero, such as `scaling` when toDo is 0 or the averages of `DigitRecognitionFitness` over no examples, is modelled as a failure or `None`. Elsewhere the case is excluded by a precondition instead. Utility.Mse and Utility.MseLabel require a non-empty guess, where Java's `e / guess.length` gives NaN. Pool.AvgInRange requires range != 0, where Java gives NaN or infinity.
- Negative array sizes: Java's `NegativeArraySizeException` is modelled as a failure only in Digits.Load and Trainer.NewTrainer. Elsewhere a precondition excludes it. Conv.Evaluate, Pool.Evaluate, Layers.Evaluate and the volume builders of Tensor and BackProp require non-negative shapes, although a CONV output of `in + 2·convMod` (`LayerParameters.java:68`) can be negative and nothing validates it. Layered.Params.Valid requires non-negative layer widths.
- Integer overflow: `int` is unbounded. In particular `numRows * numCols` and the flattened indices do not wrap at 2^31.
- The sigmoid itself: `slowSigmoid`, `sigmoidPrime`, the `Math.exp` formulas and `Utility.normalize`, which uses `sqrt`. The sampled functions are parameters of the tables, and nothing is claimed about how well a table approximates them.
- Aparapi parallel execution of the back-propagation kernel. The kernel body runs as a sequential loop in global-id order. A different interleaving of the work items would give different results under the re-allocation finding below.
- Randomness: `Utility.randVal`, `Random.nextDouble` in `initialValue` and `Random.nextInt` in `trainStep` are parameters, so no distribution is claimed.
- File and stream I/O: `DigitRecognitionFitness` receives the header as parsed ints and the bytes as sequences, and the retrying `read` helper is not modelled. A stream that runs short becomes a `Load` failure. The constructor's `printStackTrace` and `System.exit(0)` are not modelled.
- Serialization: `serialize`/`deserialize` of the networks (`LayeredNetwork.java:75-102`), the `LayeredNetwork(String path)` constructor, and the `web` classes with `Converter` (its `webify` is not part of this model).
- The Swing side of `DigitDrawing`: the constructor's panel set-up, `paintComponent`, `colorFromDouble`, `repaint` and the mouse and key handlers. Only the grid logic is modelled.
- `DataLineChart`, the `Run`/`Run2`/`RunDraw`/`RunTrain` mains, `roundString`/`avgString`, and the `println` calls in `train`.
- `RunTrain`'s 5-argument `Trainer` constructor, which matches none of the constructors shown.
- Trivial holders and interfaces: both `NetworkParameters` classes, `ConvolutionalLayerParameters`, both `Network` interfaces and `Fitness`.
- `getOrDefault`, `setIfCan`, `PoolLayerParameters` and the `ActFunc`/`LayerType`/`PoolType` enums are called but not part of this model. They get their evident semantics.
- `FullLayer.evaluate` calls `Utility.evaluate(this.A, this.b, convertToArray(x), null)` statically (`FullLayer.java:113`), but `Utility.java:81` declares `evaluate` as an instance method taking a primitive `boolean`. Against those lines the call does not compile: javac rejects both the static reference and `null` for a primitive. The model reads the flag as `false` and then applies the layer's activation, as `FullLayer.java:116-119` does; this is the behaviour the surrounding code evidently expects.
- `train` runs steps only when the network is a `ConvolutionalNetwork`. The model trains a convolutional network, and other `Network` implementations are not modelled.
- Trainer.Train: where Java throws from inside a step (an index past the batch or the data, or a short answer row), the model returns `Failure(cycle)` for the first cycle whose step cannot run, and states nothing about the partial step.
- Trainer.TrainStep: apart from an exact step, the weight change is stated only through the gradient rows that `applyGrads` consumes, not as a closed formula in the examples. The chain-rule correctness of the gradients is not claimed anywhere.
- BackProp.BackPropZeroError: states that the gradients are unchanged when every output is exact. It does not claim the layers' caches are unchanged.
- Pool.PickedCellIsFirstMax: the first-maximum property of the cell a max pool's gradient picks needs the window's start cell to be at least `-Double.MAX_VALUE`, the sentinel `getGradientX` scans from. Only `-Infinity` is smaller in Java. The back-propagation of a max pool is modelled for such inputs only (`Layers.Ready`).
- Pool.Train: `PoolLayer.train` asserts `grads instanceof PoolLayer[]` (`PoolLayer.java:110`), but `prepareGrads` builds every row as a `Layer[]` (`ConvolutionalNetwork.java:102`), so with assertions enabled the assert fails for every network with a pool layer. The model takes the behaviour with assertions disabled, where the method only clears `lastX`, instead of turning this always-false assert into a precondition.
- ConvNet.NewNet and ConvNet.Evaluate: `ConvNet.Net.Valid` also demands that the last layer's output is numOutputs × 1 × 1 with numOutputs > 0 and that every layer's sizes are positive. The Java constructor checks only the chain (`ConvolutionalNetwork.java:44`), and `evaluate` returns all w·h·d values of any last volume. Networks whose last layer is a pool or convolution layer, or that have a zero size, are therefore not modelled. Only the back-propagation seed needs the column shape, but the model states it once for the whole network.
- Utility.SigmoidAll, Utility.Evaluate, ActFuncs.Apply and ActFuncs.ApplyPrime: every forward pass in the model (each layer's Evaluate, ConvNet.Evaluate, Basic.Evaluate, Layered.Forward) reads the tables through the corrected `Approx.Lookup`. At a pre-activation of exactly 150 these return the last table entry, where the Java index is one past the table and throws `ArrayIndexOutOfBoundsException` (see the Findings row for `ActFuncs.java:132`). Elsewhere they agree with `Approx.LookupAsWritten`.
- Conv.GetGradientXNonzeroRanges: its own contract states the single k-range. That the ranges are non-empty, lie in the input box and contain the centre is stated by Conv.NonzeroRangesWellFormed.

## Findings

| source | as written | input that shows it | evidently intended | confidence | as-written member | corrected member |
|---|---|---|---|---|---|---|
| src/main/java/core/ActFuncs.java:132 | `(int) (approxIndexMult * (x + approxRange))` for -150 ≤ x ≤ 150, which at x = 150 is 1000000, one past the 1000000-entry tables (`Utility.java:56` has the same code) | x = 150.0: `sigmoidValues[1000000]` is out of bounds, and 150 reads a later entry than 151 | clamp the index to the last entry, N - 1 | not executed | Approx.IndexAtRangeIsPastTable, Approx.IndexNotMonotoneAtRange | Approx.TableIndex, Approx.TableIndexMonotone |
| src/main/java/core/layer/ConvolutionalLayer.java:122 | `receiveGrad = receiveGrad.zeroCopy()` rebinds the parameter, so the writes go to a fresh copy the caller never sees | any cached convolutional layer whose input at the window centre and derivative are nonzero: the receiver stays all zero | reset the receiver in place, then write the kernel gradient into it | not executed | Conv.AssignGradientIntoAsWritten, Conv.AssignGradientIntoLosesGradient, BackProp.ConvAsWrittenLearnsNothing | Conv.AssignGradientInto, Layers.OutputGrad |
| src/main/java/core/network/ConvolutionalNetwork.java:81 | the kernel reads the `gradXNonzeroRanges` field, which `ConvolutionalLayer` never sets, so it stays (0, 0, 0) | a convolutional layer above another layer, with a nonzero kernel centre and derivative, at an output whose window centre is not the origin: the gradient there is nonzero but never propagated | use the ranges `getGradientXNonzeroRanges(i, j, k)` computes | not executed | Layers.FieldRanges, Conv.FieldRangesMissGradient, BackProp.ContribConvAsWritten | Layers.PropagationRanges, BackProp.ContribCorrected |
| src/main/java/core/network/ConvolutionalNetwork.java:66 | every work item re-allocates `gradMults[l - 1]` before adding its own propagation | a layer l > 0 with two output positions that both propagate: run in global-id order, only the last one's contribution survives | allocate `gradMults[l - 1]` once per backward pass and let every work item add to it | not executed | BackProp.KernelKeepsLastItem, BackProp.ReallocationLoses | BackProp.KernelAccumulates |
| src/main/java/core/network/ConvolutionalNetwork.java:124 | the outer loop of `applyGrads` runs `grads.length` times, the number of layers, and trains every layer on each pass | a two-layer network: every full-layer weight moves by twice the step | train each layer once | not executed | ConvNet.ApplyGradsAsWritten, ConvNet.ApplyGradsRepeats | ConvNet.ApplyGrads |
| src/main/java/core/Trainer.java:68-69 | `allTimeMse *= (c + 1.0) / (c + 2.0); allTimeMse += mse / (c + 2.0);` with c = allTimeMseCount, which starts at 0 and is incremented only afterwards at line 70, so the result is the sum over count + 1 | a first mse of 1.0: allTimeMse becomes 0.5 | the mean of every mse seen | not executed | Trainer.WrittenMeanDividesByOneMore, Trainer.WrittenMeanHalvesFirstMse | Trainer.IntendedMeanIsMean |
| src/main/java/digitrecognition/DigitDrawing.java:62 | repeats `increaseToMax(cellX + 1, cellY + 1, 0.1)` where the remaining diagonal (cellX + 1, cellY - 1) belongs | a move into a cell with a neighbour at (x + 1, y - 1): that neighbour stays unpainted and (x + 1, y + 1) gets 0.2 | paint each of the eight neighbours once | not executed | Drawing.PaintCellsAsWritten, Drawing.AsWrittenSkipsUpperRight, Drawing.RingAsWrittenAdds | Drawing.PaintCells, Drawing.PaintCellsEffect, Drawing.RingAdds |
| src/main/java/digitrecognition/DigitRecognitionFitness.java:128-150 | the loops visit ⌈labels.length·percentToDo⌉ examples but divide by labels.length·percentToDo | one example with percentToDo 0.5: one right guess scores 2.0, and the error is doubled | divide by the number of examples visited | not executed | Digits.MseAsWritten, Digits.PercentCorrectAsWritten, Digits.PercentCorrectAsWrittenExceedsOne | Digits.MseMean, Digits.PercentCorrect |

=== FILE: actfuncs.dfy ===
/**
 * core.ActFuncs: the activation functions a layer applies, scalar and element-wise.
 * The sigmoid variant reads the lookup tables of module Approx through the clamped
 * index; ReLU and the identity are computed exactly.
 */
module ActFuncs {
  import opened Approx
  import opened Wrappers

  /** The ActFunc enum. */
  datatype ActFunc = SIGMOID | RELU | IDENTITY

  /** relu: x when positive, 0 otherwise. */
  function Relu(x: real): (r: real)
    ensures r >= 0.0
    ensures r >= x
    ensures r == x || r == 0.0
    ensures r == x <==> x >= 0.0
  {
    if x > 0.0 then x else 0.0
  }

  /** Applying ReLU twice is applying it once. */
  lemma ReluIdempotent(x: real)
    ensures Relu(Relu(x)) == Relu(x)
  {
  }

  /** reluPrime: 1 for positive inputs, 0 otherwise (so 0 at x == 0). */
  function ReluPrime(x: real): (r: real)
    ensures r == 0.0 || r == 1.0
    ensures r == 1.0 <==> x > 0.0
  {
    if x > 0.0 then 1.0 else 0.0
  }

  /** Where ReLU is differentiable its derivative is what ReluPrime reports. */
  lemma ReluPrimeIsSlope(x: real, y: real)
    requires (x > 0.0 && y > 0.0) || (x < 0.0 && y < 0.0)
    ensures Relu(y) - Relu(x) == ReluPrime(x) * (y - x)
  {
  }

  /** actFunc: dispatch on the activation kind. */
  function Apply(t: Tables, x: real, f: ActFunc): (r: real)
    requires t.Valid()
    ensures f == IDENTITY ==> r == x
    ensures f == RELU ==> r == Relu(x)
    ensures f == SIGMOID ==> r == t.values[TableIndex(x)]
    ensures f == SIGMOID && x != R as real ==> LookupAsWritten(t.values, x) == Some(r)
  {
    match f
    case SIGMOID => Lookup(t.values, x)
    case RELU => Relu(x)
    case IDENTITY => x
  }

  /** actFuncPrime: dispatch on the activation kind. */
  function ApplyPrime(t: Tables, x: real, f: ActFunc): (r: real)
    requires t.Valid()
    ensures f == IDENTITY ==> r == 1.0
    ensures f == RELU ==> r == ReluPrime(x)
    ensures f == SIGMOID ==> r == t.primes[TableIndex(x)]
    ensures f == SIGMOID && x != R as real ==> LookupAsWritten(t.primes, x) == Some(r)
  {
    match f
    case SIGMOID => Lookup(t.primes, x)
    case RELU => ReluPrime(x)
    case IDENTITY => 1.0
  }

  /** The element-wise loops (sigmoid(double[]), relu(double[])), entry i at step i. */
  function MapPrefix(t: Tables, w: seq<real>, f: ActFunc, n: nat): (r: seq<real>)
    requires t.Valid()
    requires n <= |w|
    ensures |r| == n
    ensures forall i :: 0 <= i < n ==> r[i] == Apply(t, w[i], f)
  {
    if n == 0 then [] else MapPrefix(t, w, f, n - 1) + [Apply(t, w[n - 1], f)]
  }

  /** The derivative loops (sigmoidPrime(double[]), reluPrime(double[])). */
  function MapPrimePrefix(t: Tables, w: seq<real>, f: ActFunc, n: nat): (r: seq<real>)
    requires t.Valid()
    requires n <= |w|
    ensures |r| == n
    ensures forall i :: 0 <= i < n ==> r[i] == ApplyPrime(t, w[i], f)
  {
    if n == 0 then [] else MapPrimePrefix(t, w, f, n - 1) + [ApplyPrime(t, w[n - 1], f)]
  }

  /**
   * actFuncify: the array after the in-place update. The identity case is
   * identify(), which leaves the array alone.
   */
  function Actfuncify(t: Tables, w: seq<real>, f: ActFunc): (r: seq<real>)
    requires t.Valid()
    ensures |r| == |w|
    ensures forall i :: 0 <= i < |w| ==> r[i] == Apply(t, w[i], f)
  {
    if f == IDENTITY then w else MapPrefix(t, w, f, |w|)
  }

  /**
   * actFuncPrimeify: the array after the in-place update. The identity case fills
   * the array with 1.
   */
  function ActfuncPrimeify(t: Tables, x: seq<real>, f: ActFunc): (r: seq<real>)
    requires t.Valid()
    ensures |r| == |x|
    ensures forall i :: 0 <= i < |x| ==> r[i] == ApplyPrime(t, x[i], f)
  {
    if f == IDENTITY then seq(|x|, i => 1.0) else MapPrimePrefix(t, x, f, |x|)
  }

  /** The identity activation leaves the array unchanged and its derivative is all ones. */
  lemma IdentityArrays(t: Tables, w: seq<real>)
    requires t.Valid()
    ensures Actfuncify(t, w, IDENTITY) == w
    ensures ActfuncPrimeify(t, w, IDENTITY) == seq(|w|, i => 1.0)
  {
  }

  /** ReLU's array form is idempotent, as its scalar form is. */
  lemma {:induction false} ReluArrayIdempotent(t: Tables, w: seq<real>)
    requires t.Valid()
    ensures Actfuncify(t, Actfuncify(t, w, RELU), RELU) == Actfuncify(t, w, RELU)
  {
    var once := Actfuncify(t, w, RELU);
    var twice := Actfuncify(t, once, RELU);
    forall i | 0 <= i < |w|
      ensures twice[i] == once[i]
    {
      ReluIdempotent(w[i]);
    }
  }
}

=== FILE: approx.dfy ===
/**
 * The activation lookup tables shared by `Utility` and `ActFuncs`: N samples of a
 * function over the symmetric domain [-R, R], and the map from an input to a sample
 * index. The sampled functions (an exp-based sigmoid and its derivative) are supplied
 * by the caller; nothing is claimed about how well the tables approximate them.
 */
module Approx {
  import opened JavaMath
  import opened Wrappers

  /** numApproximations */
  const N: int := 1000000
  /** approxRange */
  const R: int := 150

  /** approxIndexMult = N / (2 R) */
  const IndexMult: real := N as real / (2.0 * R as real)

  /**
   * indexOfApprox as written: saturate below -R and above R, otherwise truncate
   * IndexMult * (x + R). At x == R the product is exactly N, one past the table.
   */
  function IndexOfApprox(x: real): (r: int)
    ensures x < -R as real ==> r == 0
    ensures x > R as real ==> r == N - 1
    ensures 0 <= r <= N
    ensures r == N <==> x == R as real
  {
    if x < -(R as real) then 0
    else if x > R as real then N - 1
    else Trunc(IndexMult * (x + R as real))
  }

  /** The point the table entry t was sampled at: 2 R (t - N/2) / N. */
  function SamplePoint(t: int): real
  {
    2.0 * R as real * (t as real - N as real / 2.0) / N as real
  }

  /** Inside the domain, the index is the last sample point at or below x. */
  lemma IndexBracketsInput(x: real)
    requires -(R as real) <= x <= R as real
    ensures SamplePoint(IndexOfApprox(x)) <= x < SamplePoint(IndexOfApprox(x) + 1)
  {
    var r := IndexOfApprox(x);
    assert r as real <= IndexMult * (x + R as real) < r as real + 1.0;
  }

  /**
   * A larger input never reads an earlier table entry, except from the boundary
   * x == R, whose index N exceeds the N - 1 of every input above R.
   */
  lemma IndexMonotone(x: real, y: real)
    requires x <= y
    requires x != R as real
    ensures IndexOfApprox(x) <= IndexOfApprox(y)
  {
    if -(R as real) <= x && y <= R as real {
      assert IndexMult * (x + R as real) <= IndexMult * (y + R as real);
    } else if -(R as real) <= x <= R as real {
      assert IndexMult * (x + R as real) < IndexMult * (2.0 * R as real);
    }
  }

  /** The boundary breaks monotonicity: 150 reads entry N, 151 reads entry N - 1. */
  lemma IndexNotMonotoneAtRange()
    ensures IndexOfApprox(R as real) > IndexOfApprox(R as real + 1.0)
  {
  }

  /** The clamped index is monotone everywhere. */
  lemma TableIndexMonotone(x: real, y: real)
    requires x <= y
    ensures TableIndex(x) <= TableIndex(y)
  {
    if x != R as real {
      IndexMonotone(x, y);
    } else {
      assert y >= R as real;
    }
  }

  /** The exact-arithmetic boundary case: x == R indexes entry N of an N-entry table. */
  lemma IndexAtRangeIsPastTable()
    ensures IndexOfApprox(R as real) == N
  {
  }

  /** The index the lookup should use: IndexOfApprox clamped to the last entry. */
  function TableIndex(x: real): (r: int)
    ensures 0 <= r < N
    ensures x != R as real ==> r == IndexOfApprox(x)
    ensures x == R as real ==> r == N - 1
  {
    Min(IndexOfApprox(x), N - 1)
  }

  /** The pair of precomputed tables: function values and derivative values. */
  datatype Tables = Tables(values: seq<real>, primes: seq<real>)
  {
    predicate Valid() { |values| == N && |primes| == N }
  }

  /** The constructor's sampling loop: both tables sample the same points. */
  function Build(slow: real -> real, slowPrime: real -> real): (t: Tables)
    ensures t.Valid()
    ensures forall i :: 0 <= i < N ==> t.values[i] == slow(SamplePoint(i))
    ensures forall i :: 0 <= i < N ==> t.primes[i] == slowPrime(SamplePoint(i))
  {
    Tables(seq(N, i => slow(SamplePoint(i))), seq(N, i => slowPrime(SamplePoint(i))))
  }

  /** A table read as written: None where the Java array access would be out of bounds. */
  function LookupAsWritten(table: seq<real>, x: real): (r: Option<real>)
    requires |table| == N
    ensures r.None? <==> x == R as real
    ensures r.Some? ==> r.value == table[IndexOfApprox(x)]
  {
    var i := IndexOfApprox(x);
    if i < |table| then Some(table[i]) else None
  }

  /** A table read through the clamped index; saturates at both ends of the domain. */
  function Lookup(table: seq<real>, x: real): (v: real)
    requires |table| == N
    ensures x < -(R as real) ==> v == table[0]
    ensures x >= R as real ==> v == table[N - 1]
    ensures x != R as real ==> LookupAsWritten(table, x) == Some(v)
  {
    table[TableIndex(x)]
  }

  /** A value and its derivative are read at the same sample point. */
  lemma ValueAndPrimeShareSample(slow: real -> real, slowPrime: real -> real, x: real)
    ensures Lookup(Build(slow, slowPrime).values, x) == slow(SamplePoint(TableIndex(x)))
    ensures Lookup(Build(slow, slowPrime).primes, x) == slowPrime(SamplePoint(TableIndex(x)))
  {
  }
}

=== FILE: backprop.dfy ===
/**
 * core.network.ConvolutionalNetwork, the backward pass: the per-layer kernel and
 * computeBackProp, which seeds the last layer's multipliers with the output error
 * and runs the kernels from the last layer down to the first.
 *
 * The kernel is run as Aparapi would run it on the Java thread pool fallback: one
 * work item after another, in order of the global id. Three places where the code
 * as written differs from the evident intent are switches of `Fixes`:
 *  - `accumulate`: every work item of layer l > 0 re-allocates gradMults[l - 1]
 *    before anything else, discarding what the earlier items propagated;
 *  - `trueRanges`: the propagation loops read gradXNonzeroRanges, which a
 *    convolutional layer never sets;
 *  - `convGrad`: a convolutional layer's assignGradientInto writes nothing into
 *    the zero copy it is handed.
 */
module BackProp {
  import opened Tensor
  import opened Utility
  import opened LayerConfig
  import opened LayerBase
  import opened Layers
  import opened ConvNet
  import Conv

  /** gradMults[l]: one row of numOutputs multipliers per position of a volume. */
  type Mult4 = seq<seq<seq<seq<real>>>>

  /** m holds a row of n multipliers at every position of the box of s. */
  ghost predicate HasShape4(m: Mult4, s: Shape, n: int)
  {
    && |m| == s.w
    && (forall i :: 0 <= i < s.w ==> |m[i]| == s.h)
    && (forall i, j :: 0 <= i < s.w && 0 <= j < s.h ==> |m[i][j]| == s.d)
    && (forall i, j, k :: InBox(s, i, j, k) ==> |m[i][j][k]| == n)
  }

  /** `new double[w][h][d][n]`. */
  function Zeros4(s: Shape, n: nat): (z: Mult4)
    requires NonNegative(s)
    ensures HasShape4(z, s, n)
    ensures forall i, j, k, r :: InBox(s, i, j, k) && 0 <= r < n ==> z[i][j][k][r] == 0.0
  {
    seq(s.w, _ => seq(s.h, _ => seq(s.d, _ => seq(n, _ => 0.0))))
  }

  /** A w × h × d volume of rows of n entries, entry [a][b][c][q] being f(a, b, c, q). */
  function Build4(s: Shape, n: nat, f: (int, int, int, int) -> real): (m: Mult4)
    requires NonNegative(s)
    ensures HasShape4(m, s, n)
    ensures forall a, b, c, q :: InBox(s, a, b, c) && 0 <= q < n ==> m[a][b][c][q] == f(a, b, c, q)
  {
    seq(s.w, a => Plane4(s, n, f, a))
  }
  /** Plane a of Build4. */
  function Plane4(s: Shape, n: nat, f: (int, int, int, int) -> real, a: int): (m: seq<seq<seq<real>>>)
    requires NonNegative(s)
    ensures |m| == s.h && forall b :: 0 <= b < s.h ==> |m[b]| == s.d
    ensures forall b, c :: 0 <= b < s.h && 0 <= c < s.d ==> |m[b][c]| == n
    ensures forall b, c, q :: 0 <= b < s.h && 0 <= c < s.d && 0 <= q < n ==> m[b][c][q] == f(a, b, c, q)
  {
    seq(s.h, b => Col4(s, n, f, a, b))
  }
  /** Column (a, b) of Build4. */
  function Col4(s: Shape, n: nat, f: (int, int, int, int) -> real, a: int, b: int): (m: seq<seq<real>>)
    requires NonNegative(s)
    ensures |m| == s.d && forall c :: 0 <= c < s.d ==> |m[c]| == n
    ensures forall c, q :: 0 <= c < s.d && 0 <= q < n ==> m[c][q] == f(a, b, c, q)
  {
    seq(s.d, c => seq(n, q => f(a, b, c, q)))
  }

  // ---------------------------------------------------------------------------
  // The work item's position

  /**
   * The kernel's decoding of its global id: i = ijk % W, j = (ijk / W) % H and
   * k = (ijk / (H·W)) % D for the output size W × H × D.
   */
  function Decode(s: Shape, ijk: int): (int, int, int)
    requires Positive(s) && ijk >= 0
  {
    (ijk % s.w, (ijk / s.w) % s.h, (ijk / (s.h * s.w)) % s.d)
  }

  /** A number below the modulus is its own remainder. */
  lemma ModBelow(x: int, d: int)
    requires 0 <= x < d
    ensures x % d == x
  {
  }

  /**
   * Decoding is the inverse of flattening: every id below the volume's size
   * names a position inside it, the position's flat index is the id again, and
   * every position is named by its flat index.
   */
  lemma DecodeFlat(s: Shape, ijk: int)
    requires Positive(s) && 0 <= ijk < Size(s)
    ensures Decode(s, ijk) == (UnflatI(s, ijk), UnflatJ(s, ijk), UnflatK(s, ijk))
    ensures var (i, j, k) := Decode(s, ijk); InBox(s, i, j, k) && Flat(s, i, j, k) == ijk
  {
    UnflatFlat(s, ijk);
    var hw := s.h * s.w;
    assert hw == s.w * s.h;
    ModBelow(UnflatK(s, ijk), s.d);
    assert (ijk / hw) % s.d == UnflatK(s, ijk);
  }

  /** Every position of the box is decoded from its flat index. */
  lemma FlatDecode(s: Shape, i: int, j: int, k: int)
    requires Positive(s) && InBox(s, i, j, k)
    ensures 0 <= Flat(s, i, j, k) < Size(s) && Decode(s, Flat(s, i, j, k)) == (i, j, k)
  {
    FlatUnflat(s, i, j, k);
    DecodeFlat(s, Flat(s, i, j, k));
  }

  /**
   * The first loop of the kernel: the first r whose multiplier is nonzero, or
   * numOutputs when the row is all zero.
   */
  function LowestNonzero(row: seq<real>): (r: int)
    ensures 0 <= r <= |row|
    ensures forall q :: 0 <= q < r ==> row[q] == 0.0
    ensures r < |row| ==> row[r] != 0.0
  {
    LowestFrom(row, 0)
  }

  function LowestFrom(row: seq<real>, from: nat): (r: int)
    requires from <= |row|
    requires forall q :: 0 <= q < from ==> row[q] == 0.0
    ensures from <= r <= |row|
    ensures forall q :: 0 <= q < r ==> row[q] == 0.0
    ensures r < |row| ==> row[r] != 0.0
    decreases |row| - from
  {
    if from == |row| then from
    else if row[from] != 0.0 then from
    else LowestFrom(row, from + 1)
  }

  // ---------------------------------------------------------------------------
  // One work item

  /** Which of the kernel's three discrepancies are repaired. */
  datatype Fixes = Fixes(accumulate: bool, trueRanges: bool, convGrad: bool)

  /** The kernel as written. */
  const AsWritten := Fixes(false, false, false)

  /** The kernel as evidently intended. */
  const Corrected := Fixes(true, true, true)

  /** The multiplier row the work item ijk reads. */
  function Row(L: Layer, mult: Mult4, n: int, ijk: int): (row: seq<real>)
    requires L.Valid() && Positive(L.Out()) && HasShape4(mult, L.Out(), n) && 0 <= ijk < Size(L.Out())
    ensures |row| == n
  {
    DecodeFlat(L.Out(), ijk);
    var (i, j, k) := Decode(L.Out(), ijk);
    mult[i][j][k]
  }

  /** The ranges the propagation loops read: as written, or the ones that cover the gradient. */
  function LoopRanges(trueRanges: bool, L: Layer, i: int, j: int, k: int, slot: int): (rg: Ranges)
    requires L.Valid() && L.Ready(slot) && InBox(L.Out(), i, j, k)
    ensures rg.Within(L.In())
  {
    RangesWithinInput(L, i, j, k, slot);
    if trueRanges then PropagationRanges(L, i, j, k, slot) else FieldRanges(L, i, j, k, slot)
  }

  /**
   * What work item ijk adds to gradMults[l - 1][a][b][c][r]: getGradientX's entry
   * times the item's multiplier, when the multiplier is nonzero and the loops
   * over the ranges reach (a, b, c); nothing otherwise.
   */
  function ContribAt(trueRanges: bool, L: Layer, mult: Mult4, slot: int, n: int, ijk: int,
                     a: int, b: int, c: int, r: int): real
    requires L.Valid() && L.Ready(slot) && HasShape4(mult, L.Out(), n) && 0 <= ijk < Size(L.Out())
    requires 0 <= r < n
  {
    DecodeFlat(L.Out(), ijk);
    var (i, j, k) := Decode(L.Out(), ijk);
    var m := mult[i][j][k][r];
    var gx := Layers.GetGradientX(L, i, j, k, slot).0;
    if m != 0.0 && LoopRanges(trueRanges, L, i, j, k, slot).Contains(a, b, c)
    then (WithinMeansInBox(LoopRanges(trueRanges, L, i, j, k, slot), L.In(), a, b, c); Prod(gx[a][b][c], m))
    else 0.0
  }

  /**
   * The gradient work item ijk adds: the zero copy after assignGradientInto, as
   * written or corrected. A pooling layer's stays a pooling layer.
   */
  function ItemGrad(convGrad: bool, L: Layer, slot: int, ijk: int): (g: Layer)
    requires L.Valid() && L.Ready(slot) && 0 <= ijk < Size(L.Out())
    ensures AddFits(L, g)
    ensures L.ConvL? && !convGrad ==> g == ZeroCopy(L)
  {
    DecodeFlat(L.Out(), ijk);
    var (i, j, k) := Decode(L.Out(), ijk);
    if convGrad then OutputGrad(L, i, j, k, slot) else OutputGradAsWritten(L, i, j, k, slot)
  }

  /** grads[l][r].combineScale(outputGrad, m_r) for every r whose multiplier is nonzero. */
  function CombineRow(L: Layer, grads: seq<Layer>, og: Layer, row: seq<real>): (R: seq<Layer>)
    requires L.Valid() && |grads| == |row| && AddFits(L, og)
    requires forall r :: 0 <= r < |grads| ==> GradFits(L, grads[r])
    ensures |R| == |grads| && forall r :: 0 <= r < |grads| ==> GradFits(L, R[r])
    ensures forall r :: 0 <= r < |grads| ==>
      R[r] == if row[r] != 0.0 then CombineScale(L, grads[r], og, row[r]) else grads[r]
  {
    seq(|grads|, r requires 0 <= r < |grads| =>
      if row[r] != 0.0 then CombineScale(L, grads[r], og, row[r]) else grads[r])
  }

  /**
   * The layer after work item ijk: getGradientX's, unless the item's row is all
   * zero and it returns first.
   */
  function NextLayer(L: Layer, mult: Mult4, slot: int, n: int, ijk: int): (L2: Layer)
    requires L.Valid() && L.Ready(slot) && HasShape4(mult, L.Out(), n) && 0 <= ijk < Size(L.Out())
    ensures L2.Valid() && L2.Ready(slot) && L2.Strip() == L.Strip() && L2.Params() == L.Params()
    ensures L2.Base().lastX == L.Base().lastX && L2.Base().lastPrime == L.Base().lastPrime
    ensures !L.PoolL? ==> L2 == L
  {
    DecodeFlat(L.Out(), ijk);
    var (i, j, k) := Decode(L.Out(), ijk);
    if LowestNonzero(Row(L, mult, n, ijk)) == n then L
    else Layers.GetGradientX(L, i, j, k, slot).1
  }

  /** The gradients after work item ijk: its output gradient combined at the row's nonzero multipliers. */
  function ItemGrads(convGrad: bool, L: Layer, grads: seq<Layer>, mult: Mult4, slot: int, n: int, ijk: int): (R: seq<Layer>)
    requires L.Valid() && L.Ready(slot) && HasShape4(mult, L.Out(), n) && 0 <= ijk < Size(L.Out())
    requires |grads| == n && forall r :: 0 <= r < n ==> GradFits(L, grads[r])
    ensures |R| == n && forall r :: 0 <= r < n ==> GradFits(L, R[r])
  {
    CombineRow(L, grads, ItemGrad(convGrad, L, slot, ijk), Row(L, mult, n, ijk))
  }

  /**
   * A work item whose row is all zero returns before it touches anything: the
   * layer and the gradients stay, and it propagates nothing.
   */
  lemma ShortCircuit(convGrad: bool, trueRanges: bool, L: Layer, grads: seq<Layer>, mult: Mult4, slot: int, n: int, ijk: int)
    requires L.Valid() && L.Ready(slot) && HasShape4(mult, L.Out(), n) && 0 <= ijk < Size(L.Out())
    requires |grads| == n && forall r :: 0 <= r < n ==> GradFits(L, grads[r])
    requires forall r :: 0 <= r < n ==> Row(L, mult, n, ijk)[r] == 0.0
    ensures NextLayer(L, mult, slot, n, ijk) == L
    ensures ItemGrads(convGrad, L, grads, mult, slot, n, ijk) == grads
    ensures forall a, b, c, q :: InBox(L.In(), a, b, c) && 0 <= q < n ==>
      ContribAt(trueRanges, L, mult, slot, n, ijk, a, b, c, q) == 0.0
  {
    var row := Row(L, mult, n, ijk);
    assert LowestNonzero(row) == n;
    var R := ItemGrads(convGrad, L, grads, mult, slot, n, ijk);
    assert forall r :: 0 <= r < n ==> R[r] == grads[r];
  }

  /**
   * With the true ranges an item adds getGradientX's entry times its multiplier
   * at every input position, except on the other channels of an average pool.
   */
  lemma ContribCorrected(L: Layer, mult: Mult4, slot: int, n: int, ijk: int, i: int, j: int, k: int,
                         a: int, b: int, c: int, q: int)
    requires L.Valid() && L.Ready(slot) && HasShape4(mult, L.Out(), n) && 0 <= ijk < Size(L.Out())
    requires InBox(L.Out(), i, j, k) && Decode(L.Out(), ijk) == (i, j, k)
    requires InBox(L.In(), a, b, c) && 0 <= q < n
    requires L.PoolL? && L.pool.base.lp.poolType == AVG ==> c == k
    ensures ContribAt(true, L, mult, slot, n, ijk, a, b, c, q)
      == Prod(Layers.GetGradientX(L, i, j, k, slot).0[a][b][c], mult[i][j][k][q])
  {
    var gx := Layers.GetGradientX(L, i, j, k, slot).0;
    if gx[a][b][c] != 0.0 {
      RangesCoverGradient(L, i, j, k, slot, a, b, c);
    }
  }

  /**
   * As written, a convolutional layer's loops run over the default ranges, so an
   * item reaches only input position (0, 0, 0).
   */
  lemma ContribConvAsWritten(L: Layer, mult: Mult4, slot: int, n: int, ijk: int, i: int, j: int, k: int,
                             a: int, b: int, c: int, q: int)
    requires L.Valid() && L.Ready(slot) && HasShape4(mult, L.Out(), n) && 0 <= ijk < Size(L.Out())
    requires InBox(L.Out(), i, j, k) && Decode(L.Out(), ijk) == (i, j, k)
    requires InBox(L.In(), a, b, c) && 0 <= q < n
    requires L.ConvL?
    ensures ContribAt(false, L, mult, slot, n, ijk, a, b, c, q)
      == if a == 0 && b == 0 && c == 0 then Prod(Layers.GetGradientX(L, i, j, k, slot).0[a][b][c], mult[i][j][k][q]) else 0.0
  {
    DefaultRangesIsOrigin(a, b, c);
  }

  // ---------------------------------------------------------------------------
  // A kernel run

  /**
   * The work items share the layer: getGradientX of a pooling layer writes its
   * ranges and coordsOfLargest, and item t runs on the layer the items before it
   * left. Nothing an item reads depends on those two fields (SameReads), so every
   * item reads what it would read from the layer the kernel started with
   * (ThreadedContrib, ThreadedGrads), and grads[l] and each entry of
   * gradMults[l - 1] are threads of their own.
   */

  /** The layer after the first m work items; the fixes do not change it. */
  function LayerAfter(L0: Layer, mult: Mult4, slot: int, n: int, m: nat): (L: Layer)
    requires L0.Valid() && L0.Ready(slot) && HasShape4(mult, L0.Out(), n) && m <= Size(L0.Out())
    ensures L.Valid() && L.Ready(slot) && L.Strip() == L0.Strip() && L.Params() == L0.Params()
    ensures L.In() == L0.In() && L.Out() == L0.Out()
    ensures L.Base().lastX == L0.Base().lastX && L.Base().lastPrime == L0.Base().lastPrime
    ensures !L0.PoolL? ==> L == L0
  {
    if m == 0 then L0 else NextLayer(LayerAfter(L0, mult, slot, n, m - 1), mult, slot, n, m - 1)
  }

  /**
   * What getGradientX returns and the kernel reads (the gradient and the ranges)
   * does not depend on the fields it writes: two layers that differ only there
   * give the same.
   */
  lemma SameReads(L: Layer, L2: Layer, i: int, j: int, k: int, slot: int)
    requires L.Valid() && L.Ready(slot) && L2.Valid() && L2.Ready(slot) && InBox(L.Out(), i, j, k)
    requires L2.Strip() == L.Strip() && L2.Base().lastX == L.Base().lastX && L2.Base().lastPrime == L.Base().lastPrime
    ensures Layers.GetGradientX(L2, i, j, k, slot).0 == Layers.GetGradientX(L, i, j, k, slot).0
    ensures FieldRanges(L2, i, j, k, slot) == FieldRanges(L, i, j, k, slot)
    ensures PropagationRanges(L2, i, j, k, slot) == PropagationRanges(L, i, j, k, slot)
    ensures !L.PoolL? ==> L2 == L
  {
    match L
    case FullL(f) =>
    case ConvL(c) =>
    case PoolL(p) =>
      var p2 := L2.pool;
      PoolReady(p, i, j, k, slot);
      PoolReady(p2, i, j, k, slot);
      if p.base.lp.poolType == MAX {
        assert Pool.PickedCell(p2, i, j, k, slot) == Pool.PickedCell(p, i, j, k, slot);
      }
  }

  /** Work item t reads from the layer the earlier items left what it would read from the first. */
  lemma ThreadedContrib(trueRanges: bool, L0: Layer, mult: Mult4, slot: int, n: int, t: nat, a: int, b: int, c: int, q: int)
    requires L0.Valid() && L0.Ready(slot) && HasShape4(mult, L0.Out(), n) && t < Size(L0.Out()) && 0 <= q < n
    ensures ContribAt(trueRanges, LayerAfter(L0, mult, slot, n, t), mult, slot, n, t, a, b, c, q)
      == ContribAt(trueRanges, L0, mult, slot, n, t, a, b, c, q)
  {
    DecodeFlat(L0.Out(), t);
    var (i, j, k) := Decode(L0.Out(), t);
    SameReads(L0, LayerAfter(L0, mult, slot, n, t), i, j, k, slot);
  }

  /** A pooling layer has no parameters: its work items combine nothing into the gradients. */
  lemma PoolItemGrads(convGrad: bool, L: Layer, grads: seq<Layer>, mult: Mult4, slot: int, n: int, ijk: int)
    requires L.Valid() && L.Ready(slot) && HasShape4(mult, L.Out(), n) && 0 <= ijk < Size(L.Out())
    requires |grads| == n && forall r :: 0 <= r < n ==> GradFits(L, grads[r])
    requires L.PoolL?
    ensures ItemGrads(convGrad, L, grads, mult, slot, n, ijk) == grads
  {
    var R := ItemGrads(convGrad, L, grads, mult, slot, n, ijk);
    assert forall r :: 0 <= r < n ==> R[r] == grads[r];
  }

  /** Work item t combines into the gradients what it would combine on the first layer. */
  lemma ThreadedGrads(convGrad: bool, L0: Layer, grads: seq<Layer>, mult: Mult4, slot: int, n: int, t: nat)
    requires L0.Valid() && L0.Ready(slot) && HasShape4(mult, L0.Out(), n) && t < Size(L0.Out())
    requires |grads| == n && forall r :: 0 <= r < n ==> GradFits(L0, grads[r])
    ensures forall r :: 0 <= r < n ==> GradFits(LayerAfter(L0, mult, slot, n, t), grads[r])
    ensures ItemGrads(convGrad, LayerAfter(L0, mult, slot, n, t), grads, mult, slot, n, t)
      == ItemGrads(convGrad, L0, grads, mult, slot, n, t)
  {
    var L := LayerAfter(L0, mult, slot, n, t);
    forall r | 0 <= r < n ensures GradFits(L, grads[r]) {
      FitsAfterStrip(L0, L, grads[r]);
    }
    if L0.PoolL? {
      PoolItemGrads(convGrad, L, grads, mult, slot, n, t);
      PoolItemGrads(convGrad, L0, grads, mult, slot, n, t);
    }
  }

  /**
   * One entry of gradMults[l - 1] after m work items, starting from `start`: each
   * item first resets it to zero (unless accumulating), then adds contrib(t).
   */
  function Run(start: real, contrib: nat -> real, accumulate: bool, m: nat): real
  {
    if m == 0 then start
    else (if accumulate then Run(start, contrib, accumulate, m - 1) else 0.0) + contrib(m - 1)
  }

  /** Σ_{t < m} contrib(t). */
  function Total(contrib: nat -> real, m: nat): real
  {
    if m == 0 then 0.0 else Total(contrib, m - 1) + contrib(m - 1)
  }

  /** Accumulating, the entry ends as the start plus every item's contribution. */
  lemma {:induction false} RunAccumulates(start: real, contrib: nat -> real, m: nat)
    ensures Run(start, contrib, true, m) == start + Total(contrib, m)
  {
    if m > 0 {
      RunAccumulates(start, contrib, m - 1);
    }
  }

  /**
   * Resetting, the entry ends as the last item's contribution alone: from a zero
   * start the reset loses exactly the contributions of all items but the last.
   */
  lemma ReallocationLoses(contrib: nat -> real, m: nat)
    requires m > 0
    ensures Run(0.0, contrib, false, m) == contrib(m - 1)
    ensures Run(0.0, contrib, true, m) - Run(0.0, contrib, false, m) == Total(contrib, m - 1)
  {
    RunAccumulates(0.0, contrib, m);
  }

  /** Items that contribute nothing leave the start, or zero once one of them has reset it. */
  lemma {:induction false} RunOfNothing(start: real, contrib: nat -> real, accumulate: bool, m: nat)
    requires forall t: nat :: t < m ==> contrib(t) == 0.0
    ensures Run(start, contrib, accumulate, m) == if accumulate || m == 0 then start else 0.0
  {
    if m > 0 {
      RunOfNothing(start, contrib, accumulate, m - 1);
    }
  }

  /** What work item t adds at gradMults[l - 1][a][b][c][q]. */
  function Contribs(trueRanges: bool, L0: Layer, mult: Mult4, slot: int, n: int, a: int, b: int, c: int, q: int): (f: nat -> real)
    requires L0.Valid() && L0.Ready(slot) && HasShape4(mult, L0.Out(), n) && 0 <= q < n
  {
    (t: nat) => if t < Size(L0.Out()) then ContribAt(trueRanges, L0, mult, slot, n, t, a, b, c, q) else 0.0
  }

  /** The output gradient of every work item of kernel l, by global id. */
  function OutputGrads(convGrad: bool, L0: Layer, slot: int): (ogs: seq<Layer>)
    requires L0.Valid() && L0.Ready(slot)
    ensures |ogs| == Size(L0.Out())
    ensures forall t :: 0 <= t < |ogs| ==> AddFits(L0, ogs[t]) && ogs[t] == ItemGrad(convGrad, L0, slot, t)
  {
    seq(Size(L0.Out()), t requires 0 <= t < Size(L0.Out()) => ItemGrad(convGrad, L0, slot, t))
  }

  /** grads[l] after the first m work items, item t combining ogs[t] at its row's nonzero multipliers. */
  function GradsAfter(L0: Layer, grads0: seq<Layer>, ogs: seq<Layer>, mult: Mult4, n: int, m: nat): (R: seq<Layer>)
    requires L0.Valid() && Positive(L0.Out()) && HasShape4(mult, L0.Out(), n) && m <= Size(L0.Out())
    requires |ogs| == Size(L0.Out()) && forall t :: 0 <= t < |ogs| ==> AddFits(L0, ogs[t])
    requires |grads0| == n && forall r :: 0 <= r < n ==> GradFits(L0, grads0[r])
    ensures |R| == n && forall r :: 0 <= r < n ==> GradFits(L0, R[r])
  {
    if m == 0 then grads0
    else CombineRow(L0, GradsAfter(L0, grads0, ogs, mult, n, m - 1), ogs[m - 1], Row(L0, mult, n, m - 1))
  }

  /** Step m of GradsAfter is work item m - 1 of the kernel. */
  lemma GradsAfterStep(convGrad: bool, L0: Layer, grads0: seq<Layer>, mult: Mult4, slot: int, n: int, m: nat)
    requires L0.Valid() && L0.Ready(slot) && HasShape4(mult, L0.Out(), n) && 0 < m <= Size(L0.Out())
    requires |grads0| == n && forall r :: 0 <= r < n ==> GradFits(L0, grads0[r])
    ensures GradsAfter(L0, grads0, OutputGrads(convGrad, L0, slot), mult, n, m)
      == ItemGrads(convGrad, L0, GradsAfter(L0, grads0, OutputGrads(convGrad, L0, slot), mult, n, m - 1), mult, slot, n, m - 1)
  {
  }

  /**
   * Output gradients whose combination never changes a gradient leave grads[l]
   * as it was.
   */
  lemma {:induction false} GradsAfterNeutral(L0: Layer, grads0: seq<Layer>, ogs: seq<Layer>, mult: Mult4, n: int, m: nat)
    requires L0.Valid() && Positive(L0.Out()) && HasShape4(mult, L0.Out(), n) && m <= Size(L0.Out())
    requires |ogs| == Size(L0.Out()) && forall t :: 0 <= t < |ogs| ==> AddFits(L0, ogs[t])
    requires |grads0| == n && forall r :: 0 <= r < n ==> GradFits(L0, grads0[r])
    requires forall t, g, x :: 0 <= t < |ogs| && GradFits(L0, g) ==> CombineScale(L0, g, ogs[t], x) == g
    ensures GradsAfter(L0, grads0, ogs, mult, n, m) == grads0
  {
    if m > 0 {
      GradsAfterNeutral(L0, grads0, ogs, mult, n, m - 1);
      var R := GradsAfter(L0, grads0, ogs, mult, n, m);
      assert forall r :: 0 <= r < n ==> R[r] == grads0[r];
    }
  }

  /** Zero multipliers leave grads[l] as it was. */
  lemma {:induction false} GradsAfterZero(L0: Layer, grads0: seq<Layer>, ogs: seq<Layer>, mult: Mult4, n: int, m: nat)
    requires L0.Valid() && Positive(L0.Out()) && HasShape4(mult, L0.Out(), n) && m <= Size(L0.Out())
    requires |ogs| == Size(L0.Out()) && forall t :: 0 <= t < |ogs| ==> AddFits(L0, ogs[t])
    requires |grads0| == n && forall r :: 0 <= r < n ==> GradFits(L0, grads0[r])
    requires ZeroMult(mult, L0.Out(), n)
    ensures GradsAfter(L0, grads0, ogs, mult, n, m) == grads0
  {
    if m > 0 {
      GradsAfterZero(L0, grads0, ogs, mult, n, m - 1);
      GradsAfterZeroStep(L0, grads0, ogs, mult, n, m);
    }
  }

  /** One more work item with a zero row keeps grads[l] as it was. */
  lemma GradsAfterZeroStep(L0: Layer, grads0: seq<Layer>, ogs: seq<Layer>, mult: Mult4, n: int, m: nat)
    requires L0.Valid() && Positive(L0.Out()) && HasShape4(mult, L0.Out(), n) && 0 < m <= Size(L0.Out())
    requires |ogs| == Size(L0.Out()) && forall t :: 0 <= t < |ogs| ==> AddFits(L0, ogs[t])
    requires |grads0| == n && forall r :: 0 <= r < n ==> GradFits(L0, grads0[r])
    requires ZeroMult(mult, L0.Out(), n)
    requires GradsAfter(L0, grads0, ogs, mult, n, m - 1) == grads0
    ensures GradsAfter(L0, grads0, ogs, mult, n, m) == grads0
  {
    ZeroRow(L0, mult, n, m - 1);
    CombineZeroRow(L0, grads0, ogs[m - 1], Row(L0, mult, n, m - 1));
  }

  /** What a kernel run leaves: the layer, grads[l] and gradMults[l - 1]. */
  datatype KState = KState(layer: Layer, grads: seq<Layer>, below: Mult4)

  /** Kernel l may run on layer L0: ready at the slot, multipliers of its output's shape, gradients that fit. */
  ghost predicate KernelReady(L0: Layer, grads0: seq<Layer>, mult: Mult4, slot: int, n: int)
  {
    && L0.Valid() && L0.Ready(slot) && HasShape4(mult, L0.Out(), n)
    && |grads0| == n && (forall r :: 0 <= r < n ==> GradFits(L0, grads0[r]))
  }

  /** gradMults[l - 1] after all work items of kernel l, from below0. */
  function BelowAfter(fx: Fixes, L0: Layer, below0: Mult4, mult: Mult4, slot: int, n: nat): (r: Mult4)
    requires L0.Valid() && L0.Ready(slot) && HasShape4(mult, L0.Out(), n) && HasShape4(below0, L0.In(), n)
    ensures HasShape4(r, L0.In(), n)
    ensures forall a, b, c, q :: InBox(L0.In(), a, b, c) && 0 <= q < n ==>
      r[a][b][c][q] == Run(below0[a][b][c][q], Contribs(fx.trueRanges, L0, mult, slot, n, a, b, c, q), fx.accumulate, Size(L0.Out()))
  {
    Build4(L0.In(), n, (a, b, c, q) =>
      if InBox(L0.In(), a, b, c) && 0 <= q < n
      then Run(below0[a][b][c][q], Contribs(fx.trueRanges, L0, mult, slot, n, a, b, c, q), fx.accumulate, Size(L0.Out()))
      else 0.0)
  }

  /**
   * `kernels[l].execute(range)`: every global id below the output's size, one
   * after another, from gradMults[l - 1] = below0.
   */
  function Kernel(fx: Fixes, l: int, L0: Layer, grads0: seq<Layer>, below0: Mult4, mult: Mult4, slot: int, n: nat): (r: KState)
    requires KernelReady(L0, grads0, mult, slot, n) && (l > 0 ==> HasShape4(below0, L0.In(), n))
  {
    KState(KernelLayer(L0, grads0, mult, slot, n), KernelGrads(fx.convGrad, L0, grads0, mult, slot, n),
           if l > 0 then BelowAfter(fx, L0, below0, mult, slot, n) else below0)
  }

  /** The layer after every work item of a kernel run. */
  function KernelLayer(L0: Layer, grads0: seq<Layer>, mult: Mult4, slot: int, n: nat): (L: Layer)
    requires KernelReady(L0, grads0, mult, slot, n)
    ensures L.Valid() && L.Ready(slot) && L.Strip() == L0.Strip() && L.Params() == L0.Params()
    ensures L.Base().lastX == L0.Base().lastX && (!L0.PoolL? ==> L == L0)
  {
    LayerAfter(L0, mult, slot, n, Size(L0.Out()))
  }

  /** grads[l] after every work item of a kernel run. */
  function KernelGrads(convGrad: bool, L0: Layer, grads0: seq<Layer>, mult: Mult4, slot: int, n: nat): (R: seq<Layer>)
    requires KernelReady(L0, grads0, mult, slot, n)
    ensures |R| == n && forall q :: 0 <= q < n ==> GradFits(L0, R[q])
  {
    GradsAfter(L0, grads0, OutputGrads(convGrad, L0, slot), mult, n, Size(L0.Out()))
  }

  /** A positive shape has a positive size. */
  lemma SizePositive(s: Shape)
    requires Positive(s)
    ensures Size(s) > 0
  {
    FlatDecode(s, 0, 0, 0);
  }

  /**
   * With the fix, kernel l leaves in gradMults[l - 1] what was there plus every
   * work item's contribution.
   */
  lemma KernelAccumulates(fx: Fixes, L0: Layer, below0: Mult4, mult: Mult4, slot: int, n: nat,
                          a: int, b: int, c: int, q: int)
    requires fx.accumulate
    requires L0.Valid() && L0.Ready(slot) && HasShape4(mult, L0.Out(), n) && HasShape4(below0, L0.In(), n)
    requires InBox(L0.In(), a, b, c) && 0 <= q < n
    ensures BelowAfter(fx, L0, below0, mult, slot, n)[a][b][c][q]
      == below0[a][b][c][q] + Total(Contribs(fx.trueRanges, L0, mult, slot, n, a, b, c, q), Size(L0.Out()))
  {
    RunAccumulates(below0[a][b][c][q], Contribs(fx.trueRanges, L0, mult, slot, n, a, b, c, q), Size(L0.Out()));
  }

  /**
   * As written, kernel l leaves in gradMults[l - 1] only what its last work item
   * propagated, whatever was there before.
   */
  lemma KernelKeepsLastItem(fx: Fixes, L0: Layer, below0: Mult4, mult: Mult4, slot: int, n: nat,
                            a: int, b: int, c: int, q: int)
    requires !fx.accumulate
    requires L0.Valid() && L0.Ready(slot) && HasShape4(mult, L0.Out(), n) && HasShape4(below0, L0.In(), n)
    requires InBox(L0.In(), a, b, c) && 0 <= q < n
    ensures Size(L0.Out()) > 0
    ensures BelowAfter(fx, L0, below0, mult, slot, n)[a][b][c][q]
      == Contribs(fx.trueRanges, L0, mult, slot, n, a, b, c, q)(Size(L0.Out()) - 1)
  {
    SizePositive(L0.Out());
  }

  // ---------------------------------------------------------------------------
  // What a kernel run leaves in grads[l]

  /** A convolutional layer's zero copy, combined at any scale, leaves a gradient as it was. */
  lemma CombineZeroConv(L: Layer, g: Layer, m: real)
    requires L.Valid() && L.ConvL? && GradFits(L, g)
    ensures CombineScale(L, g, ZeroCopy(L), m) == g
  {
    assert ZeroCopy(L).conv == Conv.ZeroCopy(g.conv);
    Conv.CombineScaleNeutral(g.conv, ZeroCopy(L).conv, m);
  }

  // ---------------------------------------------------------------------------
  // Zero multipliers

  /** Every multiplier of the box is zero. */
  ghost predicate ZeroMult(mult: Mult4, s: Shape, n: int)
    requires HasShape4(mult, s, n)
  {
    forall i, j, k, q :: InBox(s, i, j, k) && 0 <= q < n ==> mult[i][j][k][q] == 0.0
  }

  /** With zero multipliers every work item returns first and leaves the layer as it was. */
  lemma ZeroRowLayer(L: Layer, mult: Mult4, slot: int, n: int, ijk: int)
    requires L.Valid() && L.Ready(slot) && HasShape4(mult, L.Out(), n) && 0 <= ijk < Size(L.Out())
    requires ZeroMult(mult, L.Out(), n)
    ensures NextLayer(L, mult, slot, n, ijk) == L
  {
    DecodeFlat(L.Out(), ijk);
    assert LowestNonzero(Row(L, mult, n, ijk)) == n;
  }

  /** With zero multipliers every work item's row is zero. */
  lemma ZeroRow(L: Layer, mult: Mult4, n: int, ijk: int)
    requires L.Valid() && Positive(L.Out()) && HasShape4(mult, L.Out(), n) && 0 <= ijk < Size(L.Out())
    requires ZeroMult(mult, L.Out(), n)
    ensures forall r :: 0 <= r < n ==> Row(L, mult, n, ijk)[r] == 0.0
  {
    DecodeFlat(L.Out(), ijk);
  }

  /** Combining with an all-zero row changes no gradient. */
  lemma CombineZeroRow(L: Layer, grads: seq<Layer>, og: Layer, row: seq<real>)
    requires L.Valid() && |grads| == |row| && AddFits(L, og)
    requires forall r :: 0 <= r < |grads| ==> GradFits(L, grads[r])
    requires forall r :: 0 <= r < |row| ==> row[r] == 0.0
    ensures CombineRow(L, grads, og, row) == grads
  {
  }

  /** With zero multipliers a work item propagates nothing. */
  lemma ZeroRowContrib(trueRanges: bool, L: Layer, mult: Mult4, slot: int, n: int, ijk: int, a: int, b: int, c: int, q: int)
    requires L.Valid() && L.Ready(slot) && HasShape4(mult, L.Out(), n) && 0 <= ijk < Size(L.Out())
    requires ZeroMult(mult, L.Out(), n) && 0 <= q < n
    ensures ContribAt(trueRanges, L, mult, slot, n, ijk, a, b, c, q) == 0.0
  {
    DecodeFlat(L.Out(), ijk);
  }

  /** With zero multipliers no work item propagates anything. */
  lemma ContribsZero(trueRanges: bool, L0: Layer, mult: Mult4, slot: int, n: int, a: int, b: int, c: int, q: int)
    requires L0.Valid() && L0.Ready(slot) && HasShape4(mult, L0.Out(), n) && 0 <= q < n
    requires ZeroMult(mult, L0.Out(), n)
    ensures forall t: nat :: t < Size(L0.Out()) ==> Contribs(trueRanges, L0, mult, slot, n, a, b, c, q)(t) == 0.0
  {
    forall t: nat | t < Size(L0.Out()) ensures Contribs(trueRanges, L0, mult, slot, n, a, b, c, q)(t) == 0.0 {
      ZeroRowContrib(trueRanges, L0, mult, slot, n, t, a, b, c, q);
    }
  }

  /** As written, a kernel run over a convolutional layer learns nothing: grads[l] stays as it was. */
  lemma ConvAsWrittenLearnsNothing(L0: Layer, grads0: seq<Layer>, mult: Mult4, slot: int, n: int)
    requires L0.Valid() && L0.Ready(slot) && HasShape4(mult, L0.Out(), n)
    requires |grads0| == n && forall r :: 0 <= r < n ==> GradFits(L0, grads0[r])
    requires L0.ConvL?
    ensures GradsAfter(L0, grads0, OutputGrads(false, L0, slot), mult, n, Size(L0.Out())) == grads0
  {
    var ogs := OutputGrads(false, L0, slot);
    forall t, g, x | 0 <= t < |ogs| && GradFits(L0, g) ensures CombineScale(L0, g, ogs[t], x) == g {
      CombineZeroConv(L0, g, x);
    }
    GradsAfterNeutral(L0, grads0, ogs, mult, n, Size(L0.Out()));
  }

  /**
   * A kernel run with zero multipliers leaves grads[l] as it was, and
   * gradMults[l - 1] as it was (accumulating) or zero.
   */
  lemma KernelOfZeroRows(fx: Fixes, l: int, L0: Layer, grads0: seq<Layer>, below0: Mult4, mult: Mult4, slot: int, n: nat)
    requires KernelReady(L0, grads0, mult, slot, n) && (l > 0 ==> HasShape4(below0, L0.In(), n))
    requires ZeroMult(mult, L0.Out(), n)
    ensures Kernel(fx, l, L0, grads0, below0, mult, slot, n).grads == grads0
    ensures l > 0 ==> forall a, b, c, q :: InBox(L0.In(), a, b, c) && 0 <= q < n ==>
      Kernel(fx, l, L0, grads0, below0, mult, slot, n).below[a][b][c][q] == if fx.accumulate then below0[a][b][c][q] else 0.0
  {
    SizePositive(L0.Out());
    GradsAfterZero(L0, grads0, OutputGrads(fx.convGrad, L0, slot), mult, n, Size(L0.Out()));
    if l > 0 {
      BelowOfZeroRows(fx, L0, below0, mult, slot, n);
    }
  }

  /** Zero multipliers propagate nothing: gradMults[l - 1] stays (accumulating) or becomes zero. */
  lemma BelowOfZeroRows(fx: Fixes, L0: Layer, below0: Mult4, mult: Mult4, slot: int, n: nat)
    requires L0.Valid() && L0.Ready(slot) && HasShape4(mult, L0.Out(), n) && HasShape4(below0, L0.In(), n)
    requires ZeroMult(mult, L0.Out(), n)
    ensures forall a, b, c, q :: InBox(L0.In(), a, b, c) && 0 <= q < n ==>
      BelowAfter(fx, L0, below0, mult, slot, n)[a][b][c][q] == if fx.accumulate then below0[a][b][c][q] else 0.0
  {
    SizePositive(L0.Out());
    forall a, b, c, q | InBox(L0.In(), a, b, c) && 0 <= q < n
      ensures BelowAfter(fx, L0, below0, mult, slot, n)[a][b][c][q] == if fx.accumulate then below0[a][b][c][q] else 0.0
    {
      ContribsZero(fx.trueRanges, L0, mult, slot, n, a, b, c, q);
      RunOfNothing(below0[a][b][c][q], Contribs(fx.trueRanges, L0, mult, slot, n, a, b, c, q), fx.accumulate, Size(L0.Out()));
    }
  }

  // ---------------------------------------------------------------------------
  // computeBackProp

  /**
   * Kernels l - 1, ..., 0 may still run: the layers are chained and ready at the
   * slot, every layer's row holds n gradients that fit it, and gradMults[l - 1]
   * has layer l - 1's output shape.
   */
  ghost predicate BackReady(layers: seq<Layer>, grads: seq<seq<Layer>>, mult: Mult4, slot: int, n: nat, l: int)
  {
    && Chained(layers) && 0 <= l <= |layers| && |grads| == |layers|
    && (forall t :: 0 <= t < |layers| ==> layers[t].Valid() && layers[t].Ready(slot))
    && (forall t :: 0 <= t < |layers| ==> |grads[t]| == n)
    && (forall t, r :: 0 <= t < |layers| && 0 <= r < n ==> layers[t].Valid() && GradFits(layers[t], grads[t][r]))
    && (l > 0 ==> layers[l - 1].Valid() && HasShape4(mult, layers[l - 1].Out(), n))
  }

  /** Replacing layer l - 1 and its gradients by what its kernel left keeps kernels l - 2, ..., 0 runnable. */
  lemma BackStep(layers: seq<Layer>, grads: seq<seq<Layer>>, mult: Mult4, slot: int, n: nat, l: int,
                 L2: Layer, g2: seq<Layer>, below: Mult4)
    requires BackReady(layers, grads, mult, slot, n, l) && l > 0
    requires L2.Valid() && L2.Ready(slot) && L2.Strip() == layers[l - 1].Strip() && L2.Params() == layers[l - 1].Params()
    requires |g2| == n && forall r :: 0 <= r < n ==> GradFits(layers[l - 1], g2[r])
    requires l > 1 ==> HasShape4(below, layers[l - 1].In(), n)
    ensures BackReady(layers[l - 1 := L2], grads[l - 1 := g2], below, slot, n, l - 1)
  {
    var ls := layers[l - 1 := L2];
    SameParamsChained(layers, ls);
    forall r | 0 <= r < n ensures GradFits(L2, g2[r]) {
      FitsAfterStrip(layers[l - 1], L2, g2[r]);
    }
    if l > 1 {
      assert LayerOk(layers[l - 2]) && LayerOk(layers[l - 1]);
      assert Links(layers, l - 2);
    }
  }

  /** Every layer of `after` is its counterpart of `before` with other caches, ranges and coordinates, ready at the slot. */
  ghost predicate Kept(before: seq<Layer>, after: seq<Layer>, slot: int)
  {
    && |after| == |before|
    && forall t :: 0 <= t < |before| ==>
      && after[t].Valid() && after[t].Ready(slot) && after[t].Strip() == before[t].Strip()
      && after[t].Params() == before[t].Params() && after[t].Base().lastX == before[t].Base().lastX
  }

  /** Every layer's row holds n gradients that fit it. */
  ghost predicate GradsFit(layers: seq<Layer>, grads: seq<seq<Layer>>, n: int)
  {
    && |grads| == |layers|
    && (forall t :: 0 <= t < |layers| ==> |grads[t]| == n)
    && (forall t, r :: 0 <= t < |layers| && 0 <= r < n ==> GradFits(layers[t], grads[t][r]))
  }

  /** What holds of the layers after kernel l - 1 replaced one of them holds of the layers before it. */
  lemma BackFrame(layers: seq<Layer>, grads: seq<seq<Layer>>, slot: int, n: nat, l: int,
                  L2: Layer, g2: seq<Layer>, r0: seq<Layer>, r1: seq<seq<Layer>>)
    requires 0 < l <= |layers| && |grads| == |layers| && layers[l - 1].Valid()
    requires L2.Valid() && L2.Strip() == layers[l - 1].Strip() && L2.Params() == layers[l - 1].Params()
    requires L2.Base().lastX == layers[l - 1].Base().lastX
    requires Kept(layers[l - 1 := L2], r0, slot) && GradsFit(layers[l - 1 := L2], r1, n)
    requires forall t :: l - 1 <= t < |layers| ==> r0[t] == layers[l - 1 := L2][t] && r1[t] == grads[l - 1 := g2][t]
    ensures Kept(layers, r0, slot) && GradsFit(layers, r1, n)
    ensures forall t :: l <= t < |layers| ==> r0[t] == layers[t] && r1[t] == grads[t]
  {
    var ls := layers[l - 1 := L2];
    forall t, q | 0 <= t < |layers| && 0 <= q < n ensures GradFits(layers[t], r1[t][q]) {
      assert GradFits(ls[t], r1[t][q]);
      if t == l - 1 {
        FitsAfterStrip(L2, layers[t], r1[t][q]);
      } else {
        assert ls[t] == layers[t];
      }
    }
  }

  /**
   * The loop of computeBackProp from layer l - 1 down to 0: kernel t runs on
   * gradMults[t], which kernel t + 1 left, and leaves gradMults[t - 1]. With the
   * fix the entries kernel t accumulates into start from zero.
   */
  function Backward(fx: Fixes, layers: seq<Layer>, grads: seq<seq<Layer>>, mult: Mult4, slot: int, n: nat, l: int): (r: (seq<Layer>, seq<seq<Layer>>))
    requires BackReady(layers, grads, mult, slot, n, l)
    ensures Kept(layers, r.0, slot) && GradsFit(layers, r.1, n)
    ensures forall t :: l <= t < |layers| ==> r.0[t] == layers[t] && r.1[t] == grads[t]
    decreases l
  {
    if l == 0 then (layers, grads)
    else
      var L := layers[l - 1];
      var st := Kernel(fx, l - 1, L, grads[l - 1], Zeros4(L.In(), n), mult, slot, n);
      BackStep(layers, grads, mult, slot, n, l, st.layer, st.grads, st.below);
      var r := Backward(fx, layers[l - 1 := st.layer], grads[l - 1 := st.grads], st.below, slot, n, l - 1);
      BackFrame(layers, grads, slot, n, l, st.layer, st.grads, r.0, r.1);
      r
  }

  /** Gradients that fit the layers before the pass fit the layers it left. */
  lemma KeptFits(layers: seq<Layer>, r0: seq<Layer>, r1: seq<seq<Layer>>, slot: int, n: nat)
    requires Kept(layers, r0, slot) && GradsFit(layers, r1, n)
    requires forall t :: 0 <= t < |layers| ==> layers[t].Valid()
    ensures GradsFit(r0, r1, n)
  {
    forall t, q | 0 <= t < |layers| && 0 <= q < n ensures GradFits(r0[t], r1[t][q]) {
      FitsAfterStrip(layers[t], r0[t], r1[t][q]);
    }
  }

  /**
   * The multipliers computeBackProp seeds the last layer with: a numOutputs × 1 × 1
   * volume whose row at output i holds the error eval[i] - ans[i] at column i and
   * zero elsewhere.
   */
  function Seed(n: nat, ans: seq<real>, eval: seq<real>): (m: Mult4)
    requires |ans| >= n && |eval| >= n
    ensures HasShape4(m, Shape(n, 1, 1), n)
    ensures forall i, q :: 0 <= i < n && 0 <= q < n ==> m[i][0][0][q] == if q == i then eval[i] - ans[i] else 0.0
  {
    Build4(Shape(n, 1, 1), n, (a, b, c, q) => if a == q && 0 <= a < n then eval[a] - ans[a] else 0.0)
  }

  /** The seed is all zero exactly when the network's outputs equal the answers. */
  lemma SeedZero(n: nat, ans: seq<real>, eval: seq<real>)
    requires |ans| >= n && |eval| >= n
    ensures ZeroMult(Seed(n, ans, eval), Shape(n, 1, 1), n) <==> ans[..n] == eval[..n]
  {
    var m := Seed(n, ans, eval);
    if ZeroMult(m, Shape(n, 1, 1), n) {
      forall i | 0 <= i < n ensures ans[..n][i] == eval[..n][i] {
        assert InBox(Shape(n, 1, 1), i, 0, 0) && m[i][0][0][i] == 0.0;
      }
    }
    if ans[..n] == eval[..n] {
      forall i, j, k, q | InBox(Shape(n, 1, 1), i, j, k) && 0 <= q < n ensures m[i][j][k][q] == 0.0 {
        assert ans[..n][i] == eval[..n][i];
      }
    }
  }

  /**
   * computeBackProp: seed the last layer's multipliers with the output error and
   * run the kernels from the last layer down to the first. The layers keep their
   * parameters and weights; their caches, ranges and coordinates may change, and
   * every row of gradients still fits its layer.
   */
  function ComputeBackProp(fx: Fixes, net: Net, ans: seq<real>, eval: seq<real>, slot: int): (r: Net)
    requires net.Valid() && net.GradsReady()
    requires |ans| >= net.numOutputs && |eval| >= net.numOutputs
    requires forall l :: 0 <= l < |net.layers| ==> net.layers[l].Ready(slot)
    ensures r.Valid() && r.GradsReady()
    ensures r == net.(layers := r.layers, grads := r.grads)
    ensures Kept(net.layers, r.layers, slot)
  {
    var n := net.numOutputs;
    SeedReady(net, ans, eval, slot);
    var b := Backward(fx, net.layers, net.grads, Seed(n, ans, eval), slot, n, |net.layers|);
    Replaced(net, b.0, b.1, slot);
    net.(layers := b.0, grads := b.1)
  }

  /** A ready network with the output error as its seed can run every kernel. */
  lemma SeedReady(net: Net, ans: seq<real>, eval: seq<real>, slot: int)
    requires net.Valid() && net.GradsReady()
    requires |ans| >= net.numOutputs && |eval| >= net.numOutputs
    requires forall l :: 0 <= l < |net.layers| ==> net.layers[l].Ready(slot)
    ensures BackReady(net.layers, net.grads, Seed(net.numOutputs, ans, eval), slot, net.numOutputs, |net.layers|)
  {
  }

  /** Layers the kernels kept, with gradient rows that fit them, form a ready network again. */
  lemma Replaced(net: Net, r0: seq<Layer>, r1: seq<seq<Layer>>, slot: int)
    requires net.Valid() && net.GradsReady()
    requires Kept(net.layers, r0, slot) && GradsFit(net.layers, r1, net.numOutputs)
    ensures net.(layers := r0, grads := r1).Valid() && net.(layers := r0, grads := r1).GradsReady()
  {
    KeptFits(net.layers, r0, r1, slot, net.numOutputs);
    ReplacedValid(net, r0);
  }

  /** With zero multipliers at layer l - 1 no kernel below it changes a gradient. */
  lemma {:induction false} BackwardZero(fx: Fixes, layers: seq<Layer>, grads: seq<seq<Layer>>, mult: Mult4, slot: int, n: nat, l: int)
    requires BackReady(layers, grads, mult, slot, n, l)
    requires l > 0 ==> ZeroMult(mult, layers[l - 1].Out(), n)
    ensures Backward(fx, layers, grads, mult, slot, n, l).1 == grads
    decreases l
  {
    if l > 0 {
      var L := layers[l - 1];
      var z := Zeros4(L.In(), n);
      var st := Kernel(fx, l - 1, L, grads[l - 1], z, mult, slot, n);
      KernelOfZeroRows(fx, l - 1, L, grads[l - 1], z, mult, slot, n);
      BackStep(layers, grads, mult, slot, n, l, st.layer, st.grads, st.below);
      if l > 1 {
        assert Links(layers, l - 2);
        forall a, b, c, q | InBox(layers[l - 2].Out(), a, b, c) && 0 <= q < n ensures st.below[a][b][c][q] == 0.0 {
        }
      }
      BackwardZero(fx, layers[l - 1 := st.layer], grads[l - 1 := st.grads], st.below, slot, n, l - 1);
      assert grads[l - 1 := st.grads] == grads;
    }
  }

  /** When the outputs equal the answers computeBackProp leaves every gradient as it was. */
  lemma BackPropZeroError(fx: Fixes, net: Net, ans: seq<real>, eval: seq<real>, slot: int)
    requires net.Valid() && net.GradsReady()
    requires |ans| >= net.numOutputs && |eval| >= net.numOutputs
    requires forall l :: 0 <= l < |net.layers| ==> net.layers[l].Ready(slot)
    requires ans[..net.numOutputs] == eval[..net.numOutputs]
    ensures ComputeBackProp(fx, net, ans, eval, slot).grads == net.grads
  {
    var n := net.numOutputs;
    SeedZero(n, ans, eval);
    BackwardZero(fx, net.layers, net.grads, Seed(n, ans, eval), slot, n, |net.layers|);
  }
}

=== FILE: basic.dfy ===
/**
 * core.BasicNetworkParameters and core.BasicNetwork: a single sigmoid layer
 * from numInputs inputs to numOutputs outputs. The draws of initialValue are a
 * parameter: u(i, j) feeds entry (i, j) of a matrix.
 */
module Basic {
  import opened Wrappers
  import opened Approx
  import opened Utility
  import opened Matrices

  /** The sizes a BasicNetworkParameters holds. */
  datatype Params = Params(numInputs: nat, numOutputs: nat)

  /** setupWeights: a numOutputs × numInputs initialMatrix, every entry a fresh initialValue. */
  method SetupWeights(p: Params, u: (int, int) -> real) returns (w: seq<seq<real>>)
    requires Draws(u)
    ensures IsMatrix(w, p.numOutputs, p.numInputs)
    ensures forall i, j :: 0 <= i < p.numOutputs && 0 <= j < p.numInputs ==> w[i][j] == 2.0 * u(i, j) - 1.0
  {
    w := InitialMatrix(p.numOutputs, p.numInputs, false, u);
  }

  /** setupOffset: initialColumn(numOutputs), column 0 of a one-column initialMatrix. */
  method SetupOffset(p: Params, u: (int, int) -> real) returns (o: seq<real>)
    requires Draws(u)
    ensures |o| == p.numOutputs
    ensures forall i :: 0 <= i < p.numOutputs ==> o[i] == 2.0 * u(i, 0) - 1.0
  {
    o := InitialColumn(p.numOutputs, false, u);
  }

  /** The fields of a BasicNetwork. */
  datatype Net = Net(params: Params, weights: seq<seq<real>>, offset: seq<real>)
  {
    /** Weights and offset have the shapes setupWeights and setupOffset give. */
    ghost predicate Valid()
    {
      IsMatrix(weights, params.numOutputs, params.numInputs) && |offset| == params.numOutputs
    }
  }

  /** new BasicNetwork(params): weights and offset drawn in [-1, 1). */
  method NewNet(p: Params, uw: (int, int) -> real, uo: (int, int) -> real) returns (n: Net)
    requires Draws(uw) && Draws(uo)
    ensures n.Valid() && n.params == p
    ensures forall i, j :: 0 <= i < p.numOutputs && 0 <= j < p.numInputs ==> -1.0 <= n.weights[i][j] < 1.0
    ensures forall i :: 0 <= i < p.numOutputs ==> -1.0 <= n.offset[i] < 1.0
  {
    var w := SetupWeights(p, uw);
    var o := SetupOffset(p, uo);
    n := Net(p, w, o);
  }

  /**
   * evaluate(x): one output per row, the fast sigmoid of that row's dot product
   * with x plus its offset.
   */
  function Evaluate(t: Tables, net: Net, x: seq<real>): (y: seq<real>)
    requires t.Valid() && net.Valid() && |x| >= net.params.numInputs
    ensures |y| == net.params.numOutputs
    ensures forall i :: 0 <= i < |y| ==> y[i] == Lookup(t.values, Dot(net.weights[i], x) + net.offset[i])
  {
    Utility.Evaluate(t, net.weights, net.offset, x, true)
  }

  /**
   * getEmptyGradA: new double[weights.length][weights[0].length], a zero matrix
   * shaped like the weights. With no outputs weights[0] does not exist and the
   * call fails: None.
   */
  function EmptyGradA(net: Net): (g: Option<seq<seq<real>>>)
    requires net.Valid()
    ensures g.None? <==> net.params.numOutputs == 0
    ensures g.Some? ==> IsMatrix(g.value, net.params.numOutputs, net.params.numInputs)
    ensures g.Some? ==> forall i, j :: 0 <= i < |g.value| && 0 <= j < |g.value[i]| ==> g.value[i][j] == 0.0
  {
    if |net.weights| == 0 then None else Some(ZeroMatrix(|net.weights|, |net.weights[0]|))
  }

  /** getEmptyGradB: new double[offset.length], zeros shaped like the offset. */
  function EmptyGradB(net: Net): (g: seq<real>)
    requires net.Valid()
    ensures |g| == |net.offset|
    ensures forall i :: 0 <= i < |g| ==> g[i] == 0.0
  {
    seq(|net.offset|, _ => 0.0)
  }

  /** What gradChange's loops index: numOutputs rows of numInputs in gradA, numOutputs in gradB. */
  ghost predicate GradsFit(net: Net, gradA: seq<seq<real>>, gradB: seq<real>)
  {
    && |gradA| >= net.params.numOutputs && |gradB| >= net.params.numOutputs
    && forall i :: 0 <= i < net.params.numOutputs ==> |gradA[i]| >= net.params.numInputs
  }

  /** The gradient step on one row: weights[i][j] - rate·gradA[i][j] for each column j. */
  function StepRow(row: seq<real>, grad: seq<real>, rate: real): (r: seq<real>)
    requires |grad| >= |row|
    ensures |r| == |row|
  {
    seq(|row|, j requires 0 <= j < |row| => row[j] - Prod(rate, grad[j]))
  }

  /**
   * gradChange(gradA, gradB, rate) as its nested loops run: row by row, each weight
   * then the row's offset moves against its gradient.
   */
  method GradChange(net: Net, gradA: seq<seq<real>>, gradB: seq<real>, rate: real) returns (r: Net)
    requires net.Valid() && GradsFit(net, gradA, gradB)
    ensures r.Valid() && r.params == net.params
    ensures forall i, j :: 0 <= i < net.params.numOutputs && 0 <= j < net.params.numInputs ==>
      r.weights[i][j] + Prod(rate, gradA[i][j]) == net.weights[i][j]
    ensures forall i :: 0 <= i < net.params.numOutputs ==> r.offset[i] + Prod(rate, gradB[i]) == net.offset[i]
  {
    var w := net.weights;
    var o := net.offset;
    var i := 0;
    while i < net.params.numOutputs
      invariant 0 <= i <= net.params.numOutputs
      invariant IsMatrix(w, net.params.numOutputs, net.params.numInputs) && |o| == net.params.numOutputs
      invariant forall k :: 0 <= k < i ==> w[k] == StepRow(net.weights[k], gradA[k], rate)
      invariant forall k :: i <= k < net.params.numOutputs ==> w[k] == net.weights[k]
      invariant forall k :: 0 <= k < i ==> o[k] == net.offset[k] - Prod(rate, gradB[k])
      invariant forall k :: i <= k < net.params.numOutputs ==> o[k] == net.offset[k]
    {
      var row := w[i];
      var j := 0;
      while j < net.params.numInputs
        invariant 0 <= j <= net.params.numInputs && |row| == net.params.numInputs
        invariant forall c :: 0 <= c < j ==> row[c] == net.weights[i][c] - Prod(rate, gradA[i][c])
        invariant forall c :: j <= c < net.params.numInputs ==> row[c] == net.weights[i][c]
      {
        row := row[j := row[j] - Prod(rate, gradA[i][j])];
        j := j + 1;
      }
      w := w[i := row];
      o := o[i := o[i] - Prod(rate, gradB[i])];
      i := i + 1;
    }
    r := net.(weights := w, offset := o);
  }

  /** Zero gradients change nothing, whatever the rate. */
  lemma StepByZero(net: Net, r: Net, gradA: seq<seq<real>>, gradB: seq<real>, rate: real)
    requires net.Valid() && r.Valid() && r.params == net.params && GradsFit(net, gradA, gradB)
    requires forall i, j :: 0 <= i < net.params.numOutputs && 0 <= j < net.params.numInputs ==>
      r.weights[i][j] + Prod(rate, gradA[i][j]) == net.weights[i][j]
    requires forall i :: 0 <= i < net.params.numOutputs ==> r.offset[i] + Prod(rate, gradB[i]) == net.offset[i]
    requires forall i, j :: 0 <= i < net.params.numOutputs && 0 <= j < net.params.numInputs ==> gradA[i][j] == 0.0
    requires forall i :: 0 <= i < net.params.numOutputs ==> gradB[i] == 0.0
    ensures r == net
  {
    forall i | 0 <= i < net.params.numOutputs ensures r.weights[i] == net.weights[i] {
      forall j | 0 <= j < net.params.numInputs ensures r.weights[i][j] == net.weights[i][j] {
        assert Prod(rate, gradA[i][j]) == 0.0;
      }
    }
    forall i | 0 <= i < net.params.numOutputs ensures r.offset[i] == net.offset[i] {
      assert Prod(rate, gradB[i]) == 0.0;
    }
  }

  /** gradChange with getEmptyGradA and getEmptyGradB leaves the network as it was. */
  method EmptyStep(net: Net, rate: real) returns (r: Net)
    requires net.Valid() && net.params.numOutputs > 0
    ensures r == net
  {
    var gradA := EmptyGradA(net).value;
    var gradB := EmptyGradB(net);
    r := GradChange(net, gradA, gradB, rate);
    StepByZero(net, r, gradA, gradB, rate);
  }

  /** A step with rate followed by a step with -rate restores the network. */
  method StepUndone(net: Net, gradA: seq<seq<real>>, gradB: seq<real>, rate: real) returns (back: Net)
    requires net.Valid() && GradsFit(net, gradA, gradB)
    ensures back == net
  {
    var r := GradChange(net, gradA, gradB, rate);
    back := GradChange(r, gradA, gradB, -rate);
    forall i | 0 <= i < net.params.numOutputs ensures back.weights[i] == net.weights[i] {
      forall j | 0 <= j < net.params.numInputs ensures back.weights[i][j] == net.weights[i][j] {
        assert Prod(-rate, gradA[i][j]) == -Prod(rate, gradA[i][j]);
      }
    }
    forall i | 0 <= i < net.params.numOutputs ensures back.offset[i] == net.offset[i] {
      assert Prod(-rate, gradB[i]) == -Prod(rate, gradB[i]);
    }
  }
}

=== FILE: conv.dfy ===
/**
 * core.layer.ConvolutionalLayer: numConvs square kernels of side 2·convRadius - 1
 * applied to every input channel. Output channel n + k·numConvs is kernel n applied
 * to input channel k, with the window centred at (i - convMod, j - convMod).
 */
module Conv {
  import opened Wrappers
  import opened JavaMath
  import opened Tensor
  import opened Approx
  import opened ActFuncs
  import opened Utility
  import opened LayerConfig
  import opened LayerBase

  /** The kernel bank `new double[2r+1][2r+1][numConvs]`, r = convRadius - 1. */
  function KernelShape(lp: LayerParams): Shape
  {
    Shape(2 * lp.convRadius - 1, 2 * lp.convRadius - 1, lp.numConvs)
  }

  /** The fields of a ConvolutionalLayer: the Layer fields and the kernel bank Cs. */
  datatype ConvLayer = ConvLayer(base: Base, Cs: Vol)
  {
    /** A layer built by makeLayer: CONV parameters with both sizes set, and a bank of the right shape. */
    ghost predicate Valid()
    {
      && base.lp.layerType == CONV && base.lp.Valid()
      && base.lp.inputSize.Some? && base.lp.outputSize.Some?
      && base.lp.outputSize == GetOutputSize(base.lp, base.lp.inputSize.value)
      && HasShape(Cs, KernelShape(base.lp))
      && base.CachesAligned()
    }

    /** r = convRadius - 1, the reach of the window on each side of its centre. */
    function Reach(): int { base.lp.convRadius - 1 }

    function In(): Shape requires base.lp.inputSize.Some? { base.lp.inputSize.value }

    function Out(): Shape requires base.lp.outputSize.Some? { base.lp.outputSize.value }

    /** The other layer's bank has this layer's shape (the cast in combineScale). */
    ghost predicate Fits(other: ConvLayer)
    {
      HasShape(other.Cs, KernelShape(base.lp))
    }
  }

  /** Kernel entry Cs[a][b][n] (0 outside the bank). */
  function KAt(Cs: Vol, a: int, b: int, n: int): real
  {
    GetOrDefault(Cs, a, b, n, 0.0)
  }

  /**
   * setupCs(randomize): the bank is (2r+1) × (2r+1) × numConvs; with randomize each
   * entry is the random draw for its position, otherwise 0.
   */
  function SetupCs(lp: LayerParams, randomize: bool, draw: (int, int, int) -> real): (Cs: Vol)
    requires lp.convRadius > 0 && lp.numConvs > 0
    ensures HasShape(Cs, KernelShape(lp))
    ensures forall a, b, n :: InBox(KernelShape(lp), a, b, n) ==>
      Cs[a][b][n] == if randomize then draw(a, b, n) else 0.0
  {
    var s := KernelShape(lp);
    if randomize then seq(s.w, a => seq(s.h, b => seq(s.d, n => draw(a, b, n))))
    else Zeros(s)
  }

  /**
   * The public constructor (random bank) on parameters whose sizes makeLayer has set.
   * The caches are not allocated yet and the ranges keep their default.
   */
  function NewConvLayer(lp: LayerParams, draw: (int, int, int) -> real): (L: ConvLayer)
    requires lp.layerType == CONV && lp.Valid()
    requires lp.inputSize.Some? && lp.outputSize == GetOutputSize(lp, lp.inputSize.value)
    ensures L.Valid() && L.base == NewBase(lp)
    ensures forall a, b, n :: InBox(KernelShape(lp), a, b, n) ==> L.Cs[a][b][n] == draw(a, b, n)
  {
    ConvLayer(NewBase(lp), SetupCs(lp, true, draw))
  }

  /** zeroCopy: same parameters, an all-zero bank, no caches, default ranges. */
  function ZeroCopy(L: ConvLayer): (Z: ConvLayer)
    requires L.Valid()
    ensures Z.Valid() && Z.base == NewBase(L.base.lp) && L.Fits(Z)
    ensures forall a, b, n :: InBox(KernelShape(L.base.lp), a, b, n) ==> Z.Cs[a][b][n] == 0.0
  {
    ConvLayer(NewBase(L.base.lp), SetupCs(L.base.lp, false, (a, b, n) => 0.0))
  }

  // ---------------------------------------------------------------------------
  // convolve

  /**
   * Σ over ci + r < m of getOrDefault(x, i + ci, j + cj, k, 0) · Cs[ci + r][cj + r][n]:
   * one row of convolve's inner loop.
   */
  function RowSum(x: Vol, Cs: Vol, r: nat, i: int, j: int, k: int, n: int, cj: int, m: nat): real
  {
    if m == 0 then 0.0
    else RowSum(x, Cs, r, i, j, k, n, cj, m - 1)
         + Prod(GetOrDefault(x, i + (m - 1 - r), j + cj, k, 0.0), KAt(Cs, m - 1, cj + r, n))
  }

  /** The rows cj + r < rows of convolve's outer loop. */
  function WindowSum(x: Vol, Cs: Vol, r: nat, i: int, j: int, k: int, n: int, rows: nat): real
  {
    if rows == 0 then 0.0
    else WindowSum(x, Cs, r, i, j, k, n, rows - 1) + RowSum(x, Cs, r, i, j, k, n, rows - 1 - r, 2 * r + 1)
  }

  /** convolve(x, i, j, k, n): kernel n over the (2r+1)² window of channel k centred at (i, j). */
  function Convolve(x: Vol, Cs: Vol, r: nat, i: int, j: int, k: int, n: int): real
  {
    WindowSum(x, Cs, r, i, j, k, n, 2 * r + 1)
  }

  /** A kernel that is 1 at its centre and 0 elsewhere. */
  ghost predicate IsDelta(Cs: Vol, r: nat, n: int)
  {
    forall a, b :: 0 <= a <= 2 * r && 0 <= b <= 2 * r ==>
      KAt(Cs, a, b, n) == if a == r && b == r then 1.0 else 0.0
  }

  lemma {:induction false} RowSumOffCentre(x: Vol, Cs: Vol, r: nat, i: int, j: int, k: int, n: int, cj: int, m: nat)
    requires IsDelta(Cs, r, n) && 0 <= cj + r <= 2 * r && cj != 0 && m <= 2 * r + 1
    ensures RowSum(x, Cs, r, i, j, k, n, cj, m) == 0.0
  {
    if m > 0 {
      RowSumOffCentre(x, Cs, r, i, j, k, n, cj, m - 1);
      assert KAt(Cs, m - 1, cj + r, n) == 0.0;
    }
  }

  lemma {:induction false} RowSumCentre(x: Vol, Cs: Vol, r: nat, i: int, j: int, k: int, n: int, m: nat)
    requires IsDelta(Cs, r, n) && m <= 2 * r + 1
    ensures RowSum(x, Cs, r, i, j, k, n, 0, m) == if m > r then GetOrDefault(x, i, j, k, 0.0) else 0.0
  {
    if m > 0 {
      RowSumCentre(x, Cs, r, i, j, k, n, m - 1);
      assert KAt(Cs, m - 1, r, n) == if m - 1 == r then 1.0 else 0.0;
    }
  }

  lemma {:induction false} WindowSumDelta(x: Vol, Cs: Vol, r: nat, i: int, j: int, k: int, n: int, rows: nat)
    requires IsDelta(Cs, r, n) && rows <= 2 * r + 1
    ensures WindowSum(x, Cs, r, i, j, k, n, rows) == if rows > r then GetOrDefault(x, i, j, k, 0.0) else 0.0
  {
    if rows > 0 {
      WindowSumDelta(x, Cs, r, i, j, k, n, rows - 1);
      if rows - 1 == r {
        RowSumCentre(x, Cs, r, i, j, k, n, 2 * r + 1);
      } else {
        RowSumOffCentre(x, Cs, r, i, j, k, n, rows - 1 - r, 2 * r + 1);
      }
    }
  }

  /**
   * The window is centred where convolve is told: with a kernel that is 1 at its
   * centre and 0 elsewhere, convolve(x, i, j, k, n) reads exactly x[i][j][k] (0 off the input).
   */
  lemma ConvolveDeltaReadsCentre(x: Vol, Cs: Vol, r: nat, i: int, j: int, k: int, n: int)
    requires IsDelta(Cs, r, n)
    ensures Convolve(x, Cs, r, i, j, k, n) == GetOrDefault(x, i, j, k, 0.0)
  {
    WindowSumDelta(x, Cs, r, i, j, k, n, 2 * r + 1);
  }

  /**
   * evaluate reads input column i - convMod + ci for output column i and offset
   * -r <= ci <= r. On an input w wide (output w + 2·convMod wide) every read lies
   * within min(pad, r) columns of the input, so pad == 0 never reads outside it.
   * The same holds for rows.
   */
  lemma ConvReadsWithinPad(lp: LayerParams, w: int, i: int, ci: int)
    requires lp.layerType == CONV && lp.Valid()
    requires 0 <= i < w + 2 * lp.convMod
    requires -(lp.convRadius - 1) <= ci <= lp.convRadius - 1
    ensures -Min(lp.pad, lp.convRadius - 1) <= i - lp.convMod + ci < w + Min(lp.pad, lp.convRadius - 1)
    ensures lp.pad == 0 ==> 0 <= i - lp.convMod + ci < w
  {
  }

  // ---------------------------------------------------------------------------
  // Channels n + k·numConvs

  /** Output channel of kernel n on input channel k. */
  function Channel(n: int, k: int, nc: int): int
  {
    n + k * nc
  }

  /** (n, k) -> n + k·nc is one-to-one from [0, nc) × [0, d) onto [0, d·nc), decoded by % and /. */
  lemma ChannelCode(n: int, k: int, nc: int, d: int)
    requires 0 <= n < nc && 0 <= k < d
    ensures 0 <= Channel(n, k, nc) < d * nc
    ensures Channel(n, k, nc) % nc == n && Channel(n, k, nc) / nc == k
  {
    DivModUnique(Channel(n, k, nc), nc, k, n);
    MulMono(nc, k, d - 1);
    MulSub(nc, d, 1);
  }

  /** Every channel below d·nc is the code of its decoding. */
  lemma ChannelDecode(c: int, nc: int, d: int)
    requires nc > 0 && 0 <= c < d * nc
    ensures 0 <= c % nc < nc && 0 <= c / nc < d
    ensures Channel(c % nc, c / nc, nc) == c
  {
    QuotientBelow(c, nc, d);
  }

  // ---------------------------------------------------------------------------
  // evaluate

  /** The raw convolution behind output (i, j, c), c decoded into kernel c % nc and input channel c / nc. */
  function RawAt(L: ConvLayer, x: Vol, i: int, j: int, c: int): real
    requires L.Valid()
  {
    var lp := L.base.lp;
    Convolve(x, L.Cs, L.Reach(), i - lp.convMod, j - lp.convMod, c / lp.numConvs, c % lp.numConvs)
  }

  /** The volume of raw convolutions, in the output's shape. */
  function RawVolume(L: ConvLayer, x: Vol): (v: Vol)
    requires L.Valid() && NonNegative(L.Out())
    ensures HasShape(v, L.Out())
    ensures forall i, j, c :: InBox(L.Out(), i, j, c) ==> v[i][j][c] == RawAt(L, x, i, j, c)
  {
    var s := L.Out();
    seq(s.w, i => seq(s.h, j => seq(s.d, c => RawAt(L, x, i, j, c))))
  }

  /** The activation (or its derivative) of every entry of a volume. */
  function MapVol(t: Tables, v: Vol, s: Shape, f: ActFunc, prime: bool): (r: Vol)
    requires t.Valid() && HasShape(v, s) && NonNegative(s)
    ensures HasShape(r, s)
    ensures forall i, j, c :: InBox(s, i, j, c) ==>
      r[i][j][c] == if prime then ApplyPrime(t, v[i][j][c], f) else Apply(t, v[i][j][c], f)
  {
    seq(s.w, i requires 0 <= i < s.w => seq(s.h, j requires 0 <= j < s.h => seq(s.d, c requires 0 <= c < s.d =>
      if prime then ApplyPrime(t, v[i][j][c], f) else Apply(t, v[i][j][c], f))))
  }

  /**
   * evaluate(x, slot): y[i][j][n + k·nc] = act(convolve(x, i - convMod, j - convMod, k, n))
   * for every kernel n and input channel k, z the same with act', and the layer
   * with x and z cached at the slot. `new double[...]` of a negative output size
   * throws, hence the non-negative output.
   */
  function Evaluate(t: Tables, L: ConvLayer, x: Vol, slot: int): (r: (Vol, ConvLayer))
    requires t.Valid() && L.Valid() && NonNegative(L.Out())
    requires 0 <= slot < |L.base.lastX|
    ensures HasShape(r.0, L.Out())
    ensures forall i, j, n, k ::
      (0 <= i < L.Out().w && 0 <= j < L.Out().h && 0 <= n < L.base.lp.numConvs && 0 <= k < L.In().d) ==>
      var c := Channel(n, k, L.base.lp.numConvs);
      0 <= c < L.Out().d
      && r.0[i][j][c] == Apply(t, Convolve(x, L.Cs, L.Reach(), i - L.base.lp.convMod, j - L.base.lp.convMod, k, n), L.base.lp.actFunc.value)
    ensures r.1.Valid() && r.1.Cs == L.Cs && r.1.base.lp == L.base.lp && r.1.base.ranges == L.base.ranges
    ensures |r.1.base.lastX| == |L.base.lastX|
    ensures r.1.base.Cached(slot) && r.1.base.lastX[slot] == Some(x)
    ensures HasShape(r.1.base.lastPrime[slot].value, L.Out())
    ensures forall i, j, n, k ::
      (0 <= i < L.Out().w && 0 <= j < L.Out().h && 0 <= n < L.base.lp.numConvs && 0 <= k < L.In().d) ==>
      var c := Channel(n, k, L.base.lp.numConvs);
      0 <= c < L.Out().d
      && r.1.base.lastPrime[slot].value[i][j][c]
         == ApplyPrime(t, Convolve(x, L.Cs, L.Reach(), i - L.base.lp.convMod, j - L.base.lp.convMod, k, n), L.base.lp.actFunc.value)
    ensures forall s :: 0 <= s < |L.base.lastX| && s != slot ==>
      r.1.base.lastX[s] == L.base.lastX[s] && r.1.base.lastPrime[s] == L.base.lastPrime[s]
  {
    var lp := L.base.lp;
    var raw := RawVolume(L, x);
    var y := MapVol(t, raw, L.Out(), lp.actFunc.value, false);
    var z := MapVol(t, raw, L.Out(), lp.actFunc.value, true);
    forall n, k | 0 <= n < lp.numConvs && 0 <= k < L.In().d
      ensures 0 <= Channel(n, k, lp.numConvs) < L.Out().d
      ensures Channel(n, k, lp.numConvs) % lp.numConvs == n && Channel(n, k, lp.numConvs) / lp.numConvs == k
    {
      ChannelCode(n, k, lp.numConvs, L.In().d);
    }
    (y, L.(base := CacheAt(L.base, slot, x, z)))
  }

  /** The output reads the kernel bank and the parameters only: the caches and the slot do not matter. */
  lemma EvaluateReadsWeights(t: Tables, c: ConvLayer, c2: ConvLayer, x: Vol, s: int, s2: int)
    requires t.Valid() && c.Valid() && NonNegative(c.Out()) && 0 <= s < |c.base.lastX|
    requires c2.Cs == c.Cs && c2.base.lp == c.base.lp && c2.Valid() && 0 <= s2 < |c2.base.lastX|
    ensures Evaluate(t, c2, x, s2).0 == Evaluate(t, c, x, s).0
  {
    VolEq(RawVolume(c2, x), RawVolume(c, x), c.Out());
  }

  /** Every output channel is written: channel c holds kernel c % nc on input channel c / nc. */
  lemma EvaluateCoversChannels(t: Tables, L: ConvLayer, x: Vol, slot: int, i: int, j: int, c: int)
    requires t.Valid() && L.Valid() && NonNegative(L.Out())
    requires 0 <= slot < |L.base.lastX|
    requires InBox(L.Out(), i, j, c)
    ensures 0 <= c % L.base.lp.numConvs < L.base.lp.numConvs && 0 <= c / L.base.lp.numConvs < L.In().d
    ensures Evaluate(t, L, x, slot).0[i][j][c]
      == Apply(t, Convolve(x, L.Cs, L.Reach(), i - L.base.lp.convMod, j - L.base.lp.convMod,
                           c / L.base.lp.numConvs, c % L.base.lp.numConvs), L.base.lp.actFunc.value)
  {
    var nc := L.base.lp.numConvs;
    ChannelDecode(c, nc, L.In().d);
  }

  // ---------------------------------------------------------------------------
  // getGradientX

  /**
   * One row of getGradientX's loop: for a < m, setIfCan(g, ci0 - r + a, y, xk,
   * Cs[a][b][n] · p). Only the cells of that row segment change.
   */
  function StampRow(g: Vol, Cs: Vol, r: int, n: int, p: real, ci0: int, y: int, xk: int, b: int, m: nat): (s: Vol)
    ensures |s| == |g|
    ensures forall a :: 0 <= a < |g| ==> |s[a]| == |g[a]|
    ensures forall a, b' :: 0 <= a < |g| && 0 <= b' < |g[a]| ==> |s[a][b']| == |g[a][b']|
    ensures forall a, b', c :: InVol(g, a, b', c) ==>
      s[a][b'][c] == if c == xk && b' == y && ci0 - r <= a < ci0 - r + m
                     then Prod(KAt(Cs, a - ci0 + r, b, n), p) else g[a][b'][c]
  {
    if m == 0 then g
    else SetIfCan(StampRow(g, Cs, r, n, p, ci0, y, xk, b, m - 1), ci0 - r + (m - 1), y, xk,
                  Prod(KAt(Cs, m - 1, b, n), p))
  }

  /** The rows b < rows of getGradientX's loop: row b writes y = cj0 - r + b. */
  function Stamp(g: Vol, Cs: Vol, r: nat, n: int, p: real, ci0: int, cj0: int, xk: int, rows: nat): (s: Vol)
    ensures |s| == |g|
    ensures forall a :: 0 <= a < |g| ==> |s[a]| == |g[a]|
    ensures forall a, b :: 0 <= a < |g| && 0 <= b < |g[a]| ==> |s[a][b]| == |g[a][b]|
    ensures forall a, b, c :: InVol(g, a, b, c) ==>
      s[a][b][c] == if c == xk && cj0 - r <= b < cj0 - r + rows && ci0 - r <= a <= ci0 + r
                    then Prod(KAt(Cs, a - ci0 + r, b - cj0 + r, n), p) else g[a][b][c]
  {
    if rows == 0 then g
    else StampRow(Stamp(g, Cs, r, n, p, ci0, cj0, xk, rows - 1), Cs, r, n, p, ci0, cj0 - r + (rows - 1), xk,
                  rows - 1, 2 * r + 1)
  }

  /** The cached derivative at output (i, j, k). */
  function PrimeAt(L: ConvLayer, slot: int, i: int, j: int, k: int): real
    requires L.base.Cached(slot) && InVol(L.base.lastPrime[slot].value, i, j, k)
  {
    L.base.lastPrime[slot].value[i][j][k]
  }

  /** The input cached at a slot is a non-empty volume (gradX is sized from it). */
  ghost predicate InputCached(L: ConvLayer, slot: int)
  {
    L.base.Cached(slot) && |L.base.lastX[slot].value| > 0 && |L.base.lastX[slot].value[0]| > 0
    && HasShape(L.base.lastX[slot].value, ShapeOf(L.base.lastX[slot].value))
  }

  /**
   * Entry (a, b, c) of getGradientX(i, j, k, slot): kernel k % nc at offset
   * (a - ci0 + r, b - cj0 + r) times the cached derivative, where (ci0, cj0) =
   * (i - convMod, j - convMod), when c is input channel k / nc and (a, b) lies in
   * the window; 0 elsewhere.
   */
  function GradXAt(L: ConvLayer, i: int, j: int, k: int, slot: int, a: int, b: int, c: int): real
    requires L.Valid() && L.base.Cached(slot) && InVol(L.base.lastPrime[slot].value, i, j, k)
  {
    var ci0, cj0, r := i - L.base.lp.convMod, j - L.base.lp.convMod, L.Reach();
    if c == k / L.base.lp.numConvs && ci0 - r <= a <= ci0 + r && cj0 - r <= b <= cj0 + r
    then Prod(KAt(L.Cs, a - ci0 + r, b - cj0 + r, k % L.base.lp.numConvs), PrimeAt(L, slot, i, j, k))
    else 0.0
  }

  /**
   * getGradientX(i, j, k, slot): a volume shaped like the cached input, built by
   * the (2r+1)² bounds-checked writes of the loop; entry by entry it is GradXAt.
   */
  function GetGradientX(L: ConvLayer, i: int, j: int, k: int, slot: int): (g: Vol)
    requires L.Valid() && InputCached(L, slot)
    requires InVol(L.base.lastPrime[slot].value, i, j, k)
    ensures HasShape(g, ShapeOf(L.base.lastX[slot].value))
    ensures forall a, b, c :: InBox(ShapeOf(L.base.lastX[slot].value), a, b, c) ==>
      g[a][b][c] == GradXAt(L, i, j, k, slot, a, b, c)
  {
    var lp := L.base.lp;
    var s := ShapeOf(L.base.lastX[slot].value);
    var r := L.Reach();
    var z := Zeros(s);
    var g := Stamp(z, L.Cs, r, k % lp.numConvs, PrimeAt(L, slot, i, j, k), i - lp.convMod, j - lp.convMod,
                   k / lp.numConvs, 2 * r + 1);
    forall a, b, c | InBox(s, a, b, c)
      ensures g[a][b][c] == GradXAt(L, i, j, k, slot, a, b, c)
    {
      assert InVol(z, a, b, c) && z[a][b][c] == 0.0;
    }
    g
  }

  /**
   * getGradientXNonzeroRanges(i, j, k): the window around (i - convMod, j - convMod)
   * clipped to the input, and the single input channel k / nc. ConvolutionalLayer
   * returns these but never stores them in the gradXNonzeroRanges field.
   */
  function GetGradientXNonzeroRanges(L: ConvLayer, i: int, j: int, k: int): (rg: Ranges)
    requires L.Valid()
    ensures rg.k == Range(Div(k, L.base.lp.numConvs), Div(k, L.base.lp.numConvs))
  {
    var lp := L.base.lp;
    var r := L.Reach();
    var cm := lp.convMod;
    Ranges(Range(Max(0, (i - cm) - r), Min(L.In().w - 1, (i - cm) + r)),
           Range(Max(0, (j - cm) - r), Min(L.In().h - 1, (j - cm) + r)),
           Range(Div(k, lp.numConvs), Div(k, lp.numConvs)))
  }

  /**
   * For an output position of the layer the ranges are a non-empty box inside the
   * input that holds the window's centre, on the single channel k / nc.
   */
  lemma NonzeroRangesWellFormed(L: ConvLayer, i: int, j: int, k: int)
    requires L.Valid() && InBox(L.Out(), i, j, k)
    ensures var rg := GetGradientXNonzeroRanges(L, i, j, k);
      && !rg.Empty() && rg.Within(L.In())
      && rg.Contains(i - L.base.lp.convMod, j - L.base.lp.convMod, k / L.base.lp.numConvs)
      && rg.k.lo == rg.k.hi == k / L.base.lp.numConvs
  {
    QuotientBelow(k, L.base.lp.numConvs, L.In().d);
  }

  /** getGradientX is zero outside getGradientXNonzeroRanges (footprint soundness). */
  lemma GradientXWithinNonzeroRanges(L: ConvLayer, i: int, j: int, k: int, slot: int, a: int, b: int, c: int)
    requires L.Valid() && InputCached(L, slot)
    requires InVol(L.base.lastPrime[slot].value, i, j, k)
    requires ShapeOf(L.base.lastX[slot].value) == L.In()
    requires InBox(L.In(), a, b, c) && GetGradientX(L, i, j, k, slot)[a][b][c] != 0.0
    ensures GetGradientXNonzeroRanges(L, i, j, k).Contains(a, b, c)
  {
  }

  /**
   * The gradXNonzeroRanges field keeps its default (0, 0, 0) for this layer: when
   * the kernel centre and the derivative are nonzero and the window's centre is not
   * the origin, getGradientX is nonzero at a position the field does not hold.
   */
  lemma FieldRangesMissGradient(L: ConvLayer, i: int, j: int, k: int, slot: int)
    requires L.Valid() && InputCached(L, slot)
    requires InVol(L.base.lastPrime[slot].value, i, j, k)
    requires ShapeOf(L.base.lastX[slot].value) == L.In() && InBox(L.Out(), i, j, k)
    requires L.base.ranges == DefaultRanges
    requires KAt(L.Cs, L.Reach(), L.Reach(), k % L.base.lp.numConvs) != 0.0 && PrimeAt(L, slot, i, j, k) != 0.0
    requires (i - L.base.lp.convMod, j - L.base.lp.convMod) != (0, 0) || k / L.base.lp.numConvs != 0
    ensures var ci0, cj0, xk := i - L.base.lp.convMod, j - L.base.lp.convMod, k / L.base.lp.numConvs;
      && InBox(L.In(), ci0, cj0, xk)
      && GetGradientX(L, i, j, k, slot)[ci0][cj0][xk] != 0.0
      && !L.base.ranges.Contains(ci0, cj0, xk)
  {
    var ci0, cj0, xk := i - L.base.lp.convMod, j - L.base.lp.convMod, k / L.base.lp.numConvs;
    GradientXAtCentre(L, i, j, k, slot);
    ProdNonzero(KAt(L.Cs, L.Reach(), L.Reach(), k % L.base.lp.numConvs), PrimeAt(L, slot, i, j, k));
    DefaultRangesIsOrigin(ci0, cj0, xk);
  }

  /** At the window's centre getGradientX is the kernel's centre times the derivative. */
  lemma GradientXAtCentre(L: ConvLayer, i: int, j: int, k: int, slot: int)
    requires L.Valid() && InputCached(L, slot)
    requires InVol(L.base.lastPrime[slot].value, i, j, k)
    requires ShapeOf(L.base.lastX[slot].value) == L.In() && InBox(L.Out(), i, j, k)
    ensures var ci0, cj0, xk := i - L.base.lp.convMod, j - L.base.lp.convMod, k / L.base.lp.numConvs;
      && InBox(L.In(), ci0, cj0, xk)
      && GetGradientX(L, i, j, k, slot)[ci0][cj0][xk]
         == Prod(KAt(L.Cs, L.Reach(), L.Reach(), k % L.base.lp.numConvs), PrimeAt(L, slot, i, j, k))
  {
    var ci0, cj0, xk := i - L.base.lp.convMod, j - L.base.lp.convMod, k / L.base.lp.numConvs;
    CentreInBox(L, i, j, k);
    assert GetGradientX(L, i, j, k, slot)[ci0][cj0][xk] == GradXAt(L, i, j, k, slot, ci0, cj0, xk);
  }

  /** The input position at the window's centre lies inside the input. */
  lemma CentreInBox(L: ConvLayer, i: int, j: int, k: int)
    requires L.Valid() && InBox(L.Out(), i, j, k)
    ensures InBox(L.In(), i - L.base.lp.convMod, j - L.base.lp.convMod, k / L.base.lp.numConvs)
  {
    var rg := GetGradientXNonzeroRanges(L, i, j, k);
    NonzeroRangesWellFormed(L, i, j, k);
    WithinMeansInBox(rg, L.In(), i - L.base.lp.convMod, j - L.base.lp.convMod, k / L.base.lp.numConvs);
  }

  // ---------------------------------------------------------------------------
  // assignGradientInto

  /**
   * assignGradientInto as written: the parameter is rebound to a fresh zero copy
   * before the writes, so the caller's receiver is what it was.
   */
  function AssignGradientIntoAsWritten(L: ConvLayer, recv: ConvLayer, i: int, j: int, k: int, slot: int): (R: ConvLayer)
    requires L.Valid() && L.base.Cached(slot) && recv.Valid()
    requires InVol(L.base.lastPrime[slot].value, i, j, k)
    ensures R == recv
  {
    recv
  }

  /**
   * The evidently intended assignGradientInto: the receiver is reset to zero and
   * Cs[ci + r][cj + r][k % nc] becomes getOrDefault(lastX, (i - convMod) + ci,
   * (j - convMod) + cj, k / nc, 0) times the cached derivative.
   */
  function AssignGradientInto(L: ConvLayer, recv: ConvLayer, i: int, j: int, k: int, slot: int): (R: ConvLayer)
    requires L.Valid() && L.base.Cached(slot) && recv.Valid() && recv.base.lp == L.base.lp
    requires InVol(L.base.lastPrime[slot].value, i, j, k)
    ensures R.Valid() && R.base == NewBase(recv.base.lp) && L.Fits(R)
    ensures forall a, b, c :: InBox(KernelShape(L.base.lp), a, b, c) ==>
      R.Cs[a][b][c] ==
        var r := L.Reach();
        if c == k % L.base.lp.numConvs
        then Prod(GetOrDefault(L.base.lastX[slot].value, i - L.base.lp.convMod + a - r, j - L.base.lp.convMod + b - r,
                               k / L.base.lp.numConvs, 0.0), PrimeAt(L, slot, i, j, k))
        else 0.0
  {
    var lp := L.base.lp;
    var s := KernelShape(lp);
    var r := L.Reach();
    var x, p := L.base.lastX[slot].value, PrimeAt(L, slot, i, j, k);
    var Cs := seq(s.w, a => seq(s.h, b => seq(s.d, c =>
      if c == k % lp.numConvs
      then Prod(GetOrDefault(x, i - lp.convMod + a - r, j - lp.convMod + b - r, k / lp.numConvs, 0.0), p)
      else 0.0)));
    ConvLayer(NewBase(recv.base.lp), Cs)
  }

  /**
   * The rebinding loses the gradient: with the zero copy the network passes as
   * receiver, the receiver stays all zero, while the intended write puts a nonzero
   * value at the kernel centre whenever the input at the window centre and the
   * derivative are nonzero.
   */
  lemma AssignGradientIntoLosesGradient(L: ConvLayer, i: int, j: int, k: int, slot: int)
    requires L.Valid() && L.base.Cached(slot)
    requires InVol(L.base.lastPrime[slot].value, i, j, k)
    requires GetOrDefault(L.base.lastX[slot].value, i - L.base.lp.convMod, j - L.base.lp.convMod,
                          k / L.base.lp.numConvs, 0.0) != 0.0
    requires PrimeAt(L, slot, i, j, k) != 0.0
    ensures var r, n := L.Reach(), k % L.base.lp.numConvs;
      && AssignGradientIntoAsWritten(L, ZeroCopy(L), i, j, k, slot).Cs[r][r][n] == 0.0
      && AssignGradientInto(L, ZeroCopy(L), i, j, k, slot).Cs[r][r][n] != 0.0
  {
    var r, n := L.Reach(), k % L.base.lp.numConvs;
    assert InBox(KernelShape(L.base.lp), r, r, n);
    var p := GetOrDefault(L.base.lastX[slot].value, i - L.base.lp.convMod, j - L.base.lp.convMod,
                          k / L.base.lp.numConvs, 0.0);
    var q := PrimeAt(L, slot, i, j, k);
    ProdNonzero(p, q);
  }

  /** A product of nonzero reals is nonzero. */
  lemma ProdNonzero(p: real, q: real)
    requires p != 0.0 && q != 0.0
    ensures Prod(p, q) != 0.0
  {
    if p > 0.0 && q > 0.0 { ProdPositive(p, q); }
    else if p < 0.0 && q < 0.0 { ProdPositive(-p, -q); assert Prod(-p, -q) == Prod(p, q); }
    else if p > 0.0 { ProdPositive(p, -q); assert Prod(p, -q) == -Prod(p, q); }
    else { ProdPositive(-p, q); assert Prod(-p, q) == -Prod(p, q); }
  }

  // ---------------------------------------------------------------------------
  // combineScale, train

  /** combineScale(other, scale): Cs += other.Cs · scale, entry by entry. */
  function CombineScale(L: ConvLayer, other: ConvLayer, scale: real): (R: ConvLayer)
    requires L.Valid() && L.Fits(other)
    ensures R.Valid() && R.base == L.base
    ensures forall a, b, n :: InBox(KernelShape(L.base.lp), a, b, n) ==>
      R.Cs[a][b][n] - L.Cs[a][b][n] == Prod(other.Cs[a][b][n], scale)
  {
    var s := KernelShape(L.base.lp);
    var Cs := seq(s.w, a requires 0 <= a < s.w => seq(s.h, b requires 0 <= b < s.h => seq(s.d, n requires 0 <= n < s.d =>
      L.Cs[a][b][n] + Prod(other.Cs[a][b][n], scale))));
    L.(Cs := Cs)
  }

  /** Adding a zero copy, or anything at scale 0, changes nothing. */
  lemma CombineScaleNeutral(L: ConvLayer, other: ConvLayer, scale: real)
    requires L.Valid() && L.Fits(other)
    requires scale == 0.0 || other == ZeroCopy(L)
    ensures CombineScale(L, other, scale) == L
  {
    var R := CombineScale(L, other, scale);
    var s := KernelShape(L.base.lp);
    forall a | 0 <= a < s.w ensures R.Cs[a] == L.Cs[a] {
      forall b | 0 <= b < s.h ensures R.Cs[a][b] == L.Cs[a][b] {
        assert |R.Cs[a][b]| == |L.Cs[a][b]|;
      }
    }
    assert R.Cs == L.Cs;
  }

  /** Combining with scale s and then with -s restores the layer. */
  lemma CombineScaleUndo(L: ConvLayer, other: ConvLayer, scale: real)
    requires L.Valid() && L.Fits(other)
    ensures CombineScale(CombineScale(L, other, scale), other, -scale) == L
  {
    var M := CombineScale(L, other, scale);
    var R := CombineScale(M, other, -scale);
    var s := KernelShape(L.base.lp);
    forall a | 0 <= a < s.w ensures R.Cs[a] == L.Cs[a] {
      forall b | 0 <= b < s.h ensures R.Cs[a][b] == L.Cs[a][b] {
        assert |R.Cs[a][b]| == |L.Cs[a][b]|;
        forall n | 0 <= n < s.d ensures R.Cs[a][b][n] == L.Cs[a][b][n] {
          assert Prod(other.Cs[a][b][n], -scale) == -Prod(other.Cs[a][b][n], scale);
        }
      }
    }
    assert R.Cs == L.Cs;
  }

  /** The bank after combining grads[..n] in order, each at `rate`. */
  function CombineAll(L: ConvLayer, grads: seq<ConvLayer>, rate: real, n: nat): (R: ConvLayer)
    requires L.Valid() && n <= |grads|
    requires forall t :: 0 <= t < |grads| ==> L.Fits(grads[t])
    ensures R.Valid() && R.base == L.base
  {
    if n == 0 then L else CombineScale(CombineAll(L, grads, rate, n - 1), grads[n - 1], rate)
  }

  /** Σ_{t < m} grads[t].Cs[a][b][n], reading 0 where a gradient has no such entry. */
  function SumCs(grads: seq<ConvLayer>, a: int, b: int, n: int, m: nat): real
    requires m <= |grads|
  {
    if m == 0 then 0.0 else SumCs(grads, a, b, n, m - 1) + KAt(grads[m - 1].Cs, a, b, n)
  }

  lemma Distribute(x: real, y: real, r: real)
    ensures Prod(x, r) + Prod(y, r) == Prod(x + y, r)
  {
  }

  /** Combining the gradients one at a time adds their sum times the rate to each kernel entry. */
  lemma {:induction false} CombineAllIsScaledSum(L: ConvLayer, grads: seq<ConvLayer>, rate: real, m: nat, a: int, b: int, n: int)
    requires L.Valid() && m <= |grads|
    requires forall t :: 0 <= t < |grads| ==> L.Fits(grads[t])
    requires InBox(KernelShape(L.base.lp), a, b, n)
    ensures CombineAll(L, grads, rate, m).Cs[a][b][n] == L.Cs[a][b][n] + Prod(SumCs(grads, a, b, n, m), rate)
  {
    if m > 0 {
      CombineAllIsScaledSum(L, grads, rate, m - 1, a, b, n);
      var g, P := grads[m - 1], CombineAll(L, grads, rate, m - 1);
      assert L.Fits(g);
      assert KAt(g.Cs, a, b, n) == g.Cs[a][b][n];
      Distribute(SumCs(grads, a, b, n, m - 1), g.Cs[a][b][n], rate);
      assert CombineAll(L, grads, rate, m) == CombineScale(P, g, rate);
    }
  }

  /** train(grads, rate): combine every gradient, then clear both caches. */
  function Train(L: ConvLayer, grads: seq<ConvLayer>, rate: real): (R: ConvLayer)
    requires L.Valid()
    requires forall t :: 0 <= t < |grads| ==> L.Fits(grads[t])
    ensures R.Valid() && R.base == ClearCaches(L.base)
  {
    var C := CombineAll(L, grads, rate, |grads|);
    C.(base := ClearCaches(C.base))
  }

  /** CombineAllIsScaledSum at every kernel entry, for the whole run of gradients. */
  lemma CombineAllAddsScaledSum(L: ConvLayer, grads: seq<ConvLayer>, rate: real)
    requires L.Valid()
    requires forall t :: 0 <= t < |grads| ==> L.Fits(grads[t])
    ensures forall a, b, n :: InBox(KernelShape(L.base.lp), a, b, n) ==>
      CombineAll(L, grads, rate, |grads|).Cs[a][b][n] == L.Cs[a][b][n] + Prod(SumCs(grads, a, b, n, |grads|), rate)
  {
    forall a, b, n | InBox(KernelShape(L.base.lp), a, b, n)
      ensures CombineAll(L, grads, rate, |grads|).Cs[a][b][n] == L.Cs[a][b][n] + Prod(SumCs(grads, a, b, n, |grads|), rate)
    {
      CombineAllIsScaledSum(L, grads, rate, |grads|, a, b, n);
    }
  }

  /** Training adds the sum of the gradients times the training rate to every kernel entry. */
  lemma TrainAddsScaledSum(L: ConvLayer, grads: seq<ConvLayer>, rate: real)
    requires L.Valid()
    requires forall t :: 0 <= t < |grads| ==> L.Fits(grads[t])
    ensures forall a, b, n :: InBox(KernelShape(L.base.lp), a, b, n) ==>
      Train(L, grads, rate).Cs[a][b][n] == L.Cs[a][b][n] + Prod(SumCs(grads, a, b, n, |grads|), rate)
  {
    CombineAllAddsScaledSum(L, grads, rate);
    assert Train(L, grads, rate).Cs == CombineAll(L, grads, rate, |grads|).Cs;
  }

  /**
   * Combining zero copies leaves the bank unchanged. These are the only gradients
   * the network can hand a convolutional layer, see AssignGradientIntoLosesGradient.
   */
  lemma {:induction false} CombineZeroCopies(L: ConvLayer, grads: seq<ConvLayer>, rate: real, n: nat)
    requires L.Valid() && n <= |grads|
    requires forall t :: 0 <= t < |grads| ==> L.Fits(grads[t]) && grads[t] == ZeroCopy(L)
    ensures CombineAll(L, grads, rate, n).Cs == L.Cs
  {
    if n > 0 {
      CombineZeroCopies(L, grads, rate, n - 1);
      var P := CombineAll(L, grads, rate, n - 1);
      assert P == L;
      CombineScaleNeutral(P, grads[n - 1], rate);
    }
  }

  /** Training on zero copies only clears the caches. */
  lemma TrainOnZeroCopies(L: ConvLayer, grads: seq<ConvLayer>, rate: real)
    requires L.Valid()
    requires forall t :: 0 <= t < |grads| ==> L.Fits(grads[t]) && grads[t] == ZeroCopy(L)
    ensures Train(L, grads, rate).Cs == L.Cs
  {
    CombineZeroCopies(L, grads, rate, |grads|);
  }
}

=== FILE: convnet.dfy ===
/**
 * core.network.ConvolutionalNetwork, the forward half: the constructor, the
 * conversions between the flat input/output arrays and volumes, evaluate (the
 * layers folded in order), prepareGrads and applyGrads. The backward pass is in
 * module BackProp.
 */
module ConvNet {
  import opened Wrappers
  import opened Tensor
  import opened Approx
  import opened Utility
  import opened LayerConfig
  import opened LayerBase
  import opened Layers
  import opened NetParams
  import Full

  /**
   * A list of layers the network can run: non-empty, every layer valid with
   * positive sizes, and each layer's output size the next one's input size (the
   * assertion of the constructor).
   */
  ghost predicate Chained(layers: seq<Layer>)
  {
    && |layers| > 0
    && (forall l :: 0 <= l < |layers| ==> layers[l].Valid())
    && (forall l :: 0 <= l < |layers| ==> LayerOk(layers[l]))
    && (forall l :: 0 <= l < |layers| - 1 ==> Links(layers, l))
  }

  /** A valid layer with both sizes set and positive. */
  ghost predicate LayerOk(L: Layer)
  {
    && L.Valid() && L.Params().inputSize.Some? && L.Params().outputSize.Some?
    && Positive(L.In()) && Positive(L.Out())
  }

  /** Layer l's output size is layer l + 1's input size. */
  ghost predicate Links(layers: seq<Layer>, l: int)
    requires 0 <= l < |layers| - 1
    requires LayerOk(layers[l]) && LayerOk(layers[l + 1])
  {
    layers[l].Out() == layers[l + 1].In()
  }

  /** Every layer has a cache slot `slot`. */
  ghost predicate SlotOk(layers: seq<Layer>, slot: int)
  {
    forall l :: 0 <= l < |layers| ==> 0 <= slot < |layers[l].Base().lastX|
  }

  /**
   * The fields of a ConvolutionalNetwork. `grads` is empty until prepareGrads
   * fills it with one row of numOutputs gradients per layer.
   */
  datatype Net = Net(layers: seq<Layer>, numInputs: int, numOutputs: int, batchSize: int, grads: seq<seq<Layer>>)
  {
    function In(): Shape requires |layers| > 0 { layers[0].In() }

    function Last(): Layer requires |layers| > 0 { layers[|layers| - 1] }

    /**
     * A network as the constructor leaves it: a chained list whose first layer
     * takes numInputs values and whose last layer gives numOutputs in a column
     * (the backward pass's seed has that shape), and batchSize slots in every cache.
     */
    ghost predicate Valid()
    {
      && Chained(layers) && numInputs == Size(In()) && numOutputs > 0
      && Last().Out() == Shape(numOutputs, 1, 1)
      && batchSize >= 0
      && (forall l :: 0 <= l < |layers| ==> |layers[l].Base().lastX| == batchSize)
    }

    /** The grads row of every layer holds numOutputs gradients that fit it. */
    ghost predicate GradsReady()
      requires Valid()
    {
      && |grads| == |layers|
      && (forall l :: 0 <= l < |layers| ==> |grads[l]| == numOutputs)
      && (forall l, r :: 0 <= l < |layers| && 0 <= r < numOutputs ==> GradFits(layers[l], grads[l][r]))
    }
  }

  /**
   * The constructor: setupLasts(batchSize) on every layer. The chain it asserts
   * and the shapes the passes need are required of the parameters.
   */
  function NewNet(p: NetParams): (n: Net)
    requires Chained(p.layers) && p.numInputs == Size(p.layers[0].In()) && p.numOutputs > 0
    requires p.layers[|p.layers| - 1].Out() == Shape(p.numOutputs, 1, 1)
    requires p.batchSize >= 0
    ensures n.Valid() && |n.layers| == |p.layers| && |n.grads| == 0
    ensures n.numInputs == p.numInputs && n.numOutputs == p.numOutputs && n.batchSize == p.batchSize
    ensures forall l :: 0 <= l < |p.layers| ==>
      n.layers[l].Strip() == p.layers[l].Strip() && n.layers[l].Params() == p.layers[l].Params()
      && forall s :: 0 <= s < p.batchSize ==> n.layers[l].Base().lastX[s].None?
  {
    var layers := seq(|p.layers|, l requires 0 <= l < |p.layers| => Layers.SetupLasts(p.layers[l], p.batchSize));
    SameParamsChained(p.layers, layers);
    Net(layers, p.numInputs, p.numOutputs, p.batchSize, [])
  }

  // ---------------------------------------------------------------------------
  // convertToVol, convertToArr

  /** The flat index i + j·w + k·h·w the conversion uses is Flat's. */
  lemma FlatAsWritten(s: Shape, i: int, j: int, k: int)
    ensures i + j * s.w + k * s.h * s.w == Flat(s, i, j, k)
  {
    assert s.w * (j + s.h * k) == j * s.w + k * s.h * s.w;
  }

  /**
   * convertToVol(x): the volume of the first layer's input size with
   * vol[i][j][k] = x[i + j·w + k·h·w]; x must hold that many values.
   */
  function ConvertToVol(n: Net, x: seq<real>): (v: Vol)
    requires n.Valid() && |x| >= n.numInputs
    ensures HasShape(v, n.In())
    ensures forall i, j, k :: InBox(n.In(), i, j, k) ==>
      0 <= i + j * n.In().w + k * n.In().h * n.In().w < |x| && v[i][j][k] == x[i + j * n.In().w + k * n.In().h * n.In().w]
  {
    var s := n.In();
    var v := ToVol(x, s);
    forall i, j, k | InBox(s, i, j, k)
      ensures 0 <= i + j * s.w + k * s.h * s.w < |x| && v[i][j][k] == x[i + j * s.w + k * s.h * s.w]
    {
      FlatAsWritten(s, i, j, k);
    }
    v
  }

  /**
   * convertToArr(vol): arr[i] = vol[i % w][(i / w) % h][i / (w·h)] for i below the
   * volume's size, w, h, d read from vol.length, vol[0].length, vol[0][0].length.
   */
  function ConvertToArr(v: Vol): (arr: seq<real>)
    requires |v| > 0 && |v[0]| > 0 && HasShape(v, ShapeOf(v))
    ensures |arr| == Size(ShapeOf(v))
    ensures Positive(ShapeOf(v)) ==> arr == ToArray(v, ShapeOf(v))
  {
    var s := ShapeOf(v);
    SizeNonNegative(s);
    var arr := seq(Size(s), a requires 0 <= a < Size(s) =>
      assert Positive(s) by { if s.d <= 0 { MulMono(s.w * s.h, s.d, 0); } }
      UnflatFlat(s, a);
      v[a % s.w][(a / s.w) % s.h][a / (s.w * s.h)]);
    if Positive(s) then
      assert forall a :: 0 <= a < Size(s) ==> arr[a] == ToArray(v, s)[a] by {
        forall a | 0 <= a < Size(s) ensures arr[a] == ToArray(v, s)[a] {
          UnflatFlat(s, a);
        }
      }
      arr
    else arr
  }

  /** A flat input of the right length survives the trip to a volume and back. */
  lemma ConvertRoundTrip(n: Net, x: seq<real>)
    requires n.Valid() && |x| == n.numInputs
    ensures ConvertToArr(ConvertToVol(n, x)) == x
  {
    ToArrayToVol(x, n.In());
  }

  /** A volume of the input's shape survives the trip to a flat array and back. */
  lemma ConvertRoundTripVol(n: Net, v: Vol)
    requires n.Valid() && HasShape(v, n.In())
    ensures |ConvertToArr(v)| == n.numInputs
    ensures ConvertToVol(n, ConvertToArr(v)) == v
  {
    ToVolToArray(v, n.In());
  }

  // ---------------------------------------------------------------------------
  // evaluate

  /**
   * The volume layer l receives from the layers before it when v0 enters the
   * first one: v0 itself for l = 0, else layer l-1's output on the volume it got.
   */
  function Activation(t: Tables, layers: seq<Layer>, v0: Vol, slot: int, l: nat): (v: Vol)
    requires t.Valid() && Chained(layers) && SlotOk(layers, slot)
    requires HasShape(v0, layers[0].In()) && l <= |layers|
    ensures l < |layers| ==> HasShape(v, layers[l].In())
    ensures l > 0 ==> HasShape(v, layers[l - 1].Out())
  {
    if l == 0 then v0
    else
      assert LayerOk(layers[l - 1]);
      var v := Layers.Evaluate(t, layers[l - 1], Activation(t, layers, v0, slot, l - 1), slot).0;
      assert l < |layers| ==> HasShape(v, layers[l].In()) by {
        if l < |layers| { assert Links(layers, l - 1); }
      }
      v
  }

  /**
   * Layer l after it has evaluated the volume it receives: its parameters kept,
   * that volume cached at the slot and every other slot as it was. If no entry of
   * the volume is below -Double.MAX_VALUE where the layer compares with it, the
   * layer is ready for the backward pass.
   */
  function Step(t: Tables, layers: seq<Layer>, v0: Vol, slot: int, l: nat): (L: Layer)
    requires t.Valid() && Chained(layers) && SlotOk(layers, slot)
    requires HasShape(v0, layers[0].In()) && l < |layers|
    ensures L.Valid() && L.Strip() == layers[l].Strip() && L.Params() == layers[l].Params()
    ensures |L.Base().lastX| == |layers[l].Base().lastX|
    ensures L.Base().lastX[slot] == Some(Activation(t, layers, v0, slot, l))
    ensures forall s :: 0 <= s < |layers[l].Base().lastX| && s != slot ==> L.Base().lastX[s] == layers[l].Base().lastX[s]
    ensures (ReadsLowest(layers[l]) ==> AboveLowest(Activation(t, layers, v0, slot, l), layers[l].In())) ==> L.Ready(slot)
  {
    assert LayerOk(layers[l]);
    Layers.Evaluate(t, layers[l], Activation(t, layers, v0, slot, l), slot).1
  }

  /**
   * The layers after evaluate's for-each loop: every layer stepped on the volume
   * it received.
   */
  function Stepped(t: Tables, layers: seq<Layer>, v0: Vol, slot: int): (r: seq<Layer>)
    requires t.Valid() && Chained(layers) && SlotOk(layers, slot)
    requires HasShape(v0, layers[0].In())
    ensures |r| == |layers| && forall l :: 0 <= l < |layers| ==> r[l] == Step(t, layers, v0, slot, l)
  {
    seq(|layers|, l requires 0 <= l < |layers| => Step(t, layers, v0, slot, l))
  }

  /** Stepping keeps every layer valid with its weights, parameters and slot count. */
  lemma SteppedKeeps(t: Tables, layers: seq<Layer>, v0: Vol, slot: int)
    requires t.Valid() && Chained(layers) && SlotOk(layers, slot)
    requires HasShape(v0, layers[0].In())
    ensures var r := Stepped(t, layers, v0, slot);
      forall l :: 0 <= l < |r| ==>
        r[l].Valid() && r[l].Strip() == layers[l].Strip() && r[l].Params() == layers[l].Params()
        && |r[l].Base().lastX| == |layers[l].Base().lastX|
  {
  }

  /** Two layer lists with the same weights and parameters, layer by layer. */
  ghost predicate SameStrips(layers: seq<Layer>, ls: seq<Layer>)
  {
    |ls| == |layers| && forall m :: 0 <= m < |layers| ==> ls[m].Strip() == layers[m].Strip() && ls[m].Params() == layers[m].Params()
  }

  /**
   * What the layers compute does not depend on what they have cached: lists with
   * the same weights and parameters pass the same volumes on, whatever the slot.
   */
  lemma {:induction false} ActivationReadsWeights(t: Tables, layers: seq<Layer>, ls: seq<Layer>, v0: Vol, s: int, s2: int, l: nat)
    requires t.Valid() && Chained(layers) && SlotOk(layers, s)
    requires HasShape(v0, layers[0].In()) && l <= |layers|
    requires Chained(ls) && SlotOk(ls, s2) && SameStrips(layers, ls)
    ensures Activation(t, ls, v0, s2, l) == Activation(t, layers, v0, s, l)
  {
    var k := 0;
    while k < l
      invariant k <= l && Activation(t, ls, v0, s2, k) == Activation(t, layers, v0, s, k)
    {
      k := k + 1;
      ActivationStep(t, layers, ls, v0, s, s2, k);
    }
  }

  lemma ActivationStep(t: Tables, layers: seq<Layer>, ls: seq<Layer>, v0: Vol, s: int, s2: int, l: nat)
    requires t.Valid() && Chained(layers) && SlotOk(layers, s)
    requires HasShape(v0, layers[0].In()) && 0 < l <= |layers|
    requires Chained(ls) && SlotOk(ls, s2) && SameStrips(layers, ls)
    requires Activation(t, ls, v0, s2, l - 1) == Activation(t, layers, v0, s, l - 1)
    ensures Activation(t, ls, v0, s2, l) == Activation(t, layers, v0, s, l)
  {
    assert LayerOk(layers[l - 1]);
    Layers.EvaluateReadsWeights(t, layers[l - 1], ls[l - 1], Activation(t, layers, v0, s, l - 1), s, s2);
  }

  /**
   * evaluate(x, slot): the last layer's output, flattened to numOutputs values;
   * the layers are the stepped ones, each with the volume it received cached at
   * the slot.
   */
  function Evaluate(t: Tables, n: Net, x: seq<real>, slot: int): (r: (seq<real>, Net))
    requires t.Valid() && n.Valid() && |x| >= n.numInputs && 0 <= slot < n.batchSize
    ensures |r.0| == n.numOutputs
    ensures forall i :: 0 <= i < n.numOutputs ==>
      r.0[i] == Activation(t, n.layers, ConvertToVol(n, x), slot, |n.layers|)[i][0][0]
    ensures r.1 == n.(layers := Stepped(t, n.layers, ConvertToVol(n, x), slot))
  {
    var v0 := ConvertToVol(n, x);
    var v := Activation(t, n.layers, v0, slot, |n.layers|);
    var out := n.Last().Out();
    assert HasShape(v, out);
    var arr := ConvertToArr(v);
    assert forall i :: 0 <= i < n.numOutputs ==> arr[i] == v[i][0][0] by {
      forall i | 0 <= i < n.numOutputs ensures arr[i] == v[i][0][0] {
        assert Flat(out, i, 0, 0) == i;
      }
    }
    (arr, n.(layers := Stepped(t, n.layers, v0, slot)))
  }

  /** Evaluating keeps the network valid: every layer keeps its parameters and slots. */
  lemma EvaluateKeepsValid(t: Tables, n: Net, x: seq<real>, slot: int)
    requires t.Valid() && n.Valid() && |x| >= n.numInputs && 0 <= slot < n.batchSize
    ensures Evaluate(t, n, x, slot).1.Valid()
  {
    ReplacedValid(n, Stepped(t, n.layers, ConvertToVol(n, x), slot));
  }

  // ---------------------------------------------------------------------------
  // prepareGrads, applyGrads

  /** prepareGrads: every layer's row holds numOutputs zero copies of the layer. */
  function PrepareGrads(n: Net): (r: Net)
    requires n.Valid()
    ensures r == n.(grads := r.grads) && r.Valid() && r.GradsReady()
    ensures forall l, s :: 0 <= l < |n.layers| && 0 <= s < n.numOutputs ==> r.grads[l][s] == ZeroCopy(n.layers[l])
  {
    var grads := seq(|n.layers|, l requires 0 <= l < |n.layers| =>
      seq(n.numOutputs, s => ZeroCopy(n.layers[l])));
    n.(grads := grads)
  }

  /** A layer still takes the same gradients after it is trained. */
  lemma TrainKeepsFits(L: Layer, grads: seq<Layer>, rate: real, g: Layer)
    requires L.Valid() && forall s :: 0 <= s < |grads| ==> GradFits(L, grads[s])
    requires GradFits(L, g)
    ensures GradFits(Layers.Train(L, grads, rate), g)
  {
  }

  /**
   * A layer trained p times on the same row of gradients. The layers do not
   * share anything, so running the passes layer by layer gives the same layers
   * as applyGrads' interleaved loops.
   */
  function TrainTimes(L: Layer, grads: seq<Layer>, rate: real, p: nat): (R: Layer)
    requires L.Valid() && forall s :: 0 <= s < |grads| ==> GradFits(L, grads[s])
    ensures R.Valid() && R.Kind() == L.Kind() && R.Params() == L.Params()
    ensures |R.Base().lastX| == |L.Base().lastX|
    ensures forall s :: 0 <= s < |grads| ==> GradFits(R, grads[s])
    ensures L.FullL? ==> R.full.numOutputs == L.full.numOutputs && R.full.numInputs == L.full.numInputs
  {
    if p == 0 then L
    else
      var prev := TrainTimes(L, grads, rate, p - 1);
      forall s | 0 <= s < |grads| ensures GradFits(Layers.Train(prev, grads, rate), grads[s]) {
        TrainKeepsFits(prev, grads, rate, grads[s]);
      }
      Layers.Train(prev, grads, rate)
  }

  /** Two layer lists with the same parameters, the first chained, the second valid. */
  lemma SameParamsChained(a: seq<Layer>, b: seq<Layer>)
    requires Chained(a) && |b| == |a|
    requires forall l :: 0 <= l < |a| ==> b[l].Valid() && b[l].Params() == a[l].Params()
    ensures Chained(b)
    ensures forall l :: 0 <= l < |a| ==> b[l].In() == a[l].In() && b[l].Out() == a[l].Out()
  {
    forall l | 0 <= l < |a| ensures LayerOk(b[l]) && b[l].In() == a[l].In() && b[l].Out() == a[l].Out() {
      assert LayerOk(a[l]);
    }
    forall l | 0 <= l < |a| - 1 ensures Links(b, l) {
      assert Links(a, l);
    }
  }

  /** Layers with the old parameters and slot counts that take the old gradients keep the network valid. */
  lemma RetrainedValid(n: Net, ls: seq<Layer>)
    requires n.Valid() && n.GradsReady() && |ls| == |n.layers|
    requires forall l :: 0 <= l < |ls| ==>
      ls[l].Valid() && ls[l].Params() == n.layers[l].Params() && |ls[l].Base().lastX| == |n.layers[l].Base().lastX|
    requires forall l, s :: 0 <= l < |ls| && 0 <= s < n.numOutputs ==> GradFits(ls[l], n.grads[l][s])
    ensures n.(layers := ls).Valid() && n.(layers := ls).GradsReady()
  {
    ReplacedValid(n, ls);
  }

  /** Layers with the old parameters and slot counts keep the network valid. */
  lemma ReplacedValid(n: Net, ls: seq<Layer>)
    requires n.Valid() && |ls| == |n.layers|
    requires forall l :: 0 <= l < |ls| ==>
      ls[l].Valid() && ls[l].Params() == n.layers[l].Params() && |ls[l].Base().lastX| == |n.layers[l].Base().lastX|
    ensures n.(layers := ls).Valid()
  {
    SameParamsChained(n.layers, ls);
  }

  /** Every layer of the network trained p times on its row of gradients. */
  function Passes(n: Net, rate: real, p: nat): (r: Net)
    requires n.Valid() && n.GradsReady()
    ensures r.Valid() && r.GradsReady() && r == n.(layers := r.layers)
    ensures forall l :: 0 <= l < |n.layers| ==> r.layers[l] == TrainTimes(n.layers[l], n.grads[l], rate, p)
  {
    var layers := seq(|n.layers|, l requires 0 <= l < |n.layers| => TrainTimes(n.layers[l], n.grads[l], rate, p));
    RetrainedValid(n, layers);
    n.(layers := layers)
  }

  /**
   * applyGrads(rate) as written: the outer loop runs grads.length times, which is
   * the number of layers, so every layer is trained that many times.
   */
  function ApplyGradsAsWritten(n: Net, rate: real): (r: Net)
    requires n.Valid() && n.GradsReady()
    ensures r.Valid() && r.GradsReady() && r == n.(layers := r.layers)
    ensures forall l :: 0 <= l < |n.layers| ==> r.layers[l] == TrainTimes(n.layers[l], n.grads[l], rate, |n.layers|)
  {
    Passes(n, rate, |n.grads|)
  }

  /** The evidently intended applyGrads: one pass, each layer trained once. */
  function ApplyGrads(n: Net, rate: real): (r: Net)
    requires n.Valid() && n.GradsReady()
    ensures r.Valid() && r.GradsReady() && r == n.(layers := r.layers)
    ensures forall l :: 0 <= l < |n.layers| ==> r.layers[l] == Layers.Train(n.layers[l], n.grads[l], rate)
  {
    var r := Passes(n, rate, 1);
    forall l | 0 <= l < |n.layers| ensures r.layers[l] == Layers.Train(n.layers[l], n.grads[l], rate) {
      TrainTimesUnfold(n.layers[l], n.grads[l], rate, 1);
    }
    r
  }

  /** The sum over a gradient row of entry (a, b) of A, for a full layer's row. */
  function RowSumA(L: Layer, grads: seq<Layer>, a: int, b: int): real
    requires L.Valid() && L.FullL?
    requires forall s :: 0 <= s < |grads| ==> GradFits(L, grads[s])
  {
    Full.SumA(Fulls(L, grads), a, b, |grads|)
  }

  /**
   * After p passes, entry (a, b) of a full layer's A has moved by p times the
   * training rate times the row's summed gradient.
   */
  lemma {:induction false} TrainTimesScales(L: Layer, grads: seq<Layer>, rate: real, p: nat, a: int, b: int)
    requires L.Valid() && forall s :: 0 <= s < |grads| ==> GradFits(L, grads[s])
    requires L.FullL? && 0 <= a < L.full.numOutputs && 0 <= b < L.full.numInputs
    ensures TrainTimes(L, grads, rate, p).full.A[a][b] == L.full.A[a][b] + Prod(p as real, Prod(rate, RowSumA(L, grads, a, b)))
  {
    if p > 0 {
      TrainTimesScales(L, grads, rate, p - 1, a, b);
      var prev := TrainTimes(L, grads, rate, p - 1);
      TrainTimesUnfold(L, grads, rate, p);
      TrainFullEntry(L, prev, grads, rate, a, b);
      var x := Prod(rate, RowSumA(L, grads, a, b));
      ProdSucc(p, x);
    }
  }

  lemma TrainTimesUnfold(L: Layer, grads: seq<Layer>, rate: real, p: nat)
    requires L.Valid() && forall s :: 0 <= s < |grads| ==> GradFits(L, grads[s])
    requires p > 0
    ensures TrainTimes(L, grads, rate, p) == Layers.Train(TrainTimes(L, grads, rate, p - 1), grads, rate)
  {
  }

  /** One training step of a full layer, with the row sum taken against the untrained layer. */
  lemma TrainFullEntry(L: Layer, prev: Layer, grads: seq<Layer>, rate: real, a: int, b: int)
    requires L.Valid() && forall s :: 0 <= s < |grads| ==> GradFits(L, grads[s])
    requires prev.Valid() && forall s :: 0 <= s < |grads| ==> GradFits(prev, grads[s])
    requires L.FullL? && prev.FullL? && 0 <= a < prev.full.numOutputs && 0 <= b < prev.full.numInputs
    ensures Layers.Train(prev, grads, rate).full.A[a][b] == prev.full.A[a][b] + Prod(rate, RowSumA(L, grads, a, b))
  {
    assert Fulls(prev, grads) == Fulls(L, grads);
  }

  /**
   * applyGrads as written moves every full-layer weight by (number of layers)
   * times what one pass moves it, while the intended version moves it once.
   */
  lemma ApplyGradsRepeats(n: Net, rate: real, l: int, a: int, b: int)
    requires n.Valid() && n.GradsReady()
    requires 0 <= l < |n.layers| && n.layers[l].FullL?
    requires 0 <= a < n.layers[l].full.numOutputs && 0 <= b < n.layers[l].full.numInputs
    ensures var step := Prod(rate, RowSumA(n.layers[l], n.grads[l], a, b));
      && ApplyGrads(n, rate).layers[l].full.A[a][b] == n.layers[l].full.A[a][b] + step
      && ApplyGradsAsWritten(n, rate).layers[l].full.A[a][b] == n.layers[l].full.A[a][b] + Prod(|n.layers| as real, step)
  {
    TrainTimesScales(n.layers[l], n.grads[l], rate, 1, a, b);
    ProdSucc(1, Prod(rate, RowSumA(n.layers[l], n.grads[l], a, b)));
    TrainTimesScales(n.layers[l], n.grads[l], rate, |n.layers|, a, b);
  }
}

=== FILE: digits.dfy ===
/**
 * digitrecognition.DigitRecognitionFitness: the MNIST header checks, the
 * decoding of label and pixel bytes into labels, one-hot answers and images,
 * and the mse and percentCorrect averages over a prefix of the examples.
 * The files themselves are not read here: the header arrives as the ints
 * readInt returned, and each stream's remaining content as a byte sequence.
 * The network being scored is replaced by its outputs, one per example.
 */
module Digits {
  import opened Wrappers
  import opened JavaMath
  import opened Utility

  /** Java's signed byte. */
  newtype Byte = b: int | -128 <= b < 128

  /**
   * convertByte: the byte read as unsigned, over 256. The result lies in
   * [0, 255/256] and times 256 is the byte's value modulo 256.
   */
  function ConvertByte(b: Byte): (r: real)
    ensures 0.0 <= r <= 255.0 / 256.0
    ensures r * 256.0 == (b as int % 256) as real
  {
    var v := if b >= 0 then b as real else b as real + 256.0;
    v / 256.0
  }

  /** Distinct bytes give distinct values: the conversion loses nothing. */
  lemma ConvertByteInjective(a: Byte, b: Byte)
    requires ConvertByte(a) == ConvertByte(b)
    ensures a == b
  {
    assert (a as int % 256) == (b as int % 256);
  }

  /** The value a pixel byte becomes: 0 or 1 with onOffPixels, convertByte otherwise. */
  function Pixel(b: Byte, onOff: bool): (r: real)
    ensures onOff ==> (r == 1.0 <==> b != 0) && (r == 0.0 <==> b == 0)
    ensures !onOff ==> r == ConvertByte(b)
    ensures 0.0 <= r <= 1.0
  {
    if onOff then (if b == 0 then 0.0 else 1.0) else ConvertByte(b)
  }

  /** One image: every byte of its chunk mapped to a pixel, in order. */
  function ImageOf(chunk: seq<Byte>, onOff: bool): (img: seq<real>)
    ensures |img| == |chunk|
    ensures forall i :: 0 <= i < |chunk| ==> img[i] == Pixel(chunk[i], onOff)
  {
    seq(|chunk|, i requires 0 <= i < |chunk| => Pixel(chunk[i], onOff))
  }

  /** The ints read at the start of the two files, in the order they are read. */
  datatype Header = Header(magicImages: int, magicLabels: int, numImages: int, numLabels: int, numRows: int, numCols: int)

  /** Why loading stops: the three IOExceptions, a negative array size, or a stream that ends early. */
  datatype LoadError =
    | BadImagesMagic(found: int)
    | BadLabelsMagic(found: int)
    | CountMismatch(images: int, labels: int)
    | NegativeSize
    | ShortRead

  /** The magic number of an idx3 image file. */
  const ImagesMagic: int := 0x803
  /** The magic number of an idx1 label file. */
  const LabelsMagic: int := 0x801

  /**
   * The header checks, in the order the constructor makes them: images magic,
   * labels magic, then equal counts. Success exactly when all three pass.
   */
  function CheckHeader(h: Header): (r: Result<int, LoadError>)
    ensures r.Success? <==> h.magicImages == ImagesMagic && h.magicLabels == LabelsMagic && h.numImages == h.numLabels
    ensures r.Success? ==> r.value == h.numImages
    ensures h.magicImages != ImagesMagic ==> r == Failure(BadImagesMagic(h.magicImages))
    ensures h.magicImages == ImagesMagic && h.magicLabels != LabelsMagic ==> r == Failure(BadLabelsMagic(h.magicLabels))
    ensures h.magicImages == ImagesMagic && h.magicLabels == LabelsMagic && h.numImages != h.numLabels ==>
      r == Failure(CountMismatch(h.numImages, h.numLabels))
  {
    if h.magicImages != ImagesMagic then Failure(BadImagesMagic(h.magicImages))
    else if h.magicLabels != LabelsMagic then Failure(BadLabelsMagic(h.magicLabels))
    else if h.numImages != h.numLabels then Failure(CountMismatch(h.numImages, h.numLabels))
    else Success(h.numImages)
  }

  /** What the constructor leaves in images, labels and answers. */
  datatype Data = Data(images: seq<seq<real>>, labels: seq<int>, answers: seq<seq<real>>)

  /** (n + 1)·size <= count·size for n < count: image n lies inside the pixel stream. */
  lemma ChunkInside(n: nat, count: nat, size: nat)
    requires n < count
    ensures n * size + size <= count * size
  {
    var k := count - n - 1;
    assert count * size == n * size + size + k * size;
  }

  /** Image n of the stream: bytes n·size up to (n + 1)·size. */
  function Chunk(pixels: seq<Byte>, size: nat, n: nat): (c: seq<Byte>)
    requires n * size + size <= |pixels|
    ensures |c| == size
  {
    pixels[n * size .. n * size + size]
  }

  /**
   * The constructor's reading: the header checks, the array allocations (which
   * fail on a negative count or image size), then per example one label byte
   * and one image of numRows·numCols bytes; a stream that runs out stops it.
   */
  function Load(h: Header, labelBytes: seq<Byte>, pixels: seq<Byte>, onOff: bool): (r: Result<Data, LoadError>)
    ensures r.Success? <==>
      && CheckHeader(h).Success?
      && h.numImages >= 0 && h.numRows * h.numCols >= 0
      && |labelBytes| >= h.numImages && |pixels| >= h.numImages * (h.numRows * h.numCols)
    ensures CheckHeader(h).Failure? ==> r == Failure(CheckHeader(h).error)
    ensures r.Success? ==> var d := r.value;
      && |d.images| == |d.labels| == |d.answers| == h.numImages
      && (forall n :: 0 <= n < |d.labels| ==> d.labels[n] == labelBytes[n] as int)
      && (forall n :: 0 <= n < |d.answers| ==> d.answers[n] == OneHot(d.labels[n], 10))
      && (forall n :: 0 <= n < |d.images| ==> |d.images[n]| == h.numRows * h.numCols)
  {
    var checked := CheckHeader(h);
    if checked.Failure? then Failure(checked.error)
    else
      var size := h.numRows * h.numCols;
      if h.numImages < 0 || size < 0 then Failure(NegativeSize)
      else if |labelBytes| < h.numImages || |pixels| < h.numImages * size then Failure(ShortRead)
      else
        var count: nat := h.numImages;
        var labels := seq(count, n requires 0 <= n < count => labelBytes[n] as int);
        var answers := seq(count, n requires 0 <= n < count => OneHot(labels[n], 10));
        var images := seq(count, n requires 0 <= n < count =>
          ChunkInside(n, count, size);
          ImageOf(Chunk(pixels, size, n), onOff));
        Success(Data(images, labels, answers))
  }

  /** Pixel i of image n is the pixel of stream byte n·numRows·numCols + i. */
  lemma LoadedPixel(h: Header, labelBytes: seq<Byte>, pixels: seq<Byte>, onOff: bool, n: nat, i: nat)
    requires Load(h, labelBytes, pixels, onOff).Success?
    requires n < h.numImages && i < h.numRows * h.numCols
    ensures n * (h.numRows * h.numCols) + i < |pixels|
    ensures Load(h, labelBytes, pixels, onOff).value.images[n][i] == Pixel(pixels[n * (h.numRows * h.numCols) + i], onOff)
  {
    ChunkInside(n, h.numImages, h.numRows * h.numCols);
  }

  /** answers[n] decodes back to its label: maxIndex picks the label's position. */
  lemma OneHotDecodes(c: int)
    requires 0 <= c < 10
    ensures MaxIndex(OneHot(c, 10)) == c
  {
    var v := OneHot(c, 10);
    assert v[c] > Lowest;
  }

  /** A label byte outside 0..9 (a negative one included) gives an all-zero answer. */
  lemma OneHotOutOfRange(c: int)
    requires c < 0 || c >= 10
    ensures forall i :: 0 <= i < 10 ==> OneHot(c, 10)[i] == 0.0
  {
  }

  /** The scored examples' network outputs line up with the labels, and none is empty. */
  ghost predicate Scorable(outputs: seq<seq<real>>, labels: seq<int>)
  {
    |outputs| == |labels| && forall k :: 0 <= k < |outputs| ==> |outputs[k]| > 0
  }

  /** How many examples mse and percentCorrect visit: the i with i < labels.length·percentToDo. */
  function Visited(count: nat, percent: real): nat
  {
    Ceil(count as real * percent)
  }

  /** Σ_{k < n} mse(outputs[k], labels[k]), accumulated in example order. */
  function MseSum(outputs: seq<seq<real>>, labels: seq<int>, n: nat): (s: real)
    requires Scorable(outputs, labels) && n <= |outputs|
    ensures s >= 0.0
    ensures s == 0.0 <==> forall k :: 0 <= k < n ==> outputs[k] == OneHot(labels[k], |outputs[k]|)
  {
    if n == 0 then 0.0
    else
      var g := outputs[n - 1];
      MseLabelIsOneHot(g, labels[n - 1]);
      assert Mse(g, OneHot(labels[n - 1], |g|)) == 0.0 <==> g == OneHot(labels[n - 1], |g|) by {
        assert OneHot(labels[n - 1], |g|)[..|g|] == OneHot(labels[n - 1], |g|);
      }
      MseSum(outputs, labels, n - 1) + MseLabel(g, labels[n - 1])
  }

  /** Whether maxIndex of example k's output is its label. */
  predicate Hit(outputs: seq<seq<real>>, labels: seq<int>, k: int)
    requires |outputs| == |labels| && 0 <= k < |outputs|
  {
    MaxIndex(outputs[k]) == labels[k]
  }

  /** The number of hits among the first n examples. */
  function Hits(outputs: seq<seq<real>>, labels: seq<int>, n: nat): (h: nat)
    requires |outputs| == |labels| && n <= |outputs|
    ensures h <= n
    ensures h == n <==> forall k :: 0 <= k < n ==> Hit(outputs, labels, k)
    ensures h == 0 <==> forall k :: 0 <= k < n ==> !Hit(outputs, labels, k)
  {
    if n == 0 then 0 else Hits(outputs, labels, n - 1) + (if Hit(outputs, labels, n - 1) then 1 else 0)
  }

  /**
   * mse(net) as written: the sum over the visited examples divided by
   * labels.length·percentToDo. That product being 0 makes it 0/0, NaN: None.
   */
  function MseAsWritten(outputs: seq<seq<real>>, labels: seq<int>, percent: real): (r: Option<real>)
    requires Scorable(outputs, labels) && Visited(|labels|, percent) <= |labels|
    ensures r.None? <==> |labels| as real * percent == 0.0
  {
    var bound := |labels| as real * percent;
    if bound == 0.0 then None else Some(MseSum(outputs, labels, Visited(|labels|, percent)) / bound)
  }

  /** percentCorrect(net) as written: the hits over the visited examples, divided by labels.length·percentToDo. */
  function PercentCorrectAsWritten(outputs: seq<seq<real>>, labels: seq<int>, percent: real): (r: Option<real>)
    requires |outputs| == |labels| && Visited(|labels|, percent) <= |labels|
    ensures r.None? <==> |labels| as real * percent == 0.0
  {
    var bound := |labels| as real * percent;
    if bound == 0.0 then None else Some(Hits(outputs, labels, Visited(|labels|, percent)) as real / bound)
  }

  /**
   * One example, half of it requested: the loop visits it (0 < 0.5) but the
   * division is by 0.5, so one correct guess scores 2.0 and mse is doubled.
   */
  lemma PercentCorrectAsWrittenExceedsOne()
    ensures PercentCorrectAsWritten([[1.0]], [0], 0.5) == Some(2.0)
    ensures MseAsWritten([[0.0]], [0], 0.5) == Some(2.0)
  {
    assert Visited(1, 0.5) == 1;
    assert Hit([[1.0]], [0], 0) by {
      assert [1.0][0] > Lowest;
    }
    assert MseSum([[0.0]], [0], 1) == MseLabel([0.0], 0);
    assert LabelError([0.0], 0, 1) == Sq(1.0 - 0.0);
  }

  /** mse(net) with the sum divided by the number of examples visited: a true mean. */
  function MseMean(outputs: seq<seq<real>>, labels: seq<int>, percent: real): (r: Option<real>)
    requires Scorable(outputs, labels) && Visited(|labels|, percent) <= |labels|
    ensures r.None? <==> Visited(|labels|, percent) == 0
    ensures r.Some? ==> r.value >= 0.0
    ensures r.Some? ==> (r.value == 0.0 <==>
      forall k :: 0 <= k < Visited(|labels|, percent) ==> outputs[k] == OneHot(labels[k], |outputs[k]|))
  {
    var n := Visited(|labels|, percent);
    if n == 0 then None else Some(MseSum(outputs, labels, n) / n as real)
  }

  /**
   * percentCorrect(net) with the hits divided by the number of examples visited:
   * a fraction in [0, 1], 1 exactly when every visited guess is right.
   */
  function PercentCorrect(outputs: seq<seq<real>>, labels: seq<int>, percent: real): (r: Option<real>)
    requires |outputs| == |labels| && Visited(|labels|, percent) <= |labels|
    ensures r.None? <==> Visited(|labels|, percent) == 0
    ensures r.Some? ==> 0.0 <= r.value <= 1.0
    ensures r.Some? ==> (r.value == 1.0 <==> forall k :: 0 <= k < Visited(|labels|, percent) ==> Hit(outputs, labels, k))
    ensures r.Some? ==> (r.value == 0.0 <==> forall k :: 0 <= k < Visited(|labels|, percent) ==> !Hit(outputs, labels, k))
  {
    var n := Visited(|labels|, percent);
    if n == 0 then None
    else
      var h := Hits(outputs, labels, n);
      FractionFacts(h, n);
      Some(h as real / n as real)
  }

  /** h/n for 0 <= h <= n lies in [0, 1], reaching 1 only at h = n and 0 only at h = 0. */
  lemma FractionFacts(h: nat, n: nat)
    requires 0 < n && h <= n
    ensures 0.0 <= h as real / n as real <= 1.0
    ensures h as real / n as real == 1.0 <==> h == n
    ensures h as real / n as real == 0.0 <==> h == 0
  {
    var q := h as real / n as real;
    assert q * n as real == h as real;
    if q == 1.0 {
      assert h as real == n as real;
    }
  }

  /** When labels.length·percentToDo is a whole number the written averages are the true ones. */
  lemma AsWrittenIsMeanWhenWhole(outputs: seq<seq<real>>, labels: seq<int>, percent: real)
    requires Scorable(outputs, labels) && Visited(|labels|, percent) <= |labels|
    requires percent >= 0.0 && (|labels| as real * percent).Floor as real == |labels| as real * percent
    ensures MseAsWritten(outputs, labels, percent) == MseMean(outputs, labels, percent)
    ensures PercentCorrectAsWritten(outputs, labels, percent) == PercentCorrect(outputs, labels, percent)
  {
    var bound := |labels| as real * percent;
    var n := Visited(|labels|, percent);
    if bound > 0.0 {
      var m := bound.Floor;
      assert n as real >= m as real && (n - 1) as real < m as real;
      assert n == m;
    }
  }
}

=== FILE: drawing.dfy ===
/**
 * digitrecognition.DigitDrawing, the grid logic only: a 28 × 28 canvas of
 * intensities in [0, 1], each cell 20 screen pixels wide, painted by mouse
 * drags and cleared by a key. Cell (x, y) is stored at index x + 28·y.
 */
module Drawing {
  import opened JavaMath

  /** Cells per side of the grid. */
  const Side: int := 28
  /** Cells in the grid, the length of the cells array. */
  const CellCount: int := 784
  /** Screen pixels per cell side. */
  const CellPixels: int := 20

  /** Whether (x, y) is a cell of the grid. */
  predicate InGrid(x: int, y: int)
  {
    0 <= x < Side && 0 <= y < Side
  }

  /** The index of cell (x, y) in the cells array. */
  function Idx(x: int, y: int): int
  {
    x + Side * y
  }

  /** Different cells of the grid have different indices, all inside the array. */
  lemma IdxInjective(a: int, b: int, c: int, d: int)
    requires InGrid(a, b) && InGrid(c, d)
    ensures 0 <= Idx(a, b) < CellCount
    ensures Idx(a, b) == Idx(c, d) <==> a == c && b == d
  {
  }

  /** Every index of the array is the index of one cell: (k mod 28, k div 28). */
  lemma IdxCovers(k: int)
    requires 0 <= k < CellCount
    ensures InGrid(k % Side, k / Side) && Idx(k % Side, k / Side) == k
  {
  }

  /** Every intensity lies in [0, 1]. */
  ghost predicate InUnit(cells: seq<real>)
  {
    forall k :: 0 <= k < |cells| ==> 0.0 <= cells[k] <= 1.0
  }

  /** The fields of a DigitDrawing that the grid logic reads and writes. */
  datatype Canvas = Canvas(cells: seq<real>, lastX: int, lastY: int)
  {
    ghost predicate Valid()
    {
      |cells| == CellCount && InUnit(cells)
    }
  }

  /** A new DigitDrawing: all cells 0.0 and no last cell, (-1, -1). */
  function NewCanvas(): (c: Canvas)
    ensures c.Valid()
    ensures forall k :: 0 <= k < CellCount ==> c.cells[k] == 0.0
    ensures !InGrid(c.lastX, c.lastY)
  {
    Canvas(seq(CellCount, _ => 0.0), -1, -1)
  }

  /**
   * toCellIndex(z): the cell whose 20 pixels contain z, clamped to the grid.
   * The division truncates toward zero, so z in (-20, 0) also lands in cell 0.
   */
  function ToCellIndex(z: int): (r: int)
    ensures 0 <= r < Side
    ensures 0 <= z < Side * CellPixels ==> r * CellPixels <= z < r * CellPixels + CellPixels
    ensures z < 0 ==> r == 0
    ensures z >= Side * CellPixels ==> r == Side - 1
  {
    var q := Div(z, CellPixels);
    if q < 0 then 0 else if q > Side - 1 then Side - 1 else q
  }

  /** More pixels never give a smaller cell index. */
  lemma ToCellIndexMonotone(z: int, w: int)
    requires z <= w
    ensures ToCellIndex(z) <= ToCellIndex(w)
  {
  }

  /** v capped at 1: the larger of v and 1 is never returned, the smaller always is. */
  function Sat(v: real): (r: real)
    ensures r <= v && r <= 1.0
    ensures r == v || r == 1.0
  {
    if v < 1.0 then v else 1.0
  }

  /** Adding a non-negative amount after a cap is the same as capping once. */
  lemma SatTwice(v: real, a: real)
    requires a >= 0.0
    ensures Sat(Sat(v) + a) == Sat(v + a)
  {
  }

  /**
   * increaseToMax(x, y, add): an in-grid cell grows by add, capped at 1; any
   * other cell, and every cell when (x, y) is off the grid, stays.
   */
  function IncreaseToMax(cells: seq<real>, x: int, y: int, add: real): (r: seq<real>)
    requires |cells| == CellCount
    ensures |r| == CellCount
    ensures !InGrid(x, y) ==> r == cells
    ensures InGrid(x, y) ==> r[Idx(x, y)] == Sat(cells[Idx(x, y)] + add)
    ensures forall k :: 0 <= k < CellCount && k != Idx(x, y) ==> r[k] == cells[k]
    ensures InUnit(cells) && add >= 0.0 ==> InUnit(r)
  {
    if InGrid(x, y) then
      IdxInjective(x, y, x, y);
      cells[Idx(x, y) := Sat(cells[Idx(x, y)] + add)]
    else cells
  }

  /**
   * resetCells: both loops over 28 set cell i + 28·j to 0, which reaches every
   * index of the array.
   */
  method ResetCells(c: Canvas) returns (r: Canvas)
    requires c.Valid()
    ensures r.Valid() && r.lastX == c.lastX && r.lastY == c.lastY
    ensures forall k :: 0 <= k < CellCount ==> r.cells[k] == 0.0
  {
    var cells := c.cells;
    var i := 0;
    while i < Side
      invariant 0 <= i <= Side && |cells| == CellCount && InUnit(cells)
      invariant forall a, b :: 0 <= a < i && 0 <= b < Side ==> cells[Idx(a, b)] == 0.0
    {
      var j := 0;
      while j < Side
        invariant 0 <= j <= Side && |cells| == CellCount && InUnit(cells)
        invariant forall a, b :: 0 <= a < i && 0 <= b < Side ==> cells[Idx(a, b)] == 0.0
        invariant forall b :: 0 <= b < j ==> cells[Idx(i, b)] == 0.0
      {
        IdxInjective(i, j, i, j);
        cells := cells[Idx(i, j) := 0.0];
        j := j + 1;
      }
      i := i + 1;
    }
    forall k | 0 <= k < CellCount ensures cells[k] == 0.0 {
      IdxCovers(k);
    }
    r := c.(cells := cells);
  }

  /** One increaseToMax call of paintCells: an offset from the current cell and an amount. */
  datatype Touch = Touch(dx: int, dy: int, add: real)

  /** Every amount is non-negative. */
  predicate Adds(touches: seq<Touch>)
  {
    forall t :: 0 <= t < |touches| ==> touches[t].add >= 0.0
  }

  /** The increaseToMax calls of touches, in order, around cell (x, y). */
  function Apply(cells: seq<real>, x: int, y: int, touches: seq<Touch>): (r: seq<real>)
    requires |cells| == CellCount
    ensures |r| == CellCount
    ensures InUnit(cells) && Adds(touches) ==> InUnit(r)
    decreases |touches|
  {
    if touches == [] then cells
    else
      var t := touches[0];
      Apply(IncreaseToMax(cells, x + t.dx, y + t.dy, t.add), x, y, touches[1..])
  }

  /** The total that touches add to the cell at offset (u, v) from the current one. */
  function AddedAt(touches: seq<Touch>, u: int, v: int): real
    decreases |touches|
  {
    if touches == [] then 0.0
    else (if touches[0].dx == u && touches[0].dy == v then touches[0].add else 0.0) + AddedAt(touches[1..], u, v)
  }

  lemma {:induction false} AddedAtNonNegative(touches: seq<Touch>, u: int, v: int)
    requires Adds(touches)
    ensures AddedAt(touches, u, v) >= 0.0
    decreases |touches|
  {
    if touches != [] {
      AddedAtNonNegative(touches[1..], u, v);
    }
  }

  /**
   * The calls in sequence have one combined effect per cell: its intensity plus
   * everything aimed at it, capped at 1 once.
   */
  lemma {:induction false} ApplyAt(cells: seq<real>, x: int, y: int, touches: seq<Touch>, a: int, b: int)
    requires |cells| == CellCount && InGrid(a, b) && Adds(touches) && cells[Idx(a, b)] <= 1.0
    ensures Apply(cells, x, y, touches)[Idx(a, b)] == Sat(cells[Idx(a, b)] + AddedAt(touches, a - x, b - y))
    decreases |touches|
  {
    IdxInjective(a, b, a, b);
    if touches != [] {
      var t := touches[0];
      var next := IncreaseToMax(cells, x + t.dx, y + t.dy, t.add);
      AddedAtNonNegative(touches[1..], a - x, b - y);
      ApplyAt(next, x, y, touches[1..], a, b);
      if t.dx == a - x && t.dy == b - y {
        SatTwice(cells[Idx(a, b)] + t.add, AddedAt(touches[1..], a - x, b - y));
      } else if InGrid(x + t.dx, y + t.dy) {
        IdxInjective(a, b, x + t.dx, y + t.dy);
      }
    }
  }

  /** The centre call: half an intensity on the current cell. */
  const Centre: Touch := Touch(0, 0, 0.5)

  /**
   * The neighbour calls as written: the four edge neighbours get 0.3 and four
   * diagonal calls get 0.1, but the third diagonal call repeats (+1, +1).
   */
  const RingAsWritten: seq<Touch> := [
    Touch(1, 0, 0.3), Touch(-1, 0, 0.3), Touch(0, 1, 0.3), Touch(0, -1, 0.3),
    Touch(1, 1, 0.1), Touch(-1, 1, 0.1), Touch(1, 1, 0.1), Touch(-1, -1, 0.1)]

  /** The neighbour calls as evidently intended: each of the eight neighbours once. */
  const Ring: seq<Touch> := [
    Touch(1, 0, 0.3), Touch(-1, 0, 0.3), Touch(0, 1, 0.3), Touch(0, -1, 0.3),
    Touch(1, 1, 0.1), Touch(-1, 1, 0.1), Touch(1, -1, 0.1), Touch(-1, -1, 0.1)]

  /** The calls paintCells makes: the centre, then the ring when the cell differs from the last one. */
  function Touches(c: Canvas, cx: int, cy: int, ring: seq<Touch>): seq<Touch>
  {
    if cx != c.lastX || cy != c.lastY then [Centre] + ring else [Centre]
  }

  /** paintCells(x, y) with a given ring: paint around the mouse's cell, then remember that cell. */
  function PaintWith(c: Canvas, px: int, py: int, ring: seq<Touch>): (r: Canvas)
    requires c.Valid() && Adds(ring)
    ensures r.Valid()
    ensures r.lastX == ToCellIndex(px) && r.lastY == ToCellIndex(py)
  {
    var cx := ToCellIndex(px);
    var cy := ToCellIndex(py);
    Canvas(Apply(c.cells, cx, cy, Touches(c, cx, cy, ring)), cx, cy)
  }

  /** paintCells as written. */
  function PaintCellsAsWritten(c: Canvas, px: int, py: int): (r: Canvas)
    requires c.Valid()
    ensures r.Valid()
    ensures r.lastX == ToCellIndex(px) && r.lastY == ToCellIndex(py)
  {
    PaintWith(c, px, py, RingAsWritten)
  }

  /** paintCells with every neighbour painted once. */
  function PaintCells(c: Canvas, px: int, py: int): (r: Canvas)
    requires c.Valid()
    ensures r.Valid()
    ensures r.lastX == ToCellIndex(px) && r.lastY == ToCellIndex(py)
  {
    PaintWith(c, px, py, Ring)
  }

  /** The effect of paintCells with any ring on one cell: ApplyAt for the calls it makes. */
  lemma PaintWithAt(c: Canvas, px: int, py: int, ring: seq<Touch>, a: int, b: int)
    requires c.Valid() && Adds(ring) && InGrid(a, b)
    ensures var cx, cy := ToCellIndex(px), ToCellIndex(py);
      PaintWith(c, px, py, ring).cells[Idx(a, b)] == Sat(c.cells[Idx(a, b)] + AddedAt(Touches(c, cx, cy, ring), a - cx, b - cy))
  {
    IdxInjective(a, b, a, b);
    var cx, cy := ToCellIndex(px), ToCellIndex(py);
    var ts := Touches(c, cx, cy, ring);
    assert Adds(ts) by {
      assert forall t :: 1 <= t < |ts| ==> ts[t] == ring[t - 1];
    }
    ApplyAt(c.cells, cx, cy, ts, a, b);
  }

  /** What paintCells is meant to add at offset (u, v): 0.5 at the centre, 0.3 beside it, 0.1 diagonally. */
  function RingAmount(u: int, v: int): real
  {
    if u == 0 && v == 0 then 0.5
    else if (u == 0 && (v == 1 || v == -1)) || (v == 0 && (u == 1 || u == -1)) then 0.3
    else if (u == 1 || u == -1) && (v == 1 || v == -1) then 0.1
    else 0.0
  }

  /** The intended calls after a move add RingAmount at every offset. */
  lemma RingAdds(u: int, v: int)
    ensures AddedAt([Centre] + Ring, u, v) == RingAmount(u, v)
  {
    var ts := [Centre] + Ring;
    assert ts[1..] == Ring;
    assert Ring[1..][1..][1..][1..][1..][1..][1..][1..] == [];
  }

  /** The written calls after a move add nothing at (+1, -1) and 0.2 at (+1, +1). */
  lemma RingAsWrittenAdds()
    ensures AddedAt([Centre] + RingAsWritten, 1, -1) == 0.0
    ensures AddedAt([Centre] + RingAsWritten, 1, 1) == 0.2
  {
    var ts := [Centre] + RingAsWritten;
    assert ts[1..] == RingAsWritten;
    assert RingAsWritten[1..][1..][1..][1..][1..][1..][1..][1..] == [];
  }

  /**
   * As written, a move into a cell with a neighbour at (x + 1, y - 1) leaves
   * that neighbour as it was, while (x + 1, y + 1) is aimed at twice.
   */
  lemma AsWrittenSkipsUpperRight(c: Canvas, px: int, py: int)
    requires c.Valid()
    requires ToCellIndex(px) != c.lastX || ToCellIndex(py) != c.lastY
    requires ToCellIndex(px) < Side - 1 && ToCellIndex(py) > 0
    ensures var cx, cy := ToCellIndex(px), ToCellIndex(py);
      PaintCellsAsWritten(c, px, py).cells[Idx(cx + 1, cy - 1)] == c.cells[Idx(cx + 1, cy - 1)]
    ensures var cx, cy := ToCellIndex(px), ToCellIndex(py);
      AddedAt(Touches(c, cx, cy, RingAsWritten), 1, 1) == 0.2
  {
    var cx, cy := ToCellIndex(px), ToCellIndex(py);
    RingAsWrittenAdds();
    PaintWithAt(c, px, py, RingAsWritten, cx + 1, cy - 1);
  }

  /** Without a move only the centre call is made. */
  lemma CentreAdds(u: int, v: int)
    ensures AddedAt([Centre], u, v) == if u == 0 && v == 0 then 0.5 else 0.0
  {
    assert [Centre][1..] == [];
  }

  /**
   * The corrected paintCells: the current cell grows by 0.5, after a move each
   * edge neighbour by 0.3 and each diagonal one by 0.1, all capped at 1; every
   * other cell stays. Without a move only the current cell grows.
   */
  lemma PaintCellsEffect(c: Canvas, px: int, py: int, a: int, b: int)
    requires c.Valid() && InGrid(a, b)
    ensures var cx, cy := ToCellIndex(px), ToCellIndex(py);
      var moved := cx != c.lastX || cy != c.lastY;
      var amount := if moved || (a == cx && b == cy) then RingAmount(a - cx, b - cy) else 0.0;
      PaintCells(c, px, py).cells[Idx(a, b)] == Sat(c.cells[Idx(a, b)] + amount)
  {
    var cx, cy := ToCellIndex(px), ToCellIndex(py);
    PaintWithAt(c, px, py, Ring, a, b);
    RingAdds(a - cx, b - cy);
    CentreAdds(a - cx, b - cy);
  }

  /** A cell already at 1 stays at 1 under any painting. */
  lemma FullCellStays(c: Canvas, px: int, py: int, ring: seq<Touch>, a: int, b: int)
    requires c.Valid() && Adds(ring) && InGrid(a, b)
    requires c.cells[Idx(a, b)] == 1.0
    ensures PaintWith(c, px, py, ring).cells[Idx(a, b)] == 1.0
  {
    var cx, cy := ToCellIndex(px), ToCellIndex(py);
    PaintWithAt(c, px, py, ring, a, b);
    var ts := Touches(c, cx, cy, ring);
    assert Adds(ts) by {
      assert forall t :: 1 <= t < |ts| ==> ts[t] == ring[t - 1];
    }
    AddedAtNonNegative(ts, a - cx, b - cy);
  }
}

=== FILE: full.dfy ===
/**
 * core.layer.FullLayer: a dense layer. The input volume is flattened (index
 * i + j·w + k·w·h), multiplied by A, offset by b and passed through the layer's
 * activation; the output is an [n][1][1] column.
 */
module Full {
  import opened Wrappers
  import opened Tensor
  import opened Approx
  import opened ActFuncs
  import opened Utility
  import opened LayerConfig
  import opened LayerBase

  /** A matrix with exactly `rows` rows of `cols` entries. */
  predicate IsMatrix(A: seq<seq<real>>, rows: int, cols: int)
  {
    |A| == rows && forall r :: 0 <= r < |A| ==> |A[r]| == cols
  }

  /** A matrix with at least `rows` rows of at least `cols` entries (what a cast-and-index needs). */
  predicate CoversMatrix(A: seq<seq<real>>, rows: int, cols: int)
  {
    |A| >= rows && forall r :: 0 <= r < rows ==> |A[r]| >= cols
  }

  datatype FullLayer = FullLayer(
    base: Base,
    A: seq<seq<real>>,
    b: seq<real>,
    inputSize: Shape,
    outputSize: Shape,
    numInputs: int,
    numOutputs: int)
  {
    /** The fields as the constructors leave them. */
    predicate Valid()
    {
      && base.lp.inputSize == Some(inputSize)
      && base.lp.outputSize == Some(outputSize)
      && base.lp.actFunc.Some?
      && Positive(inputSize) && Positive(outputSize)
      && numInputs == Size(inputSize) && numOutputs == Size(outputSize)
      && IsMatrix(A, numOutputs, numInputs) && |b| == numOutputs
      && base.CachesAligned()
    }

    function Act(): ActFunc
      requires base.lp.actFunc.Some?
    {
      base.lp.actFunc.value
    }

    /** Another layer's A and b are at least as large as this one's. */
    predicate Fits(other: FullLayer)
    {
      CoversMatrix(other.A, numOutputs, numInputs) && |other.b| >= numOutputs
    }
  }

  lemma SizePositive(s: Shape)
    requires Positive(s)
    ensures Size(s) >= 1
  {
    MulAtLeast(s.w, s.h);
    MulAtLeast(s.w * s.h, s.d);
  }

  /**
   * setupAB(rows, columns, randomize): A is rows × columns, b has rows entries;
   * with randomize each entry is the next random draw, otherwise zero.
   * `draw(i, j)` is the draw for A[i][j], and `draw(i, columns)` the one for b[i].
   */
  function SetupAB(rows: nat, columns: nat, randomize: bool, draw: (int, int) -> real): (r: (seq<seq<real>>, seq<real>))
    ensures IsMatrix(r.0, rows, columns) && |r.1| == rows
    ensures forall i, j :: 0 <= i < rows && 0 <= j < columns ==>
      r.0[i][j] == if randomize then draw(i, j) else 0.0
    ensures forall i :: 0 <= i < rows ==> r.1[i] == if randomize then draw(i, columns) else 0.0
  {
    if randomize then
      (seq(rows, i => seq(columns, j => draw(i, j))), seq(rows, i => draw(i, columns)))
    else
      (seq(rows, i => seq(columns, j => 0.0)), seq(rows, i => 0.0))
  }

  /**
   * The public constructor: validateParameters must hold (an assertion), the
   * nonzero ranges are the whole input box, and A and b are drawn at random.
   */
  function NewFullLayer(lp: LayerParams, draw: (int, int) -> real): (L: FullLayer)
    requires lp.inputSize.Some? && lp.outputSize.Some? && lp.actFunc.Some?
    requires ValidateFullParameters(lp)
    ensures L.Valid() && L.base.lp == lp
    ensures L.base.ranges == BoxRanges(lp.inputSize.value)
    ensures |L.base.lastX| == 0
    ensures L.numOutputs == lp.outputSize.value.w
    ensures forall i, j :: 0 <= i < L.numOutputs && 0 <= j < L.numInputs ==> L.A[i][j] == draw(i, j)
  {
    var ins, outs := lp.inputSize.value, lp.outputSize.value;
    SizePositive(ins);
    SizePositive(outs);
    var ab := SetupAB(Size(outs), Size(ins), true, draw);
    var base := NewBase(lp).(ranges := BoxRanges(ins));
    FullLayer(base, ab.0, ab.1, ins, outs, Size(ins), Size(outs))
  }

  /**
   * zeroCopy: the private constructor with randomize false. A and b are zero of the
   * same size; no caches, and the default (0, 0, 0) ranges.
   */
  function ZeroCopy(L: FullLayer): (Z: FullLayer)
    requires L.Valid()
    ensures Z.Valid() && Z.base == NewBase(L.base.lp)
    ensures Z.inputSize == L.inputSize && Z.outputSize == L.outputSize
    ensures Z.numInputs == L.numInputs && Z.numOutputs == L.numOutputs
    ensures forall i, j :: 0 <= i < Z.numOutputs && 0 <= j < Z.numInputs ==> Z.A[i][j] == 0.0
    ensures forall i :: 0 <= i < Z.numOutputs ==> Z.b[i] == 0.0
  {
    var ab := SetupAB(L.numOutputs, L.numInputs, false, (i, j) => 0.0);
    FullLayer(NewBase(L.base.lp), ab.0, ab.1, L.inputSize, L.outputSize, L.numInputs, L.numOutputs)
  }

  /** The pre-activation of output i: row i of A against the flattened input, plus b[i]. */
  function PreActivation(L: FullLayer, x: Vol, i: int): real
    requires L.Valid() && HasShape(x, L.inputSize) && 0 <= i < L.numOutputs
  {
    Dot(L.A[i], ToArray(x, L.inputSize)) + L.b[i]
  }

  /**
   * evaluate(x, slot): the activated column A·flat(x) + b, and the layer with x and
   * the activation derivative at the same pre-activations cached at the slot.
   * The Java call passes null for the primitive doSigmoid (which does not compile
   * against Utility's instance method); the flag is read as false and the
   * activation is applied afterwards.
   */
  function Evaluate(t: Tables, L: FullLayer, x: Vol, slot: int): (r: (Vol, FullLayer))
    requires t.Valid() && L.Valid() && HasShape(x, L.inputSize)
    requires 0 <= slot < |L.base.lastX|
    ensures HasShape(r.0, Shape(L.numOutputs, 1, 1))
    ensures forall i :: 0 <= i < L.numOutputs ==> r.0[i][0][0] == Apply(t, PreActivation(L, x, i), L.Act())
    ensures r.1.Valid() && r.1.A == L.A && r.1.b == L.b && r.1.base.ranges == L.base.ranges
    ensures |r.1.base.lastX| == |L.base.lastX|
    ensures r.1.base.Cached(slot) && r.1.base.lastX[slot] == Some(x)
    ensures HasShape(r.1.base.lastPrime[slot].value, Shape(L.numOutputs, 1, 1))
    ensures forall i :: 0 <= i < L.numOutputs ==>
      r.1.base.lastPrime[slot].value[i][0][0] == ApplyPrime(t, PreActivation(L, x, i), L.Act())
    ensures forall s :: 0 <= s < |L.base.lastX| && s != slot ==>
      r.1.base.lastX[s] == L.base.lastX[s] && r.1.base.lastPrime[s] == L.base.lastPrime[s]
  {
    var arr := ToArray(x, L.inputSize);
    var outArr := Utility.Evaluate(t, L.A, L.b, arr, false);
    var out := Column(Actfuncify(t, outArr, L.Act()));
    var save := Column(ActfuncPrimeify(t, outArr, L.Act()));
    (out, L.(base := CacheAt(L.base, slot, x, save)))
  }

  /** The output reads A, b and the parameters only: the caches and the slot do not matter. */
  lemma EvaluateReadsWeights(t: Tables, f: FullLayer, f2: FullLayer, x: Vol, s: int, s2: int)
    requires t.Valid() && f.Valid() && HasShape(x, f.inputSize) && 0 <= s < |f.base.lastX|
    requires f2 == f.(base := f2.base) && f2.base.lp == f.base.lp && f2.Valid() && 0 <= s2 < |f2.base.lastX|
    ensures Evaluate(t, f2, x, s2).0 == Evaluate(t, f, x, s).0
  {
  }

  /** The cached derivative the gradient at output (i, j, k) is scaled by. */
  function PrimeAt(L: FullLayer, slot: int, i: int, j: int, k: int): real
    requires L.base.Cached(slot) && InVol(L.base.lastPrime[slot].value, i, j, k)
  {
    L.base.lastPrime[slot].value[i][j][k]
  }

  /**
   * assignGradientInto(recv, i, j, k, slot): the gradient of output i with respect
   * to A and b. Within this layer's size every entry of the receiver is written:
   * row i of A is the derivative times the input read through the decoding
   * (aj % w, (aj / w) % h, aj / (w·h)), b[i] is the derivative, and all else is 0.
   */
  function AssignGradientInto(L: FullLayer, recv: FullLayer, i: int, j: int, k: int, slot: int): (R: FullLayer)
    requires L.Valid() && L.base.Cached(slot)
    requires HasShape(L.base.lastX[slot].value, L.inputSize)
    requires InVol(L.base.lastPrime[slot].value, i, j, k)
    requires L.Fits(recv)
    ensures R.base == recv.base && |R.A| == |recv.A| && |R.b| == |recv.b| && L.Fits(R)
    ensures forall ai :: 0 <= ai < |recv.A| ==> |R.A[ai]| == |recv.A[ai]|
    ensures var x, p := ToArray(L.base.lastX[slot].value, L.inputSize), PrimeAt(L, slot, i, j, k);
      && (forall ai, aj :: 0 <= ai < L.numOutputs && 0 <= aj < L.numInputs ==>
            R.A[ai][aj] == if ai == i then Prod(p, x[aj]) else 0.0)
      && (forall ai :: 0 <= ai < L.numOutputs ==> R.b[ai] == if ai == i then p else 0.0)
    ensures forall ai :: L.numOutputs <= ai < |recv.A| ==> R.A[ai] == recv.A[ai]
    ensures forall ai, aj :: 0 <= ai < L.numOutputs && L.numInputs <= aj < |recv.A[ai]| ==> R.A[ai][aj] == recv.A[ai][aj]
    ensures forall ai :: L.numOutputs <= ai < |recv.b| ==> R.b[ai] == recv.b[ai]
  {
    var x := ToArray(L.base.lastX[slot].value, L.inputSize);
    var p := PrimeAt(L, slot, i, j, k);
    recv.(A := GradMatrix(x, p, recv.A, L.numOutputs, L.numInputs, i), b := GradVector(p, recv.b, L.numOutputs, i))
  }

  /**
   * The matrix part of assignGradientInto: within rows × n, row i is p times x and
   * every other row is zero; entries outside stay as they were in M.
   */
  function GradMatrix(x: seq<real>, p: real, M: seq<seq<real>>, rows: int, n: int, i: int): (R: seq<seq<real>>)
    requires 0 <= n <= |x| && 0 <= rows <= |M|
    requires forall ai :: 0 <= ai < rows ==> |M[ai]| >= n
    ensures |R| == |M|
    ensures forall ai :: 0 <= ai < |M| ==> |R[ai]| == |M[ai]|
    ensures forall ai, aj :: 0 <= ai < rows && 0 <= aj < n ==>
      R[ai][aj] == if ai == i then Prod(p, x[aj]) else 0.0
    ensures forall ai :: rows <= ai < |M| ==> R[ai] == M[ai]
    ensures forall ai, aj :: 0 <= ai < rows && n <= aj < |M[ai]| ==> R[ai][aj] == M[ai][aj]
  {
    var R := seq(|M|, ai requires 0 <= ai < |M| =>
      if ai < rows then GradRow(x, p, M[ai], n, ai == i) else M[ai]);
    forall ai | 0 <= ai < |M|
      ensures |R[ai]| == |M[ai]|
      ensures ai < rows ==> R[ai] == GradRow(x, p, M[ai], n, ai == i)
      ensures ai >= rows ==> R[ai] == M[ai]
    {
    }
    R
  }

  /** The b part of assignGradientInto: p at i and 0 elsewhere below rows; the rest stay. */
  function GradVector(p: real, v: seq<real>, rows: int, i: int): (r: seq<real>)
    ensures |r| == |v|
    ensures forall ai :: 0 <= ai < rows && ai < |v| ==> r[ai] == if ai == i then p else 0.0
    ensures forall ai :: 0 <= ai < |v| && rows <= ai ==> r[ai] == v[ai]
  {
    seq(|v|, ai requires 0 <= ai < |v| => if ai < rows then (if ai == i then p else 0.0) else v[ai])
  }

  /**
   * One row of assignGradientInto: entries below n are p times the flattened input
   * (or 0 for a row other than i); the rest stay.
   */
  function GradRow(arr: seq<real>, p: real, row: seq<real>, n: int, active: bool): (r: seq<real>)
    requires 0 <= n <= |arr| && n <= |row|
    ensures |r| == |row|
    ensures forall aj :: 0 <= aj < n ==> r[aj] == if active then Prod(p, arr[aj]) else 0.0
    ensures forall aj :: n <= aj < |row| ==> r[aj] == row[aj]
  {
    seq(|row|, aj requires 0 <= aj < |row| =>
      if aj < n then (if active then Prod(p, arr[aj]) else 0.0) else row[aj])
  }

  /** The gradient written into a receiver does not depend on what the receiver held. */
  lemma AssignGradientOverwrites(L: FullLayer, r1: FullLayer, r2: FullLayer, i: int, j: int, k: int, slot: int)
    requires L.Valid() && L.base.Cached(slot)
    requires HasShape(L.base.lastX[slot].value, L.inputSize)
    requires InVol(L.base.lastPrime[slot].value, i, j, k)
    requires IsMatrix(r1.A, L.numOutputs, L.numInputs) && |r1.b| == L.numOutputs
    requires IsMatrix(r2.A, L.numOutputs, L.numInputs) && |r2.b| == L.numOutputs
    ensures AssignGradientInto(L, r1, i, j, k, slot).A == AssignGradientInto(L, r2, i, j, k, slot).A
    ensures AssignGradientInto(L, r1, i, j, k, slot).b == AssignGradientInto(L, r2, i, j, k, slot).b
  {
    var R1 := AssignGradientInto(L, r1, i, j, k, slot);
    var R2 := AssignGradientInto(L, r2, i, j, k, slot);
    assert |R1.A| == |R2.A|;
    forall ai | 0 <= ai < |R1.A| ensures R1.A[ai] == R2.A[ai] {
      assert |R1.A[ai]| == |R2.A[ai]|;
    }
  }

  /**
   * getGradientX(i, j, k, slot): the gradient of output i with respect to the input
   * volume, entry (xi, xj, xk) being the derivative times A[i] at the flat index
   * xi + xj·w + xk·w·h. Flattened, it is row i of A scaled by the derivative.
   */
  function GetGradientX(L: FullLayer, i: int, j: int, k: int, slot: int): (g: Vol)
    requires L.Valid() && L.base.Cached(slot)
    requires InVol(L.base.lastPrime[slot].value, i, j, k) && 0 <= i < L.numOutputs
    ensures HasShape(g, L.inputSize)
    ensures ToArray(g, L.inputSize) == Scale(PrimeAt(L, slot, i, j, k), L.A[i])
    ensures forall xi, xj, xk :: InBox(L.inputSize, xi, xj, xk) ==>
      0 <= Flat(L.inputSize, xi, xj, xk) < L.numInputs
      && g[xi][xj][xk] == Prod(PrimeAt(L, slot, i, j, k), L.A[i][Flat(L.inputSize, xi, xj, xk)])
  {
    var row := Scale(PrimeAt(L, slot, i, j, k), L.A[i]);
    ToArrayToVol(row, L.inputSize);
    ToVol(row, L.inputSize)
  }

  /** A vector multiplied entry by entry by p. */
  function Scale(p: real, v: seq<real>): (r: seq<real>)
    ensures |r| == |v|
    ensures forall a :: 0 <= a < |v| ==> r[a] == Prod(p, v[a])
  {
    seq(|v|, a requires 0 <= a < |v| => Prod(p, v[a]))
  }

  /** The public constructor's ranges cover every entry getGradientX can make nonzero. */
  lemma GradientXWithinRanges(L: FullLayer, i: int, j: int, k: int, slot: int, xi: int, xj: int, xk: int)
    requires L.Valid() && L.base.Cached(slot)
    requires InVol(L.base.lastPrime[slot].value, i, j, k) && 0 <= i < L.numOutputs
    requires L.base.ranges == BoxRanges(L.inputSize)
    requires 0 <= xi < |GetGradientX(L, i, j, k, slot)|
    requires 0 <= xj < |GetGradientX(L, i, j, k, slot)[xi]|
    requires 0 <= xk < |GetGradientX(L, i, j, k, slot)[xi][xj]|
    ensures L.base.ranges.Contains(xi, xj, xk)
  {
  }

  /** combineScale(other, scale): A += scale·other.A and b += scale·other.b, entry by entry. */
  function CombineScale(L: FullLayer, other: FullLayer, scale: real): (R: FullLayer)
    requires L.Valid() && L.Fits(other)
    ensures R.Valid() && R.base == L.base
    ensures R.inputSize == L.inputSize && R.outputSize == L.outputSize
    ensures R.numInputs == L.numInputs && R.numOutputs == L.numOutputs
    ensures forall i, j :: 0 <= i < L.numOutputs && 0 <= j < L.numInputs ==>
      R.A[i][j] - L.A[i][j] == Prod(scale, other.A[i][j])
    ensures forall i :: 0 <= i < L.numOutputs ==> R.b[i] - L.b[i] == Prod(scale, other.b[i])
  {
    var A' := seq(L.numOutputs, i requires 0 <= i < L.numOutputs =>
      seq(L.numInputs, j requires 0 <= j < L.numInputs => L.A[i][j] + Prod(scale, other.A[i][j])));
    var b' := seq(L.numOutputs, i requires 0 <= i < L.numOutputs => L.b[i] + Prod(scale, other.b[i]));
    L.(A := A', b := b')
  }

  /** Adding a zero copy, or anything at scale 0, changes nothing. */
  lemma CombineScaleNeutral(L: FullLayer, other: FullLayer, scale: real)
    requires L.Valid() && L.Fits(other)
    requires scale == 0.0 || other == ZeroCopy(L)
    ensures CombineScale(L, other, scale) == L
  {
    var R := CombineScale(L, other, scale);
    assert R.A == L.A by {
      forall i | 0 <= i < L.numOutputs ensures R.A[i] == L.A[i] {
        assert |R.A[i]| == |L.A[i]|;
      }
    }
    assert R.b == L.b;
  }

  /** Combining with scale s and then with -s restores the layer. */
  lemma CombineScaleUndo(L: FullLayer, other: FullLayer, scale: real)
    requires L.Valid() && L.Fits(other)
    ensures CombineScale(CombineScale(L, other, scale), other, -scale) == L
  {
    var M := CombineScale(L, other, scale);
    var R := CombineScale(M, other, -scale);
    assert R.A == L.A by {
      forall i | 0 <= i < L.numOutputs ensures R.A[i] == L.A[i] {
        assert |R.A[i]| == |L.A[i]|;
      }
    }
    assert R.b == L.b;
  }

  /** The running parameters after combining grads[..n] in order, each at `rate`. */
  function CombineAll(L: FullLayer, grads: seq<FullLayer>, rate: real, n: nat): (R: FullLayer)
    requires L.Valid() && n <= |grads|
    requires forall t :: 0 <= t < |grads| ==> L.Fits(grads[t])
    ensures R.Valid() && R.base == L.base
    ensures R.inputSize == L.inputSize && R.outputSize == L.outputSize
    ensures R.numInputs == L.numInputs && R.numOutputs == L.numOutputs
  {
    if n == 0 then L else CombineScale(CombineAll(L, grads, rate, n - 1), grads[n - 1], rate)
  }

  /** A[i][j] of a gradient layer, 0 where it has no such entry. */
  function EntryA(g: FullLayer, i: int, j: int): real
  {
    if 0 <= i < |g.A| && 0 <= j < |g.A[i]| then g.A[i][j] else 0.0
  }

  /** b[i] of a gradient layer, 0 where it has no such entry. */
  function EntryB(g: FullLayer, i: int): real
  {
    if 0 <= i < |g.b| then g.b[i] else 0.0
  }

  /** Σ_{t < n} grads[t].A[i][j]. */
  function SumA(grads: seq<FullLayer>, i: int, j: int, n: nat): real
    requires n <= |grads|
  {
    if n == 0 then 0.0 else SumA(grads, i, j, n - 1) + EntryA(grads[n - 1], i, j)
  }

  /** Σ_{t < n} grads[t].b[i]. */
  function SumB(grads: seq<FullLayer>, i: int, n: nat): real
    requires n <= |grads|
  {
    if n == 0 then 0.0 else SumB(grads, i, n - 1) + EntryB(grads[n - 1], i)
  }

  lemma Distribute(r: real, a: real, b: real)
    ensures Prod(r, a) + Prod(r, b) == Prod(r, a + b)
  {
  }

  /** One combineScale step keeps "L plus rate times the sum so far" at entry (i, j). */
  lemma CombineStep(L: FullLayer, P: FullLayer, g: FullLayer, rate: real, sa: real, sb: real, i: int, j: int)
    requires P.Valid() && P.Fits(g)
    requires 0 <= i < P.numOutputs && 0 <= j < P.numInputs
    requires 0 <= i < |L.A| && 0 <= j < |L.A[i]| && 0 <= i < |L.b|
    requires P.A[i][j] == L.A[i][j] + Prod(rate, sa) && P.b[i] == L.b[i] + Prod(rate, sb)
    ensures CombineScale(P, g, rate).A[i][j] == L.A[i][j] + Prod(rate, sa + g.A[i][j])
    ensures CombineScale(P, g, rate).b[i] == L.b[i] + Prod(rate, sb + g.b[i])
  {
    Distribute(rate, sa, g.A[i][j]);
    Distribute(rate, sb, g.b[i]);
  }

  /** Combining the gradients one at a time adds rate times their sum. */
  lemma {:induction false} CombineAllIsScaledSum(L: FullLayer, grads: seq<FullLayer>, rate: real, n: nat, i: int, j: int)
    requires L.Valid() && n <= |grads|
    requires forall t :: 0 <= t < |grads| ==> L.Fits(grads[t])
    requires 0 <= i < L.numOutputs && 0 <= j < L.numInputs
    ensures CombineAll(L, grads, rate, n).A[i][j] == L.A[i][j] + Prod(rate, SumA(grads, i, j, n))
    ensures CombineAll(L, grads, rate, n).b[i] == L.b[i] + Prod(rate, SumB(grads, i, n))
  {
    if n > 0 {
      CombineAllIsScaledSum(L, grads, rate, n - 1, i, j);
      var g, P := grads[n - 1], CombineAll(L, grads, rate, n - 1);
      assert L.Fits(g);
      assert SumA(grads, i, j, n) == SumA(grads, i, j, n - 1) + g.A[i][j];
      assert SumB(grads, i, n) == SumB(grads, i, n - 1) + g.b[i];
      CombineStep(L, P, g, rate, SumA(grads, i, j, n - 1), SumB(grads, i, n - 1), i, j);
      assert CombineAll(L, grads, rate, n) == CombineScale(P, g, rate);
    }
  }

  /**
   * train(grads, rate): combine every gradient at the training rate, then clear
   * both caches. TrainAddsScaledSum states what the parameters become.
   */
  function Train(L: FullLayer, grads: seq<FullLayer>, rate: real): (R: FullLayer)
    requires L.Valid()
    requires forall t :: 0 <= t < |grads| ==> L.Fits(grads[t])
    ensures R.Valid() && R.base == ClearCaches(L.base)
    ensures R.inputSize == L.inputSize && R.outputSize == L.outputSize
    ensures R.numInputs == L.numInputs && R.numOutputs == L.numOutputs
  {
    var C := CombineAll(L, grads, rate, |grads|);
    C.(base := ClearCaches(C.base))
  }

  /** Training adds the training rate times the sum of the gradients to A and to b. */
  lemma TrainAddsScaledSum(L: FullLayer, grads: seq<FullLayer>, rate: real, i: int, j: int)
    requires L.Valid()
    requires forall t :: 0 <= t < |grads| ==> L.Fits(grads[t])
    requires 0 <= i < L.numOutputs && 0 <= j < L.numInputs
    ensures Train(L, grads, rate).A[i][j] == L.A[i][j] + Prod(rate, SumA(grads, i, j, |grads|))
    ensures Train(L, grads, rate).b[i] == L.b[i] + Prod(rate, SumB(grads, i, |grads|))
  {
    TrainEntry(L, grads, rate, i, j);
    CombineAllIsScaledSum(L, grads, rate, |grads|, i, j);
  }

  /** Entry (i, j) of A and entry i of b after training are those of the combined layer. */
  lemma TrainEntry(L: FullLayer, grads: seq<FullLayer>, rate: real, i: int, j: int)
    requires L.Valid()
    requires forall t :: 0 <= t < |grads| ==> L.Fits(grads[t])
    requires 0 <= i < L.numOutputs && 0 <= j < L.numInputs
    ensures Train(L, grads, rate).A[i][j] == CombineAll(L, grads, rate, |grads|).A[i][j]
    ensures Train(L, grads, rate).b[i] == CombineAll(L, grads, rate, |grads|).b[i]
  {
  }

  /** Training on zero copies (or at rate 0) leaves the parameters as they were. */
  lemma {:induction false} TrainOnZeroCopies(L: FullLayer, grads: seq<FullLayer>, rate: real, n: nat)
    requires L.Valid() && n <= |grads|
    requires forall t :: 0 <= t < |grads| ==> L.Fits(grads[t]) && grads[t] == ZeroCopy(L)
    ensures CombineAll(L, grads, rate, n).A == L.A && CombineAll(L, grads, rate, n).b == L.b
  {
    if n > 0 {
      TrainOnZeroCopies(L, grads, rate, n - 1);
      var P := CombineAll(L, grads, rate, n - 1);
      assert P == L.(A := P.A, b := P.b);
      CombineScaleNeutral(P, grads[n - 1], rate);
    }
  }
}

=== FILE: javamath.dfy ===
/** Java integer and conversion semantics that differ from Dafny's. */
module JavaMath {

  function Min(a: int, b: int): int { if a <= b then a else b }

  function Max(a: int, b: int): int { if a >= b then a else b }

  /** Java's `/` on int: the quotient is truncated toward zero. */
  function Div(a: int, b: int): (q: int)
    requires b != 0
    ensures a >= 0 && b > 0 ==> q == a / b
    ensures b > 0 ==> (if a >= 0 then q * b <= a < q * b + b else q * b - b < a <= q * b)
  {
    if a >= 0 then a / b
    else if b > 0 then -((-a) / b)
    else if b < 0 then (-a) / (-b)
    else 0
  }

  /** Java's `(int)` cast of a double: truncation toward zero. */
  function Trunc(x: real): (n: int)
    ensures x >= 0.0 ==> n == x.Floor
    ensures x >= 0.0 ==> n as real <= x < n as real + 1.0
    ensures x < 0.0 ==> x <= n as real < x + 1.0
  {
    if x >= 0.0 then x.Floor else -((-x).Floor)
  }

  /** Number of iterations of `for (int i = 0; i < bound; i++)` with a real bound. */
  function Ceil(x: real): (n: int)
    ensures x <= 0.0 ==> n == 0
    ensures x > 0.0 ==> n as real >= x && (n - 1) as real < x
  {
    if x <= 0.0 then 0 else -((-x).Floor)
  }
}

=== FILE: layerbase.dfy ===
/**
 * core.layer.Layer: the state every layer kind shares: its parameters, the
 * per-batch-slot caches of the last input and the last activation derivative, and
 * the box of input positions the last gradient may be nonzero in.
 */
module LayerBase {
  import opened Wrappers
  import opened Tensor
  import opened LayerConfig

  /** An inclusive index range `{lo, hi}`; empty when lo > hi. */
  datatype Range = Range(lo: int, hi: int)
  {
    predicate Contains(x: int) { lo <= x <= hi }
  }

  /** gradXNonzeroRanges: one inclusive range per axis (i, j, k). */
  datatype Ranges = Ranges(i: Range, j: Range, k: Range)
  {
    predicate Contains(a: int, b: int, c: int)
    {
      i.Contains(a) && j.Contains(b) && k.Contains(c)
    }

    /** The ranges name no position at all. */
    predicate Empty() { i.lo > i.hi || j.lo > j.hi || k.lo > k.hi }

    /** Every loop `for (x = lo; x <= hi; x++)` over these ranges stays inside the box of s. */
    predicate Within(s: Shape)
    {
      Empty() || (0 <= i.lo && i.hi < s.w && 0 <= j.lo && j.hi < s.h && 0 <= k.lo && k.hi < s.d)
    }
  }

  /** Ranges within a box name only positions of that box. */
  lemma WithinMeansInBox(r: Ranges, s: Shape, a: int, b: int, c: int)
    requires r.Within(s) && r.Contains(a, b, c)
    ensures InBox(s, a, b, c)
  {
  }

  /** `new int[3][2]`: the ranges a layer has until something assigns them. */
  const DefaultRanges: Ranges := Ranges(Range(0, 0), Range(0, 0), Range(0, 0))

  /** The default ranges name the single position (0, 0, 0). */
  lemma DefaultRangesIsOrigin(a: int, b: int, c: int)
    ensures DefaultRanges.Contains(a, b, c) <==> a == 0 && b == 0 && c == 0
  {
  }

  /** The whole box of s: `{0, w-1}, {0, h-1}, {0, d-1}`. */
  function BoxRanges(s: Shape): (r: Ranges)
    ensures forall a, b, c :: r.Contains(a, b, c) <==> InBox(s, a, b, c)
  {
    Ranges(Range(0, s.w - 1), Range(0, s.h - 1), Range(0, s.d - 1))
  }

  /**
   * The fields of Layer. A Java array of caches that was never allocated
   * (setupLasts not called) is the empty sequence; a null slot is None.
   */
  datatype Base = Base(
    lp: LayerParams,
    lastX: seq<Option<Vol>>,
    lastPrime: seq<Option<Vol>>,
    ranges: Ranges)
  {
    /** The caches have one slot per batch entry. */
    predicate CachesAligned() { |lastX| == |lastPrime| }

    /** Slot `slot` holds a cached input and a cached derivative. */
    predicate Cached(slot: int)
    {
      0 <= slot < |lastX| && 0 <= slot < |lastPrime| && lastX[slot].Some? && lastPrime[slot].Some?
    }
  }

  /** Layer(LayerParameters): no caches yet, default ranges. */
  function NewBase(lp: LayerParams): (b: Base)
    ensures b.lp == lp && b.ranges == DefaultRanges
    ensures |b.lastX| == 0 && |b.lastPrime| == 0
  {
    Base(lp, [], [], DefaultRanges)
  }

  /** A batch of n empty slots. */
  function NoneSlots(n: nat): (s: seq<Option<Vol>>)
    ensures |s| == n
    ensures forall t :: 0 <= t < n ==> s[t] == None
  {
    seq(n, _ => None)
  }

  /**
   * setupLasts(batchSize): both caches become arrays of batchSize null slots; the
   * parameters and ranges stay.
   */
  function SetupLasts(b: Base, batchSize: int): (r: Base)
    requires batchSize >= 0
    ensures r.CachesAligned() && |r.lastX| == batchSize
    ensures forall t :: 0 <= t < batchSize ==> r.lastX[t].None? && r.lastPrime[t].None?
    ensures forall t :: 0 <= t < batchSize ==> !r.Cached(t)
    ensures r.lp == b.lp && r.ranges == b.ranges
  {
    b.(lastX := NoneSlots(batchSize), lastPrime := NoneSlots(batchSize))
  }

  /**
   * `this.lastX[slot] = x; this.lastPrime[slot] = prime`: valid only for a slot
   * inside the arrays setupLasts allocated. Every other slot keeps its contents.
   */
  function CacheAt(b: Base, slot: int, x: Vol, prime: Vol): (r: Base)
    requires b.CachesAligned() && 0 <= slot < |b.lastX|
    ensures r.CachesAligned() && |r.lastX| == |b.lastX|
    ensures r.Cached(slot) && r.lastX[slot] == Some(x) && r.lastPrime[slot] == Some(prime)
    ensures forall t :: 0 <= t < |b.lastX| && t != slot ==>
      r.lastX[t] == b.lastX[t] && r.lastPrime[t] == b.lastPrime[t]
    ensures r.lp == b.lp && r.ranges == b.ranges
  {
    b.(lastX := b.lastX[slot := Some(x)], lastPrime := b.lastPrime[slot := Some(prime)])
  }

  /** A slot set up by setupLasts becomes cached exactly when it is written. */
  lemma {:induction false} CacheAfterSetup(b: Base, n: int, slot: int, x: Vol, prime: Vol, t: int)
    requires n >= 0 && 0 <= slot < n && 0 <= t < n
    ensures CacheAt(SetupLasts(b, n), slot, x, prime).Cached(t) <==> t == slot
  {
    var s := SetupLasts(b, n);
    if t != slot {
      assert !s.Cached(t);
    }
  }

  /** `Arrays.fill(lastX, null); Arrays.fill(lastPrime, null)` at the end of train. */
  function ClearCaches(b: Base): (r: Base)
    ensures |r.lastX| == |b.lastX| && |r.lastPrime| == |b.lastPrime|
    ensures forall t :: 0 <= t < |r.lastX| ==> r.lastX[t].None?
    ensures forall t :: 0 <= t < |r.lastPrime| ==> r.lastPrime[t].None?
    ensures r.lp == b.lp && r.ranges == b.ranges
  {
    b.(lastX := NoneSlots(|b.lastX|), lastPrime := NoneSlots(|b.lastPrime|))
  }

  /** PoolLayer.train clears only lastX. */
  function ClearInputs(b: Base): (r: Base)
    ensures |r.lastX| == |b.lastX| && r.lastPrime == b.lastPrime
    ensures forall t :: 0 <= t < |r.lastX| ==> r.lastX[t].None?
    ensures r.lp == b.lp && r.ranges == b.ranges
  {
    b.(lastX := NoneSlots(|b.lastX|))
  }
}

=== FILE: layerconfig.dfy ===
/**
 * core.layer.LayerParameters: the description of one layer (its kind, activation
 * and hyper-parameters) and the input/output size arithmetic that chains layers.
 */
module LayerConfig {
  import opened JavaMath
  import opened Wrappers
  import opened Tensor
  import opened ActFuncs

  datatype LayerType = FULL | POOL | CONV

  /** The pooling kind read by PoolLayer; see the README for where it is set. */
  datatype PoolType = MAX | AVG

  /**
   * The fields of LayerParameters. `inputSize` and `outputSize` are null until
   * makeLayer assigns them (except that the FULL constructor sets `outputSize`),
   * hence Option. `actFunc` is null for a POOL layer.
   */
  datatype LayerParams = LayerParams(
    inputSize: Option<Shape>,
    outputSize: Option<Shape>,
    actFunc: Option<ActFunc>,
    poolSize: int,
    stride: int,
    convRadius: int,
    numConvs: int,
    pad: int,
    convMod: int,
    layerType: LayerType,
    poolType: PoolType)
  {
    /** What the constructor that built these parameters established. */
    predicate Valid()
    {
      match layerType
      case FULL => outputSize.Some? && outputSize.value.w > 0 && actFunc.Some?
      case POOL => stride > 0 && poolSize > 0
      case CONV => convRadius > 0 && numConvs > 0 && pad >= 0 && actFunc.Some?
                   && convMod == ConvMod(pad, convRadius)
    }
  }

  /** convMod = min(0, 1 + pad - convRadius): how much each side shrinks. */
  function ConvMod(pad: int, convRadius: int): (m: int)
    requires convRadius > 0 && pad >= 0
    ensures -(convRadius - 1) <= m <= 0
    ensures m == 0 <==> pad >= convRadius - 1
    ensures m < 0 ==> m + convRadius - 1 == pad
  {
    Min(0, 1 + pad - convRadius)
  }

  /** LayerParameters(int outputLength, ActFunc actFunc): a FULL layer. */
  function NewFull(outputLength: int, f: ActFunc): (p: LayerParams)
    requires outputLength > 0
    ensures p.Valid() && p.layerType == FULL
    ensures p.outputSize == Some(Shape(outputLength, 1, 1)) && p.inputSize.None?
    ensures p.actFunc == Some(f)
    ensures p.poolSize == 0 && p.stride == 0 && p.convRadius == 0
    ensures p.numConvs == 0 && p.pad == 0 && p.convMod == 0
  {
    LayerParams(None, Some(Shape(outputLength, 1, 1)), Some(f), 0, 0, 0, 0, 0, 0, FULL, MAX)
  }

  /** LayerParameters(int poolSize, int stride): a POOL layer, without an activation. */
  function NewPool(poolSize: int, stride: int, pt: PoolType): (p: LayerParams)
    requires stride > 0
    requires poolSize > 0
    ensures p.Valid() && p.layerType == POOL && p.poolType == pt
    ensures p.inputSize.None? && p.outputSize.None? && p.actFunc.None?
    ensures p.poolSize == poolSize && p.stride == stride
    ensures p.convRadius == 0 && p.numConvs == 0 && p.pad == 0 && p.convMod == 0
  {
    LayerParams(None, None, None, poolSize, stride, 0, 0, 0, 0, POOL, pt)
  }

  /** LayerParameters(int convRadius, int numConvs, int pad, ActFunc actFunc): a CONV layer. */
  function NewConv(convRadius: int, numConvs: int, pad: int, f: ActFunc): (p: LayerParams)
    requires convRadius > 0
    requires numConvs > 0
    requires pad >= 0
    ensures p.Valid() && p.layerType == CONV
    ensures p.inputSize.None? && p.outputSize.None? && p.actFunc == Some(f)
    ensures p.convRadius == convRadius && p.numConvs == numConvs && p.pad == pad
    ensures p.poolSize == 0 && p.stride == 0
    ensures -(convRadius - 1) <= p.convMod <= 0
    ensures p.convMod == 0 <==> pad >= convRadius - 1
  {
    LayerParams(None, None, Some(f), 0, 0, convRadius, numConvs, pad, ConvMod(pad, convRadius), CONV, MAX)
  }

  /**
   * getOutputSize: FULL answers the size it was given; POOL divides width and
   * height by the stride (Java's truncating division) and keeps the depth; CONV
   * shrinks width and height by 2·|convMod| and multiplies the depth by numConvs.
   */
  function GetOutputSize(p: LayerParams, input: Shape): (out: Option<Shape>)
    requires p.Valid()
    ensures p.layerType == FULL ==> out == p.outputSize && out.Some?
    ensures p.layerType != FULL ==> out.Some?
    ensures p.layerType == POOL ==> out.value.d == input.d
    ensures p.layerType == POOL && input.w >= 0 ==>
      out.value.w * p.stride <= input.w < (out.value.w + 1) * p.stride
    ensures p.layerType == POOL && input.h >= 0 ==>
      out.value.h * p.stride <= input.h < (out.value.h + 1) * p.stride
    ensures p.layerType == CONV ==> out.value.w <= input.w && out.value.h <= input.h
    ensures p.layerType == CONV && p.pad >= p.convRadius - 1 ==>
      out.value.w == input.w && out.value.h == input.h
    ensures p.layerType == CONV && p.pad < p.convRadius - 1 ==>
      input.w - out.value.w == input.h - out.value.h == 2 * (p.convRadius - 1 - p.pad)
    ensures p.layerType == CONV ==> out.value.d == input.d * p.numConvs
  {
    match p.layerType
    case FULL => p.outputSize
    case POOL => Some(Shape(Div(input.w, p.stride), Div(input.h, p.stride), input.d))
    case CONV => Some(Shape(input.w + 2 * p.convMod, input.h + 2 * p.convMod, input.d * p.numConvs))
  }

  /** Padding of at least convRadius - 1 keeps a convolution's width and height. */
  lemma ConvKeepsSizeWhenPadded(p: LayerParams, input: Shape)
    requires p.Valid() && p.layerType == CONV && p.pad >= p.convRadius - 1
    ensures GetOutputSize(p, input).value.w == input.w
    ensures GetOutputSize(p, input).value.h == input.h
  {
  }

  /**
   * Nothing rejects a non-positive output dimension: a stride wider than the input
   * gives width 0, and an unpadded radius-3 convolution of a 4-wide input gives 0.
   */
  lemma NonPositiveOutputsAccepted()
    ensures GetOutputSize(NewPool(2, 5, MAX), Shape(4, 4, 1)) == Some(Shape(0, 0, 1))
    ensures GetOutputSize(NewConv(3, 1, 0, RELU), Shape(4, 4, 1)) == Some(Shape(0, 0, 1))
  {
  }

  /** The first half of makeLayer(inputSize): record the input and its output size. */
  function WithSizes(p: LayerParams, input: Shape): (q: LayerParams)
    requires p.Valid()
    ensures q.Valid()
    ensures q.inputSize == Some(input)
    ensures q.outputSize == GetOutputSize(p, input)
    ensures q.layerType == p.layerType && q.actFunc == p.actFunc
    ensures q == p.(inputSize := q.inputSize, outputSize := q.outputSize)
  {
    p.(inputSize := Some(input), outputSize := GetOutputSize(p, input))
  }

  /** The three entries of an `int[]` size, as the validation loop sees them. */
  function Entries(s: Shape): seq<int> { [s.w, s.h, s.d] }

  /** `for (int a : arr) if (a < 1) return false; return true;` */
  function AllAtLeastOne(arr: seq<int>): (ok: bool)
    ensures ok <==> forall t :: 0 <= t < |arr| ==> arr[t] >= 1
  {
    if |arr| == 0 then true
    else if arr[0] < 1 then false
    else AllAtLeastOne(arr[1..])
  }

  /** Layer.validateParameters: every input and every output dimension is at least 1. */
  function ValidateParameters(p: LayerParams): (ok: bool)
    requires p.inputSize.Some? && p.outputSize.Some?
    ensures ok <==> Positive(p.inputSize.value) && Positive(p.outputSize.value)
  {
    var i, o := p.inputSize.value, p.outputSize.value;
    assert Entries(i)[0] == i.w && Entries(i)[1] == i.h && Entries(i)[2] == i.d;
    assert Entries(o)[0] == o.w && Entries(o)[1] == o.h && Entries(o)[2] == o.d;
    AllAtLeastOne(Entries(i)) && AllAtLeastOne(Entries(o))
  }

  /**
   * FullLayer.validateParameters: the common check, and the output must be a column
   * [n][1][1].
   */
  function ValidateFullParameters(p: LayerParams): (ok: bool)
    requires p.inputSize.Some? && p.outputSize.Some?
    ensures ok <==> Positive(p.inputSize.value) && p.outputSize.value.w >= 1
                    && p.outputSize.value.h == 1 && p.outputSize.value.d == 1
  {
    ValidateParameters(p) && p.outputSize.value.h == 1 && p.outputSize.value.d == 1
  }

  /** A FULL layer made by makeLayer passes FullLayer's validation whenever its input is positive. */
  lemma FullLayerValidates(outputLength: int, f: ActFunc, input: Shape)
    requires outputLength > 0 && Positive(input)
    ensures ValidateFullParameters(WithSizes(NewFull(outputLength, f), input))
  {
  }
}

=== FILE: layered.dfy ===
/**
 * core.LayeredNetworkParameters and core.LayeredNetwork: a dense network of
 * |hidden| + 1 sigmoid layers. Matrix v maps the width of layer v - 1 (the
 * inputs for v = 0) to the width of layer v (the outputs for the last one).
 * The draws of initialValue are a parameter: u(v, i, j) feeds entry (i, j) of
 * matrix v.
 */
module Layered {
  import opened JavaMath
  import opened Approx
  import opened Utility
  import opened Matrices

  /** The sizes a LayeredNetworkParameters holds. */
  datatype Params = Params(hidden: seq<int>, numInputs: int, numOutputs: int)
  {
    /** Sizes an array can be allocated with. */
    ghost predicate Valid()
    {
      numInputs >= 0 && numOutputs >= 0 && forall v :: 0 <= v < |hidden| ==> hidden[v] >= 0
    }

    /** The number of weight matrices: one per hidden layer and one for the outputs. */
    function Depth(): nat { |hidden| + 1 }

    /** The rows of matrix v: the width of layer v. */
    function Rows(v: int): int
    {
      if 0 <= v < |hidden| then hidden[v] else numOutputs
    }

    /** The columns of matrix v: the inputs for v = 0, hidden layer v - 1 after. */
    function Cols(v: int): int
    {
      if v <= 0 || v > |hidden| then numInputs else hidden[v - 1]
    }
  }

  /** The draws for matrix v. */
  function Layer(u: (int, int, int) -> real, v: int): (int, int) -> real
  {
    (i, j) => u(v, i, j)
  }

  /** Every draw of nextDouble() lies in [0, 1). */
  ghost predicate Draws3(u: (int, int, int) -> real)
  {
    forall v, i, j :: 0.0 <= u(v, i, j) < 1.0
  }

  lemma LayerDraws(u: (int, int, int) -> real, v: int)
    requires Draws3(u)
    ensures Draws(Layer(u, v))
  {
    forall i, j ensures 0.0 <= Layer(u, v)(i, j) < 1.0 {
      assert Layer(u, v)(i, j) == u(v, i, j);
    }
  }

  /** Matrix m is matrix v of setupWeights(zero). */
  ghost predicate WeightsAt(p: Params, zero: bool, u: (int, int, int) -> real, m: seq<seq<real>>, v: int)
  {
    && IsMatrix(m, p.Rows(v), p.Cols(v))
    && forall i, j :: 0 <= i < |m| && 0 <= j < |m[i]| ==> m[i][j] == if zero then 0.0 else 2.0 * u(v, i, j) - 1.0
  }

  /** Matrix v of setupWeights, from one initialMatrix call. */
  method WeightMatrix(p: Params, zero: bool, u: (int, int, int) -> real, v: int) returns (m: seq<seq<real>>)
    requires p.Valid() && (zero || Draws3(u))
    ensures WeightsAt(p, zero, u, m, v)
  {
    if !zero {
      LayerDraws(u, v);
    }
    m := InitialMatrix(Max(p.Rows(v), 0), Max(p.Cols(v), 0), zero, Layer(u, v));
  }

  /**
   * setupWeights(zero): |hidden| + 1 matrices, matrix v of Rows(v) × Cols(v), so
   * that each one's columns are the previous one's rows; all zero when zero holds.
   */
  method SetupWeights(p: Params, zero: bool, u: (int, int, int) -> real) returns (w: seq<seq<seq<real>>>)
    requires p.Valid() && (zero || Draws3(u))
    ensures |w| == p.Depth()
    ensures forall v :: 0 <= v < |w| ==> WeightsAt(p, zero, u, w[v], v)
    ensures forall v, i :: 1 <= v < |w| && 0 <= i < |w[v]| ==> |w[v][i]| == |w[v - 1]|
  {
    var l := |p.hidden|;
    if l == 0 {
      var m := WeightMatrix(p, zero, u, 0);
      w := [m];
    } else {
      var m0 := WeightMatrix(p, zero, u, 0);
      w := [m0];
      var i := 1;
      while i < l
        invariant 1 <= i <= l && |w| == i
        invariant forall v :: 0 <= v < i ==> WeightsAt(p, zero, u, w[v], v)
      {
        var m := WeightMatrix(p, zero, u, i);
        w := w + [m];
        i := i + 1;
      }
      var last := WeightMatrix(p, zero, u, l);
      w := w + [last];
    }
  }

  /** Offset column o is column v of setupOffsets(zero). */
  ghost predicate OffsetsAt(p: Params, zero: bool, u: (int, int, int) -> real, o: seq<real>, v: int)
  {
    && |o| == p.Rows(v)
    && forall i :: 0 <= i < |o| ==> o[i] == if zero then 0.0 else 2.0 * u(v, i, 0) - 1.0
  }

  /** Column v of setupOffsets, from one initialColumn call. */
  method OffsetColumn(p: Params, zero: bool, u: (int, int, int) -> real, v: int) returns (o: seq<real>)
    requires p.Valid() && (zero || Draws3(u))
    ensures OffsetsAt(p, zero, u, o, v)
  {
    if !zero {
      LayerDraws(u, v);
    }
    o := InitialColumn(Max(p.Rows(v), 0), zero, Layer(u, v));
  }

  /** setupOffsets(zero): one column per matrix, as long as that matrix has rows. */
  method SetupOffsets(p: Params, zero: bool, u: (int, int, int) -> real) returns (o: seq<seq<real>>)
    requires p.Valid() && (zero || Draws3(u))
    ensures |o| == p.Depth()
    ensures forall v :: 0 <= v < |o| ==> OffsetsAt(p, zero, u, o[v], v)
  {
    var l := |p.hidden|;
    if l == 0 {
      var c := OffsetColumn(p, zero, u, 0);
      o := [c];
    } else {
      var c0 := OffsetColumn(p, zero, u, 0);
      o := [c0];
      var i := 1;
      while i < l
        invariant 1 <= i <= l && |o| == i
        invariant forall v :: 0 <= v < i ==> OffsetsAt(p, zero, u, o[v], v)
      {
        var c := OffsetColumn(p, zero, u, i);
        o := o + [c];
        i := i + 1;
      }
      var last := OffsetColumn(p, zero, u, l);
      o := o + [last];
    }
  }

  /** The fields of a LayeredNetwork. */
  datatype Net = Net(params: Params, weights: seq<seq<seq<real>>>, offsets: seq<seq<real>>)
  {
    /** Weights and offsets have the shapes setupWeights and setupOffsets give. */
    ghost predicate Valid()
    {
      && params.Valid() && |weights| == params.Depth() && |offsets| == params.Depth()
      && (forall v :: 0 <= v < |weights| ==> IsMatrix(weights[v], params.Rows(v), params.Cols(v)))
      && (forall v :: 0 <= v < |offsets| ==> |offsets[v]| == params.Rows(v))
    }
  }

  /** new LayeredNetwork(params): random weights and offsets of the right shapes. */
  method NewNet(p: Params, uw: (int, int, int) -> real, uo: (int, int, int) -> real) returns (n: Net)
    requires p.Valid() && Draws3(uw) && Draws3(uo)
    ensures n.Valid() && n.params == p
    ensures forall v, i, j :: 0 <= v < p.Depth() && 0 <= i < p.Rows(v) && 0 <= j < p.Cols(v) ==>
      -1.0 <= n.weights[v][i][j] < 1.0
  {
    var w := SetupWeights(p, false, uw);
    var o := SetupOffsets(p, false, uo);
    n := Net(p, w, o);
    forall v, i, j | 0 <= v < p.Depth() && 0 <= i < p.Rows(v) && 0 <= j < p.Cols(v)
      ensures -1.0 <= n.weights[v][i][j] < 1.0
    {
      assert WeightsAt(p, false, uw, w[v], v);
    }
  }

  /** Layer v of the network applied to y. */
  function LayerOut(t: Tables, net: Net, v: nat, y: seq<real>): (r: seq<real>)
    requires t.Valid() && net.Valid() && v < net.params.Depth() && |y| >= net.params.Cols(v)
    ensures |r| == net.params.Rows(v)
  {
    Utility.Evaluate(t, net.weights[v], net.offsets[v], y, true)
  }

  /** Output i of layer v is the fast sigmoid of row i of matrix v times y, plus offset i. */
  lemma LayerOutEntries(t: Tables, net: Net, v: nat, y: seq<real>)
    requires t.Valid() && net.Valid() && v < net.params.Depth() && |y| >= net.params.Cols(v)
    ensures forall i :: 0 <= i < net.params.Rows(v) ==>
      LayerOut(t, net, v, y)[i] == Lookup(t.values, Dot(net.weights[v][i], y) + net.offsets[v][i])
  {
  }

  /** The first n layers applied to x in order: the reference for evaluate. */
  function Forward(t: Tables, net: Net, x: seq<real>, n: nat): (y: seq<real>)
    requires t.Valid() && net.Valid() && |x| >= net.params.numInputs && n <= net.params.Depth()
    ensures n == 0 ==> y == x
    ensures n > 0 ==> |y| == net.params.Rows(n - 1)
  {
    if n == 0 then x else LayerOut(t, net, n - 1, Forward(t, net, x, n - 1))
  }

  /** How many layers evaluate(x, toLayer) applies: none for 0, else at least the first, at most all. */
  function Applied(net: Net, toLayer: int): nat
  {
    if toLayer == 0 then 0 else Max(1, Min(toLayer, |net.weights|))
  }

  /**
   * evaluate(x, toLayer): a copy of x for toLayer 0; otherwise layer 0, then
   * layers 1 .. min(toLayer, L) - 1, each output feeding the next. The loop here
   * also makes the first pass, so it runs max(1, min(toLayer, L)) times.
   */
  method EvaluateTo(t: Tables, net: Net, x: seq<real>, toLayer: int) returns (y: seq<real>)
    requires t.Valid() && net.Valid() && |x| >= net.params.numInputs
    ensures y == Forward(t, net, x, Applied(net, toLayer))
    ensures toLayer == 0 ==> y == x
    ensures toLayer != 0 ==> |y| == net.params.Rows(Applied(net, toLayer) - 1)
  {
    if toLayer == 0 {
      return x;
    }
    var n := Applied(net, toLayer);
    y := x;
    var i := 0;
    while i < n
      invariant 0 <= i <= n
      invariant y == Forward(t, net, x, i)
    {
      y := NextLayer(t, net, x, i, y);
      i := i + 1;
    }
  }

  /** One pass of evaluate's loop: layer i applied to the first i layers' output. */
  method NextLayer(t: Tables, net: Net, x: seq<real>, i: nat, y: seq<real>) returns (z: seq<real>)
    requires t.Valid() && net.Valid() && |x| >= net.params.numInputs && i < net.params.Depth()
    requires y == Forward(t, net, x, i)
    ensures z == Forward(t, net, x, i + 1)
  {
    z := LayerOut(t, net, i, y);
  }

  /** evaluate(x): every layer, giving numOutputs values. */
  method EvaluateAll(t: Tables, net: Net, x: seq<real>) returns (y: seq<real>)
    requires t.Valid() && net.Valid() && |x| >= net.params.numInputs
    ensures y == Forward(t, net, x, net.params.Depth())
    ensures |y| == net.params.numOutputs
  {
    y := EvaluateTo(t, net, x, |net.weights|);
  }

  /**
   * What gradChange's loops can index: for each v below gradAs.length, rows of
   * gradAs[v] exist in weights[v], offsets[v] and gradBs[v], and every row reaches
   * as far as gradAs[v][0], whose length bounds the inner loop.
   */
  ghost predicate GradsFit(net: Net, gradAs: seq<seq<seq<real>>>, gradBs: seq<seq<real>>)
    requires net.Valid()
  {
    && |gradAs| <= |net.weights| && |gradAs| <= |gradBs|
    && forall v :: 0 <= v < |gradAs| ==>
      && |gradAs[v]| <= net.params.Rows(v) && |gradAs[v]| <= |gradBs[v]|
      && (|gradAs[v]| > 0 ==> forall i :: 0 <= i < |gradAs[v]| ==>
            |gradAs[v][0]| <= |gradAs[v][i]| && |gradAs[v][0]| <= net.params.Cols(v))
  }

  /** Whether gradChange's loops reach entry (i, j) of matrix v. */
  predicate Reached(gradAs: seq<seq<seq<real>>>, v: int, i: int, j: int)
  {
    0 <= v < |gradAs| && 0 <= i < |gradAs[v]| && 0 <= j < |gradAs[v][0]|
  }

  /**
   * gradChange(gradAs, gradBs, rate): every weight the loops reach moves by
   * -rate·gradA and every offset of a reached row by -rate·gradB; all else stays.
   */
  function GradChange(net: Net, gradAs: seq<seq<seq<real>>>, gradBs: seq<seq<real>>, rate: real): (r: Net)
    requires net.Valid() && GradsFit(net, gradAs, gradBs)
    ensures r.Valid() && r.params == net.params
    ensures forall v, i, j :: 0 <= v < |net.weights| && 0 <= i < |net.weights[v]| && 0 <= j < |net.weights[v][i]| ==>
      r.weights[v][i][j] == if Reached(gradAs, v, i, j) then net.weights[v][i][j] - Prod(rate, gradAs[v][i][j]) else net.weights[v][i][j]
    ensures forall v, i :: 0 <= v < |net.offsets| && 0 <= i < |net.offsets[v]| ==>
      r.offsets[v][i] == if v < |gradAs| && i < |gradAs[v]| then net.offsets[v][i] - Prod(rate, gradBs[v][i]) else net.offsets[v][i]
  {
    var w := seq(|net.weights|, v requires 0 <= v < |net.weights| =>
      seq(|net.weights[v]|, i requires 0 <= i < |net.weights[v]| =>
        seq(|net.weights[v][i]|, j requires 0 <= j < |net.weights[v][i]| =>
          if Reached(gradAs, v, i, j) then net.weights[v][i][j] - Prod(rate, gradAs[v][i][j]) else net.weights[v][i][j])));
    var o := seq(|net.offsets|, v requires 0 <= v < |net.offsets| =>
      seq(|net.offsets[v]|, i requires 0 <= i < |net.offsets[v]| =>
        if v < |gradAs| && i < |gradAs[v]| then net.offsets[v][i] - Prod(rate, gradBs[v][i]) else net.offsets[v][i]));
    net.(weights := w, offsets := o)
  }

  /** Gradients of the shapes setupWeights(true) and setupOffsets(true) give fit gradChange. */
  lemma ShapedGradsFit(net: Net, gradAs: seq<seq<seq<real>>>, gradBs: seq<seq<real>>)
    requires net.Valid() && |gradAs| == net.params.Depth() && |gradBs| == net.params.Depth()
    requires forall v :: 0 <= v < |gradAs| ==> IsMatrix(gradAs[v], net.params.Rows(v), net.params.Cols(v))
    requires forall v :: 0 <= v < |gradBs| ==> |gradBs[v]| == net.params.Rows(v)
    ensures GradsFit(net, gradAs, gradBs)
  {
  }

  /** All-zero gradients. */
  ghost predicate ZeroGrads(gradAs: seq<seq<seq<real>>>, gradBs: seq<seq<real>>)
  {
    && (forall v, i, j :: 0 <= v < |gradAs| && 0 <= i < |gradAs[v]| && 0 <= j < |gradAs[v][i]| ==> gradAs[v][i][j] == 0.0)
    && (forall v, i :: 0 <= v < |gradBs| && 0 <= i < |gradBs[v]| ==> gradBs[v][i] == 0.0)
  }

  /** Zero gradients, or a zero rate, leave the network as it was. */
  lemma GradChangeByNothing(net: Net, gradAs: seq<seq<seq<real>>>, gradBs: seq<seq<real>>, rate: real)
    requires net.Valid() && GradsFit(net, gradAs, gradBs)
    requires ZeroGrads(gradAs, gradBs) || rate == 0.0
    ensures GradChange(net, gradAs, gradBs, rate) == net
  {
    var r := GradChange(net, gradAs, gradBs, rate);
    forall v | 0 <= v < |net.weights| ensures r.weights[v] == net.weights[v] {
      forall i | 0 <= i < |net.weights[v]| ensures r.weights[v][i] == net.weights[v][i] {
        forall j | 0 <= j < |net.weights[v][i]| ensures r.weights[v][i][j] == net.weights[v][i][j] {
          if Reached(gradAs, v, i, j) {
            assert gradAs[v][i][j] == 0.0 || rate == 0.0;
          }
        }
      }
    }
    forall v | 0 <= v < |net.offsets| ensures r.offsets[v] == net.offsets[v] {
      forall i | 0 <= i < |net.offsets[v]| ensures r.offsets[v][i] == net.offsets[v][i] {
        if v < |gradAs| && i < |gradAs[v]| {
          assert gradBs[v][i] == 0.0 || rate == 0.0;
        }
      }
    }
  }

  /** A step with the negated rate undoes a step. */
  lemma GradChangeUndone(net: Net, gradAs: seq<seq<seq<real>>>, gradBs: seq<seq<real>>, rate: real)
    requires net.Valid() && GradsFit(net, gradAs, gradBs)
    ensures GradsFit(GradChange(net, gradAs, gradBs, rate), gradAs, gradBs)
    ensures GradChange(GradChange(net, gradAs, gradBs, rate), gradAs, gradBs, -rate) == net
  {
    var r := GradChange(net, gradAs, gradBs, rate);
    var back := GradChange(r, gradAs, gradBs, -rate);
    forall v | 0 <= v < |net.weights| ensures back.weights[v] == net.weights[v] {
      forall i | 0 <= i < |net.weights[v]| ensures back.weights[v][i] == net.weights[v][i] {
        forall j | 0 <= j < |net.weights[v][i]| ensures back.weights[v][i][j] == net.weights[v][i][j] {
          if Reached(gradAs, v, i, j) {
            ProdNeg(rate, gradAs[v][i][j]);
          }
        }
      }
    }
    forall v | 0 <= v < |net.offsets| ensures back.offsets[v] == net.offsets[v] {
      forall i | 0 <= i < |net.offsets[v]| ensures back.offsets[v][i] == net.offsets[v][i] {
        if v < |gradAs| && i < |gradAs[v]| {
          ProdNeg(rate, gradBs[v][i]);
        }
      }
    }
  }

  lemma ProdNeg(a: real, b: real)
    ensures Prod(-a, b) == -Prod(a, b)
  {
  }

  /** getEmptyGradAs: setupWeights(true), all zero and shaped like the weights. */
  method EmptyGradAs(net: Net) returns (gradAs: seq<seq<seq<real>>>)
    requires net.Valid()
    ensures |gradAs| == |net.weights|
    ensures forall v :: 0 <= v < |gradAs| ==> IsMatrix(gradAs[v], net.params.Rows(v), net.params.Cols(v))
    ensures forall v, i, j :: 0 <= v < |gradAs| && 0 <= i < |gradAs[v]| && 0 <= j < |gradAs[v][i]| ==> gradAs[v][i][j] == 0.0
  {
    gradAs := SetupWeights(net.params, true, (v, i, j) => 0.0);
    forall v | 0 <= v < |gradAs| ensures IsMatrix(gradAs[v], net.params.Rows(v), net.params.Cols(v)) {
      assert WeightsAt(net.params, true, (v, i, j) => 0.0, gradAs[v], v);
    }
  }

  /** getEmptyGradBs: setupOffsets(true), all zero and shaped like the offsets. */
  method EmptyGradBs(net: Net) returns (gradBs: seq<seq<real>>)
    requires net.Valid()
    ensures |gradBs| == |net.offsets|
    ensures forall v :: 0 <= v < |gradBs| ==> |gradBs[v]| == |net.offsets[v]|
    ensures forall v, i :: 0 <= v < |gradBs| && 0 <= i < |gradBs[v]| ==> gradBs[v][i] == 0.0
  {
    gradBs := SetupOffsets(net.params, true, (v, i, j) => 0.0);
    forall v | 0 <= v < |gradBs| ensures |gradBs[v]| == |net.offsets[v]| {
      assert OffsetsAt(net.params, true, (v, i, j) => 0.0, gradBs[v], v);
    }
  }

  /** gradChange with getEmptyGradAs and getEmptyGradBs changes nothing, whatever the rate. */
  method EmptyStep(net: Net, rate: real) returns (r: Net)
    requires net.Valid()
    ensures r == net
  {
    var gradAs := EmptyGradAs(net);
    var gradBs := EmptyGradBs(net);
    ShapedGradsFit(net, gradAs, gradBs);
    r := GradChange(net, gradAs, gradBs, rate);
    GradChangeByNothing(net, gradAs, gradBs, rate);
  }
}

=== FILE: layers.dfy ===
/**
 * The abstract class core.layer.Layer seen from the network: a layer is one of the
 * three kinds, and every abstract method dispatches on the kind. LayerParameters
 * .makeLayer is the factory that builds a layer from its parameters.
 */
module Layers {
  import opened Wrappers
  import opened Tensor
  import opened Approx
  import opened Utility
  import opened LayerConfig
  import opened LayerBase
  import Full
  import Conv
  import Pool

  datatype Layer = FullL(full: Full.FullLayer) | ConvL(conv: Conv.ConvLayer) | PoolL(pool: Pool.PoolLayer)
  {
    function Base(): Base
    {
      match this
      case FullL(f) => f.base
      case ConvL(c) => c.base
      case PoolL(p) => p.base
    }

    function Params(): LayerParams { Base().lp }

    /** The layer type the object's class stands for. */
    function Kind(): LayerType
    {
      match this
      case FullL(_) => FULL
      case ConvL(_) => CONV
      case PoolL(_) => POOL
    }

    function In(): Shape { if Params().inputSize.Some? then Params().inputSize.value else Shape(0, 0, 0) }

    function Out(): Shape { if Params().outputSize.Some? then Params().outputSize.value else Shape(0, 0, 0) }

    /**
     * A layer as makeLayer leaves it and as the network keeps it: the class matches
     * the parameters' type, both sizes are set, the output size is the one the
     * parameters compute, and each kind's own fields fit. A full layer's ranges are
     * its whole input box; nothing ever writes a convolutional layer's ranges.
     */
    ghost predicate Valid()
    {
      && Kind() == Params().layerType
      && Params().Valid() && Params().inputSize.Some? && Params().outputSize.Some?
      && Params().outputSize == GetOutputSize(Params(), In())
      && match this
         case FullL(f) => f.Valid() && f.outputSize.h == 1 && f.outputSize.d == 1
                          && f.base.ranges == BoxRanges(f.inputSize)
         case ConvL(c) => c.Valid() && c.base.ranges == DefaultRanges
         case PoolL(p) => p.Valid()
    }

    /** The layer with its caches, ranges and (for a pooling layer) coordsOfLargest forgotten. */
    function Strip(): Layer
    {
      match this
      case FullL(f) => FullL(f.(base := NewBase(f.base.lp)))
      case ConvL(c) => ConvL(c.(base := NewBase(c.base.lp)))
      case PoolL(p) => PoolL(p.(base := NewBase(p.base.lp), coordsOfLargest := None))
    }

    /**
     * Slot `slot` holds what evaluate cached there: an input of the input's shape
     * and, for the kinds that cache one, a derivative of the output's shape. A max
     * pool additionally reads the input against -Double.MAX_VALUE, so its entries
     * must not lie below it.
     */
    ghost predicate Ready(slot: int)
      requires Valid()
    {
      && Positive(In()) && Positive(Out())
      && 0 <= slot < |Base().lastX| && Base().lastX[slot].Some?
      && HasShape(Base().lastX[slot].value, In())
      && match this
         case FullL(f) => f.base.Cached(slot) && HasShape(f.base.lastPrime[slot].value, Out())
         case ConvL(c) => c.base.Cached(slot) && HasShape(c.base.lastPrime[slot].value, Out())
         case PoolL(p) => p.base.lp.poolType == MAX ==> AboveLowest(Base().lastX[slot].value, In())
    }
  }

  /** The layer compares its input with -Double.MAX_VALUE: a max pool. */
  predicate ReadsLowest(L: Layer)
  {
    L.PoolL? && L.pool.base.lp.poolType == MAX
  }

  /** No entry of v inside the box of s is below -Double.MAX_VALUE. */
  ghost predicate AboveLowest(v: Vol, s: Shape)
    requires HasShape(v, s)
  {
    forall a, b, c :: InBox(s, a, b, c) ==> v[a][b][c] >= Lowest
  }

  // ---------------------------------------------------------------------------
  // makeLayer, setupLasts

  /**
   * makeLayer(inputSize): record the input size and the computed output size in
   * the parameters, then construct the layer their type names. A full layer
   * asserts its validation; a pooling layer allocates one weight per input channel.
   * `drawA` and `drawC` stand for the random draws of the full and the
   * convolutional constructors.
   */
  function MakeLayer(lp: LayerParams, input: Shape, drawA: (int, int) -> real, drawC: (int, int, int) -> real): (L: Layer)
    requires lp.Valid()
    requires lp.layerType == FULL ==> ValidateFullParameters(WithSizes(lp, input))
    requires lp.layerType == POOL ==> input.d >= 0
    ensures L.Valid() && L.Kind() == lp.layerType
    ensures L.Params() == WithSizes(lp, input)
    ensures L.In() == input && L.Out() == GetOutputSize(lp, input).value
    ensures |L.Base().lastX| == 0
  {
    var q := WithSizes(lp, input);
    assert GetOutputSize(q, input) == GetOutputSize(lp, input);
    match lp.layerType
    case FULL => FullL(Full.NewFullLayer(q, drawA))
    case POOL => PoolL(Pool.NewPoolLayer(q))
    case CONV => ConvL(Conv.NewConvLayer(q, drawC))
  }

  /** setupLasts(batchSize): batchSize empty cache slots; nothing else changes. */
  function SetupLasts(L: Layer, batchSize: int): (R: Layer)
    requires L.Valid() && batchSize >= 0
    ensures R.Valid() && R.Strip() == L.Strip() && R.Params() == L.Params()
    ensures R.Base().ranges == L.Base().ranges
    ensures R.Base().CachesAligned() && |R.Base().lastX| == batchSize
    ensures forall t :: 0 <= t < batchSize ==> R.Base().lastX[t].None? && R.Base().lastPrime[t].None?
  {
    match L
    case FullL(f) => FullL(f.(base := LayerBase.SetupLasts(f.base, batchSize)))
    case ConvL(c) => ConvL(c.(base := LayerBase.SetupLasts(c.base, batchSize)))
    case PoolL(p) => PoolL(p.(base := LayerBase.SetupLasts(p.base, batchSize)))
  }

  // ---------------------------------------------------------------------------
  // evaluate

  /**
   * evaluate(x, slot): the output volume, of the output's shape, and the layer with
   * x cached at the slot. Only the caches at that slot change; a volume of the
   * input's shape leaves the slot ready for the backward pass.
   */
  function Evaluate(t: Tables, L: Layer, x: Vol, slot: int): (r: (Vol, Layer))
    requires t.Valid() && L.Valid() && NonNegative(L.Out()) && HasShape(x, L.In())
    requires 0 <= slot < |L.Base().lastX|
    ensures HasShape(r.0, L.Out())
    ensures r.1.Valid() && r.1.Strip() == L.Strip() && r.1.Params() == L.Params()
    ensures r.1.Base().ranges == L.Base().ranges
    ensures |r.1.Base().lastX| == |L.Base().lastX| && r.1.Base().lastX[slot] == Some(x)
    ensures forall s :: 0 <= s < |L.Base().lastX| && s != slot ==>
      r.1.Base().lastX[s] == L.Base().lastX[s] && r.1.Base().lastPrime[s] == L.Base().lastPrime[s]
    ensures Positive(L.In()) && Positive(L.Out()) && (ReadsLowest(L) ==> AboveLowest(x, L.In())) ==> r.1.Ready(slot)
    ensures L.FullL? ==> r.0 == Full.Evaluate(t, L.full, x, slot).0
    ensures L.ConvL? ==> r.0 == Conv.Evaluate(t, L.conv, x, slot).0
    ensures L.PoolL? ==> r.0 == Pool.Evaluate(L.pool, x, slot).0
  {
    match L
    case FullL(f) =>
      var e := Full.Evaluate(t, f, x, slot);
      (e.0, FullL(e.1))
    case ConvL(c) =>
      var e := Conv.Evaluate(t, c, x, slot);
      (e.0, ConvL(e.1))
    case PoolL(p) =>
      var e := Pool.Evaluate(p, x, slot);
      (e.0, PoolL(e.1))
  }

  /**
   * Two layers that differ only in their caches, ranges and coordinates give the
   * same output, whatever slot each caches at.
   */
  lemma EvaluateReadsWeights(t: Tables, L: Layer, L2: Layer, x: Vol, s: int, s2: int)
    requires t.Valid() && L.Valid() && NonNegative(L.Out()) && HasShape(x, L.In())
    requires 0 <= s < |L.Base().lastX|
    requires L2.Valid() && L2.Strip() == L.Strip() && 0 <= s2 < |L2.Base().lastX|
    ensures L2.Params() == L.Params() && L2.In() == L.In() && L2.Out() == L.Out()
    ensures Evaluate(t, L2, x, s2).0 == Evaluate(t, L, x, s).0
  {
    match L
    case FullL(f) =>
      Full.EvaluateReadsWeights(t, f, L2.full, x, s, s2);
    case ConvL(c) =>
      Conv.EvaluateReadsWeights(t, c, L2.conv, x, s, s2);
    case PoolL(p) =>
      Pool.EvaluateReadsWeights(p, L2.pool, x, s, s2);
  }

  // ---------------------------------------------------------------------------
  // getGradientX and gradXNonzeroRanges

  /**
   * getGradientX(i, j, k, slot): a volume of the input's shape. Only a pooling
   * layer changes, and only in its ranges and coordsOfLargest; the slot stays ready.
   */
  function GetGradientX(L: Layer, i: int, j: int, k: int, slot: int): (r: (Vol, Layer))
    requires L.Valid() && L.Ready(slot) && InBox(L.Out(), i, j, k)
    ensures HasShape(r.0, L.In())
    ensures r.1.Valid() && r.1.Ready(slot) && r.1.Strip() == L.Strip() && r.1.Params() == L.Params()
    ensures r.1.Base().lastX == L.Base().lastX && r.1.Base().lastPrime == L.Base().lastPrime
    ensures !L.PoolL? ==> r.1 == L
    ensures L.FullL? ==> r.0 == Full.GetGradientX(L.full, i, j, k, slot)
    ensures L.ConvL? ==> r.0 == Conv.GetGradientX(L.conv, i, j, k, slot)
    ensures L.PoolL? && L.pool.base.lp.poolType == MAX ==> Pool.MaxGradientDefined(L.pool, i, j, k, slot)
    ensures L.PoolL? ==> r == (Pool.GetGradientX(L.pool, i, j, k, slot).0, PoolL(Pool.GetGradientX(L.pool, i, j, k, slot).1))
  {
    match L
    case FullL(f) =>
      (Full.GetGradientX(f, i, j, k, slot), L)
    case ConvL(c) =>
      (Conv.GetGradientX(c, i, j, k, slot), L)
    case PoolL(p) =>
      PoolReady(p, i, j, k, slot);
      var g := Pool.GetGradientX(p, i, j, k, slot);
      (g.0, PoolL(g.1))
  }

  /** A ready max pool can take the gradient at every output position. */
  lemma PoolReady(p: Pool.PoolLayer, i: int, j: int, k: int, slot: int)
    requires PoolL(p).Valid() && PoolL(p).Ready(slot) && InBox(p.Out(), i, j, k)
    ensures p.base.lp.poolType == MAX ==> Pool.MaxGradientDefined(p, i, j, k, slot)
  {
    if p.base.lp.poolType == MAX {
      Pool.MaxGradientDefinedWhenShaped(p, i, j, k, slot);
    }
  }

  /** The ranges the kernel reads as written: the gradXNonzeroRanges field after getGradientX. */
  function FieldRanges(L: Layer, i: int, j: int, k: int, slot: int): (rg: Ranges)
    requires L.Valid() && L.Ready(slot) && InBox(L.Out(), i, j, k)
    ensures rg == GetGradientX(L, i, j, k, slot).1.Base().ranges
  {
    GetGradientX(L, i, j, k, slot).1.Base().ranges
  }

  /**
   * The ranges the kernel evidently means: those of the field for a full and a
   * pooling layer, and for a convolutional layer the ones its
   * getGradientXNonzeroRanges computes but never stores.
   */
  function PropagationRanges(L: Layer, i: int, j: int, k: int, slot: int): (rg: Ranges)
    requires L.Valid() && L.Ready(slot) && InBox(L.Out(), i, j, k)
    ensures !L.ConvL? ==> rg == FieldRanges(L, i, j, k, slot)
  {
    match L
    case ConvL(c) => Conv.GetGradientXNonzeroRanges(c, i, j, k)
    case _ => FieldRanges(L, i, j, k, slot)
  }

  /**
   * Both kinds of ranges stay inside the input box, so the kernel's loops over them
   * index the next volume in bounds.
   */
  lemma RangesWithinInput(L: Layer, i: int, j: int, k: int, slot: int)
    requires L.Valid() && L.Ready(slot) && InBox(L.Out(), i, j, k)
    ensures FieldRanges(L, i, j, k, slot).Within(L.In())
    ensures PropagationRanges(L, i, j, k, slot).Within(L.In())
  {
    match L
    case FullL(f) =>
    case ConvL(c) =>
      Conv.NonzeroRangesWellFormed(c, i, j, k);
    case PoolL(p) =>
      PoolReady(p, i, j, k, slot);
      PoolRangesWithin(p, i, j, k, slot);
  }

  /** A pooling layer's ranges after getGradientX lie inside its input. */
  lemma PoolRangesWithin(p: Pool.PoolLayer, i: int, j: int, k: int, slot: int)
    requires p.Valid() && NonNegative(p.In()) && InBox(p.Out(), i, j, k)
    requires p.base.lp.poolType == MAX ==> Pool.MaxGradientDefined(p, i, j, k, slot)
    ensures Pool.GetGradientX(p, i, j, k, slot).1.base.ranges.Within(p.In())
  {
    Pool.WindowStartInside(p, i, j);
    if p.base.lp.poolType == MAX {
      var cell := Pool.PickedCell(p, i, j, k, slot);
      assert Pool.GetGradientX(p, i, j, k, slot) == Pool.GradientMax(p, i, j, k, slot);
    } else {
      assert Pool.GetGradientX(p, i, j, k, slot) == Pool.GradientAvg(p, i, j, k, slot);
    }
  }

  /**
   * The propagation ranges hold every input position where getGradientX is
   * nonzero, except an average pool's other channels, which its gradient spills
   * onto without the pooled output depending on them.
   */
  lemma RangesCoverGradient(L: Layer, i: int, j: int, k: int, slot: int, a: int, b: int, c: int)
    requires L.Valid() && L.Ready(slot) && InBox(L.Out(), i, j, k)
    requires InBox(L.In(), a, b, c) && GetGradientX(L, i, j, k, slot).0[a][b][c] != 0.0
    requires L.PoolL? && L.pool.base.lp.poolType == AVG ==> c == k
    ensures PropagationRanges(L, i, j, k, slot).Contains(a, b, c)
  {
    match L
    case FullL(f) =>
    case ConvL(c0) =>
      Conv.GradientXWithinNonzeroRanges(c0, i, j, k, slot, a, b, c);
    case PoolL(p) =>
      PoolReady(p, i, j, k, slot);
  }

  // ---------------------------------------------------------------------------
  // zeroCopy, assignGradientInto, combineScale, train

  /**
   * g can stand in the network's grads row of layer L: a full layer of the same
   * dimensions, a convolutional layer with the same parameters, or a pooling layer.
   */
  ghost predicate GradFits(L: Layer, g: Layer)
  {
    match L
    case FullL(f) => g.FullL? && g.full.Valid() && g.full.numOutputs == f.numOutputs && g.full.numInputs == f.numInputs
    case ConvL(c) => g.ConvL? && g.conv.Valid() && g.conv.base.lp == c.base.lp
    case PoolL(_) => g.PoolL?
  }

  /** Two layers equal up to caches, ranges and coordinates take the same gradients. */
  lemma FitsAfterStrip(L: Layer, L2: Layer, g: Layer)
    requires L.Valid() && L2.Valid() && L2.Strip() == L.Strip() && GradFits(L, g)
    ensures GradFits(L2, g)
  {
  }

  /** g can be added into a gradient of L: at least L's size, of the same kind. */
  ghost predicate AddFits(L: Layer, g: Layer)
    requires L.Valid()
  {
    match L
    case FullL(f) => g.FullL? && f.Fits(g.full)
    case ConvL(c) => g.ConvL? && c.Fits(g.conv)
    case PoolL(_) => g.PoolL?
  }

  /** A gradient that fits L can be added into another. */
  lemma GradFitsAdds(L: Layer, g: Layer)
    requires L.Valid() && GradFits(L, g)
    ensures AddFits(L, g)
  {
  }

  /**
   * zeroCopy: a gradient-shaped copy of the layer whose parameters are all zero.
   * A pooling layer has no parameters and answers itself.
   */
  function ZeroCopy(L: Layer): (Z: Layer)
    requires L.Valid()
    ensures GradFits(L, Z) && Z.Kind() == L.Kind() && Z.Params() == L.Params()
    ensures L.FullL? ==> forall a, b :: 0 <= a < L.full.numOutputs && 0 <= b < L.full.numInputs ==>
      Z.full.A[a][b] == 0.0 && Z.full.b[a] == 0.0
    ensures L.ConvL? ==> forall a, b, n :: InBox(Conv.KernelShape(L.Params()), a, b, n) ==> Z.conv.Cs[a][b][n] == 0.0
    ensures L.PoolL? ==> Z == L
  {
    match L
    case FullL(f) => FullL(Full.ZeroCopy(f))
    case ConvL(c) => ConvL(Conv.ZeroCopy(c))
    case PoolL(p) => PoolL(Pool.ZeroCopy(p))
  }

  /**
   * `outputGrad = layer.zeroCopy(); layer.assignGradientInto(outputGrad, i, j, k,
   * slot)` as written: a convolutional layer's receiver stays the zero copy.
   */
  function OutputGradAsWritten(L: Layer, i: int, j: int, k: int, slot: int): (g: Layer)
    requires L.Valid() && L.Ready(slot) && InBox(L.Out(), i, j, k)
    ensures AddFits(L, g)
    ensures L.ConvL? ==> g == ZeroCopy(L)
  {
    var Z := ZeroCopy(L);
    match L
    case FullL(f) => FullL(Full.AssignGradientInto(f, Z.full, i, j, k, slot))
    case ConvL(c) => ConvL(Conv.AssignGradientIntoAsWritten(c, Z.conv, i, j, k, slot))
    case PoolL(p) => PoolL(Pool.AssignGradientInto(p, Z.pool, i, j, k, slot))
  }

  /**
   * The same with the evidently intended assignGradientInto of a convolutional
   * layer, whose receiver gets the kernel gradient.
   */
  function OutputGrad(L: Layer, i: int, j: int, k: int, slot: int): (g: Layer)
    requires L.Valid() && L.Ready(slot) && InBox(L.Out(), i, j, k)
    ensures AddFits(L, g)
    ensures !L.ConvL? ==> g == OutputGradAsWritten(L, i, j, k, slot)
    ensures L.ConvL? ==> g == ConvL(Conv.AssignGradientInto(L.conv, ZeroCopy(L).conv, i, j, k, slot))
  {
    var Z := ZeroCopy(L);
    match L
    case ConvL(c) => ConvL(Conv.AssignGradientInto(c, Z.conv, i, j, k, slot))
    case _ => OutputGradAsWritten(L, i, j, k, slot)
  }

  /**
   * grads[l][r].combineScale(outputGrad, m): g plus m times og, parameter by
   * parameter; g still fits L afterwards, and a zero multiplier changes nothing.
   */
  function CombineScale(L: Layer, g: Layer, og: Layer, m: real): (R: Layer)
    requires L.Valid() && GradFits(L, g) && AddFits(L, og)
    ensures GradFits(L, R) && R.Base() == g.Base() && R.Kind() == g.Kind()
    ensures L.FullL? ==> forall a, b :: 0 <= a < L.full.numOutputs && 0 <= b < L.full.numInputs ==>
      R.full.A[a][b] - g.full.A[a][b] == Prod(m, og.full.A[a][b]) && R.full.b[a] - g.full.b[a] == Prod(m, og.full.b[a])
    ensures L.ConvL? ==> forall a, b, n :: InBox(Conv.KernelShape(L.Params()), a, b, n) ==>
      R.conv.Cs[a][b][n] - g.conv.Cs[a][b][n] == Prod(og.conv.Cs[a][b][n], m)
    ensures L.PoolL? ==> R == g
    ensures m == 0.0 ==> R == g
  {
    match L
    case FullL(f) => FullL(CombineFull(g.full, og.full, m))
    case ConvL(c) => ConvL(CombineConv(g.conv, og.conv, m))
    case PoolL(p) => g
  }

  function CombineFull(g: Full.FullLayer, og: Full.FullLayer, m: real): (R: Full.FullLayer)
    requires g.Valid() && g.Fits(og)
    ensures R == Full.CombineScale(g, og, m)
    ensures m == 0.0 ==> R == g
  {
    var R := Full.CombineScale(g, og, m);
    assert m == 0.0 ==> R == g by {
      if m == 0.0 { Full.CombineScaleNeutral(g, og, m); }
    }
    R
  }

  function CombineConv(g: Conv.ConvLayer, og: Conv.ConvLayer, m: real): (R: Conv.ConvLayer)
    requires g.Valid() && g.Fits(og)
    ensures R == Conv.CombineScale(g, og, m)
    ensures m == 0.0 ==> R == g
  {
    var R := Conv.CombineScale(g, og, m);
    assert m == 0.0 ==> R == g by {
      if m == 0.0 { Conv.CombineScaleNeutral(g, og, m); }
    }
    R
  }

  /** The full layers of a row of gradients that fit a full layer. */
  function Fulls(L: Layer, grads: seq<Layer>): (fs: seq<Full.FullLayer>)
    requires L.Valid() && L.FullL?
    requires forall t :: 0 <= t < |grads| ==> GradFits(L, grads[t])
    ensures |fs| == |grads|
    ensures forall t :: 0 <= t < |grads| ==> grads[t].FullL? && fs[t] == grads[t].full && L.full.Fits(fs[t])
  {
    assert forall t :: 0 <= t < |grads| ==> grads[t].FullL? && L.full.Fits(grads[t].full) by {
      forall t | 0 <= t < |grads| ensures grads[t].FullL? && L.full.Fits(grads[t].full) {
        GradFitsAdds(L, grads[t]);
      }
    }
    seq(|grads|, t requires 0 <= t < |grads| && grads[t].FullL? => grads[t].full)
  }

  function Convs(L: Layer, grads: seq<Layer>): (cs: seq<Conv.ConvLayer>)
    requires L.Valid() && L.ConvL?
    requires forall t :: 0 <= t < |grads| ==> GradFits(L, grads[t])
    ensures |cs| == |grads|
    ensures forall t :: 0 <= t < |grads| ==> grads[t].ConvL? && cs[t] == grads[t].conv && L.conv.Fits(cs[t])
  {
    assert forall t :: 0 <= t < |grads| ==> grads[t].ConvL? && L.conv.Fits(grads[t].conv) by {
      forall t | 0 <= t < |grads| ensures grads[t].ConvL? && L.conv.Fits(grads[t].conv) {
        GradFitsAdds(L, grads[t]);
      }
    }
    seq(|grads|, t requires 0 <= t < |grads| && grads[t].ConvL? => grads[t].conv)
  }

  function Pools(L: Layer, grads: seq<Layer>): (ps: seq<Pool.PoolLayer>)
    requires L.Valid() && L.PoolL?
    requires forall t :: 0 <= t < |grads| ==> GradFits(L, grads[t])
    ensures |ps| == |grads|
  {
    assert forall t :: 0 <= t < |grads| ==> grads[t].PoolL? by {
      forall t | 0 <= t < |grads| ensures grads[t].PoolL? {
        GradFitsAdds(L, grads[t]);
      }
    }
    seq(|grads|, t requires 0 <= t < |grads| && grads[t].PoolL? => grads[t].pool)
  }

  /**
   * train(grads, rate): every gradient added at the training rate, then the caches
   * emptied (only lastX for a pooling layer). The layer stays valid with the same
   * parameters, kind and number of slots.
   */
  function Train(L: Layer, grads: seq<Layer>, rate: real): (R: Layer)
    requires L.Valid()
    requires forall t :: 0 <= t < |grads| ==> GradFits(L, grads[t])
    ensures R.Valid() && R.Kind() == L.Kind() && R.Params() == L.Params()
    ensures R.Base().ranges == L.Base().ranges && |R.Base().lastX| == |L.Base().lastX|
    ensures forall s :: 0 <= s < |R.Base().lastX| ==> R.Base().lastX[s].None?
    ensures L.FullL? ==> forall a, b :: 0 <= a < L.full.numOutputs && 0 <= b < L.full.numInputs ==>
      R.full.A[a][b] == L.full.A[a][b] + Prod(rate, Full.SumA(Fulls(L, grads), a, b, |grads|))
    ensures L.FullL? ==> R.full.numOutputs == L.full.numOutputs && R.full.numInputs == L.full.numInputs
    ensures L.PoolL? ==> R.Strip() == L.Strip()
  {
    match L
    case FullL(f) =>
      var fs := Fulls(L, grads);
      var R := Full.Train(f, fs, rate);
      forall a, b | 0 <= a < f.numOutputs && 0 <= b < f.numInputs
        ensures R.A[a][b] == f.A[a][b] + Prod(rate, Full.SumA(fs, a, b, |grads|))
      {
        Full.TrainAddsScaledSum(f, fs, rate, a, b);
      }
      FullL(R)
    case ConvL(c) => ConvL(Conv.Train(c, Convs(L, grads), rate))
    case PoolL(p) => PoolL(Pool.Train(p, Pools(L, grads), rate))
  }

  /** Training adds the training rate times the sum of the gradients to each offset b[a] of a full layer. */
  lemma TrainAddsToOffsets(L: Layer, grads: seq<Layer>, rate: real)
    requires L.Valid()
    requires forall t :: 0 <= t < |grads| ==> GradFits(L, grads[t])
    ensures L.FullL? ==> forall a :: 0 <= a < L.full.numOutputs ==>
      Train(L, grads, rate).full.b[a] == L.full.b[a] + Prod(rate, Full.SumB(Fulls(L, grads), a, |grads|))
  {
    if L.FullL? {
      var f, fs := L.full, Fulls(L, grads);
      assert Train(L, grads, rate) == FullL(Full.Train(f, fs, rate));
      forall a | 0 <= a < f.numOutputs
        ensures Full.Train(f, fs, rate).b[a] == f.b[a] + Prod(rate, Full.SumB(fs, a, |grads|))
      {
        Full.TrainAddsScaledSum(f, fs, rate, a, 0);
      }
    }
  }

  /** Training adds the sum of the gradients times the training rate to each entry of a convolutional layer's bank. */
  lemma TrainAddsToBank(L: Layer, grads: seq<Layer>, rate: real)
    requires L.Valid()
    requires forall t :: 0 <= t < |grads| ==> GradFits(L, grads[t])
    ensures L.ConvL? ==> forall a, b, n :: InBox(Conv.KernelShape(L.conv.base.lp), a, b, n) ==>
      Train(L, grads, rate).conv.Cs[a][b][n] == L.conv.Cs[a][b][n] + Prod(Conv.SumCs(Convs(L, grads), a, b, n, |grads|), rate)
  {
    if L.ConvL? {
      var c, cs := L.conv, Convs(L, grads);
      assert Train(L, grads, rate) == ConvL(Conv.Train(c, cs, rate));
      Conv.TrainAddsScaledSum(c, cs, rate);
    }
  }

  /**
   * Training on a row of zero copies of a layer with the same weights changes no
   * weight: only the caches are emptied.
   */
  lemma TrainOnZeroCopies(L: Layer, L0: Layer, grads: seq<Layer>, rate: real)
    requires L.Valid() && L0.Valid() && L.Strip() == L0.Strip()
    requires forall t :: 0 <= t < |grads| ==> grads[t] == ZeroCopy(L0)
    ensures forall t :: 0 <= t < |grads| ==> GradFits(L, grads[t])
    ensures Train(L, grads, rate).Strip() == L.Strip()
  {
    forall t | 0 <= t < |grads| ensures GradFits(L, grads[t]) {
      FitsAfterStrip(L0, L, grads[t]);
    }
    match L
    case FullL(f) =>
      var fs := Fulls(L, grads);
      assert forall t :: 0 <= t < |fs| ==> fs[t] == Full.ZeroCopy(f);
      Full.TrainOnZeroCopies(f, fs, rate, |fs|);
    case ConvL(c) =>
      var cs := Convs(L, grads);
      assert forall t :: 0 <= t < |cs| ==> cs[t] == Conv.ZeroCopy(c);
      Conv.TrainOnZeroCopies(c, cs, rate);
    case PoolL(p) =>
  }
}

=== FILE: matrices.dfy ===
/**
 * The weight set-up shared by core.LayeredNetworkParameters and
 * core.BasicNetworkParameters: `new double[rows][columns]`, initialMatrix and
 * initialColumn. Random.nextDouble() is a parameter: u(i, j) is the draw that
 * entry (i, j) receives.
 */
module Matrices {

  /** m has `rows` rows of `cols` entries each. */
  ghost predicate IsMatrix(m: seq<seq<real>>, rows: int, cols: int)
  {
    |m| == rows && forall i :: 0 <= i < |m| ==> |m[i]| == cols
  }

  /** new double[rows][columns]: every entry 0.0. */
  function ZeroMatrix(rows: nat, cols: nat): (m: seq<seq<real>>)
    ensures IsMatrix(m, rows, cols)
    ensures forall i, j :: 0 <= i < rows && 0 <= j < cols ==> m[i][j] == 0.0
  {
    seq(rows, _ => seq(cols, _ => 0.0))
  }

  /** Every draw of nextDouble() lies in [0, 1). */
  ghost predicate Draws(u: (int, int) -> real)
  {
    forall i, j :: 0.0 <= u(i, j) < 1.0
  }

  /** initialValue: 2·nextDouble() - 1, which lies in [-1, 1). */
  function InitialValue(d: real): (r: real)
    requires 0.0 <= d < 1.0
    ensures -1.0 <= r < 1.0
  {
    2.0 * d - 1.0
  }

  /** What initialMatrix writes at (i, j): 0.0 when zero holds, a fresh initialValue otherwise. */
  function Entry(zero: bool, u: (int, int) -> real, i: int, j: int): (e: real)
    requires zero || Draws(u)
    ensures -1.0 <= e < 1.0
  {
    if zero then 0.0 else InitialValue(u(i, j))
  }

  /**
   * initialMatrix(rows, columns, zero): a zero matrix whose rows are then filled
   * one entry at a time. With zero set it is exactly the zero matrix.
   */
  method InitialMatrix(rows: nat, cols: nat, zero: bool, u: (int, int) -> real) returns (m: seq<seq<real>>)
    requires zero || Draws(u)
    ensures IsMatrix(m, rows, cols)
    ensures forall i, j :: 0 <= i < rows && 0 <= j < cols ==> m[i][j] == Entry(zero, u, i, j)
    ensures forall i, j :: 0 <= i < rows && 0 <= j < cols ==> -1.0 <= m[i][j] < 1.0
    ensures zero ==> m == ZeroMatrix(rows, cols)
  {
    m := ZeroMatrix(rows, cols);
    var r := 0;
    while r < rows
      invariant 0 <= r <= rows && IsMatrix(m, rows, cols)
      invariant forall i, j :: 0 <= i < r && 0 <= j < cols ==> m[i][j] == Entry(zero, u, i, j)
      invariant forall i :: r <= i < rows ==> m[i] == ZeroMatrix(rows, cols)[i]
    {
      var row := m[r];
      var k := 0;
      while k < cols
        invariant 0 <= k <= cols && |row| == cols
        invariant forall j :: 0 <= j < k ==> row[j] == Entry(zero, u, r, j)
        invariant forall j :: k <= j < cols ==> row[j] == 0.0
      {
        row := row[k := if zero then 0.0 else InitialValue(u(r, k))];
        k := k + 1;
      }
      m := m[r := row];
      r := r + 1;
    }
    if zero {
      assert forall i :: 0 <= i < rows ==> m[i] == ZeroMatrix(rows, cols)[i];
    }
  }

  /** initialColumn(rows, zero): column 0 of a one-column initialMatrix. */
  method InitialColumn(rows: nat, zero: bool, u: (int, int) -> real) returns (c: seq<real>)
    requires zero || Draws(u)
    ensures |c| == rows
    ensures forall i :: 0 <= i < rows ==> c[i] == Entry(zero, u, i, 0)
    ensures zero ==> forall i :: 0 <= i < rows ==> c[i] == 0.0
  {
    var colMat := InitialMatrix(rows, 1, zero, u);
    c := seq(rows, _ => 0.0);
    var i := 0;
    while i < rows
      invariant 0 <= i <= rows && |c| == rows
      invariant forall t :: 0 <= t < i ==> c[t] == Entry(zero, u, t, 0)
    {
      c := c[i := colMat[i][0]];
      i := i + 1;
    }
  }
}

=== FILE: netparams.dfy ===
/**
 * core.network.ConvolutionalNetworkParameters: the layer chain. The first layer is
 * made for the network's input size and every later one for the output size of
 * the one before it. makeLayer writes the sizes into the LayerParameters object it
 * is called on, which is shared with the layer it builds; ReusedParamsBreakChain
 * shows what that sharing does when one object is listed twice.
 */
module NetParams {
  import opened Wrappers
  import opened Tensor
  import opened LayerConfig
  import opened Layers

  /** The input size each layer of the list is made for. */
  function Chain(lps: seq<LayerParams>, input: Shape): (ins: seq<Shape>)
    requires forall i :: 0 <= i < |lps| ==> lps[i].Valid()
    ensures |ins| == |lps|
    ensures |lps| > 0 ==> ins[0] == input
    ensures forall i :: 1 <= i < |lps| ==> ins[i] == GetOutputSize(lps[i - 1], ins[i - 1]).value
    decreases |lps|
  {
    if |lps| == 0 then []
    else
      var rest := Chain(lps[1..], GetOutputSize(lps[0], input).value);
      assert forall i :: 1 <= i < |lps| ==> lps[1..][i - 1] == lps[i];
      [input] + rest
  }

  /**
   * What the makeLayer calls demand: a non-empty list of parameters (the first
   * layer is read unconditionally), each as its constructor left it, a full layer
   * passing its validation assertion, and a pooling layer's channel count not
   * negative.
   */
  ghost predicate Buildable(lps: seq<LayerParams>, input: Shape)
  {
    && |lps| > 0
    && (forall i :: 0 <= i < |lps| ==> lps[i].Valid())
    && (forall i :: 0 <= i < |lps| ==>
          (lps[i].layerType == FULL ==> ValidateFullParameters(WithSizes(lps[i], Chain(lps, input)[i])))
          && (lps[i].layerType == POOL ==> Chain(lps, input)[i].d >= 0))
  }

  /** The fields of ConvolutionalNetworkParameters (with NetworkParameters' two). */
  datatype NetParams = NetParams(numInputs: int, numOutputs: int, layers: seq<Layer>, batchSize: int)

  /**
   * The constructor: numInputs is the input's volume, and layer i is made for the
   * input the chain gives it. `drawA(i)` and `drawC(i)` are layer i's random draws.
   */
  function Build(input: Shape, numOutputs: int, lps: seq<LayerParams>, batchSize: int,
                 drawA: int -> (int, int) -> real, drawC: int -> (int, int, int) -> real): (p: NetParams)
    requires Buildable(lps, input)
    ensures p.numInputs == input.w * input.h * input.d && p.numOutputs == numOutputs
    ensures p.batchSize == batchSize && |p.layers| == |lps|
    ensures forall i :: 0 <= i < |lps| ==> p.layers[i] == MakeLayer(lps[i], Chain(lps, input)[i], drawA(i), drawC(i))
  {
    var ins := Chain(lps, input);
    var layers := seq(|lps|, i requires 0 <= i < |lps| => MakeLayer(lps[i], ins[i], drawA(i), drawC(i)));
    NetParams(input.w * input.h * input.d, numOutputs, layers, batchSize)
  }

  /**
   * The chain the network constructor asserts: the first layer takes the
   * network's input, each layer's output size is the next layer's input size, and
   * layer i's parameters are its list entry with those sizes written in.
   */
  lemma BuildChains(input: Shape, numOutputs: int, lps: seq<LayerParams>, batchSize: int,
                    drawA: int -> (int, int) -> real, drawC: int -> (int, int, int) -> real)
    requires Buildable(lps, input)
    ensures var p := Build(input, numOutputs, lps, batchSize, drawA, drawC);
      && p.layers[0].In() == input
      && (forall i :: 0 <= i < |lps| ==> p.layers[i].Valid() && p.layers[i].Params() == WithSizes(lps[i], Chain(lps, input)[i]))
      && (forall i :: 0 <= i < |lps| - 1 ==> p.layers[i].Out() == p.layers[i + 1].In())
  {
    var p := Build(input, numOutputs, lps, batchSize, drawA, drawC);
    var ins := Chain(lps, input);
    forall i | 0 <= i < |lps| - 1
      ensures p.layers[i].Out() == p.layers[i + 1].In()
    {
      assert p.layers[i + 1].In() == ins[i + 1];
    }
  }

  // ---------------------------------------------------------------------------
  // The parameter objects are shared

  /**
   * The heap of LayerParameters objects after the first m makeLayer calls, and
   * the input size each call was given. List entry t is the object objs[refs[t]];
   * call t reads the output size now stored in the object of entry t - 1, and
   * writes both sizes into its own object.
   */
  function BuildShared(objs: seq<LayerParams>, refs: seq<nat>, input: Shape, m: nat): (r: (seq<LayerParams>, seq<Shape>))
    requires forall t :: 0 <= t < |refs| ==> refs[t] < |objs|
    requires forall o :: 0 <= o < |objs| ==> objs[o].Valid()
    requires m <= |refs|
    ensures |r.0| == |objs| && |r.1| == m
    ensures forall o :: 0 <= o < |objs| ==> r.0[o].Valid()
    ensures forall o :: 0 <= o < |objs| ==> r.0[o] == objs[o].(inputSize := r.0[o].inputSize, outputSize := r.0[o].outputSize)
    ensures forall t :: 0 <= t < m ==> r.0[refs[t]].outputSize.Some?
    ensures m > 0 ==> r.1[0] == input
  {
    if m == 0 then (objs, [])
    else
      var prev := BuildShared(objs, refs, input, m - 1);
      var h := prev.0;
      var inp := if m == 1 then input else h[refs[m - 2]].outputSize.value;
      (h[refs[m - 1] := WithSizes(h[refs[m - 1]], inp)], prev.1 + [inp])
  }

  /** The list of parameter values the refs name. */
  function Listed(objs: seq<LayerParams>, refs: seq<nat>): (lps: seq<LayerParams>)
    requires forall t :: 0 <= t < |refs| ==> refs[t] < |objs|
    ensures |lps| == |refs| && forall t :: 0 <= t < |refs| ==> lps[t] == objs[refs[t]]
  {
    seq(|refs|, t requires 0 <= t < |refs| => objs[refs[t]])
  }

  /**
   * With a separate object per layer the sharing is harmless: after m calls every
   * object made so far holds its chain sizes, and the others are untouched.
   */
  lemma {:induction false} DistinctRefsFollowChain(objs: seq<LayerParams>, refs: seq<nat>, input: Shape, m: nat)
    requires forall t :: 0 <= t < |refs| ==> refs[t] < |objs|
    requires forall o :: 0 <= o < |objs| ==> objs[o].Valid()
    requires forall s, t :: 0 <= s < t < |refs| ==> refs[s] != refs[t]
    requires m <= |refs|
    ensures var r := BuildShared(objs, refs, input, m);
      && (forall t :: 0 <= t < m ==> r.0[refs[t]] == WithSizes(objs[refs[t]], Chain(Listed(objs, refs), input)[t]))
      && (forall t :: m <= t < |refs| ==> r.0[refs[t]] == objs[refs[t]])
  {
    if m > 0 {
      DistinctRefsFollowChain(objs, refs, input, m - 1);
      var ins := Chain(Listed(objs, refs), input);
      var prev := BuildShared(objs, refs, input, m - 1);
      if m > 1 {
        assert prev.0[refs[m - 2]] == WithSizes(objs[refs[m - 2]], ins[m - 2]);
        assert prev.0[refs[m - 2]].outputSize.value == ins[m - 1];
      }
    }
  }

  /** With distinct objects the chain assertion of the network constructor holds. */
  lemma DistinctRefsChain(objs: seq<LayerParams>, refs: seq<nat>, input: Shape)
    requires forall t :: 0 <= t < |refs| ==> refs[t] < |objs|
    requires forall o :: 0 <= o < |objs| ==> objs[o].Valid()
    requires forall s, t :: 0 <= s < t < |refs| ==> refs[s] != refs[t]
    ensures var h := BuildShared(objs, refs, input, |refs|).0;
      forall l :: 0 <= l < |refs| - 1 ==> h[refs[l]].outputSize == h[refs[l + 1]].inputSize
  {
    DistinctRefsFollowChain(objs, refs, input, |refs|);
    var ins := Chain(Listed(objs, refs), input);
    var h := BuildShared(objs, refs, input, |refs|).0;
    forall l | 0 <= l < |refs| - 1
      ensures h[refs[l]].outputSize == h[refs[l + 1]].inputSize
    {
      assert h[refs[l + 1]].inputSize == Some(ins[l + 1]);
    }
  }

  /**
   * One pooling object listed twice for an 8×8×1 input: the second call overwrites
   * the sizes the first layer was made with, so the first layer's parameters claim
   * a 4×4×1 input and a 2×2×1 output, and the chain assertion fails.
   */
  lemma ReusedParamsBreakChain()
    ensures var h := BuildShared([NewPool(2, 2, MAX)], [0, 0], Shape(8, 8, 1), 2).0;
      && h[0].inputSize == Some(Shape(4, 4, 1))
      && h[0].outputSize == Some(Shape(2, 2, 1))
      && h[0].outputSize != h[0].inputSize
  {
    var p := NewPool(2, 2, MAX);
    var r1 := BuildShared([p], [0, 0], Shape(8, 8, 1), 1);
    assert r1.0[0] == WithSizes(p, Shape(8, 8, 1));
    assert r1.0[0].outputSize == Some(Shape(4, 4, 1));
  }
}

=== FILE: pool.dfy ===
/**
 * core.layer.PoolLayer: max or average pooling over poolSize × poolSize windows
 * placed every `stride` cells, channel by channel. A pooling layer has nothing to
 * train; its gradient is 1 at the window's maximum (MAX) or 1 / poolSize² over the
 * window (AVG).
 */
module Pool {
  import opened Wrappers
  import opened JavaMath
  import opened Tensor
  import opened Utility
  import opened LayerConfig
  import opened LayerBase

  /** 1.0 / (poolSize · poolSize): the weight of one cell in an average. */
  function Weight(poolSize: int): real
    requires poolSize != 0
  {
    1.0 / ((poolSize * poolSize) as real)
  }

  /**
   * The fields of a PoolLayer: the Layer fields, the cell the last MAX gradient
   * picked (null until then), and the per-channel weights ks.
   */
  datatype PoolLayer = PoolLayer(base: Base, coordsOfLargest: Option<(int, int)>, ks: seq<real>)
  {
    /** A layer built by makeLayer: POOL parameters with both sizes set, and one weight 1/poolSize² per input channel. */
    ghost predicate Valid()
    {
      && base.lp.layerType == POOL && base.lp.Valid()
      && base.lp.inputSize.Some? && base.lp.outputSize.Some?
      && base.lp.outputSize == GetOutputSize(base.lp, base.lp.inputSize.value)
      && |ks| == base.lp.inputSize.value.d
      && (forall t :: 0 <= t < |ks| ==> ks[t] == Weight(base.lp.poolSize))
      && base.CachesAligned()
    }

    function In(): Shape requires base.lp.inputSize.Some? { base.lp.inputSize.value }

    function Out(): Shape requires base.lp.outputSize.Some? { base.lp.outputSize.value }

    function PoolSize(): int { base.lp.poolSize }

    function Stride(): int { base.lp.stride }
  }

  /**
   * PoolLayer(LayerParameters) on parameters whose sizes makeLayer has set: `ks` is
   * `new double[inputSize[2]]` filled with 1/poolSize², so the depth must not be negative.
   */
  function NewPoolLayer(lp: LayerParams): (L: PoolLayer)
    requires lp.layerType == POOL && lp.Valid()
    requires lp.inputSize.Some? && lp.outputSize == GetOutputSize(lp, lp.inputSize.value)
    requires lp.inputSize.value.d >= 0
    ensures L.Valid() && L.base == NewBase(lp) && L.coordsOfLargest.None?
  {
    PoolLayer(NewBase(lp), None, seq(lp.inputSize.value.d, _ => Weight(lp.poolSize)))
  }

  /** The poolSize² weights of a window add up to 1. */
  lemma WeightsSumToOne(poolSize: int)
    requires poolSize != 0
    ensures ((poolSize * poolSize) as real) * Weight(poolSize) == 1.0
  {
    assert poolSize * poolSize > 0;
  }

  // ---------------------------------------------------------------------------
  // Windows

  /** The window of output (i, j) as the loops `for (i1 = i; i1 < i + range; ...)` visit it. */
  predicate InWindow(i: int, j: int, range: int, a: int, b: int)
  {
    i <= a < i + range && j <= b < j + range
  }

  /** The loops visit row a1 before row a2, and in one row column b1 before b2. */
  predicate ScanBefore(a1: int, b1: int, a2: int, b2: int)
  {
    a1 < a2 || (a1 == a2 && b1 < b2)
  }

  /** Two volumes have the same cells, in bounds or not, on channel k of a window. */
  ghost predicate AgreeOnWindow(x: Vol, y: Vol, i: int, j: int, k: int, range: int)
  {
    forall a, b :: InWindow(i, j, range, a, b) ==>
      InVol(x, a, b, k) == InVol(y, a, b, k) && (InVol(x, a, b, k) ==> x[a][b][k] == y[a][b][k])
  }

  /** Agreeing volumes read alike through getOrDefault, whatever the default. */
  lemma AgreeReadsAlike(x: Vol, y: Vol, i: int, j: int, k: int, range: int, a: int, b: int, dflt: real)
    requires AgreeOnWindow(x, y, i, j, k, range) && InWindow(i, j, range, a, b)
    ensures GetOrDefault(x, a, b, k, dflt) == GetOrDefault(y, a, b, k, dflt)
  {
  }

  /** Output (i, j) of a layer starts its window at (i·stride, j·stride), inside the input. */
  lemma WindowStartInside(L: PoolLayer, i: int, j: int)
    requires L.Valid() && 0 <= i < L.Out().w && 0 <= j < L.Out().h
    ensures 0 <= i * L.Stride() < L.In().w && 0 <= j * L.Stride() < L.In().h
  {
    var s, o := L.Stride(), L.Out();
    assert o.w == Div(L.In().w, s) && o.h == Div(L.In().h, s);
    StartBelow(L.In().w, s, i);
    StartBelow(L.In().h, s, j);
  }

  /** A window start i·s with i below w / s (truncated) lies inside [0, w). */
  lemma StartBelow(w: int, s: int, i: int)
    requires s > 0 && 0 <= i < Div(w, s)
    ensures 0 <= i * s < w
  {
    var q := w / s;
    assert w >= 0 && q == Div(w, s);
    MulMono(s, 0, i);
    MulMono(s, i + 1, q);
    assert s * q <= w;
  }

  // ---------------------------------------------------------------------------
  // maxInRange

  /** The running maximum of a scan and the cell it was read from. */
  datatype Best = Best(m: real, a: int, b: int)

  /** One step of the scan: `if (m > max) { max = m; coords = (a, b); }`. */
  function Step(st: Best, v: real, a: int, b: int): Best
  {
    if v > st.m then Best(v, a, b) else st
  }

  /** The inner loop over b in [j, j + m) of row a, reading getOrDefault(x, a, b, k, -Double.MAX_VALUE). */
  function RowScan(st: Best, x: Vol, a: int, j: int, k: int, m: nat): Best
  {
    if m == 0 then st
    else Step(RowScan(st, x, a, j, k, m - 1), GetOrDefault(x, a, j + m - 1, k, Lowest), a, j + m - 1)
  }

  /** The outer loop over rows [i, i + rows), each scanning columns [j, j + n). */
  function WindowScan(st: Best, x: Vol, i: int, j: int, k: int, n: nat, rows: nat): Best
  {
    if rows == 0 then st
    else RowScan(WindowScan(st, x, i, j, k, n, rows - 1), x, i + rows - 1, j, k, n)
  }

  /**
   * A row scan ends at least as high as it started and at least at every value it
   * read; it either keeps its starting state or ends on the first strictly larger
   * cell holding the row's maximum.
   */
  lemma {:induction false} RowScanFacts(st: Best, x: Vol, a: int, j: int, k: int, m: nat)
    ensures var r := RowScan(st, x, a, j, k, m);
      && r.m >= st.m
      && (forall b :: j <= b < j + m ==> GetOrDefault(x, a, b, k, Lowest) <= r.m)
      && (r == st || (&& r.a == a && j <= r.b < j + m && st.m < r.m
                      && r.m == GetOrDefault(x, a, r.b, k, Lowest)
                      && forall b :: j <= b < r.b ==> GetOrDefault(x, a, b, k, Lowest) < r.m))
  {
    if m > 0 {
      RowScanFacts(st, x, a, j, k, m - 1);
    }
  }

  /** The same facts for the window scanned so far, "first" meaning first in scan order. */
  lemma {:induction false} WindowScanFacts(st: Best, x: Vol, i: int, j: int, k: int, n: nat, rows: nat)
    ensures var r := WindowScan(st, x, i, j, k, n, rows);
      && r.m >= st.m
      && (forall a, b :: InWindow(i, j, n, a, b) && a < i + rows ==> GetOrDefault(x, a, b, k, Lowest) <= r.m)
      && (r == st || (&& i <= r.a < i + rows && j <= r.b < j + n && st.m < r.m
                      && r.m == GetOrDefault(x, r.a, r.b, k, Lowest)
                      && forall a, b :: InWindow(i, j, n, a, b) && ScanBefore(a, b, r.a, r.b) ==>
                           GetOrDefault(x, a, b, k, Lowest) < r.m))
  {
    if rows > 0 {
      WindowScanFacts(st, x, i, j, k, n, rows - 1);
      RowScanFacts(WindowScan(st, x, i, j, k, n, rows - 1), x, i + rows - 1, j, k, n);
    }
  }

  /**
   * The scan of maxInRange and of the MAX gradient: it starts from x[i][j][k] (a
   * plain array read, so that cell must exist) and visits the window row by row.
   * The cell it ends on holds the maximum, and every cell before it in scan order
   * holds less: it is the first maximum.
   */
  function MaxCell(x: Vol, i: int, j: int, k: int, range: int): (c: Best)
    requires InVol(x, i, j, k)
    ensures (c.a, c.b) == (i, j) || InWindow(i, j, range, c.a, c.b)
    ensures c.m >= x[i][j][k] && c.m == GetOrDefault(x, c.a, c.b, k, Lowest)
    ensures x[i][j][k] >= Lowest ==> InVol(x, c.a, c.b, k)
    ensures forall a, b :: InWindow(i, j, range, a, b) ==> GetOrDefault(x, a, b, k, Lowest) <= c.m
    ensures forall a, b :: InWindow(i, j, range, a, b) && ScanBefore(a, b, c.a, c.b) ==>
      GetOrDefault(x, a, b, k, Lowest) < c.m
  {
    var n: nat := Max(range, 0);
    WindowScanFacts(Best(x[i][j][k], i, j), x, i, j, k, n, n);
    WindowScan(Best(x[i][j][k], i, j), x, i, j, k, n, n)
  }

  /**
   * maxInRange(x, i, j, k, range): at least x[i][j][k] and every in-bounds cell of
   * channel k in the window, and equal to one of them unless the start lies below
   * -Double.MAX_VALUE (impossible for a finite double).
   */
  function MaxInRange(x: Vol, i: int, j: int, k: int, range: int): (r: real)
    requires InVol(x, i, j, k)
    ensures r >= x[i][j][k]
    ensures forall a, b :: InWindow(i, j, range, a, b) && InVol(x, a, b, k) ==> x[a][b][k] <= r
    ensures x[i][j][k] >= Lowest ==>
      exists a, b :: ((a, b) == (i, j) || InWindow(i, j, range, a, b)) && InVol(x, a, b, k) && r == x[a][b][k]
  {
    var c := MaxCell(x, i, j, k, range);
    assert forall a, b :: InWindow(i, j, range, a, b) && InVol(x, a, b, k) ==>
      x[a][b][k] == GetOrDefault(x, a, b, k, Lowest);
    c.m
  }

  lemma {:induction false} RowScanAgree(st: Best, x: Vol, y: Vol, i: int, j: int, k: int, n: nat, a: int, m: nat)
    requires AgreeOnWindow(x, y, i, j, k, n) && i <= a < i + n && m <= n
    ensures RowScan(st, x, a, j, k, m) == RowScan(st, y, a, j, k, m)
  {
    if m > 0 {
      RowScanAgree(st, x, y, i, j, k, n, a, m - 1);
      AgreeReadsAlike(x, y, i, j, k, n, a, j + m - 1, Lowest);
    }
  }

  lemma {:induction false} WindowScanAgree(st: Best, x: Vol, y: Vol, i: int, j: int, k: int, n: nat, rows: nat)
    requires AgreeOnWindow(x, y, i, j, k, n) && rows <= n
    ensures WindowScan(st, x, i, j, k, n, rows) == WindowScan(st, y, i, j, k, n, rows)
  {
    if rows > 0 {
      WindowScanAgree(st, x, y, i, j, k, n, rows - 1);
      RowScanAgree(WindowScan(st, x, i, j, k, n, rows - 1), x, y, i, j, k, n, i + rows - 1, n);
    }
  }

  /** The maximum, and the cell it picks, depend only on channel k of the window. */
  lemma MaxCellReadsOnlyWindow(x: Vol, y: Vol, i: int, j: int, k: int, range: int)
    requires range >= 1 && InVol(x, i, j, k) && AgreeOnWindow(x, y, i, j, k, range)
    ensures InVol(y, i, j, k)
    ensures MaxCell(x, i, j, k, range) == MaxCell(y, i, j, k, range)
    ensures MaxInRange(x, i, j, k, range) == MaxInRange(y, i, j, k, range)
  {
    assert InWindow(i, j, range, i, j);
    WindowScanAgree(Best(x[i][j][k], i, j), x, y, i, j, k, range, range);
  }

  // ---------------------------------------------------------------------------
  // avgInRange

  /** Σ getOrDefault(x, a, b, k, 0) over b in [j, j + m): avgInRange's inner loop. */
  function RowTotal(x: Vol, a: int, j: int, k: int, m: nat): real
  {
    if m == 0 then 0.0 else RowTotal(x, a, j, k, m - 1) + GetOrDefault(x, a, j + m - 1, k, 0.0)
  }

  /** The same sum over rows [i, i + rows): avgInRange's outer loop. */
  function WindowTotal(x: Vol, i: int, j: int, k: int, n: nat, rows: nat): real
  {
    if rows == 0 then 0.0 else WindowTotal(x, i, j, k, n, rows - 1) + RowTotal(x, i + rows - 1, j, k, n)
  }

  /**
   * avgInRange(x, i, j, k, range): the window's sum over range · range, cells off
   * the input counting 0. A range of 0 divides 0 by 0 (NaN in Java), hence excluded.
   */
  function AvgInRange(x: Vol, i: int, j: int, k: int, range: int): real
    requires range != 0
  {
    WindowTotal(x, i, j, k, Max(range, 0), Max(range, 0)) / ((range * range) as real)
  }

  lemma {:induction false} RowTotalAgree(x: Vol, y: Vol, i: int, j: int, k: int, n: nat, a: int, m: nat)
    requires AgreeOnWindow(x, y, i, j, k, n) && i <= a < i + n && m <= n
    ensures RowTotal(x, a, j, k, m) == RowTotal(y, a, j, k, m)
  {
    if m > 0 {
      RowTotalAgree(x, y, i, j, k, n, a, m - 1);
      AgreeReadsAlike(x, y, i, j, k, n, a, j + m - 1, 0.0);
    }
  }

  lemma {:induction false} WindowTotalAgree(x: Vol, y: Vol, i: int, j: int, k: int, n: nat, rows: nat)
    requires AgreeOnWindow(x, y, i, j, k, n) && rows <= n
    ensures WindowTotal(x, i, j, k, n, rows) == WindowTotal(y, i, j, k, n, rows)
  {
    if rows > 0 {
      WindowTotalAgree(x, y, i, j, k, n, rows - 1);
      RowTotalAgree(x, y, i, j, k, n, i + rows - 1, n);
    }
  }

  /** The average depends only on channel k of the window. */
  lemma AvgReadsOnlyWindow(x: Vol, y: Vol, i: int, j: int, k: int, range: int)
    requires range >= 1 && AgreeOnWindow(x, y, i, j, k, range)
    ensures AvgInRange(x, i, j, k, range) == AvgInRange(y, i, j, k, range)
  {
    WindowTotalAgree(x, y, i, j, k, range, range);
  }

  /** A window lying inside the input whose cells all hold v. */
  ghost predicate ConstantWindow(x: Vol, i: int, j: int, k: int, range: int, v: real)
  {
    forall a, b :: InWindow(i, j, range, a, b) ==> InVol(x, a, b, k) && x[a][b][k] == v
  }

  lemma {:induction false} RowTotalConstant(x: Vol, i: int, j: int, k: int, n: nat, a: int, m: nat, v: real)
    requires ConstantWindow(x, i, j, k, n, v) && i <= a < i + n && m <= n
    ensures RowTotal(x, a, j, k, m) == (m as real) * v
  {
    if m > 0 {
      RowTotalConstant(x, i, j, k, n, a, m - 1, v);
      assert InWindow(i, j, n, a, j + m - 1);
    }
  }

  lemma {:induction false} WindowTotalConstant(x: Vol, i: int, j: int, k: int, n: nat, rows: nat, v: real)
    requires ConstantWindow(x, i, j, k, n, v) && rows <= n
    ensures WindowTotal(x, i, j, k, n, rows) == (rows as real) * ((n as real) * v)
  {
    if rows > 0 {
      WindowTotalConstant(x, i, j, k, n, rows - 1, v);
      RowTotalConstant(x, i, j, k, n, i + rows - 1, n, v);
    }
  }

  /** Averaging a window that lies inside the input and holds one value gives that value. */
  lemma AvgOfConstantWindow(x: Vol, i: int, j: int, k: int, range: int, v: real)
    requires range >= 1 && ConstantWindow(x, i, j, k, range, v)
    ensures AvgInRange(x, i, j, k, range) == v
  {
    WindowTotalConstant(x, i, j, k, range, range, v);
    var n := range as real;
    assert (range * range) as real == n * n;
    assert n * (n * v) == (n * n) * v;
  }

  /** x with `delta` added at the in-bounds cell (a, b, c). */
  function Bump(x: Vol, a: int, b: int, c: int, delta: real): (y: Vol)
    requires InVol(x, a, b, c)
    ensures InVol(y, a, b, c) && y[a][b][c] == x[a][b][c] + delta
    ensures forall a', b', c' :: (a', b', c') != (a, b, c) ==>
      InVol(y, a', b', c') == InVol(x, a', b', c')
      && (InVol(x, a', b', c') ==> y[a'][b'][c'] == x[a'][b'][c'])
  {
    SetIfCan(x, a, b, c, x[a][b][c] + delta)
  }

  lemma {:induction false} RowTotalBump(x: Vol, a: int, b: int, c: int, delta: real, a1: int, j: int, k: int, m: nat)
    requires InVol(x, a, b, c)
    ensures RowTotal(Bump(x, a, b, c, delta), a1, j, k, m)
      == RowTotal(x, a1, j, k, m) + (if a1 == a && k == c && j <= b < j + m then delta else 0.0)
  {
    if m > 0 {
      RowTotalBump(x, a, b, c, delta, a1, j, k, m - 1);
    }
  }

  lemma {:induction false} WindowTotalBump(x: Vol, a: int, b: int, c: int, delta: real, i: int, j: int, k: int, n: nat, rows: nat)
    requires InVol(x, a, b, c)
    ensures WindowTotal(Bump(x, a, b, c, delta), i, j, k, n, rows)
      == WindowTotal(x, i, j, k, n, rows) + (if k == c && i <= a < i + rows && j <= b < j + n then delta else 0.0)
  {
    if rows > 0 {
      WindowTotalBump(x, a, b, c, delta, i, j, k, n, rows - 1);
      RowTotalBump(x, a, b, c, delta, i + rows - 1, j, k, n);
    }
  }

  /**
   * Adding delta to one cell moves the average by delta / poolSize² when the cell
   * is on channel k inside the window, and not at all otherwise.
   */
  lemma AvgBump(x: Vol, a: int, b: int, c: int, delta: real, i: int, j: int, k: int, range: int)
    requires range >= 1 && InVol(x, a, b, c)
    ensures AvgInRange(Bump(x, a, b, c, delta), i, j, k, range)
      == AvgInRange(x, i, j, k, range) + (if c == k && InWindow(i, j, range, a, b) then Prod(delta, Weight(range)) else 0.0)
  {
    WindowTotalBump(x, a, b, c, delta, i, j, k, range, range);
    var t := WindowTotal(x, i, j, k, range, range);
    assert range * range > 0;
    DivideSum(t, delta, (range * range) as real);
  }

  /** (t + d) / q == t / q + d · (1 / q). */
  lemma DivideSum(t: real, d: real, q: real)
    requires q > 0.0
    ensures (t + d) / q == t / q + Prod(d, 1.0 / q)
  {
  }

  // ---------------------------------------------------------------------------
  // evaluate

  /** Output (i, j, k) of a layer: the pool of channel k over the window at (i·stride, j·stride). */
  function PoolAt(L: PoolLayer, x: Vol, i: int, j: int, k: int): (r: real)
    requires L.Valid() && InBox(L.Out(), i, j, k)
    requires L.base.lp.poolType == MAX ==> HasShape(x, L.In())
    ensures 0 <= i * L.Stride() < L.In().w && 0 <= j * L.Stride() < L.In().h
    ensures L.base.lp.poolType == MAX ==> r == MaxInRange(x, i * L.Stride(), j * L.Stride(), k, L.PoolSize())
    ensures L.base.lp.poolType == AVG ==> r == AvgInRange(x, i * L.Stride(), j * L.Stride(), k, L.PoolSize())
  {
    WindowStartInside(L, i, j);
    match L.base.lp.poolType
    case MAX => MaxInRange(x, i * L.Stride(), j * L.Stride(), k, L.PoolSize())
    case AVG => AvgInRange(x, i * L.Stride(), j * L.Stride(), k, L.PoolSize())
  }

  /**
   * evaluate(x, slot): y[i][j][k] pools channel k of the window at (i·stride,
   * j·stride); MAX reads x[i·stride][j·stride][k] directly, so x must have the
   * input's shape there. Only lastX is cached; lastPrime is left as it was.
   */
  function Evaluate(L: PoolLayer, x: Vol, slot: int): (r: (Vol, PoolLayer))
    requires L.Valid() && NonNegative(L.Out())
    requires 0 <= slot < |L.base.lastX|
    requires L.base.lp.poolType == MAX ==> HasShape(x, L.In())
    ensures HasShape(r.0, L.Out())
    ensures forall i, j, k :: InBox(L.Out(), i, j, k) ==> r.0[i][j][k] == PoolAt(L, x, i, j, k)
    ensures r.1.Valid() && r.1.ks == L.ks && r.1.coordsOfLargest == L.coordsOfLargest
    ensures r.1.base.lp == L.base.lp && r.1.base.ranges == L.base.ranges
    ensures r.1.base.lastPrime == L.base.lastPrime && |r.1.base.lastX| == |L.base.lastX|
    ensures r.1.base.lastX[slot] == Some(x)
    ensures forall s :: 0 <= s < |L.base.lastX| && s != slot ==> r.1.base.lastX[s] == L.base.lastX[s]
  {
    var o := L.Out();
    var y := seq(o.w, i requires 0 <= i < o.w => seq(o.h, j requires 0 <= j < o.h => seq(o.d, k requires 0 <= k < o.d =>
      PoolAt(L, x, i, j, k))));
    (y, L.(base := L.base.(lastX := L.base.lastX[slot := Some(x)])))
  }

  /** The output reads the parameters only: the caches, the slot and coordsOfLargest do not matter. */
  lemma EvaluateReadsWeights(p: PoolLayer, p2: PoolLayer, x: Vol, s: int, s2: int)
    requires p.Valid() && NonNegative(p.Out()) && 0 <= s < |p.base.lastX| && HasShape(x, p.In())
    requires p2.ks == p.ks && p2.base.lp == p.base.lp && p2.Valid() && 0 <= s2 < |p2.base.lastX|
    ensures Evaluate(p2, x, s2).0 == Evaluate(p, x, s).0
  {
    VolEq(Evaluate(p2, x, s2).0, Evaluate(p, x, s).0, p.Out());
  }

  /**
   * Output (i, j, k) depends only on channel k of its window: two inputs that agree
   * there give the same output.
   */
  lemma OutputReadsOnlyWindow(L: PoolLayer, x: Vol, y: Vol, i: int, j: int, k: int)
    requires L.Valid() && InBox(L.Out(), i, j, k)
    requires L.base.lp.poolType == MAX ==> HasShape(x, L.In()) && HasShape(y, L.In())
    requires AgreeOnWindow(x, y, i * L.Stride(), j * L.Stride(), k, L.PoolSize())
    ensures PoolAt(L, x, i, j, k) == PoolAt(L, y, i, j, k)
  {
    WindowStartInside(L, i, j);
    if L.base.lp.poolType == MAX {
      MaxCellReadsOnlyWindow(x, y, i * L.Stride(), j * L.Stride(), k, L.PoolSize());
    } else {
      AvgReadsOnlyWindow(x, y, i * L.Stride(), j * L.Stride(), k, L.PoolSize());
    }
  }

  // ---------------------------------------------------------------------------
  // getGradientX

  /** One row of the AVG loop: setIfCan(g, a, b, col) for b in [j, j + m). */
  function FillRow(g: Vol, a: int, j: int, col: seq<real>, m: nat): (s: Vol)
    ensures |s| == |g|
    ensures forall a' :: 0 <= a' < |g| ==> |s[a']| == |g[a']|
    ensures forall a', b :: 0 <= a' < |g| && 0 <= b < |g[a']| ==>
      s[a'][b] == if a' == a && j <= b < j + m then col else g[a'][b]
  {
    if m == 0 then g else SetColumnIfCan(FillRow(g, a, j, col, m - 1), a, j + m - 1, col)
  }

  /** The rows [i, i + rows) of the AVG loop: every in-bounds column of the window becomes col. */
  function Fill(g: Vol, i: int, j: int, col: seq<real>, n: nat, rows: nat): (s: Vol)
    ensures |s| == |g|
    ensures forall a :: 0 <= a < |g| ==> |s[a]| == |g[a]|
    ensures forall a, b :: 0 <= a < |g| && 0 <= b < |g[a]| ==>
      s[a][b] == if i <= a < i + rows && j <= b < j + n then col else g[a][b]
  {
    if rows == 0 then g else FillRow(Fill(g, i, j, col, n, rows - 1), i + rows - 1, j, col, n)
  }

  /** The input cached at a slot by evaluate. */
  function CachedInput(L: PoolLayer, slot: int): Vol
    requires 0 <= slot < |L.base.lastX| && L.base.lastX[slot].Some?
  {
    L.base.lastX[slot].value
  }

  /** The cell the MAX branch picks for output (i, j, k). */
  function PickedCell(L: PoolLayer, i: int, j: int, k: int, slot: int): Best
    requires 0 <= slot < |L.base.lastX| && L.base.lastX[slot].Some?
    requires InVol(CachedInput(L, slot), L.Stride() * i, L.Stride() * j, k)
  {
    MaxCell(CachedInput(L, slot), L.Stride() * i, L.Stride() * j, k, L.PoolSize())
  }

  /**
   * The MAX branch runs without an exception: it reads lastX[xi][xj][k] directly and
   * writes gradX at the picked cell directly.
   */
  ghost predicate MaxGradientDefined(L: PoolLayer, i: int, j: int, k: int, slot: int)
    requires L.Valid()
  {
    && 0 <= slot < |L.base.lastX| && L.base.lastX[slot].Some?
    && InVol(CachedInput(L, slot), L.Stride() * i, L.Stride() * j, k)
    && InBox(L.In(), PickedCell(L, i, j, k, slot).a, PickedCell(L, i, j, k, slot).b, k)
  }

  /**
   * The MAX branch is defined for every output position once the cached input has
   * the input's shape and no entry below -Double.MAX_VALUE.
   */
  lemma MaxGradientDefinedWhenShaped(L: PoolLayer, i: int, j: int, k: int, slot: int)
    requires L.Valid() && 0 <= slot < |L.base.lastX| && L.base.lastX[slot].Some?
    requires HasShape(CachedInput(L, slot), L.In()) && InBox(L.Out(), i, j, k)
    requires forall a, b :: InBox(L.In(), a, b, k) ==> CachedInput(L, slot)[a][b][k] >= Lowest
    ensures MaxGradientDefined(L, i, j, k, slot)
  {
    var x, xi, xj := CachedInput(L, slot), L.Stride() * i, L.Stride() * j;
    WindowStartInside(L, i, j);
    assert InBox(L.In(), xi, xj, k);
    assert x[xi][xj][k] >= Lowest;
    var c := PickedCell(L, i, j, k, slot);
    assert InVol(x, c.a, c.b, k);
  }

  /**
   * The picked cell holds the window's maximum, the value evaluate returned for
   * this output, and every cell scanned before it holds less (given a start cell
   * that is a finite double).
   */
  lemma PickedCellIsFirstMax(L: PoolLayer, i: int, j: int, k: int, slot: int)
    requires L.Valid() && MaxGradientDefined(L, i, j, k, slot)
    requires CachedInput(L, slot)[L.Stride() * i][L.Stride() * j][k] >= Lowest
    ensures var x, xi, xj, c := CachedInput(L, slot), L.Stride() * i, L.Stride() * j, PickedCell(L, i, j, k, slot);
      && InVol(x, c.a, c.b, k)
      && x[c.a][c.b][k] == MaxInRange(x, xi, xj, k, L.PoolSize())
      && (forall a, b :: InWindow(xi, xj, L.PoolSize(), a, b) && ScanBefore(a, b, c.a, c.b) && InVol(x, a, b, k) ==>
            x[a][b][k] < x[c.a][c.b][k])
  {
    var x, c := CachedInput(L, slot), PickedCell(L, i, j, k, slot);
    assert forall a, b :: InVol(x, a, b, k) ==> x[a][b][k] == GetOrDefault(x, a, b, k, Lowest);
  }

  /**
   * getGradientX's MAX branch: gradX is 1 at the picked cell and 0 elsewhere;
   * coordsOfLargest is that cell and the ranges hold exactly that cell.
   */
  function GradientMax(L: PoolLayer, i: int, j: int, k: int, slot: int): (r: (Vol, PoolLayer))
    requires L.Valid() && NonNegative(L.In()) && MaxGradientDefined(L, i, j, k, slot)
    ensures HasShape(r.0, L.In())
    ensures r.1 == L.(coordsOfLargest := r.1.coordsOfLargest, base := L.base.(ranges := r.1.base.ranges))
    ensures var c := PickedCell(L, i, j, k, slot);
      && r.1.coordsOfLargest == Some((c.a, c.b))
      && (forall a, b, c' :: InBox(L.In(), a, b, c') ==>
            r.0[a][b][c'] == (if (a, b, c') == (c.a, c.b, k) then 1.0 else 0.0)
            && (r.1.base.ranges.Contains(a, b, c') <==> (a, b, c') == (c.a, c.b, k)))
  {
    var c := PickedCell(L, i, j, k, slot);
    var z := Zeros(L.In());
    assert InVol(z, c.a, c.b, k);
    (SetIfCan(z, c.a, c.b, k, 1.0),
     L.(coordsOfLargest := Some((c.a, c.b)),
        base := L.base.(ranges := Ranges(Range(c.a, c.a), Range(c.b, c.b), Range(k, k)))))
  }

  /**
   * getGradientX's AVG branch: every channel of every in-bounds window column
   * becomes 1/poolSize² (the column ks is written whole); the ranges run from the
   * window's corner to one cell past its far edge, clipped to the input, on
   * channel k alone, so they hold every cell of channel k the gradient is nonzero at.
   */
  function GradientAvg(L: PoolLayer, i: int, j: int, k: int, slot: int): (r: (Vol, PoolLayer))
    requires L.Valid() && NonNegative(L.In())
    ensures HasShape(r.0, L.In())
    ensures r.1 == L.(base := L.base.(ranges := r.1.base.ranges))
    ensures var xi, xj, p := L.Stride() * i, L.Stride() * j, L.PoolSize();
      && (forall a, b, c :: InBox(L.In(), a, b, c) ==>
            r.0[a][b][c] == if InWindow(xi, xj, p, a, b) then Weight(p) else 0.0)
      && (forall a, b :: InBox(L.In(), a, b, k) && InWindow(xi, xj, p, a, b) ==> r.1.base.ranges.Contains(a, b, k))
      && r.1.base.ranges == Ranges(Range(xi, Min(L.In().w - 1, xi + p)), Range(xj, Min(L.In().h - 1, xj + p)), Range(k, k))
  {
    var xi, xj, p := L.Stride() * i, L.Stride() * j, L.PoolSize();
    var z := Zeros(L.In());
    var n: nat := Max(p, 0);
    var g := Fill(z, xi, xj, L.ks, n, n);
    forall a, b, c | InBox(L.In(), a, b, c)
      ensures g[a][b][c] == if InWindow(xi, xj, p, a, b) then Weight(p) else 0.0
    {
      assert InVol(z, a, b, c) && z[a][b][c] == 0.0;
    }
    (g, L.(base := L.base.(ranges := Ranges(Range(xi, Min(L.In().w - 1, xi + p)),
                                            Range(xj, Min(L.In().h - 1, xj + p)), Range(k, k)))))
  }

  /** getGradientX(i, j, k, slot): the branch named by the pool type. */
  function GetGradientX(L: PoolLayer, i: int, j: int, k: int, slot: int): (r: (Vol, PoolLayer))
    requires L.Valid() && NonNegative(L.In())
    requires L.base.lp.poolType == MAX ==> MaxGradientDefined(L, i, j, k, slot)
    ensures HasShape(r.0, L.In())
    ensures r.1.Valid() && r.1.ks == L.ks && r.1.base.lp == L.base.lp
    ensures r.1.base.lastX == L.base.lastX && r.1.base.lastPrime == L.base.lastPrime
    ensures L.base.lp.poolType == AVG ==> r.1.coordsOfLargest == L.coordsOfLargest
  {
    match L.base.lp.poolType
    case MAX => GradientMax(L, i, j, k, slot)
    case AVG => GradientAvg(L, i, j, k, slot)
  }

  /**
   * On channel k the AVG gradient is the average's sensitivity: adding delta to an
   * input cell moves avgInRange by delta times gradX at that cell.
   */
  lemma AvgGradientIsSensitivity(L: PoolLayer, i: int, j: int, k: int, slot: int, a: int, b: int, delta: real)
    requires L.Valid() && NonNegative(L.In())
    requires 0 <= slot < |L.base.lastX| && L.base.lastX[slot].Some?
    requires InBox(L.In(), a, b, k) && InVol(CachedInput(L, slot), a, b, k)
    ensures var x := CachedInput(L, slot);
      AvgInRange(Bump(x, a, b, k, delta), L.Stride() * i, L.Stride() * j, k, L.PoolSize())
      == AvgInRange(x, L.Stride() * i, L.Stride() * j, k, L.PoolSize())
         + Prod(delta, GradientAvg(L, i, j, k, slot).0[a][b][k])
  {
    AvgBump(CachedInput(L, slot), a, b, k, delta, L.Stride() * i, L.Stride() * j, k, L.PoolSize());
  }

  /**
   * The AVG gradient also fills the other channels of the window, where the output
   * does not depend on the input; the ranges leave those cells out, so a reader
   * that stays within the ranges never sees them.
   */
  lemma AvgGradientSpillsAcrossChannels(L: PoolLayer, i: int, j: int, k: int, slot: int, a: int, b: int, c: int, delta: real)
    requires L.Valid() && NonNegative(L.In())
    requires 0 <= slot < |L.base.lastX| && L.base.lastX[slot].Some?
    requires InBox(L.In(), a, b, c) && c != k && InWindow(L.Stride() * i, L.Stride() * j, L.PoolSize(), a, b)
    requires InVol(CachedInput(L, slot), a, b, c)
    ensures GradientAvg(L, i, j, k, slot).0[a][b][c] != 0.0
    ensures !GradientAvg(L, i, j, k, slot).1.base.ranges.Contains(a, b, c)
    ensures var x := CachedInput(L, slot);
      AvgInRange(Bump(x, a, b, c, delta), L.Stride() * i, L.Stride() * j, k, L.PoolSize())
      == AvgInRange(x, L.Stride() * i, L.Stride() * j, k, L.PoolSize())
  {
    AvgBump(CachedInput(L, slot), a, b, c, delta, L.Stride() * i, L.Stride() * j, k, L.PoolSize());
  }

  /**
   * The AVG ranges end one cell past the window: that cell is inside the ranges
   * whenever it is inside the input, and its gradient is 0.
   */
  lemma AvgRangesOverApproximate(L: PoolLayer, i: int, j: int, k: int, slot: int)
    requires L.Valid() && NonNegative(L.In())
    requires InBox(L.In(), L.Stride() * i + L.PoolSize(), L.Stride() * j, k)
    ensures var r, a := GradientAvg(L, i, j, k, slot), L.Stride() * i + L.PoolSize();
      r.1.base.ranges.Contains(a, L.Stride() * j, k) && r.0[a][L.Stride() * j][k] == 0.0
  {
  }

  // ---------------------------------------------------------------------------
  // The members that do nothing for a pooling layer

  /** train(grads, rate): nothing to learn; only the cached inputs are cleared. */
  function Train(L: PoolLayer, grads: seq<PoolLayer>, rate: real): (R: PoolLayer)
    requires L.Valid()
    ensures R.Valid() && R.ks == L.ks && R.coordsOfLargest == L.coordsOfLargest
    ensures R.base.lp == L.base.lp && R.base.ranges == L.base.ranges && R.base.lastPrime == L.base.lastPrime
    ensures |R.base.lastX| == |L.base.lastX| && forall t :: 0 <= t < |R.base.lastX| ==> R.base.lastX[t].None?
  {
    L.(base := ClearInputs(L.base))
  }

  /** combineScale(grad, scale): nothing to combine. */
  function CombineScale(L: PoolLayer, other: PoolLayer, scale: real): (R: PoolLayer)
    ensures R == L
  {
    L
  }

  /** zeroCopy: the layer itself, since it never changes. */
  function ZeroCopy(L: PoolLayer): (Z: PoolLayer)
    ensures Z == L
  {
    L
  }

  /** assignGradientInto: the receiver is left as it is. */
  function AssignGradientInto(L: PoolLayer, recv: PoolLayer, i: int, j: int, k: int, slot: int): (R: PoolLayer)
    ensures R == recv
  {
    recv
  }

  /** Training leaves the layer's outputs what they were, for every input. */
  lemma TrainKeepsOutputs(L: PoolLayer, grads: seq<PoolLayer>, rate: real, x: Vol, slot: int)
    requires L.Valid() && NonNegative(L.Out()) && 0 <= slot < |L.base.lastX|
    requires L.base.lp.poolType == MAX ==> HasShape(x, L.In())
    ensures 0 <= slot < |Train(L, grads, rate).base.lastX|
    ensures Evaluate(Train(L, grads, rate), x, slot).0 == Evaluate(L, x, slot).0
  {
    var T := Train(L, grads, rate);
    var y, y' := Evaluate(L, x, slot).0, Evaluate(T, x, slot).0;
    var o := L.Out();
    forall i | 0 <= i < o.w ensures y'[i] == y[i] {
      forall j | 0 <= j < o.h ensures y'[i][j] == y[i][j] {
        assert |y'[i][j]| == |y[i][j]|;
      }
    }
  }

  /** The 4 × 4 × 1 volume with x[i][j][0] = i + 4j. */
  function Example(): (x: Vol)
    ensures HasShape(x, Shape(4, 4, 1))
    ensures forall i, j :: 0 <= i < 4 && 0 <= j < 4 ==> x[i][j][0] == (i + 4 * j) as real
  {
    seq(4, i => seq(4, j => [(i + 4 * j) as real]))
  }

  /**
   * Pooling Example() with poolSize 2 and stride 2: MAX gives 5, 7, 13, 15 and AVG
   * gives 2.5, 4.5, 10.5, 12.5 at outputs (0, 0), (1, 0), (0, 1), (1, 1).
   */
  lemma WorkedExample()
    ensures MaxInRange(Example(), 0, 0, 0, 2) == 5.0 && MaxInRange(Example(), 2, 0, 0, 2) == 7.0
    ensures MaxInRange(Example(), 0, 2, 0, 2) == 13.0 && MaxInRange(Example(), 2, 2, 0, 2) == 15.0
    ensures AvgInRange(Example(), 0, 0, 0, 2) == 2.5 && AvgInRange(Example(), 2, 0, 0, 2) == 4.5
    ensures AvgInRange(Example(), 0, 2, 0, 2) == 10.5 && AvgInRange(Example(), 2, 2, 0, 2) == 12.5
  {
    ExampleMax(0, 0, 5.0);
    ExampleMax(2, 0, 7.0);
    ExampleMax(0, 2, 13.0);
    ExampleMax(2, 2, 15.0);
    ExampleAvg(0, 0, 2.5);
    ExampleAvg(2, 0, 4.5);
    ExampleAvg(0, 2, 10.5);
    ExampleAvg(2, 2, 12.5);
  }

  /** The four cells of a worked-example window: v, v + 4, v + 1, v + 5 for v = i + 4j. */
  lemma ExampleCells(i: int, j: int)
    requires 0 <= i < 3 && 0 <= j < 3
    ensures var x, v := Example(), (i + 4 * j) as real;
      && InVol(x, i, j, 0) && InVol(x, i + 1, j + 1, 0)
      && x[i][j][0] == v && x[i][j + 1][0] == v + 4.0
      && x[i + 1][j][0] == v + 1.0 && x[i + 1][j + 1][0] == v + 5.0
  {
  }

  /** The largest cell of a worked-example window is its last one, (i + 1) + 4(j + 1). */
  lemma ExampleMax(i: int, j: int, max: real)
    requires 0 <= i < 3 && 0 <= j < 3 && max == (i + 1 + 4 * (j + 1)) as real
    ensures MaxInRange(Example(), i, j, 0, 2) == max
  {
    var x := Example();
    ExampleCells(i, j);
    var r := MaxInRange(x, i, j, 0, 2);
    assert InWindow(i, j, 2, i + 1, j + 1);
    var a, b :| ((a, b) == (i, j) || InWindow(i, j, 2, a, b)) && InVol(x, a, b, 0) && r == x[a][b][0];
  }

  /** A worked-example window averages to its first cell plus 2.5. */
  lemma ExampleAvg(i: int, j: int, avg: real)
    requires 0 <= i < 3 && 0 <= j < 3 && avg == (i + 4 * j) as real + 2.5
    ensures AvgInRange(Example(), i, j, 0, 2) == avg
  {
    var x := Example();
    var v := (i + 4 * j) as real;
    ExampleCells(i, j);
    assert RowTotal(x, i, j, 0, 1) == v;
    assert RowTotal(x, i, j, 0, 2) == v + v + 4.0;
    assert RowTotal(x, i + 1, j, 0, 1) == v + 1.0;
    assert RowTotal(x, i + 1, j, 0, 2) == v + v + 6.0;
    assert WindowTotal(x, i, j, 0, 2, 1) == v + v + 4.0;
    assert WindowTotal(x, i, j, 0, 2, 2) == 4.0 * v + 10.0;
  }
}

=== FILE: tensor.dfy ===
/**
 * Volumes (`double[][][]` indexed [i][j][k], width × height × depth), their shapes,
 * bounds-checked access, and the flat-index arithmetic used to convert between a
 * volume and a vector.
 */
module Tensor {

  type Vol = seq<seq<seq<real>>>

  /** An `int[]{w, h, d}` size triple. Nothing forces the entries to be positive. */
  datatype Shape = Shape(w: int, h: int, d: int)

  function Size(s: Shape): (n: int)
    ensures NonNegative(s) ==> n >= 0
    ensures Positive(s) ==> n >= 1
  {
    s.w * s.h * s.d
  }

  predicate Positive(s: Shape) { s.w >= 1 && s.h >= 1 && s.d >= 1 }

  predicate NonNegative(s: Shape) { s.w >= 0 && s.h >= 0 && s.d >= 0 }

  predicate InBox(s: Shape, i: int, j: int, k: int)
  {
    0 <= i < s.w && 0 <= j < s.h && 0 <= k < s.d
  }

  /** v is a rectangular volume with the given size. */
  ghost predicate HasShape(v: Vol, s: Shape)
  {
    && |v| == s.w
    && (forall i :: 0 <= i < |v| ==> |v[i]| == s.h)
    && (forall i, j :: 0 <= i < |v| && 0 <= j < |v[i]| ==> |v[i][j]| == s.d)
  }

  /** Every entry of v is zero. */
  ghost predicate AllZero(v: Vol)
  {
    forall i, j, k :: 0 <= i < |v| && 0 <= j < |v[i]| && 0 <= k < |v[i][j]| ==> v[i][j][k] == 0.0
  }

  /** `new double[w][h][d]`. */
  function Zeros(s: Shape): (v: Vol)
    requires NonNegative(s)
    ensures HasShape(v, s)
    ensures AllZero(v)
  {
    seq(s.w, _ => seq(s.h, _ => seq(s.d, _ => 0.0)))
  }

  /** Two volumes of one shape that agree at every position are equal. */
  lemma VolEq(a: Vol, b: Vol, s: Shape)
    requires HasShape(a, s) && HasShape(b, s)
    requires forall i, j, k :: InBox(s, i, j, k) ==> a[i][j][k] == b[i][j][k]
    ensures a == b
  {
    forall i | 0 <= i < s.w ensures a[i] == b[i] {
      forall j | 0 <= j < s.h ensures a[i][j] == b[i][j] {
        assert forall k :: 0 <= k < s.d ==> InBox(s, i, j, k);
      }
    }
  }

  /** A volume whose every entry is `fill`. */
  function Const(s: Shape, fill: real): (v: Vol)
    requires NonNegative(s)
    ensures HasShape(v, s)
    ensures forall i, j, k :: InBox(s, i, j, k) ==> v[i][j][k] == fill
  {
    seq(s.w, _ => seq(s.h, _ => seq(s.d, _ => fill)))
  }

  predicate InVol(v: Vol, i: int, j: int, k: int)
  {
    0 <= i < |v| && 0 <= j < |v[i]| && 0 <= k < |v[i][j]|
  }

  /** Bounds-checked read: the entry when (i, j, k) is inside v, the default otherwise. */
  function GetOrDefault(v: Vol, i: int, j: int, k: int, default: real): (r: real)
    ensures InVol(v, i, j, k) ==> r == v[i][j][k]
    ensures !InVol(v, i, j, k) ==> r == default
  {
    if InVol(v, i, j, k) then v[i][j][k] else default
  }

  /** Bounds-checked write: v with (i, j, k) set when it is inside v, v itself otherwise. */
  function SetIfCan(v: Vol, i: int, j: int, k: int, value: real): (r: Vol)
    ensures |r| == |v|
    ensures forall a :: 0 <= a < |v| ==> |r[a]| == |v[a]|
    ensures forall a, b :: 0 <= a < |v| && 0 <= b < |v[a]| ==> |r[a][b]| == |v[a][b]|
    ensures forall a, b, c :: InVol(v, a, b, c) ==>
      r[a][b][c] == if (a, b, c) == (i, j, k) then value else v[a][b][c]
  {
    if InVol(v, i, j, k) then v[i := v[i][j := v[i][j][k := value]]] else v
  }

  /** Bounds-checked write of a whole depth column: v[i][j] := col when (i, j) is inside v. */
  function SetColumnIfCan(v: Vol, i: int, j: int, col: seq<real>): (r: Vol)
    ensures |r| == |v|
    ensures forall a :: 0 <= a < |v| ==> |r[a]| == |v[a]|
    ensures forall a, b :: 0 <= a < |v| && 0 <= b < |v[a]| ==>
      r[a][b] == if (a, b) == (i, j) then col else v[a][b]
  {
    if 0 <= i < |v| && 0 <= j < |v[i]| then v[i := v[i][j := col]] else v
  }

  /** The flat position of (i, j, k): i + j·w + k·w·h, written i + w·(j + h·k). */
  function Flat(s: Shape, i: int, j: int, k: int): int
  {
    i + s.w * (j + s.h * k)
  }

  /** The decoding used by convertToArr: (a % w, (a / w) % h, a / (w·h)). */
  function UnflatI(s: Shape, a: int): int requires s.w >= 1 { a % s.w }
  function UnflatJ(s: Shape, a: int): int requires s.w >= 1 && s.h >= 1 { (a / s.w) % s.h }
  function UnflatK(s: Shape, a: int): int requires s.w >= 1 && s.h >= 1 { a / (s.w * s.h) }

  lemma MulAtLeast(m: int, t: int)
    requires m > 0 && t >= 1
    ensures m * t >= m
  {
  }

  lemma MulSub(m: int, x: int, y: int)
    ensures m * x - m * y == m * (x - y)
  {
  }

  /** Division with a remainder in [0, m) is unique. */
  lemma DivModUnique(a: int, m: int, q: int, r: int)
    requires m > 0 && 0 <= r < m && a == m * q + r
    ensures a / m == q && a % m == r
  {
    var q', r' := a / m, a % m;
    assert a == m * q' + r';
    if q' < q {
      MulSub(m, q, q');
      MulAtLeast(m, q - q');
      assert false;
    } else if q' > q {
      MulSub(m, q', q);
      MulAtLeast(m, q' - q);
      assert false;
    }
  }

  lemma MulAssoc(w: int, h: int, k: int, j: int)
    ensures w * (j + h * k) == (w * h) * k + w * j
  {
  }

  /** w·j + i stays below w·h when i < w and j < h. */
  lemma InnerBound(w: int, h: int, i: int, j: int)
    requires 0 <= i < w && 0 <= j < h
    ensures 0 <= w * j + i < w * h
  {
    MulSub(w, h, j);
    MulAtLeast(w, h - j);
  }

  /** a / (w·h) == (a / w) / h. */
  lemma DivDiv(a: int, w: int, h: int)
    requires a >= 0 && w >= 1 && h >= 1
    ensures a / (w * h) == (a / w) / h
  {
    var q, i := a / w, a % w;
    var k, j := q / h, q % h;
    MulAssoc(w, h, k, j);
    InnerBound(w, h, i, j);
    DivModUnique(a, w * h, k, w * j + i);
  }

  lemma MulMono(m: int, x: int, y: int)
    requires m >= 0 && x <= y
    ensures m * x <= m * y
  {
  }

  /** a / m < d follows from a < m·d. */
  lemma QuotientBelow(a: int, m: int, d: int)
    requires m >= 1 && 0 <= a < m * d
    ensures a / m < d
  {
    var k := a / m;
    if k >= d {
      MulMono(m, d, k);
      assert false;
    }
  }

  lemma SizeNonNegative(s: Shape)
    requires NonNegative(s)
    ensures Size(s) >= 0
  {
    MulMono(s.w, 0, s.h);
    MulMono(s.w * s.h, 0, s.d);
  }

  /** Euclidean division by a positive m: a = m·(a / m) + a % m with the remainder in [0, m). */
  lemma Euclid(a: int, m: int)
    requires a >= 0 && m >= 1
    ensures a == m * (a / m) + a % m && 0 <= a % m < m && a / m >= 0
  {
  }

  /** Flat(s, i, j, k) with j + h·k already known as q. */
  lemma FlatVia(s: Shape, i: int, j: int, k: int, q: int)
    requires q == j + s.h * k
    ensures Flat(s, i, j, k) == i + s.w * q
  {
  }

  /** Decoding a flat position in range gives a point of the box that encodes back to it. */
  lemma UnflatFlat(s: Shape, a: int)
    requires Positive(s) && 0 <= a < Size(s)
    ensures InBox(s, UnflatI(s, a), UnflatJ(s, a), UnflatK(s, a))
    ensures Flat(s, UnflatI(s, a), UnflatJ(s, a), UnflatK(s, a)) == a
  {
    var w, h := s.w, s.h;
    var q, i := a / w, a % w;
    Euclid(a, w);
    var k, j := q / h, q % h;
    Euclid(q, h);
    DivDiv(a, w, h);
    assert w * h >= 1 by { MulAtLeast(w, h); }
    QuotientBelow(a, w * h, s.d);
    FlatVia(s, i, j, k, q);
  }

  /** Encoding a point of the box and decoding it gives the point back. */
  lemma FlatUnflat(s: Shape, i: int, j: int, k: int)
    requires Positive(s) && InBox(s, i, j, k)
    ensures 0 <= Flat(s, i, j, k) < Size(s)
    ensures UnflatI(s, Flat(s, i, j, k)) == i
    ensures UnflatJ(s, Flat(s, i, j, k)) == j
    ensures UnflatK(s, Flat(s, i, j, k)) == k
  {
    var w, h, d := s.w, s.h, s.d;
    var a := Flat(s, i, j, k);
    var q := j + h * k;
    InnerBound(h, d, j, k);
    assert 0 <= q < h * d;
    DivModUnique(a, w, q, i);
    DivModUnique(q, h, k, j);
    DivDiv(a, w, h);
    assert a < Size(s) by {
      InnerBound(w, h * d, i, q);
      assert w * (h * d) == Size(s);
    }
  }

  /** Shape of a non-empty rectangular volume, read as `{v.length, v[0].length, v[0][0].length}`. */
  function ShapeOf(v: Vol): Shape
    requires |v| > 0 && |v[0]| > 0
  {
    Shape(|v|, |v[0]|, |v[0][0]|)
  }

  /**
   * convertToArr / convertToArray: entry a is read from the decoded position. The
   * Java code reads `vol[0]` and `vol[0][0]`, so the volume must not be empty.
   */
  function ToArray(v: Vol, s: Shape): (arr: seq<real>)
    requires Positive(s) && HasShape(v, s)
    ensures |arr| == Size(s)
    ensures forall i, j, k {:trigger Flat(s, i, j, k)} :: InBox(s, i, j, k) ==>
      0 <= Flat(s, i, j, k) < |arr| && arr[Flat(s, i, j, k)] == v[i][j][k]
  {
    SizeNonNegative(s);
    var arr := seq(Size(s), a requires 0 <= a < Size(s) =>
      UnflatFlat(s, a);
      v[UnflatI(s, a)][UnflatJ(s, a)][UnflatK(s, a)]);
    forall i, j, k | InBox(s, i, j, k)
      ensures 0 <= Flat(s, i, j, k) < |arr| && arr[Flat(s, i, j, k)] == v[i][j][k]
    {
      FlatUnflat(s, i, j, k);
    }
    arr
  }

  /** ConvolutionalNetwork.convertToVol: vol[i][j][k] = x[i + j·w + k·h·w]. */
  function ToVol(x: seq<real>, s: Shape): (v: Vol)
    requires Positive(s) && |x| >= Size(s)
    ensures HasShape(v, s)
    ensures forall i, j, k {:trigger Flat(s, i, j, k)} :: InBox(s, i, j, k) ==>
      0 <= Flat(s, i, j, k) < |x| && v[i][j][k] == x[Flat(s, i, j, k)]
  {
    var v := seq(s.w, i requires 0 <= i < s.w =>
      seq(s.h, j requires 0 <= j < s.h =>
        seq(s.d, k requires 0 <= k < s.d =>
          FlatUnflat(s, i, j, k);
          x[Flat(s, i, j, k)])));
    forall i, j, k | InBox(s, i, j, k)
      ensures 0 <= Flat(s, i, j, k) < |x| && v[i][j][k] == x[Flat(s, i, j, k)]
    {
      FlatUnflat(s, i, j, k);
    }
    v
  }

  /** Flattening a freshly built volume gives back the vector it was built from. */
  lemma ToArrayToVol(x: seq<real>, s: Shape)
    requires Positive(s) && |x| == Size(s)
    ensures ToArray(ToVol(x, s), s) == x
  {
    var arr := ToArray(ToVol(x, s), s);
    forall a | 0 <= a < |x|
      ensures arr[a] == x[a]
    {
      UnflatFlat(s, a);
    }
  }

  /** Rebuilding a flattened volume gives back the volume. */
  lemma ToVolToArray(v: Vol, s: Shape)
    requires Positive(s) && HasShape(v, s)
    ensures ToVol(ToArray(v, s), s) == v
  {
    var v' := ToVol(ToArray(v, s), s);
    assert |v'| == |v|;
    forall i | 0 <= i < s.w ensures v'[i] == v[i] {
      forall j | 0 <= j < s.h ensures v'[i][j] == v[i][j] {
        assert |v'[i][j]| == |v[i][j]|;
      }
    }
  }

  /** FullLayer.convertToVolume: the vector as an [n][1][1] volume. */
  function Column(arr: seq<real>): (v: Vol)
    ensures HasShape(v, Shape(|arr|, 1, 1))
    ensures forall i :: 0 <= i < |arr| ==> v[i][0][0] == arr[i]
  {
    seq(|arr|, i requires 0 <= i < |arr| => [[arr[i]]])
  }

  /** convertToArray(convertToVolume(a)) == a for every non-empty a. */
  lemma ToArrayColumn(arr: seq<real>)
    requires |arr| > 0
    ensures ToArray(Column(arr), Shape(|arr|, 1, 1)) == arr
  {
    var s := Shape(|arr|, 1, 1);
    var r := ToArray(Column(arr), s);
    forall a | 0 <= a < |arr| ensures r[a] == arr[a] {
      FlatUnflat(s, a, 0, 0);
    }
  }
}

=== FILE: trainer.dfy ===
/**
 * core.Trainer: stochastic training of a convolutional network. A step prepares
 * the gradient rows, runs toDo randomly picked examples through evaluate and
 * computeBackProp (example k in batch slot k), keeps a ring of the latest mses
 * and a running average of all of them, and applies the gradients once, scaled
 * by -scaling·trainingRate with scaling = 2 / (toDo·numOutputs).
 *
 * The random picks are a parameter. The network is always a
 * ConvolutionalNetwork, the only subclass of Network there is, so the
 * instanceof test of train always holds.
 */
module Trainer {
  import opened Wrappers
  import opened JavaMath
  import opened Approx
  import opened Utility
  import opened Tensor
  import opened Layers
  import opened ConvNet
  import opened BackProp

  /**
   * The two discrepancies of the trainer beside the kernel's: `onePass` repairs
   * applyGrads' repeated passes, `trueMean` the running average's denominator.
   */
  datatype TrainFixes = TrainFixes(kernel: Fixes, onePass: bool, trueMean: bool)

  /** The trainer as written. */
  const Written := TrainFixes(AsWritten, false, false)

  /** The trainer as evidently intended. */
  const Intended := TrainFixes(Corrected, true, true)

  /** Why the constructor has no trainer to give. */
  datatype TrainerError =
    | NegativeRam       // new double[ram] with ram < 0 throws
    | NonFiniteScaling  // 2.0 / 0 is an infinity, which a real cannot hold

  /** The fields of a Trainer; data and answers are the fitness' arrays. */
  datatype Trainer = Trainer(
    trainingRate: real,
    ram: int,
    mses: seq<real>,
    allTimeMse: real,
    mseIndex: int,
    cycle: int,
    allTimeMseCount: int,
    data: seq<seq<real>>,
    answers: seq<seq<real>>,
    scaling: real,
    toDo: int)
  {
    /** The ring has ram slots and its index is one of them (0 when there are none). */
    ghost predicate Valid()
    {
      && ram >= 0 && |mses| == ram
      && (if ram > 0 then 0 <= mseIndex < ram else mseIndex == 0)
      && allTimeMseCount >= 0
    }
  }

  /** (int) (data.length * percentToDo): the number of examples a step runs. */
  function ToDo(dataLength: nat, percentToDo: real): int
  {
    Trunc(dataLength as real * percentToDo)
  }

  /** A fraction of the data gives between none and all of the examples. */
  lemma ToDoWithinData(dataLength: nat, percentToDo: real)
    requires 0.0 <= percentToDo <= 1.0
    ensures 0 <= ToDo(dataLength, percentToDo) <= dataLength
  {
    var x := dataLength as real * percentToDo;
    assert 0.0 <= x <= dataLength as real by {
      assert x <= dataLength as real * 1.0;
    }
  }

  /**
   * The constructor. batchSize is accepted and never read. scaling is 2/(toDo·numOutputs),
   * which is only a number when toDo·numOutputs is not zero.
   */
  function NewTrainer(trainingRate: real, numOutputs: int, data: seq<seq<real>>, answers: seq<seq<real>>,
                      percentToDo: real, batchSize: int, ram: int): (r: Result<Trainer, TrainerError>)
    ensures r.Failure? <==> ram < 0 || ToDo(|data|, percentToDo) * numOutputs == 0
    ensures ram < 0 ==> r == Failure(NegativeRam)
    ensures r.Success? ==>
      var tr := r.value;
      && tr.Valid() && tr.ram == ram && tr.trainingRate == trainingRate
      && tr.data == data && tr.answers == answers
      && tr.cycle == 0 && tr.mseIndex == 0 && tr.allTimeMseCount == 0 && tr.allTimeMse == 0.0
      && (forall i :: 0 <= i < ram ==> tr.mses[i] == 0.0)
      && tr.toDo == ToDo(|data|, percentToDo)
      && tr.scaling * (tr.toDo * numOutputs) as real == 2.0
  {
    var toDo := ToDo(|data|, percentToDo);
    if ram < 0 then Failure(NegativeRam)
    else if toDo * numOutputs == 0 then Failure(NonFiniteScaling)
    else
      var scaling := 2.0 / (toDo * numOutputs) as real;
      Success(Trainer(trainingRate, ram, seq(ram, _ => 0.0), 0.0, 0, 0, 0, data, answers, scaling, toDo))
  }

  // ---------------------------------------------------------------------------
  // The bookkeeping of one example

  /** The ring write of one example: the mse goes to mseIndex, which then advances (when there is a ring). */
  function PushRing(tr: Trainer, mse: real): (r: Trainer)
    requires tr.Valid()
    ensures r.Valid() && r == tr.(mses := r.mses, mseIndex := r.mseIndex)
  {
    if tr.ram > 0 then tr.(mses := tr.mses[tr.mseIndex := mse], mseIndex := (tr.mseIndex + 1) % tr.ram) else tr
  }

  /**
   * The running average after the (count + 1)-th mse. As written the old average
   * is scaled by (count + 1)/(count + 2) and the mse divided by count + 2; the
   * intended mean scales by count/(count + 1) and divides by count + 1.
   */
  function MeanAfter(trueMean: bool, avg: real, count: nat, mse: real): real
  {
    var c := count as real;
    if trueMean then avg * (c / (c + 1.0)) + mse / (c + 1.0)
    else avg * ((c + 1.0) / (c + 2.0)) + mse / (c + 2.0)
  }

  /** What trainStep does with one example's mse: the ring write, then the running average. */
  function Record(fx: TrainFixes, tr: Trainer, mse: real): (r: Trainer)
    requires tr.Valid()
    ensures r.Valid() && r.allTimeMseCount == tr.allTimeMseCount + 1
    ensures r == PushRing(tr, mse).(allTimeMse := r.allTimeMse, allTimeMseCount := r.allTimeMseCount)
  {
    PushRing(tr, mse).(allTimeMse := MeanAfter(fx.trueMean, tr.allTimeMse, tr.allTimeMseCount, mse),
                       allTimeMseCount := tr.allTimeMseCount + 1)
  }

  /** The mse d places before the newest one in the ring. */
  function Newest(tr: Trainer, d: int): real
    requires tr.Valid() && tr.ram > 0
  {
    tr.mses[(tr.mseIndex - 1 - d) % tr.ram]
  }

  /** Advancing the ring index and stepping one further back lands where it was. */
  lemma ModStep(i: int, m: int, d: int)
    requires m > 0 && 0 <= i < m
    ensures ((i + 1) % m - 1 - d) % m == (i - d) % m
  {
    if i + 1 < m {
      DivModUnique(i + 1, m, 0, i + 1);
    } else {
      DivModUnique(i + 1, m, 1, 0);
      var q, r := (-1 - d) / m, (-1 - d) % m;
      assert -1 - d == m * q + r && 0 <= r < m;
      assert m * (q + 1) == m * q + m;
      DivModUnique(i - d, m, q + 1, r);
    }
  }

  /**
   * After one example the newest mse is that example's, and every older one moves
   * back one place; the ring keeps the latest ram of them.
   */
  lemma PushShiftsRing(tr: Trainer, mse: real)
    requires tr.Valid() && tr.ram > 0
    ensures Newest(PushRing(tr, mse), 0) == mse
    ensures forall d :: 1 <= d < tr.ram ==> Newest(PushRing(tr, mse), d) == Newest(tr, d - 1)
  {
    var r := PushRing(tr, mse);
    var m, i := tr.ram, tr.mseIndex;
    assert r.mses == tr.mses[i := mse] && r.mseIndex == (i + 1) % m;
    ModStep(i, m, 0);
    DivModUnique(i, m, 0, i);
    forall d | 1 <= d < m ensures Newest(r, d) == Newest(tr, d - 1) {
      ModStep(i, m, d);
      var x := (i - d) % m;
      assert Newest(r, d) == r.mses[x];
      assert Newest(tr, d - 1) == tr.mses[x];
      if x == i {
        var q := (i - d) / m;
        assert i - d == m * q + x;
        DivModUnique(d, m, -q, 0);
        DivModUnique(d, m, 0, d);
        assert false;
      }
      assert x != i;
    }
  }

  // ---------------------------------------------------------------------------
  // Many examples

  /** The examples' mses recorded in order. */
  function Records(fx: TrainFixes, tr: Trainer, ms: seq<real>): (r: Trainer)
    requires tr.Valid()
    ensures r.Valid() && r.allTimeMseCount == tr.allTimeMseCount + |ms|
    ensures r == tr.(mses := r.mses, mseIndex := r.mseIndex, allTimeMse := r.allTimeMse, allTimeMseCount := r.allTimeMseCount)
    decreases |ms|
  {
    if |ms| == 0 then tr else Record(fx, Records(fx, tr, ms[..|ms| - 1]), ms[|ms| - 1])
  }

  /**
   * The ring after a run of examples, read from the newest: the run's mses newest
   * first, then what the ring held before, as far as ram slots reach.
   */
  lemma {:induction false} RecordsFillRing(fx: TrainFixes, tr: Trainer, ms: seq<real>)
    requires tr.Valid() && tr.ram > 0
    ensures forall d :: 0 <= d < tr.ram ==>
      Newest(Records(fx, tr, ms), d) == if d < |ms| then ms[|ms| - 1 - d] else Newest(tr, d - |ms|)
  {
    if |ms| > 0 {
      var init := ms[..|ms| - 1];
      RecordsFillRing(fx, tr, init);
      var prev := Records(fx, tr, init);
      PushShiftsRing(prev, ms[|ms| - 1]);
      forall d | 0 <= d < tr.ram
        ensures Newest(Records(fx, tr, ms), d) == if d < |ms| then ms[|ms| - 1 - d] else Newest(tr, d - |ms|)
      {
        assert Newest(Records(fx, tr, ms), d) == Newest(PushRing(prev, ms[|ms| - 1]), d);
        if d > 0 && d - 1 < |init| {
          assert init[|init| - 1 - (d - 1)] == ms[|ms| - 1 - d];
        }
      }
    }
  }

  /** The sum of the mses, added up in order. */
  function SumOf(ms: seq<real>): real
    decreases |ms|
  {
    if |ms| == 0 then 0.0 else SumOf(ms[..|ms| - 1]) + ms[|ms| - 1]
  }

  /** The count the running average is the sum over: count + 1 as written, count as intended. */
  function Weight(trueMean: bool, count: int): real
  {
    if trueMean then count as real else count as real + 1.0
  }

  /** One mse more keeps the average times its weight equal to the sum. */
  lemma MeanAfterAddsUp(trueMean: bool, avg: real, count: nat, mse: real)
    ensures Prod(MeanAfter(trueMean, avg, count, mse), Weight(trueMean, count + 1)) == Prod(avg, Weight(trueMean, count)) + mse
  {
    var c := count as real;
    if trueMean {
      assert (avg * (c / (c + 1.0))) * (c + 1.0) == avg * c;
      assert (mse / (c + 1.0)) * (c + 1.0) == mse;
    } else {
      assert (avg * ((c + 1.0) / (c + 2.0))) * (c + 2.0) == avg * (c + 1.0);
      assert (mse / (c + 2.0)) * (c + 2.0) == mse;
    }
  }

  /** Over a run of examples the average times its weight grows by the run's sum. */
  lemma {:induction false} RecordsAddUp(fx: TrainFixes, tr: Trainer, ms: seq<real>)
    requires tr.Valid()
    ensures Prod(Records(fx, tr, ms).allTimeMse, Weight(fx.trueMean, tr.allTimeMseCount + |ms|))
         == Prod(tr.allTimeMse, Weight(fx.trueMean, tr.allTimeMseCount)) + SumOf(ms)
  {
    if |ms| > 0 {
      var init := ms[..|ms| - 1];
      RecordsAddUp(fx, tr, init);
      var prev := Records(fx, tr, init);
      MeanAfterAddsUp(fx.trueMean, prev.allTimeMse, prev.allTimeMseCount, ms[|ms| - 1]);
      assert Records(fx, tr, ms).allTimeMse == MeanAfter(fx.trueMean, prev.allTimeMse, prev.allTimeMseCount, ms[|ms| - 1]);
    }
  }

  /** A product with a non-zero factor determines the other. */
  lemma Unprod(a: real, w: real, s: real)
    requires w != 0.0 && Prod(a, w) == s
    ensures a == s / w
  {
  }

  /** A trainer as the constructor leaves it, as far as the average goes. */
  predicate Fresh(tr: Trainer)
  {
    tr.allTimeMseCount == 0 && tr.allTimeMse == 0.0
  }

  /** With the intended update allTimeMse is the mean of every mse seen. */
  lemma IntendedMeanIsMean(fx: TrainFixes, tr: Trainer, ms: seq<real>)
    requires tr.Valid() && Fresh(tr) && fx.trueMean && |ms| > 0
    ensures Records(fx, tr, ms).allTimeMse == SumOf(ms) / |ms| as real
  {
    RecordsAddUp(fx, tr, ms);
    Unprod(Records(fx, tr, ms).allTimeMse, |ms| as real, SumOf(ms));
  }

  /** As written allTimeMse is the sum of every mse seen divided by one more than their number. */
  lemma WrittenMeanDividesByOneMore(fx: TrainFixes, tr: Trainer, ms: seq<real>)
    requires tr.Valid() && Fresh(tr) && !fx.trueMean
    ensures Records(fx, tr, ms).allTimeMse == SumOf(ms) / (|ms| as real + 1.0)
  {
    RecordsAddUp(fx, tr, ms);
    Unprod(Records(fx, tr, ms).allTimeMse, |ms| as real + 1.0, SumOf(ms));
  }

  /** One example of mse 1 leaves the written average at one half, the intended at 1. */
  lemma WrittenMeanHalvesFirstMse(tr: Trainer)
    requires tr.Valid() && Fresh(tr)
    ensures Records(Written, tr, [1.0]).allTimeMse == 0.5
    ensures Records(Intended, tr, [1.0]).allTimeMse == 1.0
  {
    WrittenMeanDividesByOneMore(Written, tr, [1.0]);
    IntendedMeanIsMean(Intended, tr, [1.0]);
    assert SumOf([1.0]) == 1.0 by {
      assert [1.0][..0] == [];
    }
  }

  // ---------------------------------------------------------------------------
  // trainStep

  /**
   * What a step demands of its picks: toDo is at most the network's batchSize
   * (example k uses slot k) and every example can be run.
   */
  ghost predicate CanStep(t: Tables, tr: Trainer, net: Net, picks: seq<int>)
  {
    && t.Valid() && tr.Valid() && net.Valid()
    && tr.toDo <= net.batchSize && tr.toDo <= |picks|
    && forall k :: 0 <= k < tr.toDo ==> ExampleOk(t, tr, net, picks, k)
  }

  /**
   * Example k of a step: its pick is an index of both data and answers, the
   * answer is long enough, and the data can go through the network at slot k.
   */
  ghost predicate ExampleOk(t: Tables, tr: Trainer, net: Net, picks: seq<int>, k: int)
  {
    && 0 <= k < |picks| && 0 <= picks[k] < |tr.data| && picks[k] < |tr.answers|
    && |tr.answers[picks[k]]| >= net.numOutputs && Passable(t, net, tr.data[picks[k]], k)
  }

  /**
   * x can go through the network at the slot, and no volume a max pool receives
   * has an entry below -Double.MAX_VALUE (which a double cannot be).
   */
  ghost predicate Passable(t: Tables, net: Net, x: seq<real>, slot: int)
  {
    && t.Valid() && net.Valid() && |x| >= net.numInputs && 0 <= slot < net.batchSize
    && forall l :: 0 <= l < |net.layers| ==> PassesAbove(t, net, x, slot, l)
  }

  /**
   * If layer l compares its input with -Double.MAX_VALUE, no entry of the volume
   * it receives from x is below that.
   */
  ghost predicate PassesAbove(t: Tables, net: Net, x: seq<real>, slot: int, l: int)
  {
    && t.Valid() && net.Valid() && |x| >= net.numInputs && 0 <= slot < net.batchSize && 0 <= l < |net.layers|
    && (ReadsLowest(net.layers[l]) ==> AboveLowest(Activation(t, net.layers, ConvertToVol(net, x), slot, l), net.layers[l].In()))
  }

  /**
   * The mse of example k on the network as it is at the start of the step: never
   * negative, and zero exactly when the network answers the example exactly.
   */
  function StepMse(t: Tables, tr: Trainer, net: Net, picks: seq<int>, k: int): (r: real)
    requires ExampleOk(t, tr, net, picks, k)
    ensures r >= 0.0
    ensures r == 0.0 <==> ConvNet.Evaluate(t, net, tr.data[picks[k]], k).0 == tr.answers[picks[k]][..net.numOutputs]
  {
    Mse(ConvNet.Evaluate(t, net, tr.data[picks[k]], k).0, tr.answers[picks[k]])
  }

  /** The mses of the step's examples, in order. */
  function StepMses(t: Tables, tr: Trainer, net: Net, picks: seq<int>): (ms: seq<real>)
    requires CanStep(t, tr, net, picks)
    ensures |ms| == Max(tr.toDo, 0)
    ensures forall k :: 0 <= k < |ms| ==> ExampleOk(t, tr, net, picks, k) && ms[k] == StepMse(t, tr, net, picks, k)
  {
    seq(Max(tr.toDo, 0), k requires 0 <= k < Max(tr.toDo, 0) =>
      assert ExampleOk(t, tr, net, picks, k); StepMse(t, tr, net, picks, k))
  }

  /**
   * n is the network of a step that started from net: only its layers and
   * gradient rows differ, it is valid with its rows ready, and its layers carry
   * net's weights and parameters.
   */
  ghost predicate InStep(net: Net, n: Net)
  {
    && n.Valid() && n.GradsReady() && n == net.(layers := n.layers, grads := n.grads)
    && SameStrips(net.layers, n.layers)
  }

  /** Every layer of n has what the backward pass needs at the slot. */
  ghost predicate AllReady(n: Net, slot: int)
  {
    forall l :: 0 <= l < |n.layers| ==> n.layers[l].Valid() && n.layers[l].Ready(slot)
  }

  /** What a step's network passes on from x is what the starting network does. */
  lemma ActivationInStep(t: Tables, net: Net, n: Net, x: seq<real>, slot: int, l: nat)
    requires t.Valid() && net.Valid() && InStep(net, n)
    requires |x| >= net.numInputs && 0 <= slot < net.batchSize && l <= |net.layers|
    ensures ConvertToVol(n, x) == ConvertToVol(net, x)
    ensures Activation(t, n.layers, ConvertToVol(n, x), slot, l) == Activation(t, net.layers, ConvertToVol(net, x), slot, l)
  {
    assert n.In() == net.In() by {
      assert n.layers[0].Params() == net.layers[0].Params();
    }
    ActivationReadsWeights(t, net.layers, n.layers, ConvertToVol(net, x), slot, slot, l);
  }

  /**
   * Evaluating on a network of the step: it stays in the step, every layer is
   * ready for the backward pass at the slot, and the output is the starting
   * network's.
   */
  lemma EvaluateInStep(t: Tables, net: Net, n: Net, x: seq<real>, slot: int)
    requires t.Valid() && net.Valid() && InStep(net, n)
    requires Passable(t, net, x, slot)
    ensures InStep(net, ConvNet.Evaluate(t, n, x, slot).1)
    ensures AllReady(ConvNet.Evaluate(t, n, x, slot).1, slot)
    ensures ConvNet.Evaluate(t, n, x, slot).0 == ConvNet.Evaluate(t, net, x, slot).0
  {
    var ls := Stepped(t, n.layers, ConvertToVol(n, x), slot);
    SteppedInStep(t, net, n, x, slot);
    SteppedReady(t, net, n, x, slot);
    ActivationInStep(t, net, n, x, slot, |net.layers|);
  }

  lemma SteppedInStep(t: Tables, net: Net, n: Net, x: seq<real>, slot: int)
    requires InStep(net, n)
    requires Passable(t, net, x, slot)
    ensures InStep(net, n.(layers := Stepped(t, n.layers, ConvertToVol(n, x), slot)))
  {
    var ls := Stepped(t, n.layers, ConvertToVol(n, x), slot);
    SteppedFits(t, n, ConvertToVol(n, x), slot);
    SteppedKeeps(t, n.layers, ConvertToVol(n, x), slot);
    StripsKeptInStep(net, n, ls);
  }

  /** Layers with the weights, parameters and slot counts of a step's layers that take its gradients keep it in the step. */
  lemma StripsKeptInStep(net: Net, n: Net, ls: seq<Layer>)
    requires InStep(net, n) && |ls| == |n.layers|
    requires forall l :: 0 <= l < |ls| ==>
      ls[l].Valid() && ls[l].Strip() == n.layers[l].Strip() && ls[l].Params() == n.layers[l].Params()
      && |ls[l].Base().lastX| == |n.layers[l].Base().lastX|
    requires forall l, r :: 0 <= l < |ls| && 0 <= r < n.numOutputs ==> GradFits(ls[l], n.grads[l][r])
    ensures InStep(net, n.(layers := ls))
  {
    RetrainedValid(n, ls);
  }

  lemma SteppedReady(t: Tables, net: Net, n: Net, x: seq<real>, slot: int)
    requires t.Valid() && net.Valid() && InStep(net, n)
    requires Passable(t, net, x, slot)
    ensures AllReady(n.(layers := Stepped(t, n.layers, ConvertToVol(n, x), slot)), slot)
  {
    var ls := Stepped(t, n.layers, ConvertToVol(n, x), slot);
    forall l | 0 <= l < |n.layers| ensures ls[l].Valid() && ls[l].Ready(slot) {
      StepReady(t, net, n, x, slot, l);
    }
  }

  lemma StepReady(t: Tables, net: Net, n: Net, x: seq<real>, slot: int, l: int)
    requires InStep(net, n) && PassesAbove(t, net, x, slot, l)
    ensures var L := Step(t, n.layers, ConvertToVol(n, x), slot, l); L.Valid() && L.Ready(slot)
  {
    ActivationInStep(t, net, n, x, slot, l);
    assert n.layers[l].In() == net.layers[l].In() && ReadsLowest(n.layers[l]) == ReadsLowest(net.layers[l]) by {
      assert n.layers[l].Params() == net.layers[l].Params();
    }
  }

  lemma SteppedFits(t: Tables, n: Net, v0: Vol, slot: int)
    requires t.Valid() && n.Valid() && n.GradsReady() && 0 <= slot < n.batchSize
    requires HasShape(v0, n.In())
    ensures var ls := Stepped(t, n.layers, v0, slot);
      forall l, r :: 0 <= l < |n.layers| && 0 <= r < n.numOutputs ==> GradFits(ls[l], n.grads[l][r])
  {
    var ls := Stepped(t, n.layers, v0, slot);
    forall l, r | 0 <= l < |n.layers| && 0 <= r < n.numOutputs ensures GradFits(ls[l], n.grads[l][r]) {
      FitsAfterStrip(n.layers[l], ls[l], n.grads[l][r]);
    }
  }

  /** A list of layers with the same weights and parameters as b, kept by computeBackProp, still has them. */
  lemma KeptSameStrips(a: seq<Layer>, b: seq<Layer>, c: seq<Layer>, slot: int)
    requires SameStrips(a, b) && Kept(b, c, slot)
    ensures SameStrips(a, c)
  {
  }

  /**
   * net.evaluate(x, k) inside the step: on the step's network n it gives the
   * starting network's output, keeps n in the step and leaves every layer ready
   * for the backward pass at the slot.
   */
  method EvaluateExample(t: Tables, net: Net, n: Net, x: seq<real>, slot: int) returns (eval: seq<real>, n2: Net)
    requires InStep(net, n) && Passable(t, net, x, slot)
    ensures eval == ConvNet.Evaluate(t, net, x, slot).0 && |eval| == net.numOutputs
    ensures InStep(net, n2) && AllReady(n2, slot) && n2 == n.(layers := n2.layers)
  {
    EvaluateInStep(t, net, n, x, slot);
    var e := ConvNet.Evaluate(t, n, x, slot);
    eval, n2 := e.0, e.1;
  }

  /**
   * net.computeBackProp(ans, eval, k) inside the step: the network stays in the
   * step, and an output equal to the answer leaves every gradient as it was.
   */
  method BackPropExample(fx: Fixes, net: Net, n: Net, ans: seq<real>, eval: seq<real>, slot: int) returns (n2: Net)
    requires InStep(net, n) && AllReady(n, slot)
    requires |ans| >= net.numOutputs && |eval| == net.numOutputs
    ensures InStep(net, n2)
    ensures eval == ans[..net.numOutputs] ==> n2.grads == n.grads
  {
    n2 := ComputeBackProp(fx, n, ans, eval, slot);
    BackPropInStep(fx, net, n, ans, eval, slot);
    if eval == ans[..net.numOutputs] {
      BackPropExact(fx, n, ans, eval, slot);
    }
  }

  lemma BackPropInStep(fx: Fixes, net: Net, n: Net, ans: seq<real>, eval: seq<real>, slot: int)
    requires InStep(net, n) && AllReady(n, slot)
    requires |ans| >= net.numOutputs && |eval| == net.numOutputs
    ensures InStep(net, ComputeBackProp(fx, n, ans, eval, slot))
  {
    KeptSameStrips(net.layers, n.layers, ComputeBackProp(fx, n, ans, eval, slot).layers, slot);
  }

  lemma BackPropExact(fx: Fixes, n: Net, ans: seq<real>, eval: seq<real>, slot: int)
    requires n.Valid() && n.GradsReady() && AllReady(n, slot)
    requires |ans| >= n.numOutputs && |eval| == n.numOutputs && eval == ans[..n.numOutputs]
    ensures ComputeBackProp(fx, n, ans, eval, slot).grads == n.grads
  {
    assert eval[..n.numOutputs] == eval;
    BackPropZeroError(fx, n, ans, eval, slot);
  }

  /** Recording one more mse of a run. */
  lemma RecordsSnoc(fx: TrainFixes, tr: Trainer, ms: seq<real>, k: int)
    requires tr.Valid() && 0 <= k < |ms|
    ensures Records(fx, tr, ms[..k + 1]) == Record(fx, Records(fx, tr, ms[..k]), ms[k])
  {
    assert ms[..k + 1][..k] == ms[..k];
  }

  /** Training any number of times on zero copies of a layer with its weights changes no weight. */
  lemma TrainTimesOnZeroCopies(L: Layer, L0: Layer, Z: Layer, grads: seq<Layer>, rate: real, p: nat)
    requires L.Valid() && L0.Valid() && L.Strip() == L0.Strip() && Z == ZeroCopy(L0)
    requires forall s :: 0 <= s < |grads| ==> grads[s] == Z
    requires forall s :: 0 <= s < |grads| ==> GradFits(L, grads[s])
    ensures TrainTimes(L, grads, rate, p).Strip() == L0.Strip()
  {
    var q := 0;
    while q < p
      invariant q <= p && TrainTimes(L, grads, rate, q).Strip() == L0.Strip()
    {
      var prev := TrainTimes(L, grads, rate, q);
      TrainTimesUnfold(L, grads, rate, q + 1);
      TrainOnceMore(prev, L0, Z, grads, rate);
      q := q + 1;
    }
  }

  lemma TrainOnceMore(prev: Layer, L0: Layer, Z: Layer, grads: seq<Layer>, rate: real)
    requires prev.Valid() && L0.Valid() && prev.Strip() == L0.Strip() && Z == ZeroCopy(L0)
    requires forall s :: 0 <= s < |grads| ==> grads[s] == Z
    requires forall s :: 0 <= s < |grads| ==> GradFits(prev, grads[s])
    ensures Layers.Train(prev, grads, rate).Strip() == L0.Strip()
  {
    Layers.TrainOnZeroCopies(prev, L0, grads, rate);
  }

  /**
   * applyGrads, as written or once, on rows that are still prepareGrads' zero
   * copies leaves every weight of the step's network as it was.
   */
  lemma ApplyZeroGrads(onePass: bool, net: Net, n: Net, rate: real)
    requires net.Valid() && InStep(net, n) && n.grads == PrepareGrads(net).grads
    ensures var r := if onePass then ApplyGrads(n, rate) else ApplyGradsAsWritten(n, rate);
      SameStrips(net.layers, r.layers)
  {
    var r := if onePass then ApplyGrads(n, rate) else ApplyGradsAsWritten(n, rate);
    forall l | 0 <= l < |net.layers|
      ensures r.layers[l].Strip() == net.layers[l].Strip() && r.layers[l].Params() == net.layers[l].Params()
    {
      var p := if onePass then 1 else |n.layers|;
      assert forall s :: 0 <= s < |n.grads[l]| ==> n.grads[l][s] == ZeroCopy(net.layers[l]);
      TrainTimesOnZeroCopies(n.layers[l], net.layers[l], ZeroCopy(net.layers[l]), n.grads[l], rate, p);
      if onePass {
        TrainTimesUnfold(n.layers[l], n.grads[l], rate, 1);
      }
    }
  }

  /**
   * Example k of trainStep's loop: evaluate the picked example at slot k, record
   * its mse, run computeBackProp. The mse recorded is the starting network's on
   * the example; an exact answer leaves the gradient rows as they were.
   */
  method Example(fx: TrainFixes, t: Tables, tr: Trainer, net: Net, picks: seq<int>, k: int, cur: Trainer, n: Net)
    returns (cur2: Trainer, n2: Net)
    requires ExampleOk(t, tr, net, picks, k)
    requires cur.Valid() && InStep(net, n)
    ensures cur2 == Record(fx, cur, StepMse(t, tr, net, picks, k))
    ensures InStep(net, n2)
    ensures StepMse(t, tr, net, picks, k) == 0.0 ==> n2.grads == n.grads
  {
    var x, ans := tr.data[picks[k]], tr.answers[picks[k]];
    var eval, n1 := EvaluateExample(t, net, n, x, k);
    cur2 := Record(fx, cur, Mse(eval, ans));
    n2 := BackPropExample(fx.kernel, net, n1, ans, eval, k);
  }

  /**
   * trainStep's loop after prepareGrads: the trainer has recorded the step's mses
   * in order, the network is still in the step, and if every mse was zero the
   * gradient rows are still prepareGrads' zero copies.
   */
  method Examples(fx: TrainFixes, t: Tables, tr: Trainer, net: Net, picks: seq<int>) returns (tr2: Trainer, n: Net)
    requires CanStep(t, tr, net, picks)
    ensures tr2 == Records(fx, tr, StepMses(t, tr, net, picks))
    ensures InStep(net, n)
    ensures Exact(StepMses(t, tr, net, picks)) ==> n.grads == PrepareGrads(net).grads
  {
    ghost var ms := StepMses(t, tr, net, picks);
    n := PrepareGrads(net);
    ghost var g0 := n.grads;
    tr2 := tr;
    var k := 0;
    while k < tr.toDo
      invariant 0 <= k <= Max(tr.toDo, 0)
      invariant tr2 == Records(fx, tr, ms[..k])
      invariant InStep(net, n)
      invariant Exact(ms[..k]) ==> n.grads == g0
    {
      assert ExampleOk(t, tr, net, picks, k);
      RecordsSnoc(fx, tr, ms, k);
      ExactSnoc(ms, k);
      tr2, n := Example(fx, t, tr, net, picks, k, tr2, n);
      k := k + 1;
    }
    TakeAll(ms, k);
  }

  /** Every mse of the run is zero: each example was answered exactly. */
  ghost predicate Exact(ms: seq<real>)
  {
    forall j :: 0 <= j < |ms| ==> ms[j] == 0.0
  }

  lemma ExactSnoc(ms: seq<real>, k: int)
    requires 0 <= k < |ms|
    ensures Exact(ms[..k + 1]) <==> Exact(ms[..k]) && ms[k] == 0.0
  {
    assert forall j :: 0 <= j < k ==> ms[..k + 1][j] == ms[..k][j];
    assert ms[..k + 1][k] == ms[k];
  }

  lemma TakeAll(ms: seq<real>, k: int)
    requires k == |ms|
    ensures ms[..k] == ms
  {
  }

  /**
   * trainStep: prepareGrads, the loop over toDo picked examples, then applyGrads
   * with rate -scaling·trainingRate. The trainer records exactly the starting
   * network's mses on the picks, in order; the network keeps its parameters;
   * and a step on which every example was answered exactly changes no weight.
   */
  method TrainStep(fx: TrainFixes, t: Tables, tr: Trainer, net: Net, picks: seq<int>) returns (tr2: Trainer, net2: Net)
    requires CanStep(t, tr, net, picks)
    ensures tr2 == Records(fx, tr, StepMses(t, tr, net, picks))
    ensures tr2.allTimeMseCount == tr.allTimeMseCount + Max(tr.toDo, 0)
    ensures net2.Valid() && net2 == net.(layers := net2.layers, grads := net2.grads)
    ensures |net2.layers| == |net.layers| && forall l :: 0 <= l < |net.layers| ==> net2.layers[l].Params() == net.layers[l].Params()
    ensures Exact(StepMses(t, tr, net, picks)) ==> SameStrips(net.layers, net2.layers)
  {
    var n;
    tr2, n := Examples(fx, t, tr, net, picks);
    net2 := ApplyStep(fx.onePass, net, n, -1.0 * tr.scaling * tr.trainingRate);
  }

  /**
   * The applyGrads call that ends a step, as written or with one pass: the
   * network keeps its parameters, and rows that are still prepareGrads' zero
   * copies change no weight.
   */
  method ApplyStep(onePass: bool, net: Net, n: Net, rate: real) returns (net2: Net)
    requires net.Valid() && InStep(net, n)
    ensures net2.Valid() && net2 == net.(layers := net2.layers, grads := net2.grads)
    ensures |net2.layers| == |net.layers| && forall l :: 0 <= l < |net.layers| ==> net2.layers[l].Params() == net.layers[l].Params()
    ensures n.grads == PrepareGrads(net).grads ==> SameStrips(net.layers, net2.layers)
  {
    net2 := if onePass then ApplyGrads(n, rate) else ApplyGradsAsWritten(n, rate);
    forall l | 0 <= l < |net.layers| ensures net2.layers[l].Params() == net.layers[l].Params() {
      assert n.layers[l].Params() == net.layers[l].Params();
    }
    if n.grads == PrepareGrads(net).grads {
      ApplyZeroGrads(onePass, net, n, rate);
    }
  }

  // ---------------------------------------------------------------------------
  // train

  /** Every entry of v in the box of s, looked at one by one, is at least -Double.MAX_VALUE. */
  function EntriesAboveLowest(v: Vol, s: Shape): (r: bool)
    requires HasShape(v, s)
    ensures r <==> AboveLowest(v, s)
  {
    forall a | 0 <= a < s.w :: forall b | 0 <= b < s.h :: forall c | 0 <= c < s.d :: v[a][b][c] >= Lowest
  }

  /** PassesAbove, decided by running x through the network up to layer l. */
  function LayerCheck(t: Tables, net: Net, x: seq<real>, slot: int, l: int): (r: bool)
    requires t.Valid() && net.Valid() && |x| >= net.numInputs && 0 <= slot < net.batchSize && 0 <= l < |net.layers|
    ensures r <==> PassesAbove(t, net, x, slot, l)
  {
    ReadsLowest(net.layers[l]) ==> EntriesAboveLowest(Activation(t, net.layers, ConvertToVol(net, x), slot, l), net.layers[l].In())
  }

  /** Passable, decided. */
  function PassableCheck(t: Tables, net: Net, x: seq<real>, slot: int): (r: bool)
    requires t.Valid() && net.Valid()
    ensures r <==> Passable(t, net, x, slot)
  {
    if |x| >= net.numInputs && 0 <= slot < net.batchSize then
      var ok := forall l | 0 <= l < |net.layers| :: LayerCheck(t, net, x, slot, l);
      assert ok <==> Passable(t, net, x, slot) by {
        if ok {
          forall l | 0 <= l < |net.layers| ensures PassesAbove(t, net, x, slot, l) {
            assert LayerCheck(t, net, x, slot, l);
          }
        }
        if Passable(t, net, x, slot) {
          forall l | 0 <= l < |net.layers| ensures LayerCheck(t, net, x, slot, l) {
            assert PassesAbove(t, net, x, slot, l);
          }
        }
      }
      ok
    else false
  }

  /** ExampleOk, decided. */
  function ExampleCheck(t: Tables, tr: Trainer, net: Net, picks: seq<int>, k: int): (r: bool)
    requires t.Valid() && net.Valid()
    ensures r <==> ExampleOk(t, tr, net, picks, k)
  {
    && 0 <= k < |picks| && 0 <= picks[k] < |tr.data| && picks[k] < |tr.answers|
    && |tr.answers[picks[k]]| >= net.numOutputs && PassableCheck(t, net, tr.data[picks[k]], k)
  }

  /** CanStep, decided. */
  function StepCheck(t: Tables, tr: Trainer, net: Net, picks: seq<int>): bool
    requires t.Valid() && net.Valid()
  {
    tr.toDo <= net.batchSize && tr.toDo <= |picks| && forall k | 0 <= k < tr.toDo :: ExampleCheck(t, tr, net, picks, k)
  }

  lemma StepCheckMeans(t: Tables, tr: Trainer, net: Net, picks: seq<int>)
    requires t.Valid() && tr.Valid() && net.Valid()
    ensures StepCheck(t, tr, net, picks) <==> CanStep(t, tr, net, picks)
  {
    if StepCheck(t, tr, net, picks) {
      forall k | 0 <= k < tr.toDo ensures ExampleOk(t, tr, net, picks, k) {
        assert ExampleCheck(t, tr, net, picks, k);
      }
    }
    if CanStep(t, tr, net, picks) {
      forall k | 0 <= k < tr.toDo ensures ExampleCheck(t, tr, net, picks, k) {
        assert ExampleOk(t, tr, net, picks, k);
      }
    }
  }

  /**
   * The trainer as a cycle leaves it: only the ring, the running average, the
   * count and the cycle differ from before.
   */
  ghost predicate Bookkept(tr: Trainer, tr2: Trainer)
  {
    tr2 == tr.(mses := tr2.mses, mseIndex := tr2.mseIndex, allTimeMse := tr2.allTimeMse,
               allTimeMseCount := tr2.allTimeMseCount, cycle := tr2.cycle)
  }

  /**
   * n is net after some training: well-formed, equal to net but for its layers and
   * gradient rows, with as many layers and every layer's parameters kept.
   */
  ghost predicate ParamsKept(net: Net, n: Net)
  {
    && n.Valid() && n == net.(layers := n.layers, grads := n.grads) && |n.layers| == |net.layers|
    && forall l :: 0 <= l < |net.layers| ==> n.layers[l].Params() == net.layers[l].Params()
  }

  lemma ParamsKeptTrans(net: Net, n: Net, n2: Net)
    requires ParamsKept(net, n) && ParamsKept(n, n2)
    ensures ParamsKept(net, n2)
  {
  }

  /**
   * One turn of train's loop: a step, then cycle++. The trainer changes only in
   * its bookkeeping, with toDo more mses counted, and the network keeps its
   * parameters.
   */
  method Cycle(fx: TrainFixes, t: Tables, tr: Trainer, net: Net, picks: seq<int>) returns (tr2: Trainer, net2: Net)
    requires CanStep(t, tr, net, picks)
    ensures tr2.Valid() && Bookkept(tr, tr2) && tr2.cycle == tr.cycle + 1
    ensures tr2.allTimeMseCount == tr.allTimeMseCount + Max(tr.toDo, 0)
    ensures ParamsKept(net, net2)
  {
    var stepped;
    stepped, net2 := TrainStep(fx, t, tr, net, picks);
    tr2 := stepped.(cycle := tr.cycle + 1);
  }

  /**
   * cur is tr after done turns of train's loop: only the bookkeeping has changed,
   * cycle has advanced by done and done·toDo more mses are counted.
   */
  ghost predicate Advanced(tr: Trainer, cur: Trainer, done: int)
  {
    && cur.Valid() && Bookkept(tr, cur) && cur.cycle == tr.cycle + done
    && cur.allTimeMseCount == tr.allTimeMseCount + done * Max(tr.toDo, 0)
  }

  /** One more turn extends the run by one. */
  lemma AdvancedStep(tr: Trainer, cur: Trainer, cur2: Trainer, done: int)
    requires Advanced(tr, cur, done) && cur2.Valid() && Bookkept(cur, cur2) && cur2.cycle == cur.cycle + 1
    requires cur2.allTimeMseCount == cur.allTimeMseCount + Max(cur.toDo, 0)
    ensures Advanced(tr, cur2, done + 1)
  {
    assert (done + 1) * Max(tr.toDo, 0) == done * Max(tr.toDo, 0) + Max(tr.toDo, 0);
  }

  /** One turn of train's loop with the guard a step needs: None when the step cannot run. */
  method Turn(fx: TrainFixes, t: Tables, cur: Trainer, n: Net, ps: seq<int>) returns (res: Option<(Trainer, Net)>)
    requires t.Valid() && cur.Valid() && n.Valid()
    ensures res.None? <==> !StepCheck(t, cur, n, ps)
    ensures res.Some? ==> var (cur2, n2) := res.value;
      && cur2.Valid() && Bookkept(cur, cur2) && cur2.cycle == cur.cycle + 1
      && cur2.allTimeMseCount == cur.allTimeMseCount + Max(cur.toDo, 0) && ParamsKept(n, n2)
  {
    if !StepCheck(t, cur, n, ps) {
      return None;
    }
    StepCheckMeans(t, cur, n, ps);
    var cur2, n2 := Cycle(fx, t, cur, n, ps);
    res := Some((cur2, n2));
  }

  /**
   * train(cycles): while cycle < cycles, a step and cycle++. Cycle i of the run
   * draws its examples from picks[i]. A step that cannot run (an example index
   * past the batch, a pick outside the data, an answer too short, or a max pool
   * input below -Double.MAX_VALUE) ends the run with the cycle it fell on.
   * Otherwise the trainer reaches cycle `cycles`, has recorded toDo mses per
   * cycle, and the network keeps its parameters.
   */
  method Train(fx: TrainFixes, t: Tables, tr: Trainer, net: Net, cycles: int, picks: seq<seq<int>>)
    returns (r: Result<(Trainer, Net), int>)
    requires t.Valid() && tr.Valid() && net.Valid()
    requires |picks| >= cycles - tr.cycle
    ensures cycles <= tr.cycle ==> r == Success((tr, net))
    ensures tr.cycle < cycles && !StepCheck(t, tr, net, picks[0]) ==> r == Failure(tr.cycle)
    ensures r.Failure? ==> tr.cycle <= r.error < cycles
    ensures r.Success? ==>
      var (tr2, net2) := r.value;
      && tr2.cycle == Max(tr.cycle, cycles) && Advanced(tr, tr2, tr2.cycle - tr.cycle)
      && ParamsKept(net, net2)
  {
    if cycles <= tr.cycle {
      return Success((tr, net));
    }
    var first := Turn(fx, t, tr, net, picks[0]);
    if first.None? {
      return Failure(tr.cycle);
    }
    var (cur, n) := first.value;
    ghost var done := 1;
    AdvancedStep(tr, tr, cur, 0);
    while cur.cycle < cycles
      invariant tr.cycle < cur.cycle <= cycles
      invariant Advanced(tr, cur, done)
      invariant ParamsKept(net, n)
    {
      var res := Turn(fx, t, cur, n, picks[cur.cycle - tr.cycle]);
      if res.None? {
        return Failure(cur.cycle);
      }
      var (cur2, n2) := res.value;
      AdvancedStep(tr, cur, cur2, done);
      ParamsKeptTrans(net, n, n2);
      cur, n, done := cur2, n2, done + 1;
    }
    r := Success((cur, n));
  }
}

=== FILE: utility.dfy ===
/**
 * core.Utility: dot product, affine evaluation, index of the maximum, rank,
 * mean-squared error. The sigmoid tables and indexOfApprox are in module Approx.
 */
module Utility {
  import opened Approx

  /** -Double.MAX_VALUE, the starting value of maxIndex's scan. */
  const Lowest: real := -179769313486231570814527423731704356798070567525844996598917476803157260780028538760589558632766878171540458953514382464234321326889464182768467546703537516986049910576551282076245490090389328944075868508455133942304583236903222948165808559332123348274797826204144723168738177180919299881250404026184124858368.0

  /** Σ_{i < n} a[i]·x[i], the reference definition of a dot product. */
  function DotPrefix(a: seq<real>, x: seq<real>, n: nat): real
    requires n <= |a| && n <= |x|
  {
    if n == 0 then 0.0 else DotPrefix(a, x, n - 1) + a[n - 1] * x[n - 1]
  }

  function Dot(a: seq<real>, x: seq<real>): real
    requires |a| <= |x|
  {
    DotPrefix(a, x, |a|)
  }

  /**
   * dotProd as written: iterate over a's indices, skipping the terms whose x[i] is
   * zero. Skipping never changes the sum.
   */
  method DotProd(a: seq<real>, x: seq<real>) returns (v: real)
    requires |x| >= |a|
    ensures v == Dot(a, x)
  {
    v := 0.0;
    var i := 0;
    while i < |a|
      invariant 0 <= i <= |a|
      invariant v == DotPrefix(a, x, i)
    {
      if x[i] == 0.0 {
        i := i + 1;
        continue;
      }
      v := v + a[i] * x[i];
      i := i + 1;
    }
  }

  /** Utility.sigmoid(double[]): every entry replaced by its fast sigmoid. */
  function SigmoidAll(t: Tables, y: seq<real>): (r: seq<real>)
    requires t.Valid()
    ensures |r| == |y|
    ensures forall i :: 0 <= i < |y| ==> r[i] == Lookup(t.values, y[i])
  {
    seq(|y|, i requires 0 <= i < |y| => Lookup(t.values, y[i]))
  }

  /** The rows 0..n-1 of A·x + b, built one row at a time as the loop does. */
  function AffineRows(A: seq<seq<real>>, b: seq<real>, x: seq<real>, n: nat): (y: seq<real>)
    requires n <= |A| && n <= |b|
    requires forall i :: 0 <= i < |A| ==> |A[i]| <= |x|
    ensures |y| == n
    ensures forall i :: 0 <= i < n ==> y[i] == Dot(A[i], x) + b[i]
  {
    if n == 0 then [] else AffineRows(A, b, x, n - 1) + [Dot(A[n - 1], x) + b[n - 1]]
  }

  /**
   * Utility.evaluate: y[i] = A[i]·x + b[i] for every row of A, then the fast sigmoid
   * of every entry when doSigmoid holds.
   */
  function Evaluate(t: Tables, A: seq<seq<real>>, b: seq<real>, x: seq<real>, doSigmoid: bool): (y: seq<real>)
    requires t.Valid()
    requires |b| >= |A|
    requires forall i :: 0 <= i < |A| ==> |A[i]| <= |x|
    ensures |y| == |A|
    ensures !doSigmoid ==> forall i :: 0 <= i < |A| ==> y[i] == Dot(A[i], x) + b[i]
    ensures doSigmoid ==> forall i :: 0 <= i < |A| ==> y[i] == Lookup(t.values, Dot(A[i], x) + b[i])
  {
    var y := AffineRows(A, b, x, |A|);
    if doSigmoid then SigmoidAll(t, y) else y
  }

  /** The state of maxIndex's loop after scanning x[..j]: best index and maximum so far. */
  ghost predicate ScanInvariant(x: seq<real>, j: int, best: int, m: real)
  {
    && 0 <= j <= |x|
    && (forall t :: 0 <= t < j ==> x[t] <= m)
    && ((best == 0 && m == Lowest) ||
        (0 <= best < j && m == x[best] && m > Lowest && forall t :: 0 <= t < best ==> x[t] < m))
  }

  /** maxIndex's loop from position j, with the best index and maximum seen so far. */
  function MaxScan(x: seq<real>, j: int, best: int, m: real): (r: int)
    requires ScanInvariant(x, j, best, m)
    ensures (m > Lowest || exists t :: j <= t < |x| && x[t] > Lowest) ==>
      && 0 <= r < |x| && x[r] > Lowest
      && (forall t :: 0 <= t < |x| ==> x[t] <= x[r])
      && (forall t :: 0 <= t < r ==> x[t] < x[r])
    ensures !(m > Lowest || exists t :: j <= t < |x| && x[t] > Lowest) ==> r == 0
    decreases |x| - j
  {
    if j >= |x| then best
    else if x[j] > m then MaxScan(x, j + 1, j, x[j])
    else MaxScan(x, j + 1, best, m)
  }

  /** Some entry of x lies above the -Double.MAX_VALUE sentinel. */
  ghost predicate AboveSentinel(x: seq<real>)
  {
    exists t :: 0 <= t < |x| && x[t] > Lowest
  }

  /**
   * maxIndex: the smallest index holding the maximum, provided some entry lies above
   * the sentinel; 0 otherwise (in particular for an empty array).
   */
  function MaxIndex(x: seq<real>): (r: int)
    ensures |x| == 0 ==> r == 0
    ensures |x| > 0 ==> 0 <= r < |x|
    ensures !AboveSentinel(x) ==> r == 0
    ensures AboveSentinel(x) ==>
      (forall t :: 0 <= t < |x| ==> x[t] <= x[r]) && (forall t :: 0 <= t < r ==> x[t] < x[r])
  {
    MaxScan(x, 0, 0, Lowest)
  }

  /** The number of entries among x[..n] strictly greater than m. */
  function CountAbove(x: seq<real>, m: real, n: nat): (c: nat)
    requires n <= |x|
    ensures c <= n
    ensures c == 0 <==> forall t :: 0 <= t < n ==> x[t] <= m
    ensures (exists t :: 0 <= t < n && x[t] <= m) ==> c < n
  {
    if n == 0 then 0 else CountAbove(x, m, n - 1) + (if x[n - 1] > m then 1 else 0)
  }

  /** indexRank: how many entries are strictly greater than x[i]; 0 exactly for a maximum. */
  function IndexRank(x: seq<real>, i: int): (rank: nat)
    requires 0 <= i < |x|
    ensures rank < |x|
    ensures rank == 0 <==> forall t :: 0 <= t < |x| ==> x[t] <= x[i]
  {
    CountAbove(x, x[i], |x|)
  }

  /** The entry chosen by maxIndex has rank 0. */
  lemma RankOfMaxIndex(x: seq<real>)
    requires AboveSentinel(x)
    ensures IndexRank(x, MaxIndex(x)) == 0
  {
  }

  /** A product, kept behind a function so that squares reach the solver as products. */
  function Prod(a: real, b: real): real
  {
    a * b
  }

  /** One more copy of b: n·b = (n - 1)·b + b. */
  lemma ProdSucc(n: nat, b: real)
    requires n > 0
    ensures Prod(n as real, b) == Prod((n - 1) as real, b) + b
  {
  }

  lemma ProdPositive(a: real, b: real)
    requires a > 0.0 && b > 0.0
    ensures Prod(a, b) > 0.0
  {
  }

  /** d², the term both mse overloads accumulate. */
  function Sq(d: real): real
  {
    Prod(d, d)
  }

  /** A square is never negative, and is zero only for zero. */
  lemma SqFacts(d: real)
    ensures Sq(d) >= 0.0
    ensures d != 0.0 ==> Sq(d) > 0.0
  {
    if d > 0.0 {
      ProdPositive(d, d);
    } else if d < 0.0 {
      ProdPositive(-d, -d);
      assert Prod(-d, -d) == Prod(d, d);
    }
  }

  /** (a - b)² == (b - a)². */
  lemma SqSwap(a: real, b: real)
    ensures Sq(a - b) == Sq(b - a)
  {
    assert Prod(a - b, a - b) == Prod(b - a, b - a);
  }

  /** Σ_{i < n} (g[i] - c[i])², accumulated in index order as mse's loop does. */
  function SquaredError(g: seq<real>, c: seq<real>, n: nat): (e: real)
    requires n <= |g| && n <= |c|
    ensures e >= 0.0
    ensures e == 0.0 <==> forall i :: 0 <= i < n ==> g[i] == c[i]
  {
    if n == 0 then 0.0
    else
      SqFacts(g[n - 1] - c[n - 1]);
      SquaredError(g, c, n - 1) + Sq(g[n - 1] - c[n - 1])
  }

  /**
   * mse(double[], double[]): the mean of the squared differences over guess's
   * indices. It is never negative and is zero exactly when the guess matches.
   */
  function Mse(guess: seq<real>, correct: seq<real>): (r: real)
    requires 0 < |guess| <= |correct|
    ensures r >= 0.0
    ensures r == 0.0 <==> guess == correct[..|guess|]
  {
    var e := SquaredError(guess, correct, |guess|);
    assert e == 0.0 <==> guess == correct[..|guess|] by {
      if e == 0.0 {
        assert forall i :: 0 <= i < |guess| ==> guess[i] == correct[..|guess|][i];
      }
    }
    e / |guess| as real
  }

  /** The one-hot vector of length n with a 1 at position c (all zero when c is out of range). */
  function OneHot(c: int, n: nat): (v: seq<real>)
    ensures |v| == n
    ensures forall i :: 0 <= i < n ==> (v[i] == 1.0 <==> i == c)
    ensures forall i :: 0 <= i < n ==> (v[i] == 0.0 <==> i != c)
  {
    seq(n, i => if i == c then 1.0 else 0.0)
  }

  /** mse(double[], int)'s sum over the first n entries, as its loop accumulates it. */
  function LabelError(g: seq<real>, c: int, n: nat): real
    requires n <= |g|
  {
    if n == 0 then 0.0
    else if n - 1 != c then LabelError(g, c, n - 1) + Sq(g[n - 1])
    else LabelError(g, c, n - 1) + Sq(1.0 - g[n - 1])
  }

  /** mse(double[], int): the error of guess against the label c. */
  function MseLabel(guess: seq<real>, c: int): real
    requires |guess| > 0
  {
    LabelError(guess, c, |guess|) / |guess| as real
  }

  lemma {:induction false} LabelErrorIsOneHotError(g: seq<real>, c: int, n: nat)
    requires n <= |g|
    ensures LabelError(g, c, n) == SquaredError(g, OneHot(c, |g|), n)
  {
    if n > 0 {
      LabelErrorIsOneHotError(g, c, n - 1);
      var h := OneHot(c, |g|);
      if n - 1 == c {
        SqSwap(1.0, g[n - 1]);
      } else {
        assert g[n - 1] - h[n - 1] == g[n - 1];
      }
    }
  }

  /** The label form of mse is the vector form against the label's one-hot vector. */
  lemma MseLabelIsOneHot(guess: seq<real>, c: int)
    requires |guess| > 0
    ensures MseLabel(guess, c) == Mse(guess, OneHot(c, |guess|))
  {
    LabelErrorIsOneHotError(guess, c, |guess|);
  }
}

=== FILE: wrappers.dfy ===
/** Option and Result, used where the Java code returns null or throws. */
module Wrappers {

  datatype Option<+T> = None | Some(value: T)

  datatype Result<+R, +E> = Success(value: R) | Failure(error: E)
}
